=== FILE: README.md ===
# marci-db in Dafny

A model of the storage core of marci-db, a small document database written
in Rust, with proofs about it. The model covers the code between the HTTP
layer and the ordered key-value store (canopydb):

- **The binary document format.** A document starts with a version byte `1`,
  a big-endian `u16` field count and one big-endian `u32` offset slot per
  stored field. Offset 0 means null. The field values follow in the payload:
  a string is a `u32` length and its bytes, `Int64` and `DateTime` take eight
  bytes of two's complement, and `Bool` takes one byte.
  - `Layout` describes a document by its *regions*: the bytes of each slot,
    or null. `Build(h, rs)` is the document with header `h` and regions `rs`.
    A document is well formed when it is the build of its own regions.
  - `Offsets` models the slot helpers of `marci_db.rs` over `array<byte>`:
    `set_offset`, `move_offsets`, `get_end`, `get_value`, `get_array`.
  - `Encoder`, `Decoder` and `CodecProofs` model `encode_document`,
    `decode_document` and their round trip.
- **The in-place field update.** `update_data` splices the changed fields of
  a freshly encoded document into a stored one. `Update` models it with
  `shift_and_resize`, `copy_within` and `copy_from_slice` on arrays.
  `UpdateTheorem` proves what it computes: region `k` of the result is the
  new document's region when a changed field owns slot `k`, and the old
  region otherwise.
- **The schema parser.** `Schema` parses `model X { name Type? @attr }`
  blocks. It hands out offset slots, then resolves model names to indices,
  index names and `@derived(M.f)` references in a second pass.
- **The projection parser.** `Select` turns a JSON projection into a bit mask
  (bit 0 is `id`, bit `i + 1` is field `i`) and a list of nested includes.
- **The key/index layer and the store.** `Store` models a tree as its entries
  in ascending byte order; `Get` is its map view. The database's trees are a
  `map<string, Tree>`. On top of this:
  - `Keys`: `make_key`, `find_by_direct`, `increment_bytes_be`, `get_max_id`.
  - `Indexes`: `get_indexes`, `insert_indexes`, `remove_indexes`.
  - `ForeignKeys`: collecting and checking references.
  - `Writes`: the write transactions of `insert_data` and `update`.
  - `Open`: `MarciDB::new`.
  - `Read`: `process_data` and `get_all`.
  - `Db`: the database object itself, as the class `MarciDb` with the trees,
    the schema and the id counters as fields.

A write transaction is one atomic change of the trees. Where the source
panics on a store error (`unwrap` on `get_tree` and friends), the model
states a precondition, and so it does where `id + 1` would overflow a u64.
Where it panics on malformed input in a parser or on the read path, the
model returns an error value (`Result`, or `None`).

## Model

| member | source | states |
|---|---|---|
| Bytes.BE64Injective | src/marci_db.rs:639-644 | two ids have the same eight big-endian bytes exactly when they are equal |
| Bytes.BEOrder | src/marci_db.rs:745-749 | big-endian encoding preserves order: `x < y` exactly when `be(x)` sorts before `be(y)` byte by byte |
| Bytes.BE64Order | src/marci_db.rs:745-749 | the same order preservation for the eight-byte ids the trees are keyed by |
| Bytes.ValOfBE | src/marci_db.rs:639-644 | reading back a big-endian encoding gives the number |
| Bytes.BEOfVal | src/marci_db.rs:301-303 | encoding the value of a byte string gives the string back |
| Bytes.U32RoundTrip | src/marci_db.rs:445-452 | `u32::from_be_bytes` undoes `to_be_bytes` for values below 2^32 |
| Bytes.BE64OfU64 | src/marci_db.rs:301-303 | an eight-byte key is the encoding of the id `u64::from_be_bytes` reads from it |
| Bytes.I64RoundTrip | src/marci_encoder.rs:138-154 | `i64::from_be_bytes` undoes the eight-byte two's-complement encoding of any i64 |
| Bytes.I64BytesOf | src/marci_decoder.rs:76-90 | the converse: any eight bytes are the encoding of the i64 `from_be_bytes` reads from them |
| Bytes.LexConcat | src/marci_db.rs:639-644 | comparing keys with equal-length heads: the heads decide, and equal heads hand over to the tails |
| Bytes.LexPrefix | src/marci_db.rs:630-636 | a proper extension sorts after its prefix and never before it |
| Store.Get | src/marci_db.rs:418-428 | a tree holds a key exactly when one of its entries has that key |
| Store.EntryFound | src/marci_db.rs:298-306 | every entry of a sorted tree is what a lookup of its key returns |
| Store.Insert | src/marci_db.rs:181-184 | the key holds the new value, every other key keeps its value, and the order is kept |
| Store.Delete | src/marci_db.rs:418-428 | the key is gone, every other key keeps its value, and the flag says whether the key was there |
| Store.DeleteRange | src/marci_db.rs:745-749 | exactly the keys in `[lo, hi)` are gone |
| Store.Prefix | src/marci_db.rs:630-636 | the scan holds exactly the keys with the prefix, with their values, in order |
| Store.Last | src/marci_db.rs:687-691 | the entry with the greatest key; none exactly for an empty tree |
| Store.Put | src/marci_db.rs:181-184 | `tree.insert` on one named tree: only that key of that tree changes |
| Store.Del | src/marci_db.rs:418-428 | `tree.delete` on one named tree: only that key of that tree is gone |
| Store.DelRange | src/marci_db.rs:745-749 | `delete_range` on one named tree: only the range in that tree is gone |
| Keys.MakeKey | src/marci_db.rs:639-644 | `make_key` gives sixteen bytes |
| Keys.MakeKeyRecover | src/marci_db.rs:639-644 | both ids can be read back from a key, and the key starts with `be(a)` |
| Keys.MakeKeyOrder | src/marci_db.rs:639-644 | keys sort by their first id, then by their second |
| Keys.PrefixRange | src/marci_db.rs:745-749 | a key of eight bytes or more lies in `[be(id), be(id + 1))` exactly when it starts with `be(id)` |
| Keys.PrefixRangeNeedsLength | src/marci_db.rs:745-749 | the length condition is needed: a seven-byte key lies in the range of `be(255)` without starting with it |
| Keys.DeleteRangeIsPrefix | src/marci_db.rs:745-749 | in a tree of long keys, `delete_range(be(id)..be(id + 1))` removes exactly the keys with prefix `be(id)` |
| Keys.FindByDirect | src/marci_db.rs:630-636 | the suffixes found are exactly those whose key `be(id) ++ s` is in the tree, in strictly ascending order |
| Keys.DeleteRangeEmptiesScan | src/marci_db.rs:630-636 | after that `delete_range` the scan of `be(id)` finds nothing |
| Keys.IncrementBytesBE | src/marci_db.rs:512-525 | the result's big-endian value is one more; the length is kept unless every byte was 0xFF, and then the result is `1` followed by zeros |
| Keys.GetMaxId | src/marci_db.rs:687-691 | exactly 1 for an empty tree; otherwise the least number above every stored id (`r - 1` is stored, every stored id is below `r`) |
| Keys.GetMaxIdLeast | src/marci_db.rs:687-691 | those facts pin the value: any number meeting them is `get_max_id`, one more than the last stored id |
| Layout.RegionAt | src/marci_db.rs:455-464 | region `k` of a well-formed document is null exactly when slot `k` is 0, and otherwise runs from the slot's offset to the next region's start |
| Layout.BuildRegions | src/marci_encoder.rs:21-69 | a built document is well formed and gives back its header and regions |
| Layout.BuildSlots | src/marci_encoder.rs:55-62 | the slots of a built document are the region starts, 0 for null |
| Layout.WellFormedIsBuild | src/update_data.rs:26-50 | a well-formed document is the build of its own header and regions |
| Offsets.WithOffsetGet | src/marci_db.rs:445-452 | a slot written and read back gives the value modulo 2^32, and no other byte changes |
| Offsets.SetOffset | src/marci_db.rs:450-452 | the array becomes the document with the slot written |
| Offsets.SetOffsetNull | src/marci_db.rs:477-479 | the array becomes the document with the slot zeroed |
| Offsets.GetEnd | src/marci_db.rs:455-464 | the scan's result: the first non-zero slot after `offset_pos`, or the end of the buffer |
| Offsets.GetEndOfRegion | src/marci_db.rs:455-464 | in a well-formed document `get_end` after slot `k` is where region `k` ends |
| Offsets.MoveOffsets | src/marci_db.rs:466-474 | the array becomes the buffer with each slot in the range moved |
| Offsets.MovedSlots | src/marci_db.rs:466-474 | non-zero slots from `k0` on move by `diff` modulo 2^32, zero slots stay zero, earlier slots keep their values |
| Offsets.MovedFrame | src/marci_db.rs:466-474 | `move_offsets` keeps the first three bytes and the payload |
| Offsets.GetValue | src/marci_db.rs:433-442 | None exactly for a null slot, else `size` bytes |
| Offsets.GetValueOfRegion | src/marci_db.rs:433-442 | in a well-formed document `get_value` reads the first `size` bytes of the field's region |
| Offsets.GetValueWithLen | src/marci_db.rs:545-565 | None exactly for a null slot, else the bytes from the slot's offset to `get_end` |
| Offsets.GetValueWithLenOfRegion | src/marci_db.rs:545-565 | in a well-formed document it may be called on every slot and returns that slot's region |
| Offsets.ManyIter.constructor | src/marci_db.rs:481-486 | the iterator starts with the given buffer, position, end and item size |
| Offsets.ManyIter.IsEmpty | src/marci_db.rs:488 | true exactly when no item remains |
| Offsets.ManyIter.Len | src/marci_db.rs:492-497 | the number of items still to come |
| Offsets.ManyIter.Next | src/marci_db.rs:500-508 | the next item and the rest after it; None, with nothing left, once the items are used up |
| Offsets.GetArray | src/marci_db.rs:527-542 | None exactly for a null slot, else a fresh iterator over the stored count of items after the count; when those items lie inside the buffer the iterator is valid and yields exactly that many |
| Offsets.GetArrayItems | src/marci_db.rs:527-542 | such an iterator yields exactly the stored count of items |
| Encoder.ValueBytes | src/marci_encoder.rs:79-167 | a value encodes to some bytes; its errors are an overflow or a type mismatch naming the field |
| Encoder.EncodeSpec | src/marci_encoder.rs:17-19 | a JSON value that is not an object gives `NotAnObject` |
| Encoder.EncodeDocument | src/marci_encoder.rs:16-76 | the field loop returns what `EncodeSpec` gives |
| Encoder.EncodeFieldsShape | src/marci_encoder.rs:39-69 | the loop keeps the header's first bytes and only appends; it sets the mask bit of exactly the fields the object names, null included, and grows the buffer exactly when some field has a non-null value |
| Encoder.EncodeFieldsError | src/marci_encoder.rs:88-161 | a failing loop fails on an overflow or on a type mismatch of a field with a non-null value |
| Encoder.EncodeDocumentResult | src/marci_encoder.rs:16-76 | on success: version 1, the field count as a u16, payload after the header, a 200-bit mask set exactly for the fields named; `EmptyObject` exactly when no field has a non-null value; any other error is an overflow or a type mismatch |
| Encoder.EncodeSimpleDocument | src/marci_encoder.rs:176-233 | the unit test's object `{"name": "Alice", "age": 30}` encodes to the exact bytes and mask the test checks |
| EncoderProofs.EncodeSafeOfLayout | src/marci_encoder.rs:16-76 | on a model the schema parser laid out, with at most 200 stored fields, `encode_document` does not panic |
| EncoderProofs.EncodeDocumentLayout | src/marci_encoder.rs:50-65 | the document is the build of the model's slots with each field's bytes in its own slot and null elsewhere; below 4 GiB it is well formed with exactly those regions |
| EncoderProofs.EncodedFieldRegion | src/marci_encoder.rs:50-65 | the region of each stored field is the bytes its value encodes to, and null when the object has no value or null for it |
| EncoderProofs.EncodeFieldsValues | src/marci_encoder.rs:44-69 | a loop that succeeds has encoded every field with a non-null value |
| Decoder.DecodeValue | src/marci_decoder.rs:64-120 | the errors are `BufferTooSmall`, or `Utf8Error` for a string; Int64, DateTime and UInt64 succeed exactly when there are 8 bytes, Bool exactly when there is 1, and is true exactly when that byte is non-zero; a string is `BufferTooSmall` exactly when the slice is shorter than 4 bytes or than 4 plus its length; a result has the value kind of the type |
| Decoder.DecodeValueBytes | src/marci_decoder.rs:64-120 | a decoded string is the `len` bytes after its u32 length, and `Utf8Error` comes exactly when they are not UTF-8; the eight bytes of an Int64 or DateTime are the two's-complement encoding of the value, those of a UInt64 its big-endian encoding |
| Decoder.DecodeFields | src/marci_decoder.rs:36-59 | the loop fails only with the decoder's read errors; on success it keeps what was there and names every primitive field |
| Decoder.DecodeSpec | src/marci_decoder.rs:14-62 | a result exactly when the header checks pass and the field loop succeeds; it is an object holding `id` |
| Decoder.DecodeDocument | src/marci_decoder.rs:14-62 | the header checks and the field loop return what `DecodeSpec` gives |
| CodecProofs.DecodeEncodedValue | src/marci_decoder.rs:64-120 | `decode_value` reads back what `encode_value` wrote, whatever bytes follow |
| CodecProofs.EncodedHeader | src/marci_decoder.rs:15-31 | the encoder writes the header the decoder checks for |
| CodecProofs.SlotOfRegion | src/marci_decoder.rs:41-54 | a slot is null exactly when its region is absent; otherwise the bytes from the slot's offset start with the region |
| CodecProofs.DecodeEncoded | src/marci_decoder.rs:14-62 | decoding an encoded object does not panic and gives `id` and, for each primitive field, its value back, or null when it had none |
| Update.Resize | src/update_data.rs:58-74 | `Vec::resize`: a fresh buffer cut or zero-padded to the length |
| Update.Truncate | src/update_data.rs:58-74 | `Vec::truncate`: a fresh buffer cut to the length, unchanged if already shorter |
| Update.CopyWithin | src/update_data.rs:58-74 | `copy_within`: the range copied to the target, read before any byte is written |
| Update.CopyFromSlice | src/update_data.rs:46-50 | the source bytes replace the range and nothing else changes |
| Update.ShiftAndResize | src/update_data.rs:58-74 | the buffer after the shift, `diff` bytes longer |
| Update.ShiftIsSplice | src/update_data.rs:58-74 | when `to` is `from + diff`, the bytes from `from` move to `to`, and what comes before `to` is the old buffer, zero-padded |
| Update.UpdateField | src/update_data.rs:10-50 | one iteration of the loop on one field |
| Update.UpdateData | src/update_data.rs:5-55 | the loop over the fields computes `UpdateSpec` |
| UpdateTheorem.MergedAt | src/update_data.rs:10-18 | region `k` after the loop is the new document's when some changed field owns slot `k`, else the old one; the fields' order does not matter |
| UpdateTheorem.StepOfBuild | src/update_data.rs:10-50 | one iteration on a built document does not panic and gives the build with the field's region replaced |
| UpdateTheorem.UpdateOfBuild | src/update_data.rs:5-55 | the whole loop on a build of mixed old and new regions does not panic and gives the build of the merged regions |
| UpdateTheorem.UpdateDataRegions | src/update_data.rs:5-55 | `update_data` on a well-formed document that fits u32 offsets does not panic, keeps the header bytes, and gives a well-formed document whose regions are the new ones for changed slots and the old ones elsewhere |
| UpdateTheorem.ModelFieldsOk | src/schema.rs:74-86 | the fields of a parsed model meet what `update_data` needs, and the payload offset is where the slots end |
| UpdateTheorem.UpdateDataSlots | src/update_data.rs:5-55 | after `update_data` each slot holds the start of its region, or 0 for a null one |
| UpdateTheorem.UpdateTestAddAge | src/update_data.rs:107-118 | the offset arithmetic the unit test's first update expects: a name region of three bytes, then an age region added, gives the slots `[p, 0, p + 3]` |
| UpdateTheorem.UpdateTestRename | src/update_data.rs:120-131 | the offsets the second update expects: name and surname regions of six bytes give `[p, p + 6, p + 12]` |
| UpdateTheorem.UpdateTestClear | src/update_data.rs:133-147 | the offsets the third update expects: name null, surname an empty region, age changed give `[0, p, p]`, and the header bytes are kept throughout |
| Schema.GetPrimitiveType | src/schema.rs:168-176 | exactly `String`, `Bool`, `Int` (as Int64) and `DateTime` are primitives |
| Schema.ParseType | src/schema.rs:154-166 | a list type exactly when the token ends in `[]`; a model reference keeps the name |
| Schema.ParseAttribute | src/schema.rs:139-152 | at most one attribute; `index…` gives `Index` |
| Schema.ParseAttributeCases | src/schema.rs:139-152 | text that is neither `index…` nor `derived(…)` gives no attribute; `derived(…)` gives the model and field named by the first two `.`-pieces inside, and the panic when there are fewer than two |
| Schema.DerivedAttribute | src/schema.rs:144-149 | `derived(M.f)` is read back as a derivation from field `f` of model `M` |
| Schema.DerivedAttributeMissingField | src/schema.rs:144-147 | `derived(M)` without a `.` is the panic of the second `unwrap` |
| Schema.ParseFieldRaw | src/schema.rs:122-137 | the name is the first word, a trailing `?` makes the field nullable, and no slot is given yet |
| Schema.ParseFieldRawCases | src/schema.rs:122-137 | no words is the missing-name panic, one word the missing-type panic; otherwise the type is parsed from the second word without its `?`, and the attributes are those of the trimmed text after the first `@` (none without one, the attribute parser's panic when it panics) |
| Schema.FieldLineParses | src/schema.rs:122-137 | a field line written as `name type[?] [@attr]` is parsed back into its name, the type with the `?` removed, the nullability and the attribute |
| Schema.ParseFields | src/schema.rs:61-88 | the field loop of one model block computes `FieldsFrom` |
| Schema.ParseModels | src/schema.rs:57-96 | the model loop computes `ModelsFrom` |
| Schema.FieldsFromLayout | src/schema.rs:74-80 | fields without `@derived` get slots 0, 1, 2… at `3 + 4 * index`; derived fields get none and are not counted |
| Schema.ModelsFromLayout | src/schema.rs:85-86 | every model's field count is its number of stored fields and its payload offset is `3 + 4 * count` |
| Schema.BuildModelMap | src/schema.rs:194-198 | a name maps to a model with that name, and every model's name is mapped |
| Schema.BuildFieldMap | src/schema.rs:200-208 | per model, a field name maps to a field with that name, and every field's name is mapped |
| Schema.ResolveFieldType | src/schema.rs:182-192 | a model name becomes the index the map gives, an unknown name is an error, and other types stay as they are |
| Schema.ResolveField | src/schema.rs:97-115 | a resolved field has its type resolved, an index name exactly when `@index` or a single model reference, and its derivation resolved, and nothing else changes |
| Schema.ResolveFields | src/schema.rs:97-115 | every field resolves, or the result is the error of one that does not |
| Schema.ResolveSchema | src/schema.rs:97-117 | the second pass computes `ResolveModels` |
| Schema.ParseSchema | src/schema.rs:57-120 | the whole parse computes `SchemaOf` |
| Schema.ResolvedLayout | src/schema.rs:97-117 | resolution changes nothing that decides the layout |
| Schema.DerivedResolvedOf | src/schema.rs:107-113 | `@derived(M.f)` becomes the index of `M` and the index of `f` in `M` |
| Schema.ResolveModelsFacts | src/schema.rs:97-117 | resolution keeps names, counters and fields' number, keeps the layout, and resolves every field |
| Schema.ParsedSchema | src/schema.rs:57-120 | a parsed schema has one model per block, each laid out with its counter at 0, and every field resolved |
| Select.All | src/marci_select.rs:12-14 | a mask of one bit more than the fields, and no includes |
| Select.ParseSelectSpec | src/marci_select.rs:17-85 | a boolean gives all bits and no includes; otherwise bit 0 is set exactly when `id` is requested, and bit `i + 1` exactly when field `i` is requested and is not a relation or struct |
| Select.IncludeSelect | src/marci_select.rs:39-81 | the nested projection is parsed against the target's fields; a struct selected with `true` selects every field but not its id |
| Select.IncludesRequested | src/marci_select.rs:30-85 | each include belongs to a requested relation or struct field and is that field's include |
| Select.IncludesSorted | src/marci_select.rs:30-85 | the includes come in field order |
| Select.IncludesComplete | src/marci_select.rs:30-85 | every requested relation or struct field has an include |
| Select.SelectIncludes | src/marci_select.rs:30-85 | the includes are one per requested relation or struct field, in field order |
| Select.FieldInclude | src/marci_select.rs:39-81 | the arms of the match build the include `IncludeOf` describes |
| Select.ParseSelect | src/marci_select.rs:17-149 | the field loop computes `ParseSelectSpec` |
| ForeignKeys.KeysOf | src/marci_db.rs:574-589 | the references are exactly those some field holds, each with an eight-byte id |
| ForeignKeys.GetForeignKeys | src/marci_db.rs:574-589 | the loop over the fields collects `KeysOf` |
| ForeignKeys.CollectedMember | src/marci_db.rs:592-615 | the collected references are exactly the document's, one per id of a `Connect`, and those of a `One` and of every element of a `Many` |
| ForeignKeys.CollectForeignKeys | src/marci_db.rs:592-615 | the loop over the related records collects `Collected` |
| ForeignKeys.Check | src/marci_db.rs:618-626 | Ok exactly when every referenced record exists; otherwise the violation names the field and id of the first one missing |
| ForeignKeys.CheckForeignKeys | src/marci_db.rs:618-626 | the loop returns what `Check` gives |
| Indexes.KeysFor | src/marci_db.rs:667-679 | one key per index of the field, each the index's key of the value |
| Indexes.IndexesOfMember | src/marci_db.rs:659-683 | `get_indexes` emits exactly what some field gives: nothing for a field without a slot or indexes, masked off or null; otherwise `be(id) ++ value` per Direct index and `value ++ be(id)` per Rev index |
| Indexes.GetIndexes | src/marci_db.rs:659-683 | the two loops collect `IndexesOf` |
| Indexes.StoredValueIsRegion | src/marci_db.rs:659-683 | in a well-formed document laid out by the model, the value an indexed field contributes is its region |
| Indexes.InsertIndexes | src/marci_db.rs:703-716 | nothing changes without ids; otherwise every index tree of the field gets its key for every related id with value `[1]`, and nothing else changes |
| Indexes.InsertedPairVisible | src/marci_db.rs:703-716 | afterwards the relation reads from both sides: the Direct scan of `be(id)` finds `be(cid)` and the Rev tree holds `make_key(cid, id)` |
| Indexes.InsertIndexesLoop | src/marci_db.rs:703-716 | the loops compute `InsertIndexes` |
| Indexes.RemoveIndexes | src/marci_db.rs:720-750 | `remove_indexes` as written leaves the trees that are not the field's index trees alone |
| Indexes.RemoveIndexesCorrected | src/marci_db.rs:720-750 | the corrected form leaves the same trees alone |
| Indexes.RemoveIndexesClearsDirect | src/marci_db.rs:745-749 | afterwards the scan of `be(id)` in the first Direct tree is empty, and in every Direct tree when the function did not return early |
| Indexes.RemoveIndexesKeepsRevPairs | src/marci_db.rs:731-743 | as written, a Rev tree keeps its sixteen-byte pair keys when the scan finds eight-byte suffixes |
| Indexes.RemoveIndexesCorrectedClearsRev | src/marci_db.rs:731-743 | corrected, every Rev tree loses `make_key(cid, id)` for each `be(cid)` the scan finds |
| Indexes.RemoveIndexesLoop | src/marci_db.rs:720-750 | the loops delete the scanned suffixes from every Rev tree and the range of `be(id)` from every Direct tree: `remove_indexes` as written |
| Indexes.RemoveAtLastId | src/marci_db.rs:720-736 | at the largest id, a field without indexes, or with Rev indexes and an empty Direct scan, can be passed to `remove_indexes`, which then changes nothing |
| Writes.Bump | src/marci_db.rs:154-156 | `fetch_add(1)` stays below 2^64, adds one when that fits, and wraps 2^64 - 1 to 0 |
| Writes.PutIndexes | src/marci_db.rs:209-212 | exactly the entries' keys change, each to `[1]` |
| Writes.DelIndexes | src/marci_db.rs:395-398 | exactly the entries' keys are gone |
| Writes.WriteItemsIds | src/marci_db.rs:187-206 | elements of a `Many` keep their own id or draw the counter's next value, every id fits a u64, and the counter advances once per element without an id |
| Writes.InsertTxIndexes | src/marci_db.rs:209-212 | after `insert_data` every collected index entry holds `[1]` |
| Writes.InsertTxRecord | src/marci_db.rs:181-184 | the document is stored under `be(id)` in the model's tree |
| Writes.InsertTxFrame | src/marci_db.rs:162-217 | a tree that no write of `insert_data` names keeps every key |
| Writes.InsertStructsLoop | src/marci_db.rs:187-206 | the loop over the related records computes `InsertStructs` |
| Writes.CollectOneIndexes | src/marci_db.rs:200-204 | the loop adds the index entries of every `One` after those of the document |
| Writes.UpdateTxIndexes | src/marci_db.rs:395-411 | after `update` every collected entry holds `[1]`, and every entry marked for removal and not collected again is gone |
| Writes.UpdateTxRecord | src/marci_db.rs:345-348 | the patched document `update_data` gives is stored under `be(id)` |
| Writes.UpdateTxFrame | src/marci_db.rs:317-416 | a tree that no write of `update` names keeps every key |
| Writes.UpdateStructsLoop | src/marci_db.rs:353-392 | the loop over the related records computes `UpdateStructs` |
| Writes.FinishWrites | src/marci_db.rs:395-411 | the last two loops: collected entries hold `[1]`, marked ones not collected again are gone, every other key is kept |
| Open.StartId | src/marci_db.rs:117-119 | a counter starts at 1 when its tree is absent or empty, and otherwise at the least number above every id stored in the tree; always below 2^64 |
| Open.OpenedStart | src/marci_db.rs:117-119 | after the tree is opened, `get_max_id` of it is that start value |
| Open.StructListItemsBlockOpen | src/marci_db.rs:134-139 | a struct-list tree holding an item has sixteen-byte keys, so `get_max_id` cannot read it and no schema with that struct list can be opened |
| Open.OpenDirects | src/marci_db.rs:121-129 | every Direct index tree of the field exists afterwards, and existing trees are kept |
| Open.OpenField | src/marci_db.rs:121-139 | one field: its trees exist afterwards and its counter, for a struct list, starts at its start value |
| Open.OpenModel | src/marci_db.rs:114-140 | one model: its tree exists and its counter starts at its start value |
| Open.OpenModels | src/marci_db.rs:114-140 | the models loop starts every model and field |
| Open.OpenedFresh | src/marci_db.rs:102-149 | `new` keeps the stored trees, creates only empty ones, starts every counter below 2^64 and above every id stored in its model's tree |
| Open.OpenDirectsLoop | src/marci_db.rs:121-129 | the loop computes `OpenDirects` |
| Open.OpenFieldsLoop | src/marci_db.rs:121-139 | the loop computes `OpenFields` |
| Open.OpenModelStep | src/marci_db.rs:114-140 | the loop body computes `OpenModel` |
| Db.InsertOutcome | src/marci_db.rs:162-217 | Ok exactly when every reference exists, and then with the drawn id; otherwise a foreign-key violation, the trees unchanged and the counter advanced |
| Db.UpdateOutcome | src/marci_db.rs:317-416 | Ok with the id exactly when every reference exists and the record does; `ItemNotFound(id)` exactly when the references exist and the record does not; on any error nothing changes |
| Db.RunUpdate | src/marci_db.rs:317-416 | the body of `update` computes `UpdateOutcome` |
| Db.MarciDb.constructor | src/marci_db.rs:102-149 | `new` runs the models loop over the stored trees |
| Db.MarciDb.NextIdc | src/marci_db.rs:154-156 | returns the counter's value and advances it by one, wrapping at 2^64 |
| Db.MarciDb.NextId | src/marci_db.rs:151-153 | draws from the model's counter |
| Db.MarciDb.GetModel | src/marci_db.rs:158-160 | None exactly when no model has the name, else the first model that has it |
| Db.MarciDb.InsertData | src/marci_db.rs:162-217 | `insert_data` returns and leaves what `InsertOutcome` says |
| Db.MarciDb.GetAll | src/marci_db.rs:288-307 | `get_all` returns what `Read.GetAll` gives |
| Db.MarciDb.Update | src/marci_db.rs:317-416 | `update` returns and leaves what `UpdateOutcome` says |
| Db.MarciDb.Delete | src/marci_db.rs:418-428 | true exactly when the record was there, and then it is gone with nothing else changed; otherwise nothing changes |
| Read.IncludeAt | src/marci_db.rs:229-282 | the result carries the include's field index, is a list exactly for a Many or ManyStruct binding, and is `None` for a One include whose slot is 0 |
| Read.ManyFrom | src/marci_db.rs:243-259 | one result per key |
| Read.StructItems | src/marci_db.rs:269-281 | one result per item |
| Read.StructItemsDefined | src/marci_db.rs:269-281 | the items are there exactly when every prefix entry has a sixteen-byte key and can be processed |
| Read.StructItemsItems | src/marci_db.rs:269-281 | each prefix entry has a sixteen-byte key and its item is that entry processed under the id read from `key[8..]`, in key order |
| Read.ManyStructPerItem | src/marci_db.rs:269-281 | a ManyStruct include yields one nested result per entry with prefix `be(id)`, each processed under the id in its key's second half |
| Read.IncludesFromDefined | src/marci_db.rs:229-282 | the includes are there exactly when each of them is |
| Read.IncludesFromItems | src/marci_db.rs:229-282 | when there, they are one per include, in order |
| Read.ProcessDataIncludes | src/marci_db.rs:219-286 | `process_data` returns exactly when every include does, and then it is `f` of the record with one include result per include, in order |
| Read.ManyFromDefined | src/marci_db.rs:243-259 | the results of a Many include are there exactly when every key names a record that can be processed |
| Read.ManyFromItems | src/marci_db.rs:243-259 | the results of a Many include come one per key, in scan order |
| Read.ManyPerKey | src/marci_db.rs:243-259 | a Many include yields one nested result per key `find_by_direct` returns, in scan order |
| Read.AllFrom | src/marci_db.rs:301-306 | one result per entry |
| Read.GetAll | src/marci_db.rs:288-307 | a result only when the tree exists, with one element per entry |
| Read.AllFromDefined | src/marci_db.rs:301-306 | the results are there exactly when every entry has an eight-byte key and can be processed |
| Read.AllFromItems | src/marci_db.rs:301-306 | the `k`-th result is the `k`-th entry processed under its own id |
| Read.GetAllRecords | src/marci_db.rs:288-307 | `get_all` returns exactly when every record can be processed; the `k`-th result is `process_data` of the `k`-th entry, and the ids strictly ascend |

## Left out

- DateTime strings are parsed by chrono in the source. The model takes the
  parser as a function parameter (`IsoParser`).
- The encoder's match has no arm for `UInt64`, `Float` or `Double`, so the
  source does not compile as it stands. The model's encoder accepts only
  models without `UInt64` fields; the schema parser never produces one.
  Floating-point numbers are not modelled in the encoder or the decoder
  (`decode_value` lines 99-112).
- `decode_document` writes its object out with `Value::to_string`. The
  model returns the object as a JSON value, without the text.
- UTF-8 validity is a predicate on bytes; the model does not decode
  characters.
- Documents of 4 GiB or more: the layout and round-trip theorems assume
  offsets fit a `u32`, as the source's `as u32` casts do.
- Keys.GetMaxId: computes `last + 1` without the u64 wrap-around. Opening a
  tree whose last id is 2^64 - 1 is excluded by a precondition.
- Writes.UpdateStep / Indexes.RemoveIndexes: at id 2^64 - 1 the source's
  `(id+1).to_be_bytes()` (src/marci_db.rs:357, 748) overflows. A debug build
  panics there; a release build wraps to 0 and asks the store for the
  inverted range `be(2^64 - 1)..be(0)`, whose effect belongs to the store
  and is not part of this model. The model makes `id + 1 < 2^64` a
  precondition of an `Empty` related record and of the paths of
  `remove_indexes` that reach the range delete (`Indexes.RemoveAtLastId`
  shows the other paths stay defined at that id).
- UpdateTheorem.UpdateTestAddAge, UpdateTestRename, UpdateTestClear: they
  check the offset arithmetic the unit test expects, with region lengths
  taken from its expected offsets. They are not the test as it would run:
  the encoder writes a u32 length before each string, so "Bob" would be a
  region of seven bytes and "" one of four, and the test reads the field
  count at `data[1..3]` as the payload offset.
- Atomic counters and their memory ordering: each counter is a plain number
  that the database object updates.
- The store's I/O, files, environment and commit durability are not part of
  this model. A transaction is one change of the map of trees. Store errors
  that the source unwraps are preconditions.
- `get_max_id` on a struct-list tree holding items panics, because those keys
  have sixteen bytes. The model makes opening such trees a precondition
  (`Open.Countable`), and `Open.StructListItemsBlockOpen` states the
  consequence.
- `new` does not create the Rev index trees; the model, like the source,
  expects them to exist whenever an index is written (a precondition).
- `update` leaves index entries of struct records stale where the source
  marks this as unfinished. Its `Update` and `Push` variants of related
  records write nothing (`_ => {}`), and so do they in the model.
- `get_item` (src/marci_db.rs:309-315) reads one key and hands the bytes to a
  closure. It is not modelled beyond `Store.Get`.
- `get_offsets` (src/marci_db.rs:693-700), used only by tests, is not
  modelled; the update test lemmas state the slot values through
  `Layout.SlotsOf`.
- The closure `f` of `process_data` and `get_all` is a function parameter.
  The model's read path returns `None` where the source panics.
- The `println!` in the schema parser, the commented-out code, the unused
  `MarciSelectVirtual` and the HTTP server in `main.rs` are not modelled.

## Findings

| source | as written | input that shows it | evidently intended | confidence | as-written member | corrected member |
|---|---|---|---|---|---|---|
| src/marci_db.rs:731-743 | `remove_indexes` deletes each eight-byte suffix `be(cid)` that the Direct scan finds from every Rev tree | a record with relation ids: `insert_indexes` wrote `make_key(cid, id)`, sixteen bytes, to the Rev tree, and the delete of `be(cid)` leaves it in place | delete `make_key(cid, id)` from every Rev tree, so the relation is gone from both sides | high; not executed | Indexes.RemoveIndexesKeepsRevPairs | Indexes.RemoveIndexesCorrectedClearsRev |

The model's `update` runs `remove_indexes` as written (`Writes.UpdateStep`,
`Indexes.RemoveIndexesLoop`), so on a `Connect` it leaves the Rev pair keys
in place as the source does. `Indexes.RemoveIndexesCorrected` is the
intended deletion, with its property proved, and is not used by `update`.

=== FILE: bytes.dfy ===
/** Byte strings: fixed-width big-endian integers (`to_be_bytes` / `from_be_bytes`),
    64-bit two's complement, the byte-lexicographic order in which the ordered
    key-value store keeps its keys, and UTF-8 well-formedness. */
module Bytes {

  type byte = b: int | 0 <= b < 256

  const U16_LIMIT: nat := 0x1_0000
  const U32_LIMIT: nat := 0x1_0000_0000
  const U64_LIMIT: nat := 0x1_0000_0000_0000_0000
  const I64_MIN: int := -0x8000_0000_0000_0000
  const I64_LIMIT: int := 0x8000_0000_0000_0000

  function Pow256(n: nat): (r: nat)
    ensures r > 0
  {
    if n == 0 then 1 else 256 * Pow256(n - 1)
  }

  lemma Pow256Widths()
    ensures Pow256(2) == U16_LIMIT && Pow256(4) == U32_LIMIT && Pow256(8) == U64_LIMIT
  {
  }

  /** The `width`-byte big-endian encoding of `x`. */
  function BE(x: nat, width: nat): (r: seq<byte>)
    requires x < Pow256(width)
    ensures |r| == width
  {
    if width == 0 then [] else BE(x / 256, width - 1) + [x % 256]
  }

  /** The unsigned value of a big-endian byte string. */
  function Val(s: seq<byte>): (r: nat)
    ensures r < Pow256(|s|)
  {
    if s == [] then 0 else Val(s[..|s| - 1]) * 256 + s[|s| - 1]
  }

  function BE16(x: nat): (r: seq<byte>)
    requires x < U16_LIMIT
    ensures |r| == 2
  {
    Pow256Widths();
    BE(x, 2)
  }

  function BE32(x: nat): (r: seq<byte>)
    requires x < U32_LIMIT
    ensures |r| == 4
  {
    Pow256Widths();
    BE(x, 4)
  }

  function BE64(x: nat): (r: seq<byte>)
    requires x < U64_LIMIT
    ensures |r| == 8
  {
    Pow256Widths();
    BE(x, 8)
  }

  /** Decoding an encoding gives the number back. */
  lemma {:induction false} ValOfBE(x: nat, width: nat)
    requires x < Pow256(width)
    ensures Val(BE(x, width)) == x
  {
    if width > 0 {
      var s := BE(x, width);
      assert s[..|s| - 1] == BE(x / 256, width - 1);
      ValOfBE(x / 256, width - 1);
    }
  }

  /** Encoding a decoded string gives the string back. */
  lemma {:induction false} BEOfVal(s: seq<byte>)
    ensures BE(Val(s), |s|) == s
  {
    if s != [] {
      var init := s[..|s| - 1];
      BEOfVal(init);
      assert Val(s) / 256 == Val(init) && Val(s) % 256 == s[|s| - 1];
      assert s == init + [s[|s| - 1]];
    }
  }

  /** `u32::from_be_bytes`. */
  function U32Of(s: seq<byte>): (r: nat)
    requires |s| == 4
    ensures r < U32_LIMIT
  {
    Pow256Widths();
    Val(s)
  }

  lemma U32RoundTrip(x: nat)
    requires x < U32_LIMIT
    ensures U32Of(BE32(x)) == x
  {
    Pow256Widths();
    ValOfBE(x, 4);
  }

  lemma BE32OfU32(s: seq<byte>)
    requires |s| == 4
    ensures BE32(U32Of(s)) == s
  {
    BEOfVal(s);
  }

  /** `u64::from_be_bytes`. */
  function U64Of(s: seq<byte>): (r: nat)
    requires |s| == 8
    ensures r < U64_LIMIT
  {
    Pow256Widths();
    Val(s)
  }

  lemma BE64OfU64(s: seq<byte>)
    requires |s| == 8
    ensures BE64(U64Of(s)) == s
  {
    BEOfVal(s);
  }

  lemma BE64Injective(x: nat, y: nat)
    requires x < U64_LIMIT && y < U64_LIMIT
    ensures BE64(x) == BE64(y) <==> x == y
  {
    Pow256Widths();
    ValOfBE(x, 8);
    ValOfBE(y, 8);
  }

  /** `m` zero bytes, as `Vec::resize` pads. */
  function Zeros(m: nat): (r: seq<byte>)
    ensures |r| == m && forall i | 0 <= i < m :: r[i] == 0
  {
    seq(m, i => 0)
  }

  /** Rust's `i64::to_be_bytes`: two's complement in eight bytes. */
  function I64Bytes(n: int): (r: seq<byte>)
    requires I64_MIN <= n < I64_LIMIT
    ensures |r| == 8
  {
    BE64(if n < 0 then n + U64_LIMIT else n)
  }

  /** Rust's `i64::from_be_bytes`. */
  function I64Of(s: seq<byte>): (r: int)
    requires |s| == 8
    ensures I64_MIN <= r < I64_LIMIT
  {
    Pow256Widths();
    var v := Val(s);
    if v >= I64_LIMIT then v - U64_LIMIT else v
  }

  lemma I64RoundTrip(n: int)
    requires I64_MIN <= n < I64_LIMIT
    ensures I64Of(I64Bytes(n)) == n
  {
    Pow256Widths();
    ValOfBE(if n < 0 then n + U64_LIMIT else n, 8);
  }

  /** The converse: eight bytes are the encoding of the i64 they decode to. */
  lemma I64BytesOf(s: seq<byte>)
    requires |s| == 8
    ensures I64Bytes(I64Of(s)) == s
  {
    Pow256Widths();
    BEOfVal(s);
  }

  // ---------------------------------------------------------------------
  // Byte-lexicographic order (the order of keys in the ordered store)
  // ---------------------------------------------------------------------

  /** `a` sorts strictly before `b`: at the first differing byte `a` is smaller,
      or `a` is a proper prefix of `b`. */
  predicate LexLt(a: seq<byte>, b: seq<byte>)
  {
    |b| > 0 && (|a| == 0 || a[0] < b[0] || (a[0] == b[0] && LexLt(a[1..], b[1..])))
  }

  predicate LexLe(a: seq<byte>, b: seq<byte>)
  {
    a == b || LexLt(a, b)
  }

  predicate IsPrefix(p: seq<byte>, s: seq<byte>)
  {
    |p| <= |s| && s[..|p|] == p
  }

  lemma {:induction false} LexIrreflexive(a: seq<byte>)
    ensures !LexLt(a, a)
  {
    if |a| > 0 {
      LexIrreflexive(a[1..]);
    }
  }

  lemma {:induction false} LexAsymmetric(a: seq<byte>, b: seq<byte>)
    ensures !(LexLt(a, b) && LexLt(b, a))
  {
    if |a| > 0 && |b| > 0 && a[0] == b[0] {
      LexAsymmetric(a[1..], b[1..]);
    }
  }

  lemma {:induction false} LexTransitive(a: seq<byte>, b: seq<byte>, c: seq<byte>)
    requires LexLt(a, b) && LexLt(b, c)
    ensures LexLt(a, c)
  {
    if |a| > 0 && a[0] == b[0] && b[0] == c[0] {
      LexTransitive(a[1..], b[1..], c[1..]);
    }
  }

  lemma {:induction false} LexTotal(a: seq<byte>, b: seq<byte>)
    ensures a == b || LexLt(a, b) || LexLt(b, a)
  {
    if |a| > 0 && |b| > 0 && a[0] == b[0] {
      LexTotal(a[1..], b[1..]);
      if a[1..] == b[1..] {
        assert a == [a[0]] + a[1..] && b == [b[0]] + b[1..];
      }
    }
  }

  /** Comparing two strings whose heads have the same length: the heads decide,
      and only equal heads hand the decision on to the tails. */
  lemma {:induction false} LexConcat(u: seq<byte>, v: seq<byte>, s: seq<byte>, t: seq<byte>)
    requires |u| == |v|
    ensures LexLt(u + s, v + t) <==> LexLt(u, v) || (u == v && LexLt(s, t))
  {
    if |u| > 0 {
      assert (u + s)[1..] == u[1..] + s;
      assert (v + t)[1..] == v[1..] + t;
      LexConcat(u[1..], v[1..], s, t);
      if u[0] == v[0] && u[1..] == v[1..] {
        assert u == [u[0]] + u[1..] && v == [v[0]] + v[1..];
      }
    } else {
      assert u + s == s && v + t == t;
    }
  }

  /** A proper extension sorts after its prefix. */
  lemma {:induction false} LexPrefix(u: seq<byte>, t: seq<byte>)
    ensures LexLt(u, u + t) <==> t != []
    ensures !LexLt(u + t, u)
  {
    if |u| > 0 {
      assert (u + t)[1..] == u[1..] + t;
      LexPrefix(u[1..], t);
    } else {
      assert u + t == t;
    }
  }

  /** Big-endian encoding is order-preserving: byte order of equal-width
      encodings is the numeric order of the numbers. */
  lemma {:induction false} BEOrder(x: nat, y: nat, width: nat)
    requires x < Pow256(width) && y < Pow256(width)
    ensures x < y <==> LexLt(BE(x, width), BE(y, width))
  {
    if width == 0 {
    } else {
      var X, Y := BE(x / 256, width - 1), BE(y / 256, width - 1);
      BEOrder(x / 256, y / 256, width - 1);
      LexConcat(X, Y, [x % 256], [y % 256]);
      ValOfBE(x / 256, width - 1);
      ValOfBE(y / 256, width - 1);
      assert X == Y <==> x / 256 == y / 256;
    }
  }

  lemma BE64Order(x: nat, y: nat)
    requires x < U64_LIMIT && y < U64_LIMIT
    ensures x < y <==> LexLt(BE64(x), BE64(y))
  {
    Pow256Widths();
    BEOrder(x, y, 8);
  }

  // ---------------------------------------------------------------------
  // UTF-8 well-formedness, as `std::str::from_utf8` checks it
  // ---------------------------------------------------------------------

  predicate Continuation(b: byte) { 0x80 <= b <= 0xBF }

  /** The well-formed UTF-8 byte sequences of the Unicode standard (Table 3-7):
      no overlong forms, no surrogates, nothing above U+10FFFF. */
  predicate ValidUtf8(s: seq<byte>)
    decreases |s|
  {
    if s == [] then true
    else if s[0] < 0x80 then ValidUtf8(s[1..])
    else if 0xC2 <= s[0] <= 0xDF then
      |s| >= 2 && Continuation(s[1]) && ValidUtf8(s[2..])
    else if s[0] == 0xE0 then
      |s| >= 3 && 0xA0 <= s[1] <= 0xBF && Continuation(s[2]) && ValidUtf8(s[3..])
    else if 0xE1 <= s[0] <= 0xEC || 0xEE <= s[0] <= 0xEF then
      |s| >= 3 && Continuation(s[1]) && Continuation(s[2]) && ValidUtf8(s[3..])
    else if s[0] == 0xED then
      |s| >= 3 && 0x80 <= s[1] <= 0x9F && Continuation(s[2]) && ValidUtf8(s[3..])
    else if s[0] == 0xF0 then
      |s| >= 4 && 0x90 <= s[1] <= 0xBF && Continuation(s[2]) && Continuation(s[3]) && ValidUtf8(s[4..])
    else if 0xF1 <= s[0] <= 0xF3 then
      |s| >= 4 && Continuation(s[1]) && Continuation(s[2]) && Continuation(s[3]) && ValidUtf8(s[4..])
    else if s[0] == 0xF4 then
      |s| >= 4 && 0x80 <= s[1] <= 0x8F && Continuation(s[2]) && Continuation(s[3]) && ValidUtf8(s[4..])
    else false
  }

  /** Sequence concatenation is associative. */
  lemma Append3<T>(a: seq<T>, b: seq<T>, c: seq<T>)
    ensures (a + b) + c == a + (b + c)
  {
  }
}

=== FILE: codec_proofs.dfy ===
/** Decoding what the encoder produced: every primitive field comes back
    with the value the object gave it (a DateTime given as an ISO-8601
    string comes back as its epoch number), every field the object left out
    or set to null comes back as null, and the id is added. */
module CodecProofs {
  import opened Wrappers
  import opened Bytes
  import opened Json
  import opened Layout
  import opened Schema
  import opened Encoder
  import opened EncoderProofs
  import opened Decoder

  /** The value the decoder gives back for a value `v` the encoder wrote
      for a field of type `ty`. */
  function RoundTripped(ty: PrimitiveFieldType, v: Json, iso: IsoParser): Json
  {
    if ty == DateTime && v.JString? then
      match iso(v.s)
      case Some(t) => JNumber(NInt(t))
      case None => JNull
    else v
  }

  /** The value the decoder gives back for field `f` of the encoded object. */
  function FieldValue(f: Field, obj: map<string, Json>, iso: IsoParser): Json
  {
    if Written(f, obj) then RoundTripped(f.ty.prim, obj[f.name], iso) else JNull
  }

  /** The object the decoder builds: `acc` with each primitive field's value
      inserted under its name, in declaration order. */
  function Expected(fields: seq<Field>, obj: map<string, Json>, iso: IsoParser, acc: map<string, Json>): map<string, Json>
    decreases |fields|
  {
    if fields == [] then acc
    else
      var f := fields[0];
      Expected(fields[1..], obj, iso, if f.ty.Primitive? then acc[f.name := FieldValue(f, obj, iso)] else acc)
  }

  /** The string values the object gives its String fields are UTF-8 (a
      serde_json string always is). */
  predicate StringsUtf8(fields: seq<Field>, obj: map<string, Json>)
  {
    forall f | f in fields && Written(f, obj) && f.ty.prim == String && obj[f.name].JString? :: ValidUtf8(obj[f.name].s)
  }

  // ---------------------------------------------------------------------
  // One value
  // ---------------------------------------------------------------------

  /** `decode_value` reads back what `encode_value` wrote, whatever follows it. */
  lemma DecodeEncodedValue(ty: PrimitiveFieldType, name: string, v: Json, iso: IsoParser, rest: seq<byte>)
    requires ty != UInt64 && ValueBytes(ty, name, v, iso).Ok?
    requires ty == String && v.JString? ==> ValidUtf8(v.s)
    ensures DecodeValue(ty, ValueBytes(ty, name, v, iso).value + rest) == Ok(RoundTripped(ty, v, iso))
  {
    var b := ValueBytes(ty, name, v, iso).value;
    var d := b + rest;
    match ty
    case String =>
      assert d[..4] == BE32(|v.s|);
      U32RoundTrip(|v.s|);
      assert d[4..4 + |v.s|] == v.s;
    case Bool =>
    case Int64 =>
      assert d[..8] == b;
      I64RoundTrip(v.n.i);
    case DateTime =>
      assert d[..8] == b;
      if v.JNumber? {
        I64RoundTrip(v.n.i);
      } else {
        I64RoundTrip(iso(v.s).value);
      }
  }

  // ---------------------------------------------------------------------
  // The field loop
  // ---------------------------------------------------------------------

  /** The slot of `f` in `data` is null exactly when the object gives `f`
      no value, and otherwise points at bytes that decode to its value. */
  predicate Readable(f: Field, data: seq<byte>, obj: map<string, Json>, iso: IsoParser)
  {
    f.offsetPos + 4 <= |data|
    && (GetOffset(data, f.offsetPos) == 0 <==> !Written(f, obj))
    && (Written(f, obj) ==>
          GetOffset(data, f.offsetPos) < |data|
          && DecodeValue(f.ty.prim, data[GetOffset(data, f.offsetPos)..]) == Ok(FieldValue(f, obj, iso)))
  }

  lemma {:induction false} DecodeFieldsReadable(fields: seq<Field>, data: seq<byte>, obj: map<string, Json>, iso: IsoParser,
                                               acc: map<string, Json>)
    requires forall f | f in fields && f.ty.Primitive? :: Readable(f, data, obj, iso)
    ensures SlotsReadable(fields, data)
    ensures DecodeFields(fields, data, acc) == Ok(Expected(fields, obj, iso, acc))
    decreases |fields|
  {
    if fields != [] {
      var f := fields[0];
      assert f in fields;
      assert forall g | g in fields[1..] :: g in fields;
      var acc' := if f.ty.Primitive? then acc[f.name := FieldValue(f, obj, iso)] else acc;
      DecodeFieldsReadable(fields[1..], data, obj, iso, acc');
    }
  }

  // ---------------------------------------------------------------------
  // The encoded document
  // ---------------------------------------------------------------------

  /** The conditions under which the encoder's output is decoded. */
  predicate Encodes(m: Model, j: Json, iso: IsoParser)
  {
    ModelLayout(m) && Encodable(m.fields) && NonVirtualCount(m.fields) <= MASK_BITS
    && j.JObject? && StringsUtf8(m.fields, j.members)
  }

  /** In a well-formed document a slot is null exactly when its region is
      absent, and otherwise the bytes from the slot on are the region
      followed by whatever comes after it. */
  lemma SlotOfRegion(d: seq<byte>, n: nat, k: nat)
    requires WellFormed(d, n) && k < n
    ensures Regions(d, n)[k].None? <==> Slot(d, k) == 0
    ensures Regions(d, n)[k].Some? ==>
      Slot(d, k) + |Regions(d, n)[k].value| <= |d|
      && d[Slot(d, k)..] == Regions(d, n)[k].value + d[Slot(d, k) + |Regions(d, n)[k].value|..]
  {
    RegionAt(d, n, k);
    var s, e := Slot(d, k), EndFrom(SlotsOf(d, n), k + 1, |d|);
    if s != 0 {
      SliceSplit(d, s, e);
    }
  }

  /** Every primitive field's slot in an encoded document is readable. */
  lemma EncodedReadable(m: Model, j: Json, iso: IsoParser, i: nat)
    requires Encodes(m, j, iso) && i < |m.fields| && m.fields[i].ty.Primitive?
    requires EncodeSafe(m, j, iso) && EncodeSpec(m, j, iso).Ok? && |EncodeSpec(m, j, iso).value.buf| < U32_LIMIT
    ensures Readable(m.fields[i], EncodeSpec(m, j, iso).value.buf, j.members, iso)
  {
    var d := EncodeSpec(m, j, iso).value.buf;
    var n := NonVirtualCount(m.fields);
    var f := m.fields[i];
    var obj := j.members;
    var k := f.offsetIndex;
    assert f in m.fields;
    assert WellFormed(d, n) && k < n && Regions(d, n)[k] == FieldBytes(f, obj, iso)
        && (Written(f, obj) ==> FieldBytes(f, obj, iso).Some?) by {
      EncodedFieldRegion(m, j, iso, i);
    }
    assert f.offsetPos == SlotPos(k);
    SlotOfRegion(d, n, k);
    if Written(f, obj) {
      var b := ValueBytes(f.ty.prim, f.name, obj[f.name], iso).value;
      var rest := d[Slot(d, k) + |b|..];
      assert d[Slot(d, k)..] == b + rest;
      assert DecodeValue(f.ty.prim, b + rest) == Ok(FieldValue(f, obj, iso)) by {
        DecodeEncodedValue(f.ty.prim, f.name, obj[f.name], iso, rest);
      }
    }
  }

  /** The encoder writes the header the decoder checks for. */
  lemma EncodedHeader(m: Model, j: Json, iso: IsoParser)
    requires Encodes(m, j, iso)
    requires EncodeSafe(m, j, iso) && EncodeSpec(m, j, iso).Ok?
    ensures HeaderOk(m, EncodeSpec(m, j, iso).value.buf)
  {
    var n := NonVirtualCount(m.fields);
    EncodeDocumentResult(m, j, iso);
    assert m.fieldsSize == n;
    Pow256Widths();
    ValOfBE(n, 2);
  }

  /** Decoding an encoded object: the header checks pass, no read panics,
      and the result is the id followed by each primitive field's value. */
  lemma DecodeEncoded(m: Model, j: Json, iso: IsoParser, id: nat)
    requires Encodes(m, j, iso) && id < U64_LIMIT
    ensures EncodeSafe(m, j, iso)
    ensures var r := EncodeSpec(m, j, iso);
      r.Ok? && |r.value.buf| < U32_LIMIT ==>
        DecodeSafe(m, r.value.buf)
        && DecodeSpec(m, r.value.buf, id)
           == Ok(JObject(Expected(m.fields, j.members, iso, map["id" := JNumber(NInt(id))])))
  {
    EncodeSafeOfLayout(m, j, iso);
    var r := EncodeSpec(m, j, iso);
    if r.Ok? && |r.value.buf| < U32_LIMIT {
      var d := r.value.buf;
      var n := NonVirtualCount(m.fields);
      EncodedHeader(m, j, iso);
      forall f | f in m.fields && f.ty.Primitive?
        ensures Readable(f, d, j.members, iso)
      {
        var i :| 0 <= i < |m.fields| && m.fields[i] == f;
        EncodedReadable(m, j, iso, i);
      }
      DecodeFieldsReadable(m.fields, d, j.members, iso, map["id" := JNumber(NInt(id))]);
    }
  }
}

=== FILE: db.dfy ===
/** The database handle (`MarciDB`): the trees of the store, the schema
    with its counter slots filled in, and the id counters. The writes run
    as one transaction each: a write that returns an error leaves the
    trees as they were. */
module Db {
  import opened Wrappers
  import opened Bytes
  import opened Schema
  import opened Store
  import opened Indexes
  import opened ForeignKeys
  import opened Writes
  import opened Open
  import UD = Update
  import Select
  import Read

  /** What `insert_data` returns and leaves: the id drawn from the
      model's counter, which is spent in every case; when a referenced
      record is missing, the violation of the first one and the trees as
      they were; otherwise the id and the state after `InsertTx`. */
  function InsertOutcome(ts: Trees, counters: seq<nat>, schema: Schema, model: Model, data: seq<byte>, structs: seq<InsertStruct>)
    : (r: (Result<nat, InsertError>, Trees, seq<nat>))
    requires CountersOk(counters) && model.counterIdx < |counters|
    requires RefsReadable(model.fields, data, schema) && StructsReadable(structs, schema)
    requires CheckOk(ts, Collected(data, model.fields, structs, schema))
    requires InsertOk(ts, counters, model, data, structs)
    ensures r.0.Ok? <==> forall fk | fk in Collected(data, model.fields, structs, schema) :: Present(ts, fk)
    ensures r.0.Ok? ==> r.0.value == counters[model.counterIdx] && r.1.Keys == ts.Keys && TreesOk(r.1) && CountersOk(r.2)
    ensures r.0.Err? ==> r.0.error.ForeignKeyViolation? && r.1 == ts && r.2 == counters[model.counterIdx := Bump(counters[model.counterIdx])]
  {
    var id := counters[model.counterIdx];
    var drawn := counters[model.counterIdx := Bump(id)];
    match Check(ts, Collected(data, model.fields, structs, schema))
    case Err(e) => (Err(e), ts, drawn)
    case Ok(_) =>
      var tx := InsertTx(ts, drawn, model, data, id, structs);
      (Ok(id), tx.trees, tx.counters)
  }

  /** What `update` returns and leaves: when a referenced record is
      missing, the violation of the first one; when the document `id` does
      not exist, `ItemNotFound(id)`; in both cases nothing changes.
      Otherwise the id and the state after `UpdateTx`. */
  function UpdateOutcome(ts: Trees, counters: seq<nat>, schema: Schema, model: Model, id: nat, newData: seq<byte>,
                         changedMask: seq<bool>, structs: seq<InsertStruct>): (r: (Result<nat, InsertError>, Trees, seq<nat>))
    requires RefsReadable(model.fields, newData, schema) && StructsReadable(structs, schema)
    requires CheckOk(ts, Collected(newData, model.fields, structs, schema))
    requires UpdateTxOk(ts, counters, model, id, newData, changedMask, structs)
    ensures r.0.Ok? <==>
      (forall fk | fk in Collected(newData, model.fields, structs, schema) :: Present(ts, fk)) && Get(ts[model.name], BE64(id)).Some?
    ensures r.0.Ok? ==> r.0 == Ok(id) && r.1.Keys == ts.Keys && TreesOk(r.1) && CountersOk(r.2)
    ensures r.0.Err? ==> r.1 == ts && r.2 == counters
    ensures r.0 == Err(ItemNotFound(id)) <==>
      (forall fk | fk in Collected(newData, model.fields, structs, schema) :: Present(ts, fk)) && Get(ts[model.name], BE64(id)).None?
  {
    match Check(ts, Collected(newData, model.fields, structs, schema))
    case Err(e) => (Err(e), ts, counters)
    case Ok(_) =>
      if Get(ts[model.name], BE64(id)).None? then (Err(ItemNotFound(id)), ts, counters)
      else
        var tx := UpdateTx(ts, counters, model, id, newData, changedMask, structs);
        (Ok(id), tx.trees, tx.counters)
  }

  /** The transaction of `insert_data` once the references are checked:
      the document, the related records, then the index entries. */
  method InsertWrites(ts: Trees, counters: seq<nat>, model: Model, data: seq<byte>, id: nat, structs: seq<InsertStruct>,
                      indexes: seq<IndexData>) returns (r: Tx)
    requires InsertOk(ts, counters, model, data, structs) && id < U64_LIMIT
    requires indexes == NewIndexes(model, data, id, structs)
    ensures r == InsertTx(ts, counters, model, data, id, structs)
  {
    var tx := Tx(Put(ts, model.name, BE64(id), data), counters, indexes, []);
    NewIndexesIn(tx.trees, model, data, id, structs);
    tx := InsertStructsLoop(tx, id, structs);
    var ts1 := PutIndexesLoop(tx.trees, tx.indexes);
    r := tx.(trees := ts1);
  }

  /** The transaction of `update` once the references are checked and the
      stored document `d` is found: the patched document, the related
      records, then the index entries deleted and written. */
  method UpdateWrites(ts: Trees, counters: seq<nat>, model: Model, id: nat, newData: seq<byte>, changedMask: seq<bool>,
                      structs: seq<InsertStruct>, d: seq<byte>, indexes: seq<IndexData>) returns (r: Tx)
    requires UpdateTxOk(ts, counters, model, id, newData, changedMask, structs)
    requires Get(ts[model.name], BE64(id)) == Some(d) && indexes == NewIndexes(model, newData, id, structs)
    ensures r == UpdateTx(ts, counters, model, id, newData, changedMask, structs)
  {
    var updated := UD.UpdateData(model.fields, model.payloadOffset, d, newData, changedMask);
    var removed := GetIndexes(d, id, ModelShape(model), Some(changedMask));
    var tx := Tx(Put(ts, model.name, BE64(id), updated), counters, indexes, removed);
    assert tx == UpdateRecord(ts, counters, model, id, newData, changedMask, structs);
    tx := UpdateStructsLoop(tx, id, structs);
    var ts1 := DelIndexesLoop(tx.trees, tx.removed);
    ts1 := PutIndexesLoop(ts1, tx.indexes);
    r := tx.(trees := ts1);
  }

  /** The body of `update` over the state it reads and writes. */
  method RunUpdate(ts: Trees, counters: seq<nat>, schema: Schema, model: Model, id: nat, newData: seq<byte>,
                   changedMask: seq<bool>, structs: seq<InsertStruct>) returns (r: Result<nat, InsertError>, ts1: Trees, cs1: seq<nat>)
    requires RefsReadable(model.fields, newData, schema) && StructsReadable(structs, schema)
    requires CheckOk(ts, Collected(newData, model.fields, structs, schema))
    requires UpdateTxOk(ts, counters, model, id, newData, changedMask, structs)
    ensures (r, ts1, cs1) == UpdateOutcome(ts, counters, schema, model, id, newData, changedMask, structs)
  {
    var fks := CollectForeignKeys(newData, model.fields, structs, schema);
    var indexes := GetIndexes(newData, id, ModelShape(model), None);
    indexes := CollectOneIndexes(indexes, structs, id);
    var check := CheckForeignKeys(ts, fks);
    if check.Err? {
      return Err(check.error), ts, counters;
    }
    var stored := Get(ts[model.name], BE64(id));
    if stored.None? {
      return Err(ItemNotFound(id)), ts, counters;
    }
    var tx := UpdateWrites(ts, counters, model, id, newData, changedMask, structs, stored.value, indexes);
    return Ok(id), tx.trees, tx.counters;
  }

  class MarciDb {
    var trees: Trees
    var schema: Schema
    var counters: seq<nat>

    /** The trees keep their keys in order and every counter is a u64. */
    predicate Valid()
      reads this
    {
      TreesOk(trees) && CountersOk(counters)
    }

    /** `MarciDB::new` over the stored trees: the models loop. */
    constructor (stored: Trees, schema0: Schema)
      requires OpenOk(stored, schema0.models)
      ensures Valid()
      ensures var (b, ms) := OpenModels(stored, Boot(stored, []), schema0.models);
        trees == b.trees && counters == b.counters && schema == Schema(ms)
    {
      var models := schema0.models;
      var b := Boot(stored, []);
      var ms: seq<Model> := [];
      ghost var final := OpenModels(stored, b, models);
      var i := 0;
      assert models[0..] == models;
      while i < |models|
        invariant ModelsLoop(stored, models, i, b, ms, final)
      {
        ModelsLoopStep(stored, models, i, b, ms, final);
        var n;
        b, n := OpenModelStep(stored, b, models[i]);
        ms := ms + [n];
        i := i + 1;
      }
      assert models[i..] == [] && ms + [] == ms;
      GrowsOk(stored, b.trees);
      trees, counters, schema := b.trees, b.counters, Schema(ms);
    }

    /** `next_idc`: the counter's value, and the counter moves on by one
        (wrapping around at 2^64). */
    method NextIdc(counterIdx: nat) returns (id: nat)
      requires Valid() && counterIdx < |counters|
      modifies this
      ensures Valid() && trees == old(trees) && schema == old(schema)
      ensures id == old(counters)[counterIdx] && id < U64_LIMIT
      ensures counters == old(counters)[counterIdx := Bump(id)]
    {
      id := counters[counterIdx];
      counters := counters[counterIdx := Bump(id)];
    }

    /** `next_id`: draws from the model's counter. */
    method NextId(model: Model) returns (id: nat)
      requires Valid() && model.counterIdx < |counters|
      modifies this
      ensures Valid() && trees == old(trees) && schema == old(schema)
      ensures id == old(counters)[model.counterIdx] && id < U64_LIMIT
      ensures counters == old(counters)[model.counterIdx := Bump(id)]
    {
      id := NextIdc(model.counterIdx);
    }

    /** `get_model`: the first model with that name, if any. */
    method GetModel(name: string) returns (r: Option<Model>)
      ensures r.None? <==> forall m | m in schema.models :: m.name != name
      ensures r.Some? ==> exists k | 0 <= k < |schema.models| ::
        schema.models[k] == r.value && r.value.name == name && forall j | 0 <= j < k :: schema.models[j].name != name
    {
      var i := 0;
      while i < |schema.models|
        invariant i <= |schema.models| && forall j | 0 <= j < i :: schema.models[j].name != name
      {
        if schema.models[i].name == name {
          return Some(schema.models[i]);
        }
        i := i + 1;
      }
      return None;
    }

    /** `insert_data`: the references are collected, an id is drawn, then
        in one transaction the references are checked and, if they all
        exist, the document, the related records and the index entries are
        written. The drawn id is spent even when the check fails. */
    method InsertData(model: Model, data: seq<byte>, structs: seq<InsertStruct>) returns (r: Result<nat, InsertError>)
      requires Valid() && model.counterIdx < |counters|
      requires RefsReadable(model.fields, data, schema) && StructsReadable(structs, schema)
      requires CheckOk(trees, Collected(data, model.fields, structs, schema))
      requires InsertOk(trees, counters, model, data, structs)
      modifies this
      ensures Valid() && schema == old(schema)
      ensures (r, trees, counters) == InsertOutcome(old(trees), old(counters), old(schema), model, data, structs)
    {
      var fks := CollectForeignKeys(data, model.fields, structs, schema);
      var id := NextId(model);
      var indexes := GetIndexes(data, id, ModelShape(model), None);
      indexes := CollectOneIndexes(indexes, structs, id);
      var check := CheckForeignKeys(trees, fks);
      if check.Err? {
        return Err(check.error);
      }
      var tx := InsertWrites(trees, counters, model, data, id, structs, indexes);
      trees, counters := tx.trees, tx.counters;
      r := Ok(id);
    }

    /** `get_all`: every record of the shape's tree, in the tree's
        order, processed with the selection; `None` where the source
        panics (the tree missing, a key not 8 bytes long, a nested read
        that fails). */
    method GetAll<U>(shape: Shape, sel: Select.Selection, f: Read.DecodeCtx<U> -> U) returns (r: Option<seq<U>>)
      requires Valid()
      ensures r == Read.GetAll(trees, shape, sel, f)
    {
      var ts := trees;
      if shape.treeName !in ts {
        return None;
      }
      var t := ts[shape.treeName];
      var acc: seq<U> := [];
      var i := 0;
      assert Read.Prepend([], Read.AllFrom(ts, sel, shape, t, 0, f)) == Read.AllFrom(ts, sel, shape, t, 0, f);
      while i < |t|
        invariant i <= |t|
        invariant Read.AllFrom(ts, sel, shape, t, 0, f) == Read.Prepend(acc, Read.AllFrom(ts, sel, shape, t, i, f))
      {
        var x := Read.EntryItem(ts, sel, shape, t[i], f);
        var rest := Read.AllFrom(ts, sel, shape, t, i + 1, f);
        assert Read.AllFrom(ts, sel, shape, t, i, f) == Read.Cons(x, rest);
        if x.None? {
          return None;
        }
        Read.PrependCons(acc, x.value, rest);
        acc := acc + [x.value];
        i := i + 1;
      }
      assert Read.AllFrom(ts, sel, shape, t, i, f) == Some([]) && acc + [] == acc;
      return Some(acc);
    }

    /** `update`: the references are checked first, then the stored
        document must exist; it is patched under the mask, the related
        records are written, the entries of the changed fields deleted and
        the new entries written. Either error leaves the trees as they
        were. */
    method Update(model: Model, id: nat, newData: seq<byte>, changedMask: seq<bool>, structs: seq<InsertStruct>)
      returns (r: Result<nat, InsertError>)
      requires Valid() && id < U64_LIMIT
      requires RefsReadable(model.fields, newData, schema) && StructsReadable(structs, schema)
      requires CheckOk(trees, Collected(newData, model.fields, structs, schema))
      requires UpdateTxOk(trees, counters, model, id, newData, changedMask, structs)
      modifies this
      ensures Valid() && schema == old(schema)
      ensures (r, trees, counters) == UpdateOutcome(old(trees), old(counters), old(schema), model, id, newData, changedMask, structs)
    {
      r, trees, counters := RunUpdate(trees, counters, schema, model, id, newData, changedMask, structs);
    }

    /** `delete`: true exactly when the record was there, and then it is
        gone; otherwise nothing changes. */
    method Delete(model: Model, id: nat) returns (r: bool)
      requires Valid() && model.name in trees && id < U64_LIMIT
      modifies this
      ensures Valid() && schema == old(schema) && counters == old(counters)
      ensures r <==> Get(old(trees)[model.name], BE64(id)).Some?
      ensures trees == if r then Del(old(trees), model.name, BE64(id)) else old(trees)
      ensures Get(trees[model.name], BE64(id)).None?
    {
      var (t, found) := Store.Delete(trees[model.name], BE64(id));
      if !found {
        return false;
      }
      trees := trees[model.name := t];
      return true;
    }
  }
}

=== FILE: decoder.dfy ===
/** `decode_document`: a binary document of a model becomes a JSON object
    holding the record's id and, for every primitive field, the value its
    slot points at (null for a zero slot). */
module Decoder {
  import opened Wrappers
  import opened Bytes
  import opened Json
  import opened Layout
  import opened Schema

  datatype DecodeError =
    | WrongVersion
    | BufferTooSmall
    | Utf8Error
    | TypeMismatch(what: string)
    | OffsetOutOfRange

  /** `decode_value`: the value of type `ty` at the start of `slice`. A
      string is a u32 length and that many UTF-8 bytes; Int64 and DateTime
      are eight bytes of two's complement, UInt64 eight bytes unsigned; a
      Bool is any first byte, true unless it is 0. */
  function DecodeValue(ty: PrimitiveFieldType, slice: seq<byte>): (r: Result<Json, DecodeError>)
    ensures r.Err? ==> r.error == BufferTooSmall || (ty == String && r.error == Utf8Error)
    ensures ty in {Int64, DateTime, UInt64} ==> (r.Ok? <==> |slice| >= 8)
    ensures ty == Bool ==> (r.Ok? <==> |slice| >= 1) && (r.Ok? ==> r.value == JBool(slice[0] != 0))
    ensures ty == String ==> ((|slice| < 4 || |slice| < 4 + U32Of(slice[..4])) <==> r == Err(BufferTooSmall))
    ensures r.Ok? ==> match ty
      case String => r.value.JString? && ValidUtf8(r.value.s) && |slice| >= 4 + |r.value.s|
      case Bool => r.value.JBool? && |slice| >= 1
      case Int64 => r.value.JNumber? && r.value.n.NInt? && I64_MIN <= r.value.n.i < I64_LIMIT
      case DateTime => r.value.JNumber? && r.value.n.NInt? && I64_MIN <= r.value.n.i < I64_LIMIT
      case UInt64 => r.value.JNumber? && r.value.n.NInt? && 0 <= r.value.n.i < U64_LIMIT
  {
    match ty
    case String =>
      if |slice| < 4 then Err(BufferTooSmall)
      else
        var len := U32Of(slice[..4]);
        if |slice| < 4 + len then Err(BufferTooSmall)
        else if !ValidUtf8(slice[4..4 + len]) then Err(Utf8Error)
        else Ok(JString(slice[4..4 + len]))
    case DateTime =>
      if |slice| < 8 then Err(BufferTooSmall) else Ok(JNumber(NInt(I64Of(slice[..8]))))
    case Int64 =>
      if |slice| < 8 then Err(BufferTooSmall) else Ok(JNumber(NInt(I64Of(slice[..8]))))
    case UInt64 =>
      if |slice| < 8 then Err(BufferTooSmall)
      else
        Pow256Widths();
        Ok(JNumber(NInt(Val(slice[..8]))))
    case Bool =>
      if |slice| == 0 then Err(BufferTooSmall) else Ok(JBool(slice[0] != 0))
  }

  /** What a decoded value is made of: a string is the `len` bytes after
      its u32 length, and fails with `Utf8Error` exactly when those bytes
      are not UTF-8; the eight bytes of an Int64 or a DateTime are the
      two's-complement encoding of the number, those of a UInt64 its
      big-endian encoding. */
  lemma DecodeValueBytes(ty: PrimitiveFieldType, slice: seq<byte>)
    ensures var r := DecodeValue(ty, slice);
      ty == String ==>
        (r.Ok? ==> |slice| >= 4 && 4 + U32Of(slice[..4]) <= |slice| && r.value.s == slice[4..4 + U32Of(slice[..4])])
        && (r == Err(Utf8Error) <==> |slice| >= 4 && 4 + U32Of(slice[..4]) <= |slice| && !ValidUtf8(slice[4..4 + U32Of(slice[..4])]))
    ensures var r := DecodeValue(ty, slice);
      ty in {Int64, DateTime} && r.Ok? ==> I64Bytes(r.value.n.i) == slice[..8]
    ensures var r := DecodeValue(ty, slice);
      ty == UInt64 && r.Ok? ==> BE64(r.value.n.i) == slice[..8]
  {
    if |slice| >= 8 {
      match ty
      case Int64 => I64BytesOf(slice[..8]);
      case DateTime => I64BytesOf(slice[..8]);
      case UInt64 => Pow256Widths(); BEOfVal(slice[..8]);
      case _ =>
    }
  }

  /** Reading every primitive field's slot stays inside the document (the
      slice `data[offset_pos..offset_pos + 4]` does not panic). */
  predicate SlotsReadable(fields: seq<Field>, data: seq<byte>)
  {
    forall f | f in fields && f.ty.Primitive? :: f.offsetPos + 4 <= |data|
  }

  /** The field loop: each primitive field's value is inserted under its
      name, stopping at the first error. */
  function DecodeFields(fields: seq<Field>, data: seq<byte>, obj: map<string, Json>): (r: Result<map<string, Json>, DecodeError>)
    requires SlotsReadable(fields, data)
    ensures r.Err? ==> r.error in {OffsetOutOfRange, BufferTooSmall, Utf8Error}
    ensures r.Ok? ==> obj.Keys <= r.value.Keys
    ensures r.Ok? ==> forall f | f in fields && f.ty.Primitive? :: f.name in r.value
    decreases |fields|
  {
    if fields == [] then Ok(obj)
    else
      var f := fields[0];
      assert forall g | g in fields[1..] :: g in fields;
      if !f.ty.Primitive? then DecodeFields(fields[1..], data, obj)
      else
        var offset := GetOffset(data, f.offsetPos);
        if offset == 0 then DecodeFields(fields[1..], data, obj[f.name := JNull])
        else if offset >= |data| then Err(OffsetOutOfRange)
        else
          var value :- DecodeValue(f.ty.prim, data[offset..]);
          DecodeFields(fields[1..], data, obj[f.name := value])
  }

  /** The header checks `decode_document` makes before the field loop. */
  predicate HeaderOk(m: Model, data: seq<byte>)
  {
    |data| >= 3 && data[0] == 1 && Val(data[1..3]) == m.fieldsSize && |data| >= m.payloadOffset
  }

  /** `decode_document` does not panic on `data`. */
  predicate DecodeSafe(m: Model, data: seq<byte>)
  {
    HeaderOk(m, data) ==> SlotsReadable(m.fields, data)
  }

  /** What `decode_document` returns, before the object is written out as
      JSON text. */
  function DecodeSpec(m: Model, data: seq<byte>, id: nat): (r: Result<Json, DecodeError>)
    requires id < U64_LIMIT && DecodeSafe(m, data)
    ensures r.Ok? <==> HeaderOk(m, data) && DecodeFields(m.fields, data, map["id" := JNumber(NInt(id))]).Ok?
    ensures r.Ok? ==> r.value.JObject? && "id" in r.value.members
  {
    if |data| < 3 then Err(BufferTooSmall)
    else if data[0] != 1 then Err(WrongVersion)
    else if Val(data[1..3]) != m.fieldsSize then Err(TypeMismatch("field count mismatch"))
    else if |data| < m.payloadOffset then Err(BufferTooSmall)
    else
      var obj :- DecodeFields(m.fields, data, map["id" := JNumber(NInt(id))]);
      Ok(JObject(obj))
  }

  /** `decode_document`. */
  method DecodeDocument(m: Model, data: seq<byte>, id: nat) returns (r: Result<Json, DecodeError>)
    requires id < U64_LIMIT && DecodeSafe(m, data)
    ensures r == DecodeSpec(m, data, id)
  {
    if |data| < 3 {
      return Err(BufferTooSmall);
    }
    var version := data[0];
    if version != 1 {
      return Err(WrongVersion);
    }
    var fieldCount := Val(data[1..3]);
    if fieldCount != m.fieldsSize {
      return Err(TypeMismatch("field count mismatch"));
    }
    if |data| < m.payloadOffset {
      return Err(BufferTooSmall);
    }
    var obj := map["id" := JNumber(NInt(id))];
    var i := 0;
    while i < |m.fields|
      invariant i <= |m.fields|
      invariant SlotsReadable(m.fields[i..], data)
      invariant DecodeFields(m.fields[i..], data, obj) == DecodeFields(m.fields, data, map["id" := JNumber(NInt(id))])
    {
      var field := m.fields[i];
      assert m.fields[i..][1..] == m.fields[i + 1..];
      assert field in m.fields[i..];
      if field.ty.Primitive? {
        var offset := GetOffset(data, field.offsetPos);
        if offset == 0 {
          obj := obj[field.name := JNull];
        } else {
          if offset >= |data| {
            return Err(OffsetOutOfRange);
          }
          var value := DecodeValue(field.ty.prim, data[offset..]);
          if value.Err? {
            return Err(value.error);
          }
          obj := obj[field.name := value.value];
        }
      }
      i := i + 1;
    }
    assert m.fields[i..] == [];
    return Ok(JObject(obj));
  }
}

=== FILE: encoder.dfy ===
/** `encode_document`: a JSON object becomes a binary document of a model
    (version byte, big-endian field count, one offset slot per stored field,
    then the value bytes of the non-null fields in declaration order), and a
    200-bit mask of the slots whose fields the object mentions. */
module Encoder {
  import opened Wrappers
  import opened Bytes
  import opened Json
  import opened Layout
  import opened Offsets
  import opened Schema

  datatype EncodeError =
    | NotAnObject
    | MissingField(name: string)
    | TypeMismatch(field: string, expected: string)
    | OffsetOverflow
    | EmptyObject

  /** The format version, written in byte 0. */
  const VERSION: byte := 1

  /** The changed mask always has 200 bits. */
  const MASK_BITS: nat := 200

  /** A Unix timestamp in seconds, as chrono's `timestamp()` returns it. */
  type Epoch = i: int | I64_MIN <= i < I64_LIMIT

  /** Parsing an ISO-8601 date-time string and taking its timestamp; chrono
      is not part of this model, so the parser is a parameter. */
  type IsoParser = seq<byte> -> Option<Epoch>

  /** What `encode_document` returns: the document and the changed mask. */
  datatype Encoded = Encoded(buf: seq<byte>, mask: seq<bool>)

  function Falses(n: nat): (r: seq<bool>)
    ensures |r| == n && forall i | 0 <= i < n :: !r[i]
  {
    seq(n, i => false)
  }

  /** The header before any field is written: version, field count, and a
      zero (null) slot per stored field. */
  function Blank(fieldsSize: nat): (r: seq<byte>)
    requires fieldsSize < U16_LIMIT
    ensures |r| == PayloadStart(fieldsSize)
  {
    [VERSION] + BE16(fieldsSize) + Zeros(4 * fieldsSize)
  }

  /** `encode_value`: the bytes appended for the non-null value `v` of the
      field `name` of type `ty`. Strings carry a u32 length prefix, Int64
      and DateTime are eight bytes of two's complement, Bool one byte. */
  function ValueBytes(ty: PrimitiveFieldType, name: string, v: Json, iso: IsoParser): (r: Result<seq<byte>, EncodeError>)
    requires ty != UInt64
    ensures r.Ok? ==> |r.value| > 0
    ensures r.Err? ==> r.error == OffsetOverflow || (r.error.TypeMismatch? && r.error.field == name)
  {
    match ty
    case String =>
      if !v.JString? then Err(TypeMismatch(name, "string"))
      else if |v.s| >= U32_LIMIT then Err(OffsetOverflow)
      else Ok(BE32(|v.s|) + v.s)
    case DateTime =>
      (match v
       case JNumber(n) =>
         if AsI64(n).None? then Err(TypeMismatch(name, "int64 (epoch) or string (ISO-8601)"))
         else Ok(I64Bytes(AsI64(n).value))
       case JString(s) =>
         if iso(s).None? then Err(TypeMismatch(name, "valid ISO-8601 datetime string"))
         else Ok(I64Bytes(iso(s).value))
       case _ => Err(TypeMismatch(name, "int64 (epoch) or ISO-8601 string")))
    case Int64 =>
      if v.JNumber? && AsI64(v.n).Some? then Ok(I64Bytes(AsI64(v.n).value))
      else Err(TypeMismatch(name, "int64"))
    case Bool =>
      if v.JBool? then Ok([if v.b then 1 else 0]) else Err(TypeMismatch(name, "bool"))
  }

  /** The object gives a value (possibly null) for this stored field. */
  predicate Present(f: Field, obj: map<string, Json>)
  {
    f.ty.Primitive? && f.name in obj
  }

  /** The object gives a non-null value for this stored field. */
  predicate Written(f: Field, obj: map<string, Json>)
  {
    Present(f, obj) && !obj[f.name].JNull?
  }

  /** One loop iteration does not panic: the mask has a bit for the field,
      the slot it writes lies inside the buffer, and `encode_value` has an
      arm for its type (it has none for UInt64). */
  predicate FieldSafe(f: Field, obj: map<string, Json>, e: Encoded)
  {
    Present(f, obj) ==>
      f.offsetIndex < |e.mask|
      && (Written(f, obj) && |e.buf| < U32_LIMIT ==>
            SlotPos(f.offsetIndex) + 4 <= |e.buf| && f.ty.prim != UInt64)
  }

  /** One iteration of the field loop. */
  function FieldStep(f: Field, obj: map<string, Json>, e: Encoded, iso: IsoParser): (r: Result<Encoded, EncodeError>)
    requires FieldSafe(f, obj, e)
  {
    if !Present(f, obj) then Ok(e)
    else
      var mask := e.mask[f.offsetIndex := true];
      if !Written(f, obj) then Ok(Encoded(e.buf, mask))
      else if |e.buf| >= U32_LIMIT then Err(OffsetOverflow)
      else
        var bytes :- ValueBytes(f.ty.prim, f.name, obj[f.name], iso);
        Ok(Encoded(WithOffset(e.buf, SlotPos(f.offsetIndex), |e.buf|) + bytes, mask))
  }

  /** No iteration of the loop over `fields` panics. */
  predicate FieldsSafe(fields: seq<Field>, obj: map<string, Json>, e: Encoded, iso: IsoParser)
    decreases |fields|
  {
    fields == []
    || (FieldSafe(fields[0], obj, e)
        && var r := FieldStep(fields[0], obj, e, iso);
           r.Ok? ==> FieldsSafe(fields[1..], obj, r.value, iso))
  }

  /** The loop over `fields`, stopping at the first error. */
  function EncodeFields(fields: seq<Field>, obj: map<string, Json>, e: Encoded, iso: IsoParser): Result<Encoded, EncodeError>
    requires FieldsSafe(fields, obj, e, iso)
    decreases |fields|
  {
    if fields == [] then Ok(e)
    else
      var e' :- FieldStep(fields[0], obj, e, iso);
      EncodeFields(fields[1..], obj, e', iso)
  }

  /** The state the loop starts from. */
  function Initial(m: Model): Encoded
    requires m.fieldsSize < U16_LIMIT
  {
    Encoded(Blank(m.fieldsSize), Falses(MASK_BITS))
  }

  /** `encode_document` does not panic on `j`. */
  predicate EncodeSafe(m: Model, j: Json, iso: IsoParser)
  {
    j.JObject? ==> m.fieldsSize < U16_LIMIT && FieldsSafe(m.fields, j.members, Initial(m), iso)
  }

  /** What `encode_document` returns. */
  function EncodeSpec(m: Model, j: Json, iso: IsoParser): (r: Result<Encoded, EncodeError>)
    requires EncodeSafe(m, j, iso)
    ensures !j.JObject? ==> r == Err(NotAnObject)
  {
    if !j.JObject? then Err(NotAnObject)
    else
      var e :- EncodeFields(m.fields, j.members, Initial(m), iso);
      if |e.buf| == PayloadStart(m.fieldsSize) then Err(EmptyObject) else Ok(e)
  }

  /** `encode_document`. */
  method EncodeDocument(m: Model, j: Json, iso: IsoParser) returns (r: Result<Encoded, EncodeError>)
    requires EncodeSafe(m, j, iso)
    ensures r == EncodeSpec(m, j, iso)
  {
    if !j.JObject? {
      return Err(NotAnObject);
    }
    var obj := j.members;
    var buf := [VERSION];
    buf := buf + BE16(m.fieldsSize);
    buf := buf + Zeros(4 * m.fieldsSize);
    var initialSize := |buf|;
    var mask := Falses(MASK_BITS);
    var i := 0;
    while i < |m.fields|
      invariant i <= |m.fields|
      invariant FieldsSafe(m.fields[i..], obj, Encoded(buf, mask), iso)
      invariant EncodeFields(m.fields[i..], obj, Encoded(buf, mask), iso)
             == EncodeFields(m.fields, obj, Initial(m), iso)
      invariant initialSize == PayloadStart(m.fieldsSize)
    {
      var field := m.fields[i];
      assert m.fields[i..][1..] == m.fields[i + 1..];
      if field.ty.Primitive? && field.name in obj {
        mask := mask[field.offsetIndex := true];
        var value := obj[field.name];
        if !value.JNull? {
          var start := |buf|;
          if start >= U32_LIMIT {
            return Err(OffsetOverflow);
          }
          buf := WithOffset(buf, SlotPos(field.offsetIndex), start);
          var bytes := ValueBytes(field.ty.prim, field.name, value, iso);
          if bytes.Err? {
            return Err(bytes.error);
          }
          buf := buf + bytes.value;
        }
      }
      i := i + 1;
    }
    assert m.fields[i..] == [];
    if |buf| == initialSize {
      return Err(EmptyObject);
    }
    return Ok(Encoded(buf, mask));
  }

  // ---------------------------------------------------------------------
  // What the loop does to the buffer and the mask
  // ---------------------------------------------------------------------

  /** The loop keeps the first three bytes, only appends payload, sets
      exactly the mask bits of the fields the object mentions, and grows
      the buffer exactly when some field has a non-null value. */
  lemma {:induction false} EncodeFieldsShape(fields: seq<Field>, obj: map<string, Json>, e: Encoded, iso: IsoParser)
    requires FieldsSafe(fields, obj, e, iso) && 3 <= |e.buf|
    ensures var r := EncodeFields(fields, obj, e, iso);
      r.Ok? ==>
        |r.value.buf| >= |e.buf| && r.value.buf[..3] == e.buf[..3]
        && (|r.value.buf| == |e.buf| <==> forall f | f in fields :: !Written(f, obj))
        && |r.value.mask| == |e.mask|
        && forall i | 0 <= i < |e.mask| ::
             r.value.mask[i] <==> e.mask[i] || exists f | f in fields :: Present(f, obj) && f.offsetIndex == i
    decreases |fields|
  {
    if fields != [] {
      var f := fields[0];
      var s := FieldStep(f, obj, e, iso);
      if s.Ok? {
        var e' := s.value;
        assert e'.buf[..3] == e.buf[..3] && |e'.buf| >= |e.buf| && |e'.mask| == |e.mask|;
        assert |e'.buf| == |e.buf| <==> !Written(f, obj);
        EncodeFieldsShape(fields[1..], obj, e', iso);
        assert forall g | g in fields :: g == f || g in fields[1..];
      }
    }
  }

  /** A failing loop fails on a field with a non-null value: an overflowing
      offset or string length, or a value of the wrong type for that field. */
  lemma {:induction false} EncodeFieldsError(fields: seq<Field>, obj: map<string, Json>, e: Encoded, iso: IsoParser)
    requires FieldsSafe(fields, obj, e, iso)
    ensures var r := EncodeFields(fields, obj, e, iso);
      r.Err? ==>
        r.error == OffsetOverflow
        || exists f | f in fields :: Written(f, obj) && r.error.TypeMismatch? && r.error.field == f.name
    decreases |fields|
  {
    if fields != [] {
      var s := FieldStep(fields[0], obj, e, iso);
      if s.Ok? {
        EncodeFieldsError(fields[1..], obj, s.value, iso);
        assert forall g | g in fields[1..] :: g in fields;
      }
    }
  }

  /** What `encode_document` promises of a JSON object: on success the
      version byte and the field count head the buffer, payload follows the
      header, and the mask has a set bit exactly for the slots of fields the
      object names; it reports EmptyObject exactly when no field has a
      non-null value; any other error comes from a field with a value. */
  lemma EncodeDocumentResult(m: Model, j: Json, iso: IsoParser)
    requires EncodeSafe(m, j, iso) && j.JObject?
    ensures var r := EncodeSpec(m, j, iso);
      && (r.Ok? ==>
            |r.value.buf| > PayloadStart(m.fieldsSize)
            && r.value.buf[0] == VERSION && r.value.buf[1..3] == BE16(m.fieldsSize)
            && |r.value.mask| == MASK_BITS
            && forall i | 0 <= i < MASK_BITS ::
                 r.value.mask[i] <==> exists f | f in m.fields :: Present(f, j.members) && f.offsetIndex == i)
      && (r == Err(EmptyObject) <==>
            EncodeFields(m.fields, j.members, Initial(m), iso).Ok?
            && forall f | f in m.fields :: !Written(f, j.members))
      && (r.Err? && r.error != EmptyObject ==>
            r.error == OffsetOverflow
            || exists f | f in m.fields :: Written(f, j.members) && r.error.TypeMismatch? && r.error.field == f.name)
  {
    var e := Initial(m);
    EncodeFieldsShape(m.fields, j.members, e, iso);
    EncodeFieldsError(m.fields, j.members, e, iso);
    var r := EncodeFields(m.fields, j.members, e, iso);
    if r.Ok? {
      assert r.value.buf[0] == r.value.buf[..3][0] && r.value.buf[1..3] == r.value.buf[..3][1..];
      assert e.buf[..3] == [VERSION] + BE16(m.fieldsSize);
    }
  }

  /** The loop over two fields whose steps succeed. */
  lemma {:induction false} EncodeTwoFields(f: Field, g: Field, obj: map<string, Json>, e0: Encoded, e1: Encoded, e2: Encoded, iso: IsoParser)
    requires FieldSafe(f, obj, e0) && FieldStep(f, obj, e0, iso) == Ok(e1)
    requires FieldSafe(g, obj, e1) && FieldStep(g, obj, e1, iso) == Ok(e2)
    ensures FieldsSafe([f, g], obj, e0, iso) && EncodeFields([f, g], obj, e0, iso) == Ok(e2)
  {
    assert [f, g][0] == f && [f, g][1..] == [g] && [g][0] == g && [g][1..] == [];
    assert FieldsSafe([g], obj, e1, iso) && EncodeFields([g], obj, e1, iso) == Ok(e2);
  }

  /** The encoder's unit test: `{"name": "Alice", "age": 30}` on a model with
      a String field in slot 0 and an Int64 field in slot 1. The document is
      the header (version 1, two fields, offsets 11 and 20), the length 5
      and the bytes of "Alice", then 30 in eight bytes; both mask bits are
      set. */
  lemma EncodeSimpleDocument(iso: IsoParser)
    ensures
      var name := Field("name", Primitive(String), 0, 3, false, [], None, None, [], None);
      var age := Field("age", Primitive(Int64), 1, 7, false, [], None, None, [], None);
      var alice: seq<byte> := [0x41, 0x6C, 0x69, 0x63, 0x65];
      var m := Model("User", [name, age], 2, 3, 0);
      var j := JObject(map["name" := JString(alice), "age" := JNumber(NInt(30))]);
      EncodeSafe(m, j, iso)
      && EncodeSpec(m, j, iso)
         == Ok(Encoded([1, 0, 2, 0, 0, 0, 11, 0, 0, 0, 20] + [0, 0, 0, 5] + alice + [0, 0, 0, 0, 0, 0, 0, 30],
                       Falses(MASK_BITS)[0 := true][1 := true]))
  {
    var name := Field("name", Primitive(String), 0, 3, false, [], None, None, [], None);
    var age := Field("age", Primitive(Int64), 1, 7, false, [], None, None, [], None);
    var alice: seq<byte> := [0x41, 0x6C, 0x69, 0x63, 0x65];
    var m := Model("User", [name, age], 2, 3, 0);
    var obj := map["name" := JString(alice), "age" := JNumber(NInt(30))];
    var b1 := [1, 0, 2, 0, 0, 0, 11, 0, 0, 0, 0] + ([0, 0, 0, 5] + alice);
    var d := [1, 0, 2, 0, 0, 0, 11, 0, 0, 0, 20] + [0, 0, 0, 5] + alice + [0, 0, 0, 0, 0, 0, 0, 30];
    var m1 := Falses(MASK_BITS)[0 := true];
    SimpleNameStep(name, alice, obj, Initial(m), iso);
    SimpleAgeStep(age, alice, obj, Encoded(b1, m1), iso);
    EncodeTwoFields(name, age, obj, Initial(m), Encoded(b1, m1), Encoded(d, m1[1 := true]), iso);
  }

  lemma SimpleNameStep(name: Field, alice: seq<byte>, obj: map<string, Json>, e: Encoded, iso: IsoParser)
    requires name == Field("name", Primitive(String), 0, 3, false, [], None, None, [], None)
    requires "name" in obj && obj["name"] == JString(alice) && |alice| == 5
    requires e == Encoded([1, 0, 2, 0, 0, 0, 0, 0, 0, 0, 0], Falses(MASK_BITS))
    ensures FieldSafe(name, obj, e)
    ensures FieldStep(name, obj, e, iso)
         == Ok(Encoded([1, 0, 2, 0, 0, 0, 11, 0, 0, 0, 0] + ([0, 0, 0, 5] + alice), Falses(MASK_BITS)[0 := true]))
  {
    assert WithOffset(e.buf, 3, 11) == [1, 0, 2, 0, 0, 0, 11, 0, 0, 0, 0] by { assert BE32(11) == [0, 0, 0, 11]; }
    assert ValueBytes(String, "name", JString(alice), iso) == Ok([0, 0, 0, 5] + alice) by { assert BE32(5) == [0, 0, 0, 5]; }
  }

  lemma SimpleAgeStep(age: Field, alice: seq<byte>, obj: map<string, Json>, e: Encoded, iso: IsoParser)
    requires age == Field("age", Primitive(Int64), 1, 7, false, [], None, None, [], None)
    requires "age" in obj && obj["age"] == JNumber(NInt(30)) && |alice| == 5
    requires e == Encoded([1, 0, 2, 0, 0, 0, 11, 0, 0, 0, 0] + ([0, 0, 0, 5] + alice), Falses(MASK_BITS)[0 := true])
    ensures FieldSafe(age, obj, e)
    ensures FieldStep(age, obj, e, iso)
         == Ok(Encoded([1, 0, 2, 0, 0, 0, 11, 0, 0, 0, 20] + [0, 0, 0, 5] + alice + [0, 0, 0, 0, 0, 0, 0, 30],
                       Falses(MASK_BITS)[0 := true][1 := true]))
  {
    assert WithOffset(e.buf, 7, 20) == [1, 0, 2, 0, 0, 0, 11, 0, 0, 0, 20] + [0, 0, 0, 5] + alice by {
      assert BE32(20) == [0, 0, 0, 20];
      assert e.buf[..7] == [1, 0, 2, 0, 0, 0, 11] && e.buf[11..] == [0, 0, 0, 5] + alice;
    }
    assert ValueBytes(Int64, "age", JNumber(NInt(30)), iso) == Ok([0, 0, 0, 0, 0, 0, 0, 30]) by {
      assert I64Bytes(30) == [0, 0, 0, 0, 0, 0, 0, 30];
    }
  }
}

=== FILE: encoder_proofs.dfy ===
/** What `encode_document` builds: on a model laid out by the schema parser
    it does not panic, and the document it returns is the layout of the
    value bytes of the fields the object gives a non-null value, each in
    its field's slot, all other slots null. */
module EncoderProofs {
  import opened Wrappers
  import opened Bytes
  import opened Json
  import opened Layout
  import opened Offsets
  import opened Schema
  import opened Encoder
  import opened UpdateProofs

  function Nones(n: nat): (r: seq<Option<seq<byte>>>)
    ensures |r| == n && forall j | 0 <= j < n :: r[j].None?
  {
    seq(n, j => None)
  }

  /** The value bytes `encode_value` writes for field `f`, if it writes any. */
  function FieldBytes(f: Field, obj: map<string, Json>, iso: IsoParser): Option<seq<byte>>
  {
    if Written(f, obj) && f.ty.prim != UInt64 then
      match ValueBytes(f.ty.prim, f.name, obj[f.name], iso)
      case Ok(b) => Some(b)
      case Err(_) => None
    else None
  }

  /** The regions `rs` with each field's value bytes put in its slot. */
  function Filled(fields: seq<Field>, obj: map<string, Json>, rs: seq<Option<seq<byte>>>, iso: IsoParser): (r: seq<Option<seq<byte>>>)
    ensures |r| == |rs|
    decreases |fields|
  {
    if fields == [] then rs
    else
      var f := fields[0];
      var b := FieldBytes(f, obj, iso);
      Filled(fields[1..], obj, if b.Some? && f.offsetIndex < |rs| then rs[f.offsetIndex := b] else rs, iso)
  }

  /** The stored fields the encoder can write: derived fields are not
      primitive, and no primitive field is UInt64 (the schema parser never
      produces one). */
  predicate Encodable(fields: seq<Field>)
  {
    forall f | f in fields :: f.ty.Primitive? ==> !IsVirtual(f) && f.ty.prim != UInt64
  }

  // ---------------------------------------------------------------------
  // The slot order of a model
  // ---------------------------------------------------------------------

  lemma {:induction false} SlotsFromTail(fields: seq<Field>, count: nat)
    requires fields != [] && SlotsFrom(fields, count)
    ensures !IsVirtual(fields[0]) ==> fields[0].offsetIndex == count
    ensures SlotsFrom(fields[1..], NextCount(fields[0], count))
    ensures NonVirtualCount(fields) == NonVirtualCount(fields[1..]) + (NextCount(fields[0], count) - count)
  {
    var f := fields[0];
    var rest := fields[1..];
    assert fields[..0] == [];
    forall k | 0 <= k < |rest| && !IsVirtual(rest[k])
      ensures rest[k].offsetIndex == NextCount(f, count) + NonVirtualCount(rest[..k])
    {
      assert fields[..k + 1][0] == f && fields[..k + 1][1..] == rest[..k];
      assert fields[k + 1] == rest[k];
    }
  }

  // ---------------------------------------------------------------------
  // The encoder does not panic on a laid-out model
  // ---------------------------------------------------------------------

  lemma {:induction false} EncodeFieldsSafe(fields: seq<Field>, obj: map<string, Json>, e: Encoded, iso: IsoParser, count: nat, n: nat)
    requires SlotsFrom(fields, count) && count + NonVirtualCount(fields) <= n <= |e.mask|
    requires PayloadStart(n) <= |e.buf| && Encodable(fields)
    ensures FieldsSafe(fields, obj, e, iso)
    decreases |fields|
  {
    if fields != [] {
      var f := fields[0];
      SlotsFromTail(fields, count);
      assert f in fields;
      assert FieldSafe(f, obj, e);
      var r := FieldStep(f, obj, e, iso);
      if r.Ok? {
        assert |r.value.buf| >= |e.buf| && |r.value.mask| == |e.mask|;
        assert Encodable(fields[1..]) by {
          assert forall g | g in fields[1..] :: g in fields;
        }
        EncodeFieldsSafe(fields[1..], obj, r.value, iso, NextCount(f, count), n);
      }
    }
  }

  /** `encode_document` does not panic on a model the schema parser laid
      out, with at most 200 stored fields. */
  lemma EncodeSafeOfLayout(m: Model, j: Json, iso: IsoParser)
    requires ModelLayout(m) && Encodable(m.fields)
    requires NonVirtualCount(m.fields) <= MASK_BITS
    ensures EncodeSafe(m, j, iso)
  {
    if j.JObject? {
      EncodeFieldsSafe(m.fields, j.members, Initial(m), iso, 0, NonVirtualCount(m.fields));
    }
  }

  // ---------------------------------------------------------------------
  // The buffer is the layout of the filled regions
  // ---------------------------------------------------------------------

  lemma {:induction false} ConcatNones(rs: seq<Option<seq<byte>>>)
    requires forall j | 0 <= j < |rs| :: rs[j].None?
    ensures Concat(rs) == []
    decreases |rs|
  {
    if rs != [] {
      ConcatNones(rs[..|rs| - 1]);
    }
  }

  /** The blank header is the layout of `n` null regions. */
  lemma BlankBuilt(n: nat)
    requires n < U16_LIMIT
    ensures Built(Blank(n), [VERSION] + BE16(n), Nones(n))
  {
    var d := Blank(n);
    var p := PayloadStart(n);
    ConcatNones(Nones(n));
    forall k | 0 <= k < n
      ensures SlotsOf(d, n)[k] == Offs(Nones(n), p)[k]
    {
      SlotsOfAt(d, n, k);
      OffsAt(Nones(n), p, k);
      assert d[SlotPos(k)..SlotPos(k) + 4] == [0, 0, 0, 0];
      assert BE32(0) == [0, 0, 0, 0];
      U32RoundTrip(0);
    }
  }

  /** Appending the bytes of region `k` when all later regions are null:
      the slot of `k` gets the old length, and the region is `b`. */
  lemma {:induction false} AppendRegion(d: seq<byte>, h: seq<byte>, rs: seq<Option<seq<byte>>>, k: nat, b: seq<byte>)
    requires Built(d, h, rs) && k < |rs| && |d| < U32_LIMIT
    requires forall j | k <= j < |rs| :: rs[j].None?
    ensures SlotPos(k) + 4 <= |d|
    ensures Built(WithOffset(d, SlotPos(k), |d|) + b, h, rs[k := Some(b)])
  {
    var n := |rs|;
    var p := PayloadStart(n);
    var rs' := rs[k := Some(b)];
    var w := WithOffset(d, SlotPos(k), |d|);
    var d' := w + b;
    assert Concat(rs') == Concat(rs) + b by { AppendConcat(rs, k, b); }
    assert w[..3] == h && w[p..] == d[p..] by { WithOffsetFrame(d, n, k, |d|); }
    assert d'[..3] == h && d'[p..] == Concat(rs');
    assert SlotsOf(d', n) == SlotsOf(d, n)[k := |d|] by { AppendSlots(d, n, k, b); }
    assert Offs(rs', p) == Offs(rs, p)[k := |d|] by { AppendOffs(rs, k, b, p); }
  }

  /** The slot values after writing the length into slot `k` and appending. */
  lemma {:induction false} AppendSlots(d: seq<byte>, n: nat, k: nat, b: seq<byte>)
    requires k < n && PayloadStart(n) <= |d| < U32_LIMIT
    ensures SlotPos(k) + 4 <= |d|
    ensures PayloadStart(n) <= |WithOffset(d, SlotPos(k), |d|) + b|
    ensures SlotsOf(WithOffset(d, SlotPos(k), |d|) + b, n) == SlotsOf(d, n)[k := |d|]
  {
    var w := WithOffset(d, SlotPos(k), |d|);
    var p := PayloadStart(n);
    assert (w + b)[..p] == w[..p];
    SlotsOfPrefix(w + b, w, n);
    WithOffsetSlots(d, n, k, |d|);
    assert |d| % U32_LIMIT == |d|;
  }

  /** The payload after appending region `k` when all later ones are null. */
  lemma {:induction false} AppendConcat(rs: seq<Option<seq<byte>>>, k: nat, b: seq<byte>)
    requires k < |rs| && forall j | k <= j < |rs| :: rs[j].None?
    ensures Concat(rs[k := Some(b)]) == Concat(rs) + b
  {
    var rs' := rs[k := Some(b)];
    assert Concat(rs'[k + 1..]) == [] by { ConcatNones(rs'[k + 1..]); }
    assert Concat(rs[k + 1..]) == [] by { ConcatNones(rs[k + 1..]); }
    assert Concat(rs') == Concat(rs[..k]) + b by { ConcatUpdate(rs, k, Some(b)); }
    assert Concat(rs) == Concat(rs[..k]) by {
      assert rs[k := rs[k]] == rs;
      ConcatUpdate(rs, k, rs[k]);
    }
  }

  /** The slot values after appending region `k` at the end of the payload. */
  lemma {:induction false} AppendOffs(rs: seq<Option<seq<byte>>>, k: nat, b: seq<byte>, p: nat)
    requires k < |rs| && forall j | k <= j < |rs| :: rs[j].None?
    ensures Offs(rs[k := Some(b)], p) == Offs(rs, p)[k := p + |Concat(rs)|]
  {
    var rs' := rs[k := Some(b)];
    assert Concat(rs) == Concat(rs[..k]) by {
      assert Concat(rs[k + 1..]) == [] by { ConcatNones(rs[k + 1..]); }
      assert rs[k := rs[k]] == rs;
      ConcatUpdate(rs, k, rs[k]);
    }
    forall j | 0 <= j < |rs|
      ensures Offs(rs', p)[j] == Offs(rs, p)[k := p + |Concat(rs)|][j]
    {
      OffsAt(rs', p, j);
      OffsAt(rs, p, j);
      StartUpdate(rs, k, Some(b), p, j);
    }
  }

  /** The loop keeps the buffer the layout of the regions filled so far. */
  lemma {:induction false} EncodeFieldsBuilt(fields: seq<Field>, obj: map<string, Json>, e: Encoded, iso: IsoParser,
                                            count: nat, h: seq<byte>, rs: seq<Option<seq<byte>>>)
    requires FieldsSafe(fields, obj, e, iso)
    requires SlotsFrom(fields, count) && count + NonVirtualCount(fields) <= |rs| && Encodable(fields)
    requires Built(e.buf, h, rs) && forall j | count <= j < |rs| :: rs[j].None?
    ensures var r := EncodeFields(fields, obj, e, iso);
      r.Ok? ==> r.value.buf == Build(h, Filled(fields, obj, rs, iso))
    decreases |fields|
  {
    if fields == [] {
      BuildByParts(e.buf, h, rs);
    } else {
      var f := fields[0];
      SlotsFromTail(fields, count);
      assert f in fields;
      assert Encodable(fields[1..]) by {
        assert forall g | g in fields[1..] :: g in fields;
      }
      var s := FieldStep(f, obj, e, iso);
      if s.Ok? {
        var rs' := StepBuilt(f, obj, e, iso, count, h, rs);
        EncodeFieldsBuilt(fields[1..], obj, s.value, iso, NextCount(f, count), h, rs');
      }
    }
  }

  /** One iteration keeps the buffer the layout of the regions filled so far. */
  lemma {:induction false} StepBuilt(f: Field, obj: map<string, Json>, e: Encoded, iso: IsoParser,
                                    count: nat, h: seq<byte>, rs: seq<Option<seq<byte>>>) returns (rs': seq<Option<seq<byte>>>)
    requires FieldSafe(f, obj, e) && FieldStep(f, obj, e, iso).Ok?
    requires !IsVirtual(f) ==> f.offsetIndex == count && count < |rs|
    requires f.ty.Primitive? ==> !IsVirtual(f) && f.ty.prim != UInt64
    requires Built(e.buf, h, rs) && forall j | count <= j < |rs| :: rs[j].None?
    ensures var b := FieldBytes(f, obj, iso);
      rs' == if b.Some? && f.offsetIndex < |rs| then rs[f.offsetIndex := b] else rs
    ensures Built(FieldStep(f, obj, e, iso).value.buf, h, rs')
    ensures forall j | NextCount(f, count) <= j < |rs| :: rs'[j].None?
  {
    var s := FieldStep(f, obj, e, iso);
    var b := FieldBytes(f, obj, iso);
    rs' := if b.Some? && f.offsetIndex < |rs| then rs[f.offsetIndex := b] else rs;
    if b.Some? {
      assert s.value.buf == WithOffset(e.buf, SlotPos(count), |e.buf|) + b.value;
      AppendRegion(e.buf, h, rs, count, b.value);
    } else {
      assert s.value.buf == e.buf;
    }
  }

  /** The field loop on a laid-out model builds the layout of the filled
      regions from the blank header. */
  lemma FieldLoopBuild(m: Model, obj: map<string, Json>, iso: IsoParser)
    requires ModelLayout(m) && Encodable(m.fields)
    requires NonVirtualCount(m.fields) <= MASK_BITS
    ensures FieldsSafe(m.fields, obj, Initial(m), iso)
    ensures var r := EncodeFields(m.fields, obj, Initial(m), iso);
      var n := NonVirtualCount(m.fields);
      r.Ok? ==> r.value.buf == Build([VERSION] + BE16(n), Filled(m.fields, obj, Nones(n), iso))
  {
    var n := NonVirtualCount(m.fields);
    assert m.fieldsSize == n;
    EncodeFieldsSafe(m.fields, obj, Initial(m), iso, 0, n);
    BlankBuilt(n);
    EncodeFieldsBuilt(m.fields, obj, Initial(m), iso, 0, [VERSION] + BE16(n), Nones(n));
  }

  /** The document `encode_document` returns is the layout of the model's
      slots with each field's value bytes in its own slot and null
      elsewhere; below 4 GiB it is well formed and those are its regions. */
  lemma EncodeDocumentLayout(m: Model, j: Json, iso: IsoParser)
    requires ModelLayout(m) && Encodable(m.fields)
    requires NonVirtualCount(m.fields) <= MASK_BITS
    ensures EncodeSafe(m, j, iso)
    ensures var n := NonVirtualCount(m.fields);
      var r := EncodeSpec(m, j, iso);
      r.Ok? ==>
        var rs := Filled(m.fields, j.members, Nones(n), iso);
        r.value.buf == Build([VERSION] + BE16(n), rs)
        && (|r.value.buf| < U32_LIMIT ==> WellFormed(r.value.buf, n) && Regions(r.value.buf, n) == rs)
  {
    EncodeSafeOfLayout(m, j, iso);
    if j.JObject? {
      var n := NonVirtualCount(m.fields);
      var rs := Filled(m.fields, j.members, Nones(n), iso);
      FieldLoopBuild(m, j.members, iso);
      if EncodeSpec(m, j, iso).Ok? && |Build([VERSION] + BE16(n), rs)| < U32_LIMIT {
        BuildRegions([VERSION] + BE16(n), rs);
      }
    }
  }

  // ---------------------------------------------------------------------
  // Each field's region
  // ---------------------------------------------------------------------

  /** Filling never touches the slots before `count`. */
  lemma {:induction false} FilledBelow(fields: seq<Field>, obj: map<string, Json>, rs: seq<Option<seq<byte>>>, iso: IsoParser,
                                      count: nat, k: nat)
    requires SlotsFrom(fields, count) && Encodable(fields) && k < count && k < |rs|
    ensures Filled(fields, obj, rs, iso)[k] == rs[k]
    decreases |fields|
  {
    if fields != [] {
      var f := fields[0];
      var b := FieldBytes(f, obj, iso);
      var rs' := if b.Some? && f.offsetIndex < |rs| then rs[f.offsetIndex := b] else rs;
      SlotsFromTail(fields, count);
      assert f in fields;
      assert Encodable(fields[1..]) by {
        assert forall g | g in fields[1..] :: g in fields;
      }
      FilledBelow(fields[1..], obj, rs', iso, NextCount(f, count), k);
    }
  }

  /** The region of a stored field holds the bytes it was encoded to, or
      null when the object gives it no value. */
  lemma {:induction false} FilledAt(fields: seq<Field>, obj: map<string, Json>, rs: seq<Option<seq<byte>>>, iso: IsoParser,
                                   count: nat, i: nat)
    requires SlotsFrom(fields, count) && Encodable(fields) && count + NonVirtualCount(fields) <= |rs|
    requires forall j | count <= j < |rs| :: rs[j].None?
    requires i < |fields| && !IsVirtual(fields[i])
    ensures fields[i].offsetIndex < |rs|
    ensures Filled(fields, obj, rs, iso)[fields[i].offsetIndex] == FieldBytes(fields[i], obj, iso)
    decreases |fields|
  {
    if i == 0 {
      FilledHead(fields, obj, rs, iso, count);
    } else {
      var f := fields[0];
      var b := FieldBytes(f, obj, iso);
      var rs' := if b.Some? && f.offsetIndex < |rs| then rs[f.offsetIndex := b] else rs;
      FilledStep(fields, obj, rs, iso, count);
      assert fields[1..][i - 1] == fields[i];
      FilledAt(fields[1..], obj, rs', iso, NextCount(f, count), i - 1);
    }
  }

  /** The region of the first field, when it is stored. */
  lemma FilledHead(fields: seq<Field>, obj: map<string, Json>, rs: seq<Option<seq<byte>>>, iso: IsoParser, count: nat)
    requires SlotsFrom(fields, count) && Encodable(fields) && count + NonVirtualCount(fields) <= |rs|
    requires forall j | count <= j < |rs| :: rs[j].None?
    requires 0 < |fields| && !IsVirtual(fields[0])
    ensures fields[0].offsetIndex < |rs|
    ensures Filled(fields, obj, rs, iso)[fields[0].offsetIndex] == FieldBytes(fields[0], obj, iso)
  {
    var f := fields[0];
    var b := FieldBytes(f, obj, iso);
    var rs' := if b.Some? && f.offsetIndex < |rs| then rs[f.offsetIndex := b] else rs;
    FilledStep(fields, obj, rs, iso, count);
    FilledBelow(fields[1..], obj, rs', iso, count + 1, count);
  }

  /** One field of `Filled`: the rest of the fields fill the regions after
      this one, all still null. */
  lemma FilledStep(fields: seq<Field>, obj: map<string, Json>, rs: seq<Option<seq<byte>>>, iso: IsoParser, count: nat)
    requires fields != [] && SlotsFrom(fields, count) && Encodable(fields) && count + NonVirtualCount(fields) <= |rs|
    requires forall j | count <= j < |rs| :: rs[j].None?
    ensures var f := fields[0];
      var b := FieldBytes(f, obj, iso);
      var rs' := if b.Some? && f.offsetIndex < |rs| then rs[f.offsetIndex := b] else rs;
      && Filled(fields, obj, rs, iso) == Filled(fields[1..], obj, rs', iso)
      && SlotsFrom(fields[1..], NextCount(f, count)) && Encodable(fields[1..])
      && |rs'| == |rs| && NextCount(f, count) + NonVirtualCount(fields[1..]) <= |rs'|
      && (forall j | NextCount(f, count) <= j < |rs'| :: rs'[j].None?)
      && (!IsVirtual(f) ==> f.offsetIndex == count < |rs| && rs'[count] == b)
  {
    SlotsFromTail(fields, count);
    assert fields[0] in fields;
    assert Encodable(fields[1..]) by {
      assert forall g | g in fields[1..] :: g in fields;
    }
  }

  /** In the document `encode_document` returns, the region of every stored
      field is the `encode_value` bytes of the object's value for it, and
      null when the object has no value or null for it. */
  lemma EncodedFieldRegion(m: Model, j: Json, iso: IsoParser, i: nat)
    requires ModelLayout(m) && Encodable(m.fields)
    requires NonVirtualCount(m.fields) <= MASK_BITS
    requires i < |m.fields| && !IsVirtual(m.fields[i])
    ensures EncodeSafe(m, j, iso)
    ensures var n := NonVirtualCount(m.fields);
      var r := EncodeSpec(m, j, iso);
      r.Ok? && |r.value.buf| < U32_LIMIT ==>
        WellFormed(r.value.buf, n) && m.fields[i].offsetIndex < n
        && Regions(r.value.buf, n)[m.fields[i].offsetIndex] == FieldBytes(m.fields[i], j.members, iso)
        && (Written(m.fields[i], j.members) ==> FieldBytes(m.fields[i], j.members, iso).Some?)
  {
    EncodeSafeOfLayout(m, j, iso);
    var n := NonVirtualCount(m.fields);
    var r := EncodeSpec(m, j, iso);
    if j.JObject? && r.Ok? && |r.value.buf| < U32_LIMIT {
      var f := m.fields[i];
      var rs := Filled(m.fields, j.members, Nones(n), iso);
      assert WellFormed(r.value.buf, n) && Regions(r.value.buf, n) == rs by {
        EncodeDocumentLayout(m, j, iso);
      }
      assert f.offsetIndex < n && rs[f.offsetIndex] == FieldBytes(f, j.members, iso) by {
        FilledAt(m.fields, j.members, Nones(n), iso, 0, i);
      }
      assert Written(f, j.members) ==> FieldBytes(f, j.members, iso).Some? by {
        assert f in m.fields;
        EncodeFieldsValues(m.fields, j.members, Initial(m), iso);
      }
    }
  }

  /** A loop that succeeds has encoded every field with a non-null value. */
  lemma {:induction false} EncodeFieldsValues(fields: seq<Field>, obj: map<string, Json>, e: Encoded, iso: IsoParser)
    requires FieldsSafe(fields, obj, e, iso) && Encodable(fields)
    ensures EncodeFields(fields, obj, e, iso).Ok? ==>
      forall f | f in fields && Written(f, obj) :: FieldBytes(f, obj, iso).Some?
    decreases |fields|
  {
    if fields != [] {
      var s := FieldStep(fields[0], obj, e, iso);
      if s.Ok? {
        assert fields[0] in fields;
        assert Encodable(fields[1..]) by {
          assert forall g | g in fields[1..] :: g in fields;
        }
        EncodeFieldsValues(fields[1..], obj, s.value, iso);
        assert forall g | g in fields :: g == fields[0] || g in fields[1..];
      }
    }
  }
}

=== FILE: foreign.dfy ===
/** The arguments of a write and the foreign-key check that guards it: the
    related records a write carries (`InsertStruct`), the record ids a
    document and those records refer to (`get_foreign_keys`,
    `collect_foreign_keys`), and the check that every one of them exists
    (`check_foreign_keys`). */
module ForeignKeys {
  import opened Wrappers
  import opened Bytes
  import opened Schema
  import opened Layout
  import opened Offsets
  import opened Store

  /** An element of a `StructList` field: its id, if the caller gave one,
      and its document. */
  datatype Item = Item(id: Option<nat>, data: seq<byte>)

  /** What a write does to the records related to the main one
      (`InsertStruct`). `Null` is the source's `None` variant: the embedded
      struct is removed. `Update` and `Push` are declared but no write
      handles them. */
  datatype InsertStruct =
    | Null(st: Struct)
    | Empty(st: Struct)
    | One(st: Struct, changedMask: seq<bool>, data: seq<byte>)
    | Many(st: Struct, counterIdx: nat, items: seq<Item>)
    | Connect(field: Field, refModel: nat, ids: seq<nat>)
    | Update(st: Struct, changedMask: seq<bool>, counterIdx: nat, data: seq<byte>, id: nat)
    | Push(st: Struct, changedMask: seq<bool>, counterIdx: nat, data: seq<byte>)

  datatype InsertError = ForeignKeyViolation(field: string, id: nat) | ItemNotFound(id: nat)

  /** A record a write refers to: the record tree that must hold it, the
      field that refers to it, and the eight bytes of its id. */
  datatype ForeignKey = ForeignKey(treeName: string, field: string, id: seq<byte>)

  // ---------------------------------------------------------------------
  // get_foreign_keys
  // ---------------------------------------------------------------------

  /** A field `get_foreign_keys` reads: a stored single model reference. */
  predicate RefField(f: Field)
  {
    f.derivedFrom.None? && f.ty.ModelRef?
  }

  /** `get_foreign_keys` does not panic on this field: `get_value::<8>`
      reads inside the document, and a referenced model exists. */
  predicate RefReadable(f: Field, d: seq<byte>, schema: Schema)
  {
    RefField(f) ==>
      f.offsetPos + 4 <= |d|
      && (GetOffset(d, f.offsetPos) != 0 ==> GetOffset(d, f.offsetPos) + 8 <= |d| && f.ty.refIndex < |schema.models|)
  }

  predicate RefsReadable(fields: seq<Field>, d: seq<byte>, schema: Schema)
  {
    forall f | f in fields :: RefReadable(f, d, schema)
  }

  /** The reference one field holds, if it is a stored, non-null model
      reference. */
  function FieldKeys(f: Field, d: seq<byte>, schema: Schema): seq<ForeignKey>
    requires RefReadable(f, d, schema)
  {
    if !RefField(f) then []
    else
      match GetValue(d, f.offsetPos, 8)
      case None => []
      case Some(b) => [ForeignKey(schema.models[f.ty.refIndex].name, f.name, b)]
  }

  /** The field refers to `fk`: it is a stored model reference whose slot
      is not null, and `fk` names the referenced model's tree, the field and
      the eight bytes the slot points at. */
  predicate RefersTo(f: Field, d: seq<byte>, schema: Schema, fk: ForeignKey)
    requires RefReadable(f, d, schema)
  {
    RefField(f) && GetOffset(d, f.offsetPos) != 0
    && fk == ForeignKey(schema.models[f.ty.refIndex].name, f.name, d[GetOffset(d, f.offsetPos)..GetOffset(d, f.offsetPos) + 8])
  }

  /** The references of all fields, in field order. */
  function KeysOf(fields: seq<Field>, d: seq<byte>, schema: Schema): (r: seq<ForeignKey>)
    requires RefsReadable(fields, d, schema)
    ensures forall fk | fk in r :: |fk.id| == 8
    ensures forall fk :: fk in r <==> exists f | f in fields :: RefersTo(f, d, schema, fk)
    decreases |fields|
  {
    if fields == [] then []
    else
      var init, last := fields[..|fields| - 1], fields[|fields| - 1];
      assert forall f :: f in fields <==> f in init || f == last by {
        assert fields == init + [last];
      }
      assert forall fk :: fk in FieldKeys(last, d, schema) <==> RefersTo(last, d, schema, fk);
      KeysOf(init, d, schema) + FieldKeys(last, d, schema)
  }

  lemma KeysOfStep(fields: seq<Field>, i: nat, d: seq<byte>, schema: Schema)
    requires i < |fields| && RefsReadable(fields, d, schema)
    ensures RefsReadable(fields[..i], d, schema) && RefReadable(fields[i], d, schema)
    ensures KeysOf(fields[..i + 1], d, schema) == KeysOf(fields[..i], d, schema) + FieldKeys(fields[i], d, schema)
  {
    assert fields[..i + 1][..i] == fields[..i] && fields[..i + 1][i] == fields[i];
    assert fields[i] in fields;
    assert forall f | f in fields[..i] :: f in fields;
    assert forall f | f in fields[..i + 1] :: f in fields;
  }

  /** `get_foreign_keys`: the loop over the fields. */
  method GetForeignKeys(data: seq<byte>, fields: seq<Field>, schema: Schema) returns (r: seq<ForeignKey>)
    requires RefsReadable(fields, data, schema)
    ensures r == KeysOf(fields, data, schema)
  {
    r := [];
    var i := 0;
    assert fields[..0] == [];
    while i < |fields|
      invariant i <= |fields| && RefsReadable(fields[..i], data, schema)
      invariant r == KeysOf(fields[..i], data, schema)
    {
      KeysOfStep(fields, i, data, schema);
      var field := fields[i];
      if field.derivedFrom.None? && field.ty.ModelRef? {
        var bytes := GetValue(data, field.offsetPos, 8);
        if bytes.Some? {
          r := r + [ForeignKey(schema.models[field.ty.refIndex].name, field.name, bytes.value)];
        }
      }
      i := i + 1;
    }
    assert fields[..i] == fields;
  }

  // ---------------------------------------------------------------------
  // collect_foreign_keys
  // ---------------------------------------------------------------------

  /** The references a `Connect` adds: one per related id, to the
      referenced model's tree. */
  function ConnectKeys(treeName: string, field: string, ids: seq<nat>): (r: seq<ForeignKey>)
    requires forall k | 0 <= k < |ids| :: ids[k] < U64_LIMIT
    ensures |r| == |ids|
    ensures forall k | 0 <= k < |r| :: r[k] == ForeignKey(treeName, field, BE64(ids[k]))
    decreases |ids|
  {
    if ids == [] then []
    else
      var init := ids[..|ids| - 1];
      ConnectKeys(treeName, field, init) + [ForeignKey(treeName, field, BE64(ids[|ids| - 1]))]
  }

  predicate ItemsReadable(st: Struct, items: seq<Item>, schema: Schema)
  {
    forall it | it in items :: RefsReadable(st.fields, it.data, schema)
  }

  /** The references of the elements of a `Many`, element by element. */
  function ItemsKeys(st: Struct, items: seq<Item>, schema: Schema): (r: seq<ForeignKey>)
    requires ItemsReadable(st, items, schema)
    ensures forall fk | fk in r :: |fk.id| == 8
    decreases |items|
  {
    if items == [] then []
    else
      var init, last := items[..|items| - 1], items[|items| - 1];
      assert last in items && forall it | it in init :: it in items;
      ItemsKeys(st, init, schema) + KeysOf(st.fields, last.data, schema)
  }

  /** `collect_foreign_keys` does not panic on this related record. */
  predicate StructReadable(s: InsertStruct, schema: Schema)
  {
    match s
    case Connect(_, refModel, ids) => (forall k | 0 <= k < |ids| :: ids[k] < U64_LIMIT) && (ids != [] ==> refModel < |schema.models|)
    case Many(st, _, items) => ItemsReadable(st, items, schema)
    case One(st, _, data) => RefsReadable(st.fields, data, schema)
    case _ => true
  }

  /** The references one related record adds. */
  function StructKeys(s: InsertStruct, schema: Schema): (r: seq<ForeignKey>)
    requires StructReadable(s, schema)
    ensures forall fk | fk in r :: |fk.id| == 8
  {
    match s
    case Connect(field, refModel, ids) =>
      if ids == [] then [] else ConnectKeys(schema.models[refModel].name, field.name, ids)
    case Many(st, _, items) => ItemsKeys(st, items, schema)
    case One(st, _, data) => KeysOf(st.fields, data, schema)
    case _ => []
  }

  predicate StructsReadable(structs: seq<InsertStruct>, schema: Schema)
  {
    forall s | s in structs :: StructReadable(s, schema)
  }

  function StructsKeys(structs: seq<InsertStruct>, schema: Schema): (r: seq<ForeignKey>)
    requires StructsReadable(structs, schema)
    ensures forall fk | fk in r :: |fk.id| == 8
    decreases |structs|
  {
    if structs == [] then []
    else
      var init, last := structs[..|structs| - 1], structs[|structs| - 1];
      assert last in structs && forall s | s in init :: s in structs;
      StructsKeys(init, schema) + StructKeys(last, schema)
  }

  /** `collect_foreign_keys`: the document's own references, then those of
      the related records in order. */
  function Collected(data: seq<byte>, fields: seq<Field>, structs: seq<InsertStruct>, schema: Schema): (r: seq<ForeignKey>)
    requires RefsReadable(fields, data, schema) && StructsReadable(structs, schema)
    ensures forall fk | fk in r :: |fk.id| == 8
  {
    KeysOf(fields, data, schema) + StructsKeys(structs, schema)
  }

  /** The elements' references are those of some element. */
  lemma {:induction false} ItemsKeysMember(st: Struct, items: seq<Item>, schema: Schema, fk: ForeignKey)
    requires ItemsReadable(st, items, schema)
    ensures fk in ItemsKeys(st, items, schema) <==> exists it | it in items :: fk in KeysOf(st.fields, it.data, schema)
    decreases |items|
  {
    if items != [] {
      var init, last := items[..|items| - 1], items[|items| - 1];
      assert forall it :: it in items <==> it in init || it == last by {
        assert items == init + [last];
      }
      ItemsKeysMember(st, init, schema, fk);
    }
  }

  /** The related records' references are those of some related record. */
  lemma {:induction false} StructsKeysMember(structs: seq<InsertStruct>, schema: Schema, fk: ForeignKey)
    requires StructsReadable(structs, schema)
    ensures fk in StructsKeys(structs, schema) <==> exists s | s in structs :: fk in StructKeys(s, schema)
    decreases |structs|
  {
    if structs != [] {
      var init, last := structs[..|structs| - 1], structs[|structs| - 1];
      assert forall s :: s in structs <==> s in init || s == last by {
        assert structs == init + [last];
      }
      StructsKeysMember(init, schema, fk);
    }
  }

  /** `collect_foreign_keys` collects exactly: the model references the
      document holds, one reference per id of a `Connect`, and the model
      references of the document of a `One` and of every element of a
      `Many`. */
  lemma CollectedMember(data: seq<byte>, fields: seq<Field>, structs: seq<InsertStruct>, schema: Schema, fk: ForeignKey)
    requires RefsReadable(fields, data, schema) && StructsReadable(structs, schema)
    ensures fk in Collected(data, fields, structs, schema) <==>
      (exists f | f in fields :: RefersTo(f, data, schema, fk))
      || (exists s | s in structs && s.Connect? :: exists k | 0 <= k < |s.ids| ::
            fk == ForeignKey(schema.models[s.refModel].name, s.field.name, BE64(s.ids[k])))
      || (exists s | s in structs && s.One? :: fk in KeysOf(s.st.fields, s.data, schema))
      || (exists s | s in structs && s.Many? :: exists it | it in s.items :: fk in KeysOf(s.st.fields, it.data, schema))
  {
    StructsKeysMember(structs, schema, fk);
    forall s | s in structs && s.Many? ensures fk in StructKeys(s, schema) <==> exists it | it in s.items :: fk in KeysOf(s.st.fields, it.data, schema) {
      ItemsKeysMember(s.st, s.items, schema, fk);
    }
    forall s | s in structs && s.Connect?
      ensures fk in StructKeys(s, schema) <==> exists k | 0 <= k < |s.ids| ::
            fk == ForeignKey(schema.models[s.refModel].name, s.field.name, BE64(s.ids[k]))
    {
      if s.ids != [] {
        var r := ConnectKeys(schema.models[s.refModel].name, s.field.name, s.ids);
        if fk in r {
          var k :| 0 <= k < |r| && r[k] == fk;
        }
      }
    }
  }

  /** The inner loop over the ids of a `Connect`. */
  method PushConnect(r0: seq<ForeignKey>, treeName: string, field: string, ids: seq<nat>) returns (r: seq<ForeignKey>)
    requires forall k | 0 <= k < |ids| :: ids[k] < U64_LIMIT
    ensures r == r0 + ConnectKeys(treeName, field, ids)
  {
    r := r0;
    var j := 0;
    while j < |ids|
      invariant j <= |ids|
      invariant r == r0 + ConnectKeys(treeName, field, ids[..j])
    {
      assert ids[..j + 1][..j] == ids[..j];
      r := r + [ForeignKey(treeName, field, BE64(ids[j]))];
      j := j + 1;
    }
    assert ids[..j] == ids;
  }

  /** The inner loop over the elements of a `Many`. */
  method PushItems(r0: seq<ForeignKey>, st: Struct, items: seq<Item>, schema: Schema) returns (r: seq<ForeignKey>)
    requires ItemsReadable(st, items, schema)
    ensures r == r0 + ItemsKeys(st, items, schema)
  {
    r := r0;
    var j := 0;
    while j < |items|
      invariant j <= |items|
      invariant ItemsReadable(st, items[..j], schema)
      invariant r == r0 + ItemsKeys(st, items[..j], schema)
    {
      assert ItemsReadable(st, items[..j + 1], schema) && RefsReadable(st.fields, items[j].data, schema)
        && ItemsKeys(st, items[..j + 1], schema) == ItemsKeys(st, items[..j], schema) + KeysOf(st.fields, items[j].data, schema) by {
        assert items[..j + 1][..j] == items[..j];
        assert items[j] in items;
        assert forall it | it in items[..j + 1] :: it in items;
      }
      var more := GetForeignKeys(items[j].data, st.fields, schema);
      r := r + more;
      j := j + 1;
    }
    assert items[..j] == items;
  }

  /** The body of the loop of `collect_foreign_keys`: the references of one
      related record. */
  method PushStruct(r0: seq<ForeignKey>, s: InsertStruct, schema: Schema) returns (r: seq<ForeignKey>)
    requires StructReadable(s, schema)
    ensures r == r0 + StructKeys(s, schema)
  {
    r := r0;
    match s {
      case Connect(field, refModel, ids) =>
        if ids != [] {
          r := PushConnect(r, schema.models[refModel].name, field.name, ids);
        }
      case Many(st, _, items) =>
        r := PushItems(r, st, items, schema);
      case One(st, _, d) =>
        var more := GetForeignKeys(d, st.fields, schema);
        r := r + more;
      case _ =>
    }
  }

  /** `collect_foreign_keys`: the loop over the related records. */
  method CollectForeignKeys(data: seq<byte>, fields: seq<Field>, structs: seq<InsertStruct>, schema: Schema)
    returns (r: seq<ForeignKey>)
    requires RefsReadable(fields, data, schema) && StructsReadable(structs, schema)
    ensures r == Collected(data, fields, structs, schema)
  {
    r := GetForeignKeys(data, fields, schema);
    ghost var own := r;
    var i := 0;
    assert structs[..0] == [];
    while i < |structs|
      invariant i <= |structs|
      invariant StructsReadable(structs[..i], schema)
      invariant r == own + StructsKeys(structs[..i], schema)
    {
      ghost var done := StructsKeys(structs[..i], schema);
      assert StructReadable(structs[i], schema)
        && StructsReadable(structs[..i + 1], schema)
        && StructsKeys(structs[..i + 1], schema) == done + StructKeys(structs[i], schema) by {
        assert structs[..i + 1][..i] == structs[..i];
        assert structs[i] in structs;
        assert forall s | s in structs[..i + 1] :: s in structs;
      }
      r := PushStruct(r, structs[i], schema);
      assert r == own + (done + StructKeys(structs[i], schema)) by {
        Append3(own, done, StructKeys(structs[i], schema));
      }
      i := i + 1;
    }
    assert structs[..i] == structs;
  }

  // ---------------------------------------------------------------------
  // check_foreign_keys
  // ---------------------------------------------------------------------

  /** `check_foreign_keys` does not panic: the tree of every reference it
      reaches exists (it stops at the first missing record). */
  predicate CheckOk(ts: Trees, fks: seq<ForeignKey>)
    decreases |fks|
  {
    fks == []
    || (fks[0].treeName in ts && (Get(ts[fks[0].treeName], fks[0].id).Some? ==> CheckOk(ts, fks[1..])))
  }

  /** The referenced record exists. */
  predicate Present(ts: Trees, fk: ForeignKey)
  {
    fk.treeName in ts && Get(ts[fk.treeName], fk.id).Some?
  }

  /** The outcome of `check_foreign_keys`: Ok when every referenced record
      exists, and otherwise the violation of the first one missing, with
      its field and its id. */
  function Check(ts: Trees, fks: seq<ForeignKey>): (r: Result<(), InsertError>)
    requires CheckOk(ts, fks)
    ensures r.Ok? <==> forall fk | fk in fks :: Present(ts, fk)
    ensures r.Err? ==> exists k | 0 <= k < |fks| ::
      !Present(ts, fks[k]) && (forall j | 0 <= j < k :: Present(ts, fks[j]))
      && r.error == ForeignKeyViolation(fks[k].field, Val(fks[k].id))
    decreases |fks|
  {
    if fks == [] then Ok(())
    else if Get(ts[fks[0].treeName], fks[0].id).None? then
      assert fks[0] in fks;
      Err(ForeignKeyViolation(fks[0].field, Val(fks[0].id)))
    else
      var r := Check(ts, fks[1..]);
      assert forall fk :: fk in fks <==> fk == fks[0] || fk in fks[1..] by {
        assert fks == [fks[0]] + fks[1..];
      }
      if r.Err? then
        var k :| 0 <= k < |fks[1..]| && !Present(ts, fks[1..][k]) && (forall j | 0 <= j < k :: Present(ts, fks[1..][j]))
          && r.error == ForeignKeyViolation(fks[1..][k].field, Val(fks[1..][k].id));
        assert forall j | 0 <= j < k + 1 :: Present(ts, fks[j]) by {
          forall j | 0 <= j < k + 1 ensures Present(ts, fks[j]) {
            if j > 0 {
              assert fks[j] == fks[1..][j - 1];
            }
          }
        }
        assert fks[k + 1] == fks[1..][k];
        r
      else
        r
  }

  /** `check_foreign_keys`: the loop that returns at the first reference
      whose record is missing. */
  method CheckForeignKeys(ts: Trees, fks: seq<ForeignKey>) returns (r: Result<(), InsertError>)
    requires CheckOk(ts, fks)
    ensures r == Check(ts, fks)
  {
    var i := 0;
    while i < |fks|
      invariant i <= |fks| && CheckOk(ts, fks[i..])
      invariant Check(ts, fks[i..]) == Check(ts, fks)
    {
      assert fks[i..][1..] == fks[i + 1..];
      var item := fks[i];
      if Get(ts[item.treeName], item.id).None? {
        return Err(ForeignKeyViolation(item.field, Val(item.id)));
      }
      i := i + 1;
    }
    assert fks[i..] == [];
    return Ok(());
  }
}

=== FILE: indexes.dfy ===
/** The index layer: the index keys a document contributes (`get_indexes`),
    and the relation index trees written for a list of related ids
    (`insert_indexes`) and cleared for a record (`remove_indexes`). A write
    transaction is one value of the trees, so these are functions from the
    trees before to the trees after. */
module Indexes {
  import opened Wrappers
  import opened Bytes
  import opened Layout
  import opened Schema
  import opened Offsets
  import opened Store
  import opened Keys

  /** One index entry to write: the tree and the key (the value is `[1]`). */
  datatype IndexData = IndexData(treeName: string, key: seq<byte>)

  // ---------------------------------------------------------------------
  // get_indexes
  // ---------------------------------------------------------------------

  /** `get_value_with_len` at `pos` does not panic. */
  predicate ValueReadable(d: seq<byte>, pos: nat, payloadOffset: nat)
  {
    pos + 4 <= |d|
    && (GetOffset(d, pos) != 0 ==>
          ReadsOk(|d|, pos + 4, payloadOffset, 4)
          && GetOffset(d, pos) <= EndAt(d, pos + 4, payloadOffset) <= |d|)
  }

  /** What `get_value_with_len` returns (the method `GetValueWithLen`
      computes it). */
  function StoredValue(d: seq<byte>, pos: nat, payloadOffset: nat): Option<seq<byte>>
    requires ValueReadable(d, pos, payloadOffset)
  {
    if GetOffset(d, pos) == 0 then None
    else Some(d[GetOffset(d, pos)..EndAt(d, pos + 4, payloadOffset)])
  }

  /** The mask bit of the field is in range when `get_indexes` reads it. */
  predicate MaskReadable(f: Field, mask: Option<seq<bool>>)
  {
    f.offsetPos == 0 || f.insertedIndexes == [] || mask.None? || f.offsetIndex < |mask.value|
  }

  /** The field is one `get_indexes` reads a value for: it has a slot and
      indexes, and the mask (if any) has its bit set. */
  predicate Indexed(f: Field, mask: Option<seq<bool>>)
    requires MaskReadable(f, mask)
  {
    f.offsetPos != 0 && f.insertedIndexes != [] && (mask.None? || mask.value[f.offsetIndex])
  }

  /** `get_indexes` does not panic on this field. */
  predicate FieldIndexable(f: Field, d: seq<byte>, payloadOffset: nat, mask: Option<seq<bool>>)
  {
    MaskReadable(f, mask) && (Indexed(f, mask) ==> ValueReadable(d, f.offsetPos, payloadOffset))
  }

  predicate AllIndexable(fields: seq<Field>, d: seq<byte>, payloadOffset: nat, mask: Option<seq<bool>>)
  {
    forall f | f in fields :: FieldIndexable(f, d, payloadOffset, mask)
  }

  /** The key one index gets for the value `v` of record `id`: Direct is
      `be(id) ++ v`, Rev is `v ++ be(id)`. */
  function IndexKey(ix: InsertedIndex, v: seq<byte>, id: nat): IndexData
    requires id < U64_LIMIT
  {
    match ix
    case Rev(n) => IndexData(n, v + BE64(id))
    case Direct(n) => IndexData(n, BE64(id) + v)
  }

  /** The keys of all the field's indexes, in the order they are declared. */
  function KeysFor(ixs: seq<InsertedIndex>, v: seq<byte>, id: nat): (r: seq<IndexData>)
    requires id < U64_LIMIT
    ensures |r| == |ixs|
    ensures forall x :: x in r <==> exists ix | ix in ixs :: x == IndexKey(ix, v, id)
    decreases |ixs|
  {
    if ixs == [] then []
    else
      var init := ixs[..|ixs| - 1];
      var r := KeysFor(init, v, id) + [IndexKey(ixs[|ixs| - 1], v, id)];
      assert ixs == init + [ixs[|ixs| - 1]];
      r
  }

  /** The entries one field contributes. */
  function FieldIndexes(f: Field, d: seq<byte>, id: nat, payloadOffset: nat, mask: Option<seq<bool>>): seq<IndexData>
    requires id < U64_LIMIT && FieldIndexable(f, d, payloadOffset, mask)
  {
    if !Indexed(f, mask) then []
    else
      match StoredValue(d, f.offsetPos, payloadOffset)
      case None => []
      case Some(v) => KeysFor(f.insertedIndexes, v, id)
  }

  /** The entries of all fields, field by field. */
  function IndexesOf(fields: seq<Field>, d: seq<byte>, id: nat, payloadOffset: nat, mask: Option<seq<bool>>): seq<IndexData>
    requires id < U64_LIMIT && AllIndexable(fields, d, payloadOffset, mask)
    decreases |fields|
  {
    if fields == [] then []
    else
      var init := fields[..|fields| - 1];
      assert forall f | f in init :: f in fields;
      IndexesOf(init, d, id, payloadOffset, mask) + FieldIndexes(fields[|fields| - 1], d, id, payloadOffset, mask)
  }

  /** The field gives the entry `x`: it is read, its value is not null and
      one of its indexes makes `x` of that value. */
  predicate Emits(f: Field, d: seq<byte>, id: nat, payloadOffset: nat, mask: Option<seq<bool>>, x: IndexData)
    requires id < U64_LIMIT && FieldIndexable(f, d, payloadOffset, mask)
  {
    Indexed(f, mask)
    && StoredValue(d, f.offsetPos, payloadOffset).Some?
    && exists ix | ix in f.insertedIndexes :: x == IndexKey(ix, StoredValue(d, f.offsetPos, payloadOffset).value, id)
  }

  /** `get_indexes` emits exactly the entries some field gives: nothing for
      a field without a slot, without indexes, masked off or null, and for
      every other field one entry per index. */
  lemma {:induction false} IndexesOfMember(fields: seq<Field>, d: seq<byte>, id: nat, payloadOffset: nat,
                                           mask: Option<seq<bool>>, x: IndexData)
    requires id < U64_LIMIT && AllIndexable(fields, d, payloadOffset, mask)
    ensures x in IndexesOf(fields, d, id, payloadOffset, mask)
            <==> exists f | f in fields :: Emits(f, d, id, payloadOffset, mask, x)
    decreases |fields|
  {
    if fields != [] {
      var init, last := fields[..|fields| - 1], fields[|fields| - 1];
      assert forall f | f in init :: f in fields;
      IndexesOfMember(init, d, id, payloadOffset, mask, x);
      assert fields == init + [last];
      assert x in FieldIndexes(last, d, id, payloadOffset, mask) <==> Emits(last, d, id, payloadOffset, mask, x);
    }
  }

  /** One more field: its entries follow those of the fields before it. */
  lemma IndexesOfStep(fields: seq<Field>, i: nat, d: seq<byte>, id: nat, payloadOffset: nat, mask: Option<seq<bool>>)
    requires i < |fields| && id < U64_LIMIT && AllIndexable(fields, d, payloadOffset, mask)
    ensures AllIndexable(fields[..i], d, payloadOffset, mask) && FieldIndexable(fields[i], d, payloadOffset, mask)
    ensures IndexesOf(fields[..i + 1], d, id, payloadOffset, mask)
            == IndexesOf(fields[..i], d, id, payloadOffset, mask) + FieldIndexes(fields[i], d, id, payloadOffset, mask)
  {
    assert fields[..i + 1][..i] == fields[..i] && fields[..i + 1][i] == fields[i];
    assert fields[i] in fields;
    assert forall f | f in fields[..i] :: f in fields;
    assert forall f | f in fields[..i + 1] :: f in fields;
  }

  /** The inner loop of `get_indexes`: one entry per index of the field. */
  method PushKeys(indexes: seq<IndexData>, ixs: seq<InsertedIndex>, v: seq<byte>, id: nat) returns (r: seq<IndexData>)
    requires id < U64_LIMIT
    ensures r == indexes + KeysFor(ixs, v, id)
  {
    r := indexes;
    var j := 0;
    while j < |ixs|
      invariant j <= |ixs|
      invariant r == indexes + KeysFor(ixs[..j], v, id)
    {
      assert ixs[..j + 1][..j] == ixs[..j];
      r := r + [IndexKey(ixs[j], v, id)];
      j := j + 1;
    }
    assert ixs[..j] == ixs;
  }

  /** The body of the loop of `get_indexes` for one field: skipped without
      a slot, without indexes or masked off, and nothing for a null value. */
  method PushFieldKeys(indexes: seq<IndexData>, field: Field, data: seq<byte>, itemId: nat, payloadOffset: nat,
                       mask: Option<seq<bool>>) returns (r: seq<IndexData>)
    requires itemId < U64_LIMIT && FieldIndexable(field, data, payloadOffset, mask)
    ensures r == indexes + FieldIndexes(field, data, itemId, payloadOffset, mask)
  {
    r := indexes;
    if field.offsetPos == 0 || field.insertedIndexes == [] {
    } else if mask.Some? && !mask.value[field.offsetIndex] {
    } else {
      var value := GetValueWithLen(data, field.offsetPos, payloadOffset);
      if value.Some? {
        r := PushKeys(indexes, field.insertedIndexes, value.value, itemId);
      }
    }
    if r == indexes {
      assert indexes + [] == indexes;
    }
  }

  /** `get_indexes`: the loop over the fields and, inside it, over their
      indexes. */
  method GetIndexes(data: seq<byte>, itemId: nat, shape: Shape, mask: Option<seq<bool>>) returns (indexes: seq<IndexData>)
    requires itemId < U64_LIMIT && AllIndexable(shape.fields, data, shape.payloadOffset, mask)
    ensures indexes == IndexesOf(shape.fields, data, itemId, shape.payloadOffset, mask)
  {
    var fields, payloadOffset := shape.fields, shape.payloadOffset;
    indexes := [];
    var i := 0;
    assert fields[..0] == [];
    while i < |fields|
      invariant i <= |fields| && AllIndexable(fields[..i], data, payloadOffset, mask)
      invariant indexes == IndexesOf(fields[..i], data, itemId, payloadOffset, mask)
    {
      IndexesOfStep(fields, i, data, itemId, payloadOffset, mask);
      indexes := PushFieldKeys(indexes, fields[i], data, itemId, payloadOffset, mask);
      i := i + 1;
    }
    assert fields[..i] == fields;
  }

  /** In a well-formed document whose slots follow the model's layout, the
      value an indexed field contributes is its region. */
  lemma StoredValueIsRegion(m: Model, d: seq<byte>, i: nat)
    requires ModelLayout(m) && i < |m.fields| && !IsVirtual(m.fields[i])
    requires WellFormed(d, NonVirtualCount(m.fields))
    ensures m.fields[i].offsetIndex < NonVirtualCount(m.fields)
    ensures ValueReadable(d, m.fields[i].offsetPos, m.payloadOffset)
    ensures StoredValue(d, m.fields[i].offsetPos, m.payloadOffset)
            == Regions(d, NonVirtualCount(m.fields))[m.fields[i].offsetIndex]
  {
    var n := NonVirtualCount(m.fields);
    var k := m.fields[i].offsetIndex;
    assert k == NonVirtualCount(m.fields[..i]) && m.fields[i].offsetPos == SlotPos(k) by {
      assert SlotsFrom(m.fields, 0);
    }
    assert k < n by {
      NonVirtualPrefix(m.fields, i);
    }
    StoredValueAtSlot(d, n, k, m.fields[i].offsetPos, m.payloadOffset);
  }

  /** The value read from slot `k` of a well-formed document is region `k`. */
  lemma StoredValueAtSlot(d: seq<byte>, n: nat, k: nat, pos: nat, payloadOffset: nat)
    requires WellFormed(d, n) && k < n && pos == SlotPos(k) && payloadOffset == PayloadStart(n)
    ensures ValueReadable(d, pos, payloadOffset)
    ensures StoredValue(d, pos, payloadOffset) == Regions(d, n)[k]
  {
    GetValueWithLenOfRegion(d, n, k);
  }

  /** A stored field's slot index is below the number of stored fields. */
  lemma {:induction false} NonVirtualPrefix(fields: seq<Field>, i: nat)
    requires i < |fields| && !IsVirtual(fields[i])
    ensures NonVirtualCount(fields[..i]) < NonVirtualCount(fields)
    decreases i
  {
    if i > 0 {
      NonVirtualPrefix(fields[1..], i - 1);
      assert fields[..i][1..] == fields[1..][..i - 1];
    } else {
      assert fields[..0] == [];
    }
  }

  // ---------------------------------------------------------------------
  // insert_indexes
  // ---------------------------------------------------------------------

  /** The key `insert_index` writes for the related id `cid`: Direct trees
      hold `make_key(id, cid)`, Rev trees `make_key(cid, id)`. */
  function PairKey(ix: InsertedIndex, id: nat, cid: nat): seq<byte>
    requires id < U64_LIMIT && cid < U64_LIMIT
  {
    match ix
    case Direct(_) => MakeKey(id, cid)
    case Rev(_) => MakeKey(cid, id)
  }

  predicate IdsOk(ids: seq<nat>)
  {
    forall cid | cid in ids :: cid < U64_LIMIT
  }

  /** The keys one index tree gets, one per related id. */
  function PairKeys(ix: InsertedIndex, id: nat, ids: seq<nat>): (r: seq<seq<byte>>)
    requires id < U64_LIMIT && IdsOk(ids)
    ensures forall x :: x in r <==> exists cid | cid in ids :: x == PairKey(ix, id, cid)
    decreases |ids|
  {
    if ids == [] then []
    else
      var init, last := ids[..|ids| - 1], ids[|ids| - 1];
      assert ids == init + [last];
      assert last in ids && forall cid | cid in init :: cid in ids;
      PairKeys(ix, id, init) + [PairKey(ix, id, last)]
  }

  /** Each key of `keys` inserted into the tree with the value `[1]`. */
  function InsertOnes(t: Tree, keys: seq<seq<byte>>): (r: Tree)
    requires Sorted(t)
    ensures Sorted(r)
    ensures forall x :: Get(r, x) == if x in keys then Some([1]) else Get(t, x)
    decreases |keys|
  {
    if keys == [] then t
    else
      var init, last := keys[..|keys| - 1], keys[|keys| - 1];
      assert forall x :: x in keys <==> x in init || x == last by {
        assert keys == init + [last];
      }
      Insert(InsertOnes(t, init), last, [1])
  }

  /** The index trees of `ixs` exist. */
  predicate TreesOf(ixs: seq<InsertedIndex>, ts: Trees)
  {
    forall ix | ix in ixs :: ix.treeName in ts
  }

  /** `x` is a key one of the indexes in `ixs` over tree `m` gets. */
  predicate Paired(ixs: seq<InsertedIndex>, m: string, id: nat, ids: seq<nat>, x: seq<byte>)
    requires id < U64_LIMIT && IdsOk(ids)
  {
    exists ix | ix in ixs :: ix.treeName == m && x in PairKeys(ix, id, ids)
  }

  /** The loop over the indexes of the field. */
  function InsertPairs(ts: Trees, ixs: seq<InsertedIndex>, id: nat, ids: seq<nat>): (r: Trees)
    requires TreesOk(ts) && TreesOf(ixs, ts) && id < U64_LIMIT && IdsOk(ids)
    ensures TreesOk(r) && r.Keys == ts.Keys
    ensures forall m, x {:trigger Get(r[m], x)} | m in ts :: Get(r[m], x) == if Paired(ixs, m, id, ids, x) then Some([1]) else Get(ts[m], x)
    decreases |ixs|
  {
    if ixs == [] then ts
    else
      var init, last := ixs[..|ixs| - 1], ixs[|ixs| - 1];
      assert forall ix :: ix in ixs <==> ix in init || ix == last by {
        assert ixs == init + [last];
      }
      var acc := InsertPairs(ts, init, id, ids);
      var n := last.treeName;
      var r := acc[n := InsertOnes(acc[n], PairKeys(last, id, ids))];
      forall m, x | m in ts
        ensures Get(r[m], x) == if Paired(ixs, m, id, ids, x) then Some([1]) else Get(ts[m], x)
      {
        assert Paired(ixs, m, id, ids, x) <==> Paired(init, m, id, ids, x) || (m == n && x in PairKeys(last, id, ids));
      }
      r
  }

  /** `insert_indexes`: nothing when there are no related ids; otherwise
      every index tree of the field gets its key for every related id, with
      the value `[1]`, and no other key changes. */
  function InsertIndexes(ts: Trees, field: Field, id: nat, ids: seq<nat>): (r: Trees)
    requires TreesOk(ts) && TreesOf(field.insertedIndexes, ts) && id < U64_LIMIT && IdsOk(ids)
    ensures TreesOk(r) && r.Keys == ts.Keys
    ensures ids == [] ==> r == ts
    ensures forall m, x {:trigger Get(r[m], x)} | m in ts ::
      Get(r[m], x) == if Paired(field.insertedIndexes, m, id, ids, x) then Some([1]) else Get(ts[m], x)
  {
    if ids == [] then ts else InsertPairs(ts, field.insertedIndexes, id, ids)
  }

  /** After `insert_indexes` the relation reads back from both sides: the
      Direct tree's scan of `be(id)` finds `be(cid)` and the Rev tree holds
      `make_key(cid, id)`. */
  lemma InsertedPairVisible(ts: Trees, field: Field, id: nat, ids: seq<nat>, ix: InsertedIndex, cid: nat)
    requires TreesOk(ts) && TreesOf(field.insertedIndexes, ts) && id < U64_LIMIT && IdsOk(ids)
    requires ix in field.insertedIndexes && cid in ids
    ensures ix.Direct? ==> BE64(cid) in FindByDirect(InsertIndexes(ts, field, id, ids)[ix.treeName], id)
    ensures ix.Rev? ==> Get(InsertIndexes(ts, field, id, ids)[ix.treeName], MakeKey(cid, id)) == Some([1])
  {
    var r := InsertIndexes(ts, field, id, ids);
    assert PairKey(ix, id, cid) in PairKeys(ix, id, ids);
    assert Paired(field.insertedIndexes, ix.treeName, id, ids, PairKey(ix, id, cid));
    assert Get(r[ix.treeName], PairKey(ix, id, cid)) == Some([1]);
  }

  // ---------------------------------------------------------------------
  // remove_indexes
  // ---------------------------------------------------------------------

  predicate HasDirect(ixs: seq<InsertedIndex>)
  {
    exists ix | ix in ixs :: ix.Direct?
  }

  /** The first Direct index (`find`; the source panics when there is none). */
  function FirstDirect(ixs: seq<InsertedIndex>): (r: InsertedIndex)
    requires HasDirect(ixs)
    ensures r in ixs && r.Direct?
    ensures forall k | 0 <= k < |ixs| && ixs[k].Direct? :: ixs[k] == r || exists j | 0 <= j < k :: ixs[j] == r
  {
    if ixs[0].Direct? then ixs[0]
    else
      assert HasDirect(ixs[1..]) by {
        var ix :| ix in ixs && ix.Direct?;
        assert ix in ixs[1..];
      }
      var r := FirstDirect(ixs[1..]);
      forall k | 0 <= k < |ixs| && ixs[k].Direct?
        ensures ixs[k] == r || exists j | 0 <= j < k :: ixs[j] == r
      {
        assert ixs[1..][k - 1] == ixs[k];
        if ixs[k] != r {
          var j :| 0 <= j < k - 1 && ixs[1..][j] == r;
          assert ixs[j + 1] == r;
        }
      }
      r
  }

  /** The Rev indexes, in order (`filter`). */
  function Revs(ixs: seq<InsertedIndex>): (r: seq<InsertedIndex>)
    ensures forall ix :: ix in r <==> ix in ixs && ix.Rev?
    decreases |ixs|
  {
    if ixs == [] then []
    else
      var init, last := ixs[..|ixs| - 1], ixs[|ixs| - 1];
      assert ixs == init + [last];
      Revs(init) + (if last.Rev? then [last] else [])
  }

  /** Each key of `keys` deleted from the tree. */
  function DeleteAll(t: Tree, keys: seq<seq<byte>>): (r: Tree)
    requires Sorted(t)
    ensures Sorted(r)
    ensures forall x :: Get(r, x) == if x in keys then None else Get(t, x)
    decreases |keys|
  {
    if keys == [] then t
    else
      var init, last := keys[..|keys| - 1], keys[|keys| - 1];
      assert forall x :: x in keys <==> x in init || x == last by {
        assert keys == init + [last];
      }
      Delete(DeleteAll(t, init), last).0
  }

  /** `m` is the tree of one of the indexes. */
  predicate IndexTree(ixs: seq<InsertedIndex>, m: string)
  {
    exists ix | ix in ixs :: ix.treeName == m
  }

  /** The keys deleted from every Rev tree. */
  function DelFromRevs(ts: Trees, revs: seq<InsertedIndex>, keys: seq<seq<byte>>): (r: Trees)
    requires TreesOk(ts) && TreesOf(revs, ts)
    ensures TreesOk(r) && r.Keys == ts.Keys
    ensures forall m, x {:trigger Get(r[m], x)} | m in ts :: Get(r[m], x) == if IndexTree(revs, m) && x in keys then None else Get(ts[m], x)
    decreases |revs|
  {
    if revs == [] then ts
    else
      var init, last := revs[..|revs| - 1], revs[|revs| - 1];
      assert forall ix :: ix in revs <==> ix in init || ix == last by {
        assert revs == init + [last];
      }
      var acc := DelFromRevs(ts, init, keys);
      var n := last.treeName;
      var r := acc[n := DeleteAll(acc[n], keys)];
      forall m, x | m in ts
        ensures Get(r[m], x) == if IndexTree(revs, m) && x in keys then None else Get(ts[m], x)
      {
        assert IndexTree(revs, m) <==> IndexTree(init, m) || m == n;
      }
      r
  }

  /** `m` is the tree of one of the Direct indexes. */
  predicate DirectTree(ixs: seq<InsertedIndex>, m: string)
  {
    exists ix | ix in ixs :: ix.Direct? && ix.treeName == m
  }

  /** `delete_range(be(id)..be(id + 1))` on every Direct tree. */
  function ClearDirect(ts: Trees, ixs: seq<InsertedIndex>, id: nat): (r: Trees)
    requires TreesOk(ts) && TreesOf(ixs, ts) && id + 1 < U64_LIMIT
    ensures TreesOk(r) && r.Keys == ts.Keys
    ensures forall m, x {:trigger Get(r[m], x)} | m in ts ::
      Get(r[m], x) == if DirectTree(ixs, m) && LexLe(BE64(id), x) && LexLt(x, BE64(id + 1)) then None else Get(ts[m], x)
    decreases |ixs|
  {
    if ixs == [] then ts
    else
      var init, last := ixs[..|ixs| - 1], ixs[|ixs| - 1];
      assert TreesOf(init, ts) by {
        assert forall ix | ix in init :: ix in ixs;
      }
      var acc := ClearDirect(ts, init, id);
      assert last in ixs;
      var r := if last.Direct? then acc[last.treeName := DeleteRange(acc[last.treeName], BE64(id), BE64(id + 1))] else acc;
      ClearDirectStep(ts, ixs, id, acc, r);
      r
  }

  /** One more index for `ClearDirect`: the trees cleared so far, and the
      last index's tree cleared too if it is a Direct one. */
  lemma ClearDirectStep(ts: Trees, ixs: seq<InsertedIndex>, id: nat, acc: Trees, r: Trees)
    requires ixs != [] && TreesOk(ts) && TreesOf(ixs, ts) && id + 1 < U64_LIMIT
    requires TreesOk(acc) && acc.Keys == ts.Keys
    requires forall m, x {:trigger Get(acc[m], x)} | m in ts ::
      Get(acc[m], x) == if DirectTree(ixs[..|ixs| - 1], m) && LexLe(BE64(id), x) && LexLt(x, BE64(id + 1)) then None else Get(ts[m], x)
    requires var last := ixs[|ixs| - 1];
      r == if last.Direct? then acc[last.treeName := DeleteRange(acc[last.treeName], BE64(id), BE64(id + 1))] else acc
    ensures TreesOk(r) && r.Keys == ts.Keys
    ensures forall m, x {:trigger Get(r[m], x)} | m in ts ::
      Get(r[m], x) == if DirectTree(ixs, m) && LexLe(BE64(id), x) && LexLt(x, BE64(id + 1)) then None else Get(ts[m], x)
  {
    var init, last := ixs[..|ixs| - 1], ixs[|ixs| - 1];
    assert forall ix :: ix in ixs <==> ix in init || ix == last by {
      assert ixs == init + [last];
    }
    assert last in ixs;
    forall m, x | m in ts
      ensures Get(r[m], x) == if DirectTree(ixs, m) && LexLe(BE64(id), x) && LexLt(x, BE64(id + 1)) then None else Get(ts[m], x)
    {
      assert DirectTree(ixs, m) <==> DirectTree(init, m) || (last.Direct? && m == last.treeName);
    }
  }

  /** `remove_indexes` does not panic: the trees exist, a Direct index is
      defined whenever there are indexes, and `id + 1` fits in a u64 on the
      paths that reach the range delete. */
  predicate RemoveOk(ts: Trees, field: Field, id: nat)
  {
    var ixs := field.insertedIndexes;
    TreesOk(ts) && TreesOf(ixs, ts) && id < U64_LIMIT
    && (ixs != [] ==> HasDirect(ixs) && (ReachesRangeDelete(ts, ixs, id) ==> id + 1 < U64_LIMIT))
  }

  /** A non-empty `remove_indexes` goes on to the range delete of the Direct
      trees unless it has Rev indexes and the Direct scan of `be(id)` finds
      nothing. */
  predicate ReachesRangeDelete(ts: Trees, ixs: seq<InsertedIndex>, id: nat)
    requires TreesOk(ts) && TreesOf(ixs, ts) && id < U64_LIMIT && HasDirect(ixs)
  {
    Revs(ixs) == [] || FindByDirect(ts[FirstDirect(ixs).treeName], id) != []
  }

  /** At the largest u64 id, `remove_indexes` is defined wherever the
      source never computes `id + 1`: for a field without indexes, and for
      one with Rev indexes whose Direct scan finds nothing. Both leave the
      trees as they are. */
  lemma RemoveAtLastId(ts: Trees, field: Field)
    requires TreesOk(ts) && TreesOf(field.insertedIndexes, ts)
    requires field.insertedIndexes != [] ==>
      HasDirect(field.insertedIndexes) && !ReachesRangeDelete(ts, field.insertedIndexes, U64_LIMIT - 1)
    ensures RemoveOk(ts, field, U64_LIMIT - 1)
    ensures RemoveIndexes(ts, field, U64_LIMIT - 1) == ts
  {
  }

  /** The keys deleted from the Rev trees: each scanned suffix followed by
      `suffix`. */
  function RevKeys(keys: seq<seq<byte>>, suffix: seq<byte>): (r: seq<seq<byte>>)
    ensures |r| == |keys|
    ensures forall x :: x in r <==> exists s | s in keys :: x == s + suffix
    decreases |keys|
  {
    if keys == [] then []
    else
      var init, last := keys[..|keys| - 1], keys[|keys| - 1];
      assert keys == init + [last];
      RevKeys(init, suffix) + [last + suffix]
  }

  /** With no suffix the deleted keys are the scanned ones themselves. */
  lemma {:induction false} RevKeysEmpty(keys: seq<seq<byte>>)
    ensures RevKeys(keys, []) == keys
    decreases |keys|
  {
    if keys != [] {
      var init, last := keys[..|keys| - 1], keys[|keys| - 1];
      RevKeysEmpty(init);
      assert last + [] == last;
      assert keys == init + [last];
    }
  }

  /** The shape of `remove_indexes`: the keys the Direct scan of `be(id)`
      finds, each followed by `suffix`, are deleted from every Rev tree
      (stopping early when the scan is empty), then every Direct tree loses
      the keys in `[be(id), be(id + 1))`. */
  function RemoveIndexesWith(ts: Trees, field: Field, id: nat, suffix: seq<byte>): (r: Trees)
    requires RemoveOk(ts, field, id)
    ensures TreesOk(r) && r.Keys == ts.Keys
    ensures forall m, x {:trigger Get(r[m], x)} | m in ts && !IndexTree(field.insertedIndexes, m) :: Get(r[m], x) == Get(ts[m], x)
  {
    var ixs := field.insertedIndexes;
    if ixs == [] then ts
    else
      var direct := FirstDirect(ixs);
      var revs := Revs(ixs);
      var keys := FindByDirect(ts[direct.treeName], id);
      if revs != [] && keys == [] then ts
      else
        var ts1 := if revs != [] then DelFromRevs(ts, revs, RevKeys(keys, suffix)) else ts;
        var r := ClearDirect(ts1, ixs, id);
        forall m, x | m in ts && !IndexTree(ixs, m) ensures Get(r[m], x) == Get(ts[m], x) {
          assert !DirectTree(ixs, m) && !IndexTree(revs, m);
        }
        r
  }

  /** `remove_indexes`, as written: the Rev trees lose the scanned
      suffixes `be(cid)` themselves. */
  function RemoveIndexes(ts: Trees, field: Field, id: nat): (r: Trees)
    requires RemoveOk(ts, field, id)
    ensures TreesOk(r) && r.Keys == ts.Keys
    ensures forall m, x {:trigger Get(r[m], x)} | m in ts && !IndexTree(field.insertedIndexes, m) :: Get(r[m], x) == Get(ts[m], x)
  {
    RemoveIndexesWith(ts, field, id, [])
  }

  /** `remove_indexes` as intended: the Rev trees lose the keys
      `make_key(cid, id)` that `insert_indexes` wrote for the scanned
      `be(cid)`. */
  function RemoveIndexesCorrected(ts: Trees, field: Field, id: nat): (r: Trees)
    requires RemoveOk(ts, field, id)
    ensures TreesOk(r) && r.Keys == ts.Keys
    ensures forall m, x {:trigger Get(r[m], x)} | m in ts && !IndexTree(field.insertedIndexes, m) :: Get(r[m], x) == Get(ts[m], x)
  {
    RemoveIndexesWith(ts, field, id, BE64(id))
  }

  /** Every Direct tree of the field holds only keys of eight bytes or more. */
  ghost predicate DirectKeysLong(ts: Trees, ixs: seq<InsertedIndex>)
    requires TreesOf(ixs, ts)
  {
    forall ix | ix in ixs && ix.Direct? :: KeysAtLeast(ts[ix.treeName], 8)
  }

  /** A Direct tree whose keys have eight bytes or more scans to nothing
      once `ClearDirect` has run. */
  lemma ClearedScan(ts: Trees, ixs: seq<InsertedIndex>, id: nat, n: string)
    requires TreesOk(ts) && TreesOf(ixs, ts) && id + 1 < U64_LIMIT
    requires n in ts && DirectTree(ixs, n) && KeysAtLeast(ts[n], 8)
    ensures FindByDirect(ClearDirect(ts, ixs, id)[n], id) == []
  {
    var r := ClearDirect(ts, ixs, id);
    forall x | IsPrefix(BE64(id), x) ensures Get(r[n], x).None? {
      if Get(ts[n], x).Some? {
        PrefixRange(id, x);
      }
    }
    ScanEmpty(r[n], id);
  }

  /** Deleting from the Rev trees keeps every tree's keys long. */
  lemma DelFromRevsKeepsLong(ts: Trees, revs: seq<InsertedIndex>, keys: seq<seq<byte>>, n: string)
    requires TreesOk(ts) && TreesOf(revs, ts) && n in ts && KeysAtLeast(ts[n], 8)
    ensures KeysAtLeast(DelFromRevs(ts, revs, keys)[n], 8)
  {
    var r := DelFromRevs(ts, revs, keys);
    forall x | Get(r[n], x).Some? ensures |x| >= 8 {
      assert Get(ts[n], x).Some?;
    }
  }

  /** After `remove_indexes`, either form, the scan of `be(id)` in the
      first Direct tree is empty, and when the function did not stop early
      every Direct tree has lost all its keys with prefix `be(id)`. */
  lemma RemoveIndexesClearsDirect(ts: Trees, field: Field, id: nat, suffix: seq<byte>)
    requires RemoveOk(ts, field, id) && HasDirect(field.insertedIndexes)
    requires DirectKeysLong(ts, field.insertedIndexes)
    ensures var r := RemoveIndexesWith(ts, field, id, suffix);
      FindByDirect(r[FirstDirect(field.insertedIndexes).treeName], id) == []
    ensures var ixs := field.insertedIndexes;
      Revs(ixs) == [] || FindByDirect(ts[FirstDirect(ixs).treeName], id) != [] ==>
      forall ix | ix in ixs && ix.Direct? :: FindByDirect(RemoveIndexesWith(ts, field, id, suffix)[ix.treeName], id) == []
  {
    var ixs := field.insertedIndexes;
    var direct := FirstDirect(ixs);
    var revs := Revs(ixs);
    var keys := RevKeys(FindByDirect(ts[direct.treeName], id), suffix);
    if !(revs != [] && keys == []) {
      var ts1 := if revs != [] then DelFromRevs(ts, revs, keys) else ts;
      assert RemoveIndexesWith(ts, field, id, suffix) == ClearDirect(ts1, ixs, id);
      forall ix | ix in ixs && ix.Direct?
        ensures FindByDirect(ClearDirect(ts1, ixs, id)[ix.treeName], id) == []
      {
        assert KeysAtLeast(ts1[ix.treeName], 8) by {
          if revs != [] {
            DelFromRevsKeepsLong(ts, revs, keys, ix.treeName);
          }
        }
        ClearedScan(ts1, ixs, id, ix.treeName);
      }
    }
  }

  /** A tree without keys of prefix `be(id)` scans to nothing. */
  lemma ScanEmpty(t: Tree, id: nat)
    requires Sorted(t) && id < U64_LIMIT
    requires forall x | IsPrefix(BE64(id), x) :: Get(t, x).None?
    ensures FindByDirect(t, id) == []
  {
    var r := FindByDirect(t, id);
    if r != [] {
      assert r[0] in r;
      assert IsPrefix(BE64(id), BE64(id) + r[0]);
      assert false;
    }
  }

  /** As written, `remove_indexes` deletes the eight-byte suffixes `be(cid)`
      from the Rev trees, which hold the sixteen-byte keys
      `make_key(cid, id)`: such a key survives whenever the Direct scan
      finds only eight-byte suffixes and the Rev tree is not also a Direct
      tree of the field. */
  lemma RemoveIndexesKeepsRevPairs(ts: Trees, field: Field, id: nat, rev: InsertedIndex, x: seq<byte>)
    requires RemoveOk(ts, field, id) && HasDirect(field.insertedIndexes)
    requires rev in field.insertedIndexes && rev.Rev? && |x| == 16
    requires !DirectTree(field.insertedIndexes, rev.treeName)
    requires forall s | s in FindByDirect(ts[FirstDirect(field.insertedIndexes).treeName], id) :: |s| == 8
    ensures Get(RemoveIndexes(ts, field, id)[rev.treeName], x) == Get(ts[rev.treeName], x)
  {
    var ixs := field.insertedIndexes;
    var revs := Revs(ixs);
    var found := FindByDirect(ts[FirstDirect(ixs).treeName], id);
    if !(revs != [] && found == []) {
      var ts1 := if revs != [] then DelFromRevs(ts, revs, RevKeys(found, [])) else ts;
      RevUntouched(ts, ixs, revs, found, ts1, id, rev.treeName, x);
    }
  }

  /** With the correction, `remove_indexes` clears the relation from the
      Rev side too: for every `be(cid)` the Direct scan of `be(id)` finds,
      every Rev tree of the field loses `make_key(cid, id)`. */
  lemma RemoveIndexesCorrectedClearsRev(ts: Trees, field: Field, id: nat, rev: InsertedIndex, cid: nat)
    requires RemoveOk(ts, field, id) && HasDirect(field.insertedIndexes)
    requires rev in field.insertedIndexes && rev.Rev? && cid < U64_LIMIT
    requires BE64(cid) in FindByDirect(ts[FirstDirect(field.insertedIndexes).treeName], id)
    ensures Get(RemoveIndexesCorrected(ts, field, id)[rev.treeName], MakeKey(cid, id)) == None
  {
    var ixs := field.insertedIndexes;
    var revs := Revs(ixs);
    var found := FindByDirect(ts[FirstDirect(ixs).treeName], id);
    var keys := RevKeys(found, BE64(id));
    assert rev in revs && MakeKey(cid, id) in keys;
    var ts1 := DelFromRevs(ts, revs, keys);
    assert IndexTree(revs, rev.treeName);
    assert RemoveIndexesCorrected(ts, field, id) == ClearDirect(ts1, ixs, id);
  }

  /** The two steps of `remove_indexes` leave a sixteen-byte key of a tree
      that is not a Direct tree when the scanned suffixes have eight bytes. */
  lemma RevUntouched(ts: Trees, ixs: seq<InsertedIndex>, revs: seq<InsertedIndex>, found: seq<seq<byte>>, ts1: Trees,
                     id: nat, n: string, x: seq<byte>)
    requires TreesOk(ts) && TreesOf(ixs, ts) && TreesOf(revs, ts) && id + 1 < U64_LIMIT && n in ts
    requires !DirectTree(ixs, n) && |x| == 16 && forall s | s in found :: |s| == 8
    requires ts1 == if revs != [] then DelFromRevs(ts, revs, RevKeys(found, [])) else ts
    ensures TreesOk(ts1) && TreesOf(ixs, ts1) && Get(ClearDirect(ts1, ixs, id)[n], x) == Get(ts[n], x)
  {
    assert x !in RevKeys(found, []);
  }

  // ---------------------------------------------------------------------
  // The loops of insert_indexes and remove_indexes
  // ---------------------------------------------------------------------

  /** One index of `insert_indexes`: `insert_index` for every related id. */
  method InsertPairsInto(t: Tree, ix: InsertedIndex, id: nat, ids: seq<nat>) returns (r: Tree)
    requires Sorted(t) && id < U64_LIMIT && IdsOk(ids)
    ensures r == InsertOnes(t, PairKeys(ix, id, ids))
  {
    r := t;
    var j := 0;
    assert ids[..0] == [];
    while j < |ids|
      invariant j <= |ids| && IdsOk(ids[..j]) && r == InsertOnes(t, PairKeys(ix, id, ids[..j]))
    {
      PairKeysSnoc(t, ix, id, ids, j);
      r := Insert(r, PairKey(ix, id, ids[j]), [1]);
      j := j + 1;
    }
    assert ids[..j] == ids;
  }

  /** One more related id of the inner loop of `insert_indexes`. */
  lemma PairKeysSnoc(t: Tree, ix: InsertedIndex, id: nat, ids: seq<nat>, j: nat)
    requires Sorted(t) && id < U64_LIMIT && IdsOk(ids) && j < |ids|
    ensures IdsOk(ids[..j]) && IdsOk(ids[..j + 1]) && ids[j] < U64_LIMIT
    ensures InsertOnes(t, PairKeys(ix, id, ids[..j + 1]))
      == Insert(InsertOnes(t, PairKeys(ix, id, ids[..j])), PairKey(ix, id, ids[j]), [1])
  {
    assert ids[j] in ids;
    assert forall cid | cid in ids[..j] :: cid in ids;
    assert ids[..j + 1] == ids[..j] + [ids[j]];
    assert ids[..j + 1][..j] == ids[..j] && ids[..j + 1][j] == ids[j];
    var keys := PairKeys(ix, id, ids[..j]);
    assert PairKeys(ix, id, ids[..j + 1]) == keys + [PairKey(ix, id, ids[j])];
    assert (keys + [PairKey(ix, id, ids[j])])[..|keys|] == keys;
  }

  /** `insert_indexes`: the loop over the field's indexes. */
  method InsertIndexesLoop(ts: Trees, field: Field, id: nat, ids: seq<nat>) returns (r: Trees)
    requires TreesOk(ts) && TreesOf(field.insertedIndexes, ts) && id < U64_LIMIT && IdsOk(ids)
    ensures r == InsertIndexes(ts, field, id, ids)
  {
    if ids == [] {
      return ts;
    }
    var ixs := field.insertedIndexes;
    r := ts;
    var i := 0;
    assert ixs[..0] == [];
    while i < |ixs|
      invariant i <= |ixs| && r == InsertPairs(ts, ixs[..i], id, ids)
    {
      InsertPairsSnoc(ts, ixs, i, id, ids);
      var n := ixs[i].treeName;
      var t := InsertPairsInto(r[n], ixs[i], id, ids);
      r := r[n := t];
      i := i + 1;
    }
    assert ixs[..i] == ixs;
  }

  /** One more index of the loop of `insert_indexes`. */
  lemma InsertPairsSnoc(ts: Trees, ixs: seq<InsertedIndex>, i: nat, id: nat, ids: seq<nat>)
    requires TreesOk(ts) && TreesOf(ixs, ts) && id < U64_LIMIT && IdsOk(ids) && i < |ixs|
    ensures TreesOf(ixs[..i], ts) && TreesOf(ixs[..i + 1], ts) && ixs[i].treeName in ts
    ensures var acc := InsertPairs(ts, ixs[..i], id, ids);
      InsertPairs(ts, ixs[..i + 1], id, ids) == acc[ixs[i].treeName := InsertOnes(acc[ixs[i].treeName], PairKeys(ixs[i], id, ids))]
  {
    assert ixs[i] in ixs;
    assert forall ix | ix in ixs[..i + 1] :: ix in ixs;
    assert ixs[..i + 1][..i] == ixs[..i] && ixs[..i + 1][i] == ixs[i];
  }

  /** One Rev index of `remove_indexes`: `delete` for every key. */
  method DeleteKeys(t: Tree, keys: seq<seq<byte>>) returns (r: Tree)
    requires Sorted(t)
    ensures r == DeleteAll(t, keys)
  {
    r := t;
    var j := 0;
    assert keys[..0] == [];
    while j < |keys|
      invariant j <= |keys| && r == DeleteAll(t, keys[..j])
    {
      assert keys[..j + 1][..j] == keys[..j] && keys[..j + 1][j] == keys[j];
      r := Delete(r, keys[j]).0;
      j := j + 1;
    }
    assert keys[..j] == keys;
  }

  /** `remove_indexes` with the source's loops: the suffixes found by the
      Direct scan deleted from every Rev tree, then the range of `be(id)`
      deleted from every Direct tree. */
  method RemoveIndexesLoop(ts: Trees, field: Field, id: nat) returns (r: Trees)
    requires RemoveOk(ts, field, id)
    ensures r == RemoveIndexes(ts, field, id)
  {
    var ixs := field.insertedIndexes;
    if ixs == [] {
      return ts;
    }
    var direct := FirstDirect(ixs);
    var revs := Revs(ixs);
    r := ts;
    if revs != [] {
      var found := FindByDirect(ts[direct.treeName], id);
      if found == [] {
        return ts;
      }
      RevKeysEmpty(found);
      r := DeleteFromRevs(ts, revs, found);
    }
    r := ClearDirectLoop(r, ixs, id);
  }

  /** The first loop of `remove_indexes`: the keys deleted from every Rev
      tree. */
  method DeleteFromRevs(ts: Trees, revs: seq<InsertedIndex>, keys: seq<seq<byte>>) returns (r: Trees)
    requires TreesOk(ts) && TreesOf(revs, ts)
    ensures r == DelFromRevs(ts, revs, keys)
  {
    r := ts;
    var i := 0;
    assert revs[..0] == [];
    while i < |revs|
      invariant i <= |revs| && r == DelFromRevs(ts, revs[..i], keys)
    {
      DelFromRevsSnoc(ts, revs, i, keys);
      var n := revs[i].treeName;
      var t := DeleteKeys(r[n], keys);
      r := r[n := t];
      i := i + 1;
    }
    assert revs[..i] == revs;
  }

  /** The second loop of `remove_indexes`: the range of `be(id)` deleted
      from every Direct tree. */
  method ClearDirectLoop(ts: Trees, ixs: seq<InsertedIndex>, id: nat) returns (r: Trees)
    requires TreesOk(ts) && TreesOf(ixs, ts) && id + 1 < U64_LIMIT
    ensures r == ClearDirect(ts, ixs, id)
  {
    r := ts;
    var i := 0;
    assert ixs[..0] == [];
    while i < |ixs|
      invariant i <= |ixs| && r == ClearDirect(ts, ixs[..i], id)
    {
      ClearDirectSnoc(ts, ixs, i, id);
      r := ClearOne(r, ixs[i], id);
      i := i + 1;
    }
    assert ixs[..i] == ixs;
  }

  /** The body of the second loop of `remove_indexes`, for one index. */
  method ClearOne(ts: Trees, ix: InsertedIndex, id: nat) returns (r: Trees)
    requires TreesOk(ts) && ix.treeName in ts && id + 1 < U64_LIMIT
    ensures r == if ix.Direct? then ts[ix.treeName := DeleteRange(ts[ix.treeName], BE64(id), BE64(id + 1))] else ts
  {
    r := ts;
    if ix.Direct? {
      var n := ix.treeName;
      r := r[n := DeleteRange(r[n], BE64(id), BE64(id + 1))];
    }
  }

  /** One more Rev index of the first loop of `remove_indexes`. */
  lemma DelFromRevsSnoc(ts: Trees, revs: seq<InsertedIndex>, i: nat, keys: seq<seq<byte>>)
    requires TreesOk(ts) && TreesOf(revs, ts) && i < |revs|
    ensures TreesOf(revs[..i], ts) && TreesOf(revs[..i + 1], ts) && revs[i].treeName in ts
    ensures var acc := DelFromRevs(ts, revs[..i], keys);
      DelFromRevs(ts, revs[..i + 1], keys) == acc[revs[i].treeName := DeleteAll(acc[revs[i].treeName], keys)]
  {
    assert revs[i] in revs;
    assert forall ix | ix in revs[..i + 1] :: ix in revs;
    assert revs[..i + 1][..i] == revs[..i] && revs[..i + 1][i] == revs[i];
  }

  /** One more index of the second loop of `remove_indexes`. */
  lemma ClearDirectSnoc(ts: Trees, ixs: seq<InsertedIndex>, i: nat, id: nat)
    requires TreesOk(ts) && TreesOf(ixs, ts) && id + 1 < U64_LIMIT && i < |ixs|
    ensures TreesOf(ixs[..i], ts) && TreesOf(ixs[..i + 1], ts) && ixs[i].treeName in ts
    ensures var acc := ClearDirect(ts, ixs[..i], id);
      ClearDirect(ts, ixs[..i + 1], id)
        == if ixs[i].Direct? then acc[ixs[i].treeName := DeleteRange(acc[ixs[i].treeName], BE64(id), BE64(id + 1))] else acc
  {
    assert ixs[i] in ixs;
    assert forall ix | ix in ixs[..i + 1] :: ix in ixs;
    assert ixs[..i + 1][..i] == ixs[..i] && ixs[..i + 1][i] == ixs[i];
  }
}

=== FILE: json.dfy ===
/** The JSON values the encoder, the decoder and the projection parser work on
    (serde_json's `Value`), reduced to what those routines inspect. */
module Json {
  import opened Wrappers
  import opened Bytes

  /** serde_json's number: an integer (held as u64 or i64) or a float. */
  datatype Number = NInt(i: int) | NFloat

  /** Strings are the UTF-8 bytes of the text; object members are keyed by name. */
  datatype Json =
    | JNull
    | JBool(b: bool)
    | JNumber(n: Number)
    | JString(s: seq<byte>)
    | JArray(items: seq<Json>)
    | JObject(members: map<string, Json>)

  /** `Number::as_i64`: integers in the i64 range only. */
  function AsI64(n: Number): (r: Option<int>)
    ensures r.Some? ==> I64_MIN <= r.value < I64_LIMIT
  {
    match n
    case NInt(i) => if I64_MIN <= i < I64_LIMIT then Some(i) else None
    case NFloat => None
  }

  /** `Value::get` with a string index: the member of an object, nothing otherwise. */
  function Get(j: Json, key: string): (r: Option<Json>)
    ensures r.Some? ==> r.value < j
  {
    if j.JObject? && key in j.members then Some(j.members[key]) else None
  }

  /** `Value::as_bool`. */
  function AsBool(j: Json): Option<bool>
  {
    if j.JBool? then Some(j.b) else None
  }
}

=== FILE: keys.dfy ===
/** Keys of the store: record keys are `be(id)`, struct-list and relation
    keys are `be(a) ++ be(b)`, and every prefix scan and range deletion is on
    `be(id)`. Big-endian encoding keeps numeric order, which is what makes
    the range `[be(id), be(id + 1))` and the prefix `be(id)` the same set of
    keys. */
module Keys {
  import opened Wrappers
  import opened Bytes
  import opened Store

  // ---------------------------------------------------------------------
  // make_key
  // ---------------------------------------------------------------------

  /** `make_key`: sixteen bytes, `a` then `b`, each big-endian. */
  function MakeKey(a: nat, b: nat): (r: seq<byte>)
    requires a < U64_LIMIT && b < U64_LIMIT
    ensures |r| == 16
  {
    BE64(a) + BE64(b)
  }

  /** Both halves of a key can be read back. */
  lemma MakeKeyRecover(a: nat, b: nat)
    requires a < U64_LIMIT && b < U64_LIMIT
    ensures IsPrefix(BE64(a), MakeKey(a, b))
    ensures Val(MakeKey(a, b)[..8]) == a && Val(MakeKey(a, b)[8..]) == b
  {
    var k := MakeKey(a, b);
    assert k[..8] == BE64(a) && k[8..] == BE64(b);
    Pow256Widths();
    ValOfBE(a, 8);
    ValOfBE(b, 8);
  }

  /** Keys sort by their first number, then by their second. */
  lemma MakeKeyOrder(a: nat, b: nat, c: nat, d: nat)
    requires a < U64_LIMIT && b < U64_LIMIT && c < U64_LIMIT && d < U64_LIMIT
    ensures LexLt(MakeKey(a, b), MakeKey(c, d)) <==> a < c || (a == c && b < d)
  {
    LexConcat(BE64(a), BE64(c), BE64(b), BE64(d));
    BE64Order(a, c);
    BE64Order(b, d);
    BE64Injective(a, c);
  }

  // ---------------------------------------------------------------------
  // The range [be(id), be(id + 1)) is the prefix be(id)
  // ---------------------------------------------------------------------

  /** A key of at least eight bytes lies in `[be(id), be(id + 1))` exactly
      when it starts with `be(id)`. */
  lemma PrefixRange(id: nat, k: seq<byte>)
    requires id + 1 < U64_LIMIT && |k| >= 8
    ensures LexLe(BE64(id), k) && LexLt(k, BE64(id + 1)) <==> IsPrefix(BE64(id), k)
  {
    var u, s := k[..8], k[8..];
    assert k == u + s;
    var p, q := BE64(id), BE64(id + 1);
    var v := Val(u);
    Pow256Widths();
    assert u == BE64(v) by {
      BEOfVal(u);
    }
    assert LexLe(p, k) <==> LexLe(p, u) by {
      LexConcat(p, u, [], s);
      assert p + [] == p;
      LexPrefix(u, s);
    }
    assert LexLt(k, q) <==> LexLt(u, q) by {
      LexConcat(u, q, s, []);
      assert q + [] == q;
    }
    BE64Order(id, v);
    BE64Order(v, id + 1);
    BE64Injective(id, v);
  }

  /** Shorter keys break the equivalence: the seven bytes `0,0,0,0,0,0,1`
      sort inside `[be(255), be(256))` without starting with `be(255)`. */
  lemma PrefixRangeNeedsLength()
    ensures var k: seq<byte> := [0, 0, 0, 0, 0, 0, 1];
      LexLe(BE64(255), k) && LexLt(k, BE64(256)) && !IsPrefix(BE64(255), k)
  {
    var k: seq<byte> := [0, 0, 0, 0, 0, 0, 1];
    Pow256Widths();
    assert BE64(255) == [0, 0, 0, 0, 0, 0, 0, 255];
    assert BE64(256) == [0, 0, 0, 0, 0, 0, 1, 0];
    assert LexLt(BE64(255)[6..], k[6..]);
    assert LexLt(k[6..], BE64(256)[6..]);
  }

  /** Every key of the tree has at least `n` bytes. */
  ghost predicate KeysAtLeast(t: Tree, n: nat)
  {
    forall x | Get(t, x).Some? :: |x| >= n
  }

  /** `delete_range(be(id)..be(id + 1))` removes exactly the keys with
      prefix `be(id)` from a tree whose keys all have eight bytes or more. */
  lemma DeleteRangeIsPrefix(t: Tree, id: nat)
    requires Sorted(t) && KeysAtLeast(t, 8) && id + 1 < U64_LIMIT
    ensures forall x :: Get(DeleteRange(t, BE64(id), BE64(id + 1)), x)
                        == if IsPrefix(BE64(id), x) then None else Get(t, x)
  {
    forall x
      ensures Get(DeleteRange(t, BE64(id), BE64(id + 1)), x)
              == if IsPrefix(BE64(id), x) then None else Get(t, x)
    {
      if Get(t, x).Some? {
        PrefixRange(id, x);
      }
    }
  }

  // ---------------------------------------------------------------------
  // find_by_direct
  // ---------------------------------------------------------------------

  /** `find_by_direct`: the scan `prefix_keys(be(id))` with the first eight
      bytes cut off each key, in the tree's order. */
  function FindByDirect(t: Tree, id: nat): (r: seq<seq<byte>>)
    requires Sorted(t) && id < U64_LIMIT
    ensures forall i, j | 0 <= i < j < |r| :: LexLt(r[i], r[j])
    ensures forall s :: s in r <==> Get(t, BE64(id) + s).Some?
  {
    var p := BE64(id);
    if t == [] then []
    else
      FirstIsLeast(t);
      var rest := FindByDirect(t[1..], id);
      if IsPrefix(p, t[0].key) then
        var s0 := t[0].key[8..];
        assert t[0].key == p + s0;
        forall s | s in rest ensures LexLt(s0, s) {
          assert LexLt(p + s0, p + s) by {
            assert Get(t[1..], p + s).Some?;
          }
          LexConcat(p, p, s0, s);
          LexIrreflexive(p);
        }
        forall s ensures (p + s == t[0].key || Get(t[1..], p + s).Some?) <==> s in [s0] + rest {
          if p + s == t[0].key {
            assert s == (p + s)[8..];
          }
        }
        [s0] + rest
      else
        forall s ensures Get(t, p + s).Some? <==> Get(t[1..], p + s).Some? {
          assert (p + s)[..8] == p;
        }
        rest
  }

  /** After `delete_range(be(id)..be(id + 1))` the scan of `be(id)` finds
      nothing: no key with that prefix is left. */
  lemma DeleteRangeEmptiesScan(t: Tree, id: nat)
    requires Sorted(t) && KeysAtLeast(t, 8) && id + 1 < U64_LIMIT
    ensures FindByDirect(DeleteRange(t, BE64(id), BE64(id + 1)), id) == []
  {
    var r := FindByDirect(DeleteRange(t, BE64(id), BE64(id + 1)), id);
    DeleteRangeIsPrefix(t, id);
    if r != [] {
      assert r[0] in r;
      assert IsPrefix(BE64(id), BE64(id) + r[0]);
      assert false;
    }
  }

  // ---------------------------------------------------------------------
  // increment_bytes_be
  // ---------------------------------------------------------------------

  lemma MulStep(x: int, p: int, y: int, last: int)
    ensures (x * p + y) * 256 + last == x * (256 * p) + (y * 256 + last)
  {
  }

  /** The value of a concatenation: the head shifted past the tail. */
  lemma {:induction false} ValAppend(a: seq<byte>, b: seq<byte>)
    ensures Val(a + b) == Val(a) * Pow256(|b|) + Val(b)
    decreases |b|
  {
    if b == [] {
      assert a + b == a;
    } else {
      var b', last := b[..|b| - 1], b[|b| - 1];
      assert (a + b)[..|a + b| - 1] == a + b' && (a + b)[|a + b| - 1] == last;
      assert Val(a + b) == Val(a + b') * 256 + last;
      ValAppend(a, b');
      MulStep(Val(a), Pow256(|b'|), Val(b'), last);
    }
  }

  /** `m` bytes of 0xFF. */
  function Ones(m: nat): (r: seq<byte>)
    ensures |r| == m
  {
    seq(m, i => 0xFF)
  }

  lemma {:induction false} ValOnes(m: nat)
    ensures Val(Ones(m)) + 1 == Pow256(m)
  {
    if m > 0 {
      assert Ones(m)[..m - 1] == Ones(m - 1);
      ValOnes(m - 1);
    }
  }

  lemma {:induction false} ValZeros(m: nat)
    ensures Val(Zeros(m)) == 0
  {
    if m > 0 {
      assert Zeros(m)[..m - 1] == Zeros(m - 1);
      ValZeros(m - 1);
    }
  }

  /** The carry stops at byte `b`, which is not 0xFF: it goes up by one and
      the 0xFF bytes after it become zeros. */
  lemma CarryStops(head: seq<byte>, b: byte, m: nat)
    requires b < 0xFF
    ensures Val(head + [b + 1] + Zeros(m)) == Val(head + [b] + Ones(m)) + 1
  {
    IncrementedValue(head, b, m);
    CarriedValue(head + [b], m);
  }

  /** The incremented string: the head with its last byte one higher,
      followed by zeros. */
  lemma IncrementedValue(head: seq<byte>, b: byte, m: nat)
    requires b < 0xFF
    ensures Val(head + [b + 1] + Zeros(m)) == (Val(head + [b]) + 1) * Pow256(m)
  {
    assert (head + [b + 1])[..|head|] == head && (head + [b])[..|head|] == head;
    ValAppend(head + [b + 1], Zeros(m));
    ValZeros(m);
  }

  /** The original string: the head followed by 0xFF bytes. */
  lemma CarriedValue(hb: seq<byte>, m: nat)
    ensures Val(hb + Ones(m)) + 1 == (Val(hb) + 1) * Pow256(m)
  {
    ValAppend(hb, Ones(m));
    ValOnes(m);
    MulAddOne(Val(hb), Pow256(m));
  }

  lemma MulAddOne(c: int, p: int)
    ensures (c + 1) * p == c * p + p
  {
  }

  /** All bytes 0xFF: one more is a 1 in front of as many zeros. */
  lemma CarryOut(m: nat)
    ensures Val([1] + Zeros(m)) == Val(Ones(m)) + 1
  {
    ValAppend([1], Zeros(m));
    ValZeros(m);
    ValOnes(m);
    assert [1][..0] == [];
  }

  /** `increment_bytes_be`: the big-endian number one greater, in as many
      bytes unless every byte was 0xFF, in which case a byte 1 is put in
      front of the zeros. */
  method IncrementBytesBE(bytes: seq<byte>) returns (r: seq<byte>)
    ensures Val(r) == Val(bytes) + 1
    ensures bytes == Ones(|bytes|) ==> r == [1] + Zeros(|bytes|)
    ensures bytes != Ones(|bytes|) ==> |r| == |bytes|
  {
    var result := bytes;
    var i: nat := |bytes|;
    while i > 0
      invariant i <= |bytes|
      invariant result == bytes[..i] + Zeros(|bytes| - i)
      invariant bytes[i..] == Ones(|bytes| - i)
    {
      var b := result[i - 1];
      if b == 0xFF {
        result := result[i - 1 := 0];
        assert result == bytes[..i - 1] + Zeros(|bytes| - (i - 1));
        i := i - 1;
      } else {
        result := result[i - 1 := b + 1];
        assert result == bytes[..i - 1] + [b + 1] + Zeros(|bytes| - i);
        assert bytes == bytes[..i - 1] + [b] + Ones(|bytes| - i) by {
          assert bytes == bytes[..i] + bytes[i..];
        }
        CarryStops(bytes[..i - 1], b, |bytes| - i);
        assert bytes != Ones(|bytes|) by {
          assert bytes[i - 1] != Ones(|bytes|)[i - 1];
        }
        return result;
      }
    }
    assert bytes == Ones(|bytes|) by {
      assert bytes[0..] == bytes;
    }
    assert result == Zeros(|bytes|) by {
      assert bytes[..0] == [];
    }
    result := [1] + result;
    CarryOut(|bytes|);
    return result;
  }

  // ---------------------------------------------------------------------
  // get_max_id
  // ---------------------------------------------------------------------

  /** The last key of a record tree has eight bytes (the `try_into` of
      `get_max_id` does not panic). */
  predicate MaxIdReadable(t: Tree)
  {
    t != [] ==> |t[|t| - 1].key| == 8
  }

  /** `get_max_id`: one more than the last record id, or 1 for an empty
      tree. The sum is taken without the u64 wrap-around. It is the least
      number above every stored id: `r - 1` is itself stored. */
  function GetMaxId(t: Tree): (r: nat)
    requires Sorted(t) && MaxIdReadable(t)
    ensures r >= 1 && (t == [] ==> r == 1)
    ensures t != [] ==> r - 1 < U64_LIMIT && Get(t, BE64(r - 1)).Some?
    ensures forall id: nat | id < U64_LIMIT && Get(t, BE64(id)).Some? :: id < r
  {
    match Last(t)
    case None => 1
    case Some(e) =>
      var r := Val(e.key) + 1;
      Pow256Widths();
      assert e == t[|t| - 1];
      assert e.key == BE64(Val(e.key)) by {
        BEOfVal(e.key);
      }
      EntryFound(t, |t| - 1);
      forall id: nat | id < U64_LIMIT && Get(t, BE64(id)).Some? ensures id < r {
        if BE64(id) != e.key {
          BE64Order(id, Val(e.key));
        }
        BE64Injective(id, Val(e.key));
      }
      r
  }

  /** The value of `get_max_id` is determined by its contract: a number that
      is 1 for an empty tree and otherwise is above every stored id with
      its predecessor stored is `GetMaxId`. */
  lemma GetMaxIdLeast(t: Tree, m: nat)
    requires Sorted(t) && MaxIdReadable(t) && m >= 1
    requires t == [] ==> m == 1
    requires t != [] ==> m - 1 < U64_LIMIT && Get(t, BE64(m - 1)).Some?
    requires forall id: nat | id < U64_LIMIT && Get(t, BE64(id)).Some? :: id < m
    ensures m == GetMaxId(t)
  {
  }
}

=== FILE: layout.dfy ===
/** The binary document format as a layout: a three-byte header (version
    and field count), one four-byte big-endian offset slot per stored field
    (0 for null), and a payload in which the non-null fields' value bytes
    follow each other in slot order. A field's bytes run from its offset to
    the offset of the next non-null slot, or to the end of the document
    (`get_end`). `Build` puts a document together from its regions and
    `Regions` takes a well-formed one apart; the two are inverse.

    The reasoning is split in two: the slot values of a document are read
    once into a list of numbers (`SlotsOf`), and the tiling of the payload
    is stated on that list (`EndFrom`, `Tiled`), so that only a few lemmas
    look at the bytes of a slot. */
module Layout {
  import opened Bytes
  import opened Wrappers

  /** Where offset slot `k` sits in the header. */
  function SlotPos(k: nat): nat
  {
    3 + 4 * k
  }

  /** Where the payload starts for `n` slots (`payload_offset`). */
  function PayloadStart(n: nat): nat
  {
    3 + 4 * n
  }

  /** `get_offset`: the big-endian u32 at `pos`. */
  function GetOffset(d: seq<byte>, pos: nat): (r: nat)
    requires pos + 4 <= |d|
    ensures r < U32_LIMIT
  {
    U32Of(d[pos..pos + 4])
  }

  function Slot(d: seq<byte>, k: nat): (r: nat)
    requires SlotPos(k) + 4 <= |d|
    ensures r < U32_LIMIT
  {
    GetOffset(d, SlotPos(k))
  }

  /** The values of the first `n` offset slots. */
  function SlotsOf(d: seq<byte>, n: nat): (r: seq<nat>)
    requires PayloadStart(n) <= |d|
    ensures |r| == n
  {
    seq(n, k requires 0 <= k < n => Slot(d, k))
  }

  lemma SlotsOfAt(d: seq<byte>, n: nat, k: nat)
    requires PayloadStart(n) <= |d| && k < n
    ensures SlotsOf(d, n)[k] == Slot(d, k)
  {
  }

  // ---------------------------------------------------------------------
  // Tiling, stated on the slot values
  // ---------------------------------------------------------------------

  /** The end of the region of slot `k - 1`: the first non-zero value among
      `o[k..]`, or `len` (the document length) if there is none. */
  function EndFrom(o: seq<nat>, k: nat, len: nat): nat
    decreases |o| - k
  {
    if k >= |o| then len
    else if o[k] != 0 then o[k]
    else EndFrom(o, k + 1, len)
  }

  /** The slot values `o` tile `p .. len`: the first region starts at the
      payload offset `p` and no region runs backwards. */
  predicate Tiled(o: seq<nat>, p: nat, len: nat)
  {
    p <= len
    && EndFrom(o, 0, len) == p
    && forall k | 0 < k <= |o| :: o[k - 1] != 0 ==> o[k - 1] <= EndFrom(o, k, len)
  }

  lemma {:induction false} EndFromChain(o: seq<nat>, p: nat, len: nat, i: nat, j: nat)
    requires Tiled(o, p, len) && i <= j <= |o|
    ensures EndFrom(o, i, len) <= EndFrom(o, j, len)
    decreases j - i
  {
    if i < j {
      EndFromChain(o, p, len, i + 1, j);
    }
  }

  /** Region ends grow with the slot index and stay inside `p .. len`. */
  lemma EndFromBounds(o: seq<nat>, p: nat, len: nat, i: nat, j: nat)
    requires Tiled(o, p, len) && i <= j <= |o|
    ensures p <= EndFrom(o, i, len) <= EndFrom(o, j, len) <= len
  {
    EndFromChain(o, p, len, 0, i);
    EndFromChain(o, p, len, i, j);
    EndFromChain(o, p, len, j, |o|);
  }

  /** The bytes of `d` that each slot value points at, None for zero. */
  function RegionsOf(d: seq<byte>, o: seq<nat>, p: nat): (r: seq<Option<seq<byte>>>)
    requires Tiled(o, p, |d|)
    ensures |r| == |o|
    ensures forall k | 0 <= k < |o| :: r[k].None? <==> o[k] == 0
  {
    seq(|o|, k requires 0 <= k < |o| =>
      if o[k] == 0 then None
      else
        EndFromBounds(o, p, |d|, k + 1, |o|);
        Some(d[o[k]..EndFrom(o, k + 1, |d|)]))
  }

  /** The payload is tiled by the regions of the non-null slots. */
  predicate WellFormed(d: seq<byte>, n: nat)
  {
    PayloadStart(n) <= |d| && Tiled(SlotsOf(d, n), PayloadStart(n), |d|)
  }

  /** The value bytes of every slot of a well-formed document, None for null. */
  function Regions(d: seq<byte>, n: nat): (r: seq<Option<seq<byte>>>)
    requires WellFormed(d, n)
    ensures |r| == n
  {
    RegionsOf(d, SlotsOf(d, n), PayloadStart(n))
  }

  /** Region `k` of a well-formed document: null exactly when slot `k` is 0,
      else the bytes from the slot's offset to the next region end. */
  lemma RegionAt(d: seq<byte>, n: nat, k: nat)
    requires WellFormed(d, n) && k < n
    ensures Slot(d, k) == SlotsOf(d, n)[k]
    ensures PayloadStart(n) <= EndFrom(SlotsOf(d, n), k + 1, |d|) <= |d|
    ensures Slot(d, k) != 0 ==> PayloadStart(n) <= Slot(d, k) <= EndFrom(SlotsOf(d, n), k + 1, |d|)
    ensures Regions(d, n)[k]
         == if Slot(d, k) == 0 then None else Some(d[Slot(d, k)..EndFrom(SlotsOf(d, n), k + 1, |d|)])
  {
    var o := SlotsOf(d, n);
    var e := EndFrom(o, k + 1, |d|);
    assert Slot(d, k) == o[k] by {
      SlotsOfAt(d, n, k);
    }
    assert PayloadStart(n) <= e <= |d| && (o[k] != 0 ==> PayloadStart(n) <= o[k] <= e) by {
      EndFromBounds(o, PayloadStart(n), |d|, k, k + 1);
      EndFromBounds(o, PayloadStart(n), |d|, k + 1, n);
    }
    assert Regions(d, n)[k] == RegionsOf(d, o, PayloadStart(n))[k];
  }

  // ---------------------------------------------------------------------
  // Building a document from its regions
  // ---------------------------------------------------------------------

  function Flat(r: Option<seq<byte>>): seq<byte>
  {
    if r.None? then [] else r.value
  }

  /** The payload: all regions one after the other. */
  function Concat(rs: seq<Option<seq<byte>>>): seq<byte>
  {
    if rs == [] then [] else Concat(rs[..|rs| - 1]) + Flat(rs[|rs| - 1])
  }

  lemma {:induction false} ConcatAppend(a: seq<Option<seq<byte>>>, b: seq<Option<seq<byte>>>)
    ensures Concat(a + b) == Concat(a) + Concat(b)
    decreases |b|
  {
    if b == [] {
      assert a + b == a;
    } else {
      var b', x := b[..|b| - 1], Flat(b[|b| - 1]);
      assert Concat(a + b) == Concat(a + b') + x by {
        assert (a + b)[..|a + b| - 1] == a + b';
        assert (a + b)[|a + b| - 1] == b[|b| - 1];
      }
      ConcatAppend(a, b');
      assert Concat(a) + (Concat(b') + x) == Concat(a) + Concat(b') + x;
    }
  }

  lemma ConcatPrefixLe(rs: seq<Option<seq<byte>>>, k: nat)
    requires k <= |rs|
    ensures |Concat(rs[..k])| <= |Concat(rs)|
  {
    assert rs == rs[..k] + rs[k..];
    ConcatAppend(rs[..k], rs[k..]);
  }

  lemma ConcatStep(rs: seq<Option<seq<byte>>>, k: nat)
    requires k < |rs|
    ensures Concat(rs[..k + 1]) == Concat(rs[..k]) + Flat(rs[k])
  {
    assert rs[..k + 1][..k] == rs[..k];
  }

  /** Where region `k` starts when the payload starts at `p`. */
  function Start(rs: seq<Option<seq<byte>>>, p: nat, k: nat): nat
    requires k <= |rs|
  {
    p + |Concat(rs[..k])|
  }

  /** The slot value that goes with region `k`: 0 for null, else where it starts. */
  function OffAt(rs: seq<Option<seq<byte>>>, p: nat, k: nat): nat
    requires k < |rs|
  {
    if rs[k].None? then 0 else Start(rs, p, k)
  }

  /** The slot values for these regions. */
  function Offs(rs: seq<Option<seq<byte>>>, p: nat): (r: seq<nat>)
    ensures |r| == |rs|
  {
    seq(|rs|, k requires 0 <= k < |rs| => OffAt(rs, p, k))
  }

  lemma OffsAt(rs: seq<Option<seq<byte>>>, p: nat, k: nat)
    requires k < |rs|
    ensures Offs(rs, p)[k] == OffAt(rs, p, k)
  {
  }

  /** The header's slot bytes for these slot values; each is written as a u32. */
  function Header(o: seq<nat>): (r: seq<byte>)
    ensures |r| == 4 * |o|
  {
    if o == [] then [] else Header(o[..|o| - 1]) + BE32(o[|o| - 1] % U32_LIMIT)
  }

  /** The document with header `h` (version and field count) and these regions. */
  function Build(h: seq<byte>, rs: seq<Option<seq<byte>>>): (r: seq<byte>)
    ensures |r| == |h| + 4 * |rs| + |Concat(rs)|
  {
    h + Header(Offs(rs, PayloadStart(|rs|))) + Concat(rs)
  }

  /** Every offset is representable as a u32. */
  predicate Fits(rs: seq<Option<seq<byte>>>)
  {
    PayloadStart(|rs|) + |Concat(rs)| < U32_LIMIT
  }

  // ---------------------------------------------------------------------
  // Slot values and header bytes
  // ---------------------------------------------------------------------

  lemma {:induction false} HeaderAt(o: seq<nat>, k: nat)
    requires k < |o|
    ensures Header(o)[4 * k..4 * k + 4] == BE32(o[k] % U32_LIMIT)
    decreases |o|
  {
    var init := o[..|o| - 1];
    var a, b := Header(init), BE32(o[|o| - 1] % U32_LIMIT);
    assert Header(o) == a + b;
    if k < |o| - 1 {
      HeaderAt(init, k);
      assert (a + b)[4 * k..4 * k + 4] == a[4 * k..4 * k + 4];
    } else {
      assert (a + b)[4 * k..4 * k + 4] == b;
    }
  }

  /** Reading slot `k` of a document whose header holds `Header(o)`. */
  lemma SlotOfHeader(h: seq<byte>, o: seq<nat>, rest: seq<byte>, k: nat)
    requires |h| == 3 && k < |o|
    ensures SlotPos(k) + 4 <= |h + Header(o) + rest|
    ensures Slot(h + Header(o) + rest, k) == o[k] % U32_LIMIT
  {
    var d := h + Header(o) + rest;
    HeaderAt(o, k);
    assert d[SlotPos(k)..SlotPos(k) + 4] == Header(o)[4 * k..4 * k + 4];
    U32RoundTrip(o[k] % U32_LIMIT);
  }

  /** Values below 2^32 written into the header read back unchanged. */
  lemma {:induction false} SlotsOfHeader(h: seq<byte>, o: seq<nat>, rest: seq<byte>, m: nat)
    requires |h| == 3 && m <= |o|
    requires forall k | 0 <= k < |o| :: o[k] < U32_LIMIT
    ensures PayloadStart(m) <= |h + Header(o) + rest|
    ensures SlotsOf(h + Header(o) + rest, m) == o[..m]
  {
    if m > 0 {
      SlotsOfHeader(h, o, rest, m - 1);
      SlotOfHeader(h, o, rest, m - 1);
      assert o[..m] == o[..m - 1] + [o[m - 1]];
    }
  }

  lemma HeaderLast(d: seq<byte>, n: nat)
    requires 0 < n && PayloadStart(n) <= |d|
    ensures Header(SlotsOf(d, n)) == Header(SlotsOf(d, n - 1)) + d[SlotPos(n - 1)..PayloadStart(n)]
  {
    var o := SlotsOf(d, n);
    assert o[..n - 1] == SlotsOf(d, n - 1);
    BE32OfU32(d[SlotPos(n - 1)..SlotPos(n - 1) + 4]);
  }

  /** The header bytes of any document are those of its slot values. */
  lemma {:induction false} HeaderOfSlots(d: seq<byte>, n: nat)
    requires PayloadStart(n) <= |d|
    ensures Header(SlotsOf(d, n)) == d[3..PayloadStart(n)]
  {
    if n > 0 {
      HeaderOfSlots(d, n - 1);
      HeaderLast(d, n);
      SliceJoin(d, 3, SlotPos(n - 1), PayloadStart(n));
    }
  }

  // ---------------------------------------------------------------------
  // The slot values of a built document tile its payload
  // ---------------------------------------------------------------------

  /** Seen from slot `k`, the next region end is where region `k` starts. */
  lemma {:induction false} EndFromOffs(rs: seq<Option<seq<byte>>>, p: nat, k: nat)
    requires p > 0 && k <= |rs|
    ensures EndFrom(Offs(rs, p), k, p + |Concat(rs)|) == Start(rs, p, k)
    decreases |rs| - k
  {
    var o := Offs(rs, p);
    if k == |rs| {
      assert rs[..k] == rs;
    } else {
      OffsAt(rs, p, k);
      if rs[k].None? {
        EndFromOffs(rs, p, k + 1);
        ConcatStep(rs, k);
      }
    }
  }

  lemma OffsBound(rs: seq<Option<seq<byte>>>, p: nat, k: nat)
    requires k < |rs|
    ensures Offs(rs, p)[k] <= p + |Concat(rs)|
  {
    OffsAt(rs, p, k);
    ConcatPrefixLe(rs, k);
  }

  lemma OffsTiled(rs: seq<Option<seq<byte>>>, p: nat)
    requires p > 0
    ensures Tiled(Offs(rs, p), p, p + |Concat(rs)|)
  {
    var o := Offs(rs, p);
    var len := p + |Concat(rs)|;
    EndFromOffs(rs, p, 0);
    assert rs[..0] == [];
    forall k | 0 < k <= |o|
      ensures o[k - 1] != 0 ==> o[k - 1] <= EndFrom(o, k, len)
    {
      OffsTiledAt(rs, p, k);
    }
  }

  lemma OffsTiledAt(rs: seq<Option<seq<byte>>>, p: nat, k: nat)
    requires p > 0 && 0 < k <= |rs|
    ensures Offs(rs, p)[k - 1] <= EndFrom(Offs(rs, p), k, p + |Concat(rs)|)
  {
    EndFromOffs(rs, p, k);
    ConcatStep(rs, k - 1);
  }

  lemma SliceOfSuffix(d: seq<byte>, p: nat, c: seq<byte>, i: nat, j: nat)
    requires p <= |d| && d[p..] == c && i <= j <= |c|
    ensures d[p + i..p + j] == c[i..j]
  {
    forall t | 0 <= t < j - i
      ensures d[p + i..p + j][t] == c[i..j][t]
    {
      assert c[i..j][t] == c[i + t] == d[p..][i + t];
    }
  }

  /** The middle part of a suffix that is the concatenation `a + f + z`. */
  lemma MiddleOfSuffix(d: seq<byte>, p: nat, a: seq<byte>, f: seq<byte>, z: seq<byte>)
    requires p <= |d| && d[p..] == a + f + z
    ensures d[p + |a|..p + |a| + |f|] == f
  {
    assert (a + f + z)[|a|..|a| + |f|] == f;
    SliceOfSuffix(d, p, a + f + z, |a|, |a| + |f|);
  }

  /** The payload around region `k`. */
  lemma ConcatSplit(rs: seq<Option<seq<byte>>>, k: nat)
    requires k < |rs|
    ensures Concat(rs) == Concat(rs[..k]) + Flat(rs[k]) + Concat(rs[k + 1..])
  {
    var a, f, c := Concat(rs[..k]), Flat(rs[k]), Concat(rs[k + 1..]);
    ConcatTakeDrop(rs, k);
    ConcatDropHead(rs, k);
    assert a + (f + c) == a + f + c;
  }

  lemma ConcatDropHead(rs: seq<Option<seq<byte>>>, k: nat)
    requires k < |rs|
    ensures Concat(rs[k..]) == Flat(rs[k]) + Concat(rs[k + 1..])
  {
    ConcatHead(rs[k..]);
    assert rs[k..][1..] == rs[k + 1..];
  }

  lemma ConcatTakeDrop(rs: seq<Option<seq<byte>>>, k: nat)
    requires k <= |rs|
    ensures Concat(rs) == Concat(rs[..k]) + Concat(rs[k..])
  {
    assert rs == rs[..k] + rs[k..];
    ConcatAppend(rs[..k], rs[k..]);
  }

  lemma ConcatHead(b: seq<Option<seq<byte>>>)
    requires |b| > 0
    ensures Concat(b) == Flat(b[0]) + Concat(b[1..])
  {
    assert b == [b[0]] + b[1..];
    ConcatAppend([b[0]], b[1..]);
    assert Concat([b[0]]) == Flat(b[0]) by {
      assert [b[0]][..0] == b[..0];
    }
  }

  /** The bytes of region `k` inside a document whose payload is `Concat(rs)`. */
  lemma RegionSlice(d: seq<byte>, rs: seq<Option<seq<byte>>>, p: nat, k: nat)
    requires k < |rs| && |d| == p + |Concat(rs)| && d[p..] == Concat(rs)
    ensures Start(rs, p, k) <= Start(rs, p, k + 1) <= |d|
    ensures d[Start(rs, p, k)..Start(rs, p, k + 1)] == Flat(rs[k])
  {
    var a, f, c := Concat(rs[..k]), Flat(rs[k]), Concat(rs[k + 1..]);
    ConcatSplit(rs, k);
    ConcatStep(rs, k);
    MiddleOfSuffix(d, p, a, f, c);
  }

  lemma RegionsOfOffs(d: seq<byte>, rs: seq<Option<seq<byte>>>, p: nat)
    requires p > 0 && |d| == p + |Concat(rs)| && d[p..] == Concat(rs)
    ensures Tiled(Offs(rs, p), p, |d|)
    ensures RegionsOf(d, Offs(rs, p), p) == rs
  {
    var o := Offs(rs, p);
    OffsTiled(rs, p);
    forall k | 0 <= k < |rs|
      ensures RegionsOf(d, o, p)[k] == rs[k]
    {
      OffsAt(rs, p, k);
      EndFromOffs(rs, p, k + 1);
      RegionSlice(d, rs, p, k);
    }
  }

  lemma FitsOffs(rs: seq<Option<seq<byte>>>)
    requires Fits(rs)
    ensures forall k | 0 <= k < |rs| :: Offs(rs, PayloadStart(|rs|))[k] < U32_LIMIT
  {
    forall k | 0 <= k < |rs|
      ensures Offs(rs, PayloadStart(|rs|))[k] < U32_LIMIT
    {
      OffsBound(rs, PayloadStart(|rs|), k);
    }
  }

  /** Reading the slots of a built document gives the region starts (0 for null). */
  lemma BuildSlots(h: seq<byte>, rs: seq<Option<seq<byte>>>)
    requires |h| == 3 && Fits(rs)
    ensures PayloadStart(|rs|) <= |Build(h, rs)|
    ensures SlotsOf(Build(h, rs), |rs|) == Offs(rs, PayloadStart(|rs|))
  {
    var o := Offs(rs, PayloadStart(|rs|));
    FitsOffs(rs);
    SlotsOfHeader(h, o, Concat(rs), |rs|);
    assert o[..|rs|] == o;
  }

  /** A built document is well formed and gives its header and regions back. */
  lemma BuildRegions(h: seq<byte>, rs: seq<Option<seq<byte>>>)
    requires |h| == 3 && Fits(rs)
    ensures WellFormed(Build(h, rs), |rs|)
    ensures Regions(Build(h, rs), |rs|) == rs
    ensures Build(h, rs)[..3] == h
  {
    var d := Build(h, rs);
    var p := PayloadStart(|rs|);
    BuildSlots(h, rs);
    assert d[p..] == Concat(rs);
    RegionsOfOffs(d, rs, p);
  }

  // ---------------------------------------------------------------------
  // A well-formed document is built from its regions
  // ---------------------------------------------------------------------

  lemma SliceSplit(d: seq<byte>, p: nat, i: nat)
    requires p <= i <= |d|
    ensures d[p..] == d[p..i] + d[i..]
  {
  }

  lemma SlicePrefix(d: seq<byte>, i: nat, j: nat, size: nat)
    requires i + size <= j <= |d|
    ensures d[i..j][..size] == d[i..i + size]
  {
  }

  lemma SliceJoin(d: seq<byte>, i: nat, j: nat, l: nat)
    requires i <= j <= l <= |d|
    ensures d[i..l] == d[i..j] + d[j..l]
  {
  }

  /** Region `k` runs from the region end seen from `k` to the one seen from `k + 1`. */
  lemma RegionOfAt(d: seq<byte>, o: seq<nat>, p: nat, k: nat)
    requires Tiled(o, p, |d|) && k < |o|
    ensures EndFrom(o, k, |d|) <= EndFrom(o, k + 1, |d|) <= |d|
    ensures Flat(RegionsOf(d, o, p)[k]) == d[EndFrom(o, k, |d|)..EndFrom(o, k + 1, |d|)]
  {
    EndFromBounds(o, p, |d|, k, k + 1);
    EndFromBounds(o, p, |d|, k + 1, |o|);
  }

  lemma {:induction false} PayloadPrefix(d: seq<byte>, o: seq<nat>, p: nat, k: nat)
    requires Tiled(o, p, |d|) && k <= |o|
    ensures p <= EndFrom(o, k, |d|) <= |d|
    ensures d[p..EndFrom(o, k, |d|)] == Concat(RegionsOf(d, o, p)[..k])
  {
    EndFromBounds(o, p, |d|, k, |o|);
    if k > 0 {
      var rs := RegionsOf(d, o, p);
      PayloadPrefix(d, o, p, k - 1);
      ConcatStep(rs, k - 1);
      RegionOfAt(d, o, p, k - 1);
      SliceJoin(d, p, EndFrom(o, k - 1, |d|), EndFrom(o, k, |d|));
    }
  }

  lemma {:induction false} OffsOfRegionsOf(d: seq<byte>, o: seq<nat>, p: nat)
    requires p > 0 && Tiled(o, p, |d|)
    ensures Offs(RegionsOf(d, o, p), p) == o
  {
    var rs := RegionsOf(d, o, p);
    forall k | 0 <= k < |o|
      ensures Offs(rs, p)[k] == o[k]
    {
      OffsAt(rs, p, k);
      PayloadPrefix(d, o, p, k);
    }
  }

  lemma ThreeParts(d: seq<byte>, p: nat)
    requires 3 <= p <= |d|
    ensures d == d[..3] + d[3..p] + d[p..]
  {
  }

  /** A well-formed document is the one built from its own regions. */
  lemma WellFormedIsBuild(d: seq<byte>, n: nat)
    requires WellFormed(d, n)
    ensures d == Build(d[..3], Regions(d, n))
  {
    var p := PayloadStart(n);
    var o := SlotsOf(d, n);
    var rs := Regions(d, n);
    PayloadPrefix(d, o, p, n);
    assert rs[..n] == rs;
    OffsOfRegionsOf(d, o, p);
    HeaderOfSlots(d, n);
    ThreeParts(d, p);
  }
}

=== FILE: offsets.dfy ===
/** The offset-slot helpers of the document buffer (`marci_db.rs`): reading
    and writing one slot in place, shifting a run of slots by a length
    difference, finding where a field's bytes end, reading a field's bytes,
    and iterating over a length-prefixed array of fixed-size items. */
module Offsets {
  import opened Bytes
  import opened Wrappers
  import opened Layout

  // ---------------------------------------------------------------------
  // Writing one slot
  // ---------------------------------------------------------------------

  /** The document with the u32 `v` written big-endian at `pos`; the cast to
      u32 keeps `v` modulo 2^32. */
  function WithOffset(d: seq<byte>, pos: nat, v: int): (r: seq<byte>)
    requires pos + 4 <= |d|
    ensures |r| == |d|
  {
    d[..pos] + BE32(v % U32_LIMIT) + d[pos + 4..]
  }

  /** Writing a slot and reading it back gives the value (as a u32), and no
      other byte changes. */
  lemma WithOffsetGet(d: seq<byte>, pos: nat, v: int)
    requires pos + 4 <= |d|
    ensures GetOffset(WithOffset(d, pos, v), pos) == v % U32_LIMIT
    ensures forall i | 0 <= i < |d| && !(pos <= i < pos + 4) :: WithOffset(d, pos, v)[i] == d[i]
  {
    var r := WithOffset(d, pos, v);
    assert r[pos..pos + 4] == BE32(v % U32_LIMIT);
    U32RoundTrip(v % U32_LIMIT);
  }

  /** `set_offset`: overwrite the four bytes at `offsetPos`. */
  method SetOffset(data: array<byte>, offsetPos: nat, offset: nat)
    requires offsetPos + 4 <= data.Length
    modifies data
    ensures data[..] == WithOffset(old(data[..]), offsetPos, offset)
  {
    var bytes := BE32(offset % U32_LIMIT);
    forall i | 0 <= i < 4 {
      data[offsetPos + i] := bytes[i];
    }
    assert data[..] == old(data[..])[..offsetPos] + bytes + old(data[..])[offsetPos + 4..];
  }

  /** `set_offset_null`: zero the four bytes at `offsetPos`. */
  method SetOffsetNull(data: array<byte>, offsetPos: nat)
    requires offsetPos + 4 <= data.Length
    modifies data
    ensures data[..] == WithOffset(old(data[..]), offsetPos, 0)
  {
    forall i | offsetPos <= i < offsetPos + 4 {
      data[i] := 0;
    }
    assert BE32(0) == [0, 0, 0, 0];
    assert data[..] == old(data[..])[..offsetPos] + [0, 0, 0, 0] + old(data[..])[offsetPos + 4..];
  }

  /** Writing slot `k0` changes that slot value only. */
  lemma WithOffsetSlots(d: seq<byte>, n: nat, k0: nat, v: int)
    requires k0 < n && PayloadStart(n) <= |d|
    ensures PayloadStart(n) <= |WithOffset(d, SlotPos(k0), v)|
    ensures SlotsOf(WithOffset(d, SlotPos(k0), v), n) == SlotsOf(d, n)[k0 := v % U32_LIMIT]
  {
    var r := WithOffset(d, SlotPos(k0), v);
    WithOffsetGet(d, SlotPos(k0), v);
    forall k | 0 <= k < n
      ensures SlotsOf(r, n)[k] == SlotsOf(d, n)[k0 := v % U32_LIMIT][k]
    {
      SlotsOfAt(r, n, k);
      SlotsOfAt(d, n, k);
      if k != k0 {
        assert r[SlotPos(k)..SlotPos(k) + 4] == d[SlotPos(k)..SlotPos(k) + 4];
      }
    }
  }

  lemma WithOffsetFrame(d: seq<byte>, n: nat, k0: nat, v: int)
    requires k0 < n && PayloadStart(n) <= |d|
    ensures WithOffset(d, SlotPos(k0), v)[..3] == d[..3]
    ensures WithOffset(d, SlotPos(k0), v)[PayloadStart(n)..] == d[PayloadStart(n)..]
  {
    WithOffsetGet(d, SlotPos(k0), v);
  }

  // ---------------------------------------------------------------------
  // Walking the slots four bytes at a time
  // ---------------------------------------------------------------------

  /** Every `w`-byte read at `j, j + w, …` below `end` stays inside a buffer
      of length `len` (the reads of a `step_by` loop do not panic). */
  predicate ReadsOk(len: nat, j: nat, end: nat, w: nat)
    requires w > 0
    decreases end - j
  {
    j >= end || (j + w <= len && ReadsOk(len, j + w, end, w))
  }

  lemma {:induction false} ReadsOkSlots(len: nat, k: nat, n: nat)
    requires PayloadStart(n) <= len
    ensures ReadsOk(len, SlotPos(k), PayloadStart(n), 4)
    decreases n - k
  {
    if k < n {
      ReadsOkSlots(len, k + 1, n);
    }
  }

  /** What `get_end` returns when its scan starts at `j`: the first non-zero
      slot value before `end`, or the buffer length. */
  function EndAt(d: seq<byte>, j: nat, end: nat): nat
    requires ReadsOk(|d|, j, end, 4)
    decreases end - j
  {
    if j >= end then |d|
    else if GetOffset(d, j) != 0 then GetOffset(d, j)
    else EndAt(d, j + 4, end)
  }

  /** On slot positions, `get_end`'s scan is the region end of the layout. */
  lemma {:induction false} EndAtSlots(d: seq<byte>, k: nat, n: nat)
    requires PayloadStart(n) <= |d|
    ensures ReadsOk(|d|, SlotPos(k), PayloadStart(n), 4)
    ensures EndAt(d, SlotPos(k), PayloadStart(n)) == EndFrom(SlotsOf(d, n), k, |d|)
    decreases n - k
  {
    ReadsOkSlots(|d|, k, n);
    if k < n {
      EndAtSlots(d, k + 1, n);
      SlotsOfAt(d, n, k);
    }
  }

  /** `get_end`: where the field in the slot at `offsetPos` ends. */
  method GetEnd(data: seq<byte>, offsetPos: nat, payloadOffset: nat) returns (r: nat)
    requires ReadsOk(|data|, offsetPos + 4, payloadOffset, 4)
    ensures r == EndAt(data, offsetPos + 4, payloadOffset)
  {
    var j := offsetPos + 4;
    while j < payloadOffset
      invariant ReadsOk(|data|, j, payloadOffset, 4)
      invariant EndAt(data, j, payloadOffset) == EndAt(data, offsetPos + 4, payloadOffset)
      decreases payloadOffset - j
    {
      var offJ := GetOffset(data, j);
      if offJ != 0 {
        return offJ;
      }
      j := j + 4;
    }
    return |data|;
  }

  /** In a well-formed document `get_end` from slot `k` is the end of region
      `k`, and that is where the next non-null region starts. */
  lemma GetEndOfRegion(d: seq<byte>, n: nat, k: nat)
    requires WellFormed(d, n) && k < n
    ensures ReadsOk(|d|, SlotPos(k) + 4, PayloadStart(n), 4)
    ensures EndAt(d, SlotPos(k) + 4, PayloadStart(n)) == EndFrom(SlotsOf(d, n), k + 1, |d|)
  {
    EndAtSlots(d, k + 1, n);
    assert SlotPos(k + 1) == SlotPos(k) + 4;
  }

  // ---------------------------------------------------------------------
  // Moving a run of slots
  // ---------------------------------------------------------------------

  /** One step of `move_offsets`: the slot at `j` moved by `diff` unless it
      is zero; `(offset as isize + diff) as u32` keeps the sum modulo 2^32. */
  function MoveOne(d: seq<byte>, j: nat, diff: int): (r: seq<byte>)
    requires j + 4 <= |d|
    ensures |r| == |d|
  {
    var off := GetOffset(d, j);
    if off != 0 then WithOffset(d, j, off + diff) else d
  }

  /** The buffer after `move_offsets` from `j` up to `end`. */
  function MoveFrom(d: seq<byte>, j: nat, end: nat, diff: int): (r: seq<byte>)
    requires ReadsOk(|d|, j, end, 4)
    ensures |r| == |d|
    decreases end - j
  {
    if j >= end then d else MoveFrom(MoveOne(d, j, diff), j + 4, end, diff)
  }

  /** `move_offsets`. */
  method MoveOffsets(data: array<byte>, offsetStart: nat, offsetEnd: nat, diff: int)
    requires ReadsOk(data.Length, offsetStart, offsetEnd, 4)
    modifies data
    ensures data[..] == MoveFrom(old(data[..]), offsetStart, offsetEnd, diff)
  {
    ghost var goal := MoveFrom(data[..], offsetStart, offsetEnd, diff);
    var j := offsetStart;
    while j < offsetEnd
      invariant ReadsOk(data.Length, j, offsetEnd, 4)
      invariant MoveFrom(data[..], j, offsetEnd, diff) == goal
      decreases offsetEnd - j
    {
      MoveSlot(data, j, diff);
      j := j + 4;
    }
  }

  /** The body of the loop of `move_offsets`: a non-zero slot is moved by
      `diff` and cast back to u32, a zero slot is left alone. */
  method MoveSlot(data: array<byte>, j: nat, diff: int)
    requires j + 4 <= data.Length
    modifies data
    ensures data[..] == MoveOne(old(data[..]), j, diff)
  {
    var offset := GetOffset(data[..], j);
    MoveOneCast(data[..], j, diff);
    if offset != 0 {
      var newOffset := (offset + diff) % U32_LIMIT;
      SetOffset(data, j, newOffset);
    }
  }

  /** Casting to u32 a second time changes nothing. */
  lemma CastTwice(x: int)
    ensures (x % U32_LIMIT) % U32_LIMIT == x % U32_LIMIT
  {
    var r := x % U32_LIMIT;
    assert 0 <= r < U32_LIMIT;
  }

  /** One step of `move_offsets` writes the moved value already cast to u32. */
  lemma MoveOneCast(d: seq<byte>, j: nat, diff: int)
    requires j + 4 <= |d|
    ensures MoveOne(d, j, diff)
         == if GetOffset(d, j) == 0 then d else WithOffset(d, j, (GetOffset(d, j) + diff) % U32_LIMIT)
  {
    CastTwice(GetOffset(d, j) + diff);
  }

  /** A slot value moved by `diff`: zero stays zero, anything else is cast
      back to u32. */
  function Moved(v: nat, diff: int): nat
  {
    if v == 0 then 0 else (v + diff) % U32_LIMIT
  }

  /** The slot values after moving those from `k0` on by `diff`. */
  function Shifted(o: seq<nat>, k0: nat, diff: int): (r: seq<nat>)
    ensures |r| == |o|
  {
    seq(|o|, k requires 0 <= k < |o| => if k < k0 then o[k] else Moved(o[k], diff))
  }

  lemma ShiftedAt(o: seq<nat>, k0: nat, diff: int, k: nat)
    requires k < |o|
    ensures Shifted(o, k0, diff)[k] == if k < k0 then o[k] else Moved(o[k], diff)
  {
  }

  lemma MoveOneSlots(d: seq<byte>, n: nat, k0: nat, diff: int)
    requires k0 < n && PayloadStart(n) <= |d|
    ensures SlotsOf(MoveOne(d, SlotPos(k0), diff), n) == SlotsOf(d, n)[k0 := Moved(Slot(d, k0), diff)]
  {
    var off := Slot(d, k0);
    SlotsOfAt(d, n, k0);
    if off != 0 {
      WithOffsetSlots(d, n, k0, off + diff);
    } else {
      assert SlotsOf(d, n)[k0 := 0] == SlotsOf(d, n);
    }
  }

  lemma MoveOneFrame(d: seq<byte>, n: nat, k0: nat, diff: int)
    requires k0 < n && PayloadStart(n) <= |d|
    ensures MoveOne(d, SlotPos(k0), diff)[..3] == d[..3]
    ensures MoveOne(d, SlotPos(k0), diff)[PayloadStart(n)..] == d[PayloadStart(n)..]
  {
    var off := Slot(d, k0);
    if off != 0 {
      WithOffsetFrame(d, n, k0, off + diff);
    }
  }

  lemma {:induction false} MovedFrame(d: seq<byte>, n: nat, k0: nat, diff: int)
    requires k0 <= n && PayloadStart(n) <= |d|
    ensures ReadsOk(|d|, SlotPos(k0), PayloadStart(n), 4)
    ensures var r := MoveFrom(d, SlotPos(k0), PayloadStart(n), diff);
      r[..3] == d[..3] && r[PayloadStart(n)..] == d[PayloadStart(n)..]
    decreases n - k0
  {
    ReadsOkSlots(|d|, k0, n);
    if k0 < n {
      MoveOneFrame(d, n, k0, diff);
      MovedFrame(MoveOne(d, SlotPos(k0), diff), n, k0 + 1, diff);
    }
  }

  lemma MoveFromStep(d: seq<byte>, j: nat, end: nat, diff: int)
    requires j < end && ReadsOk(|d|, j, end, 4)
    ensures ReadsOk(|d|, j + 4, end, 4)
    ensures MoveFrom(d, j, end, diff) == MoveFrom(MoveOne(d, j, diff), j + 4, end, diff)
  {
  }

  /** Moving slots `k0 ..` is moving slot `k0`, then slots `k0 + 1 ..`. */
  lemma MoveFromSlotStep(d: seq<byte>, n: nat, k0: nat, diff: int)
    requires k0 < n && PayloadStart(n) <= |d|
    ensures ReadsOk(|d|, SlotPos(k0), PayloadStart(n), 4) && ReadsOk(|d|, SlotPos(k0 + 1), PayloadStart(n), 4)
    ensures MoveFrom(d, SlotPos(k0), PayloadStart(n), diff)
         == MoveFrom(MoveOne(d, SlotPos(k0), diff), SlotPos(k0 + 1), PayloadStart(n), diff)
  {
    ReadsOkSlots(|d|, k0, n);
    MoveFromStep(d, SlotPos(k0), PayloadStart(n), diff);
  }

  /** Moving slot `k0` first and the slots after it next is moving the
      slots from `k0` on. */
  lemma ShiftedSet(o: seq<nat>, k0: nat, diff: int)
    requires k0 < |o|
    ensures Shifted(o[k0 := Moved(o[k0], diff)], k0 + 1, diff) == Shifted(o, k0, diff)
  {
    var o' := o[k0 := Moved(o[k0], diff)];
    forall k | 0 <= k < |o|
      ensures Shifted(o', k0 + 1, diff)[k] == Shifted(o, k0, diff)[k]
    {
      ShiftedAt(o', k0 + 1, diff, k);
      ShiftedAt(o, k0, diff, k);
    }
  }

  /** Moving no slot changes nothing. */
  lemma ShiftedPastEnd(o: seq<nat>, diff: int)
    ensures Shifted(o, |o|, diff) == o
  {
    forall k | 0 <= k < |o|
      ensures Shifted(o, |o|, diff)[k] == o[k]
    {
      ShiftedAt(o, |o|, diff, k);
    }
  }

  /** What `move_offsets` does to slots `k0 ..` of a document: the non-zero
      ones move by `diff` (modulo 2^32), zero ones stay zero, and the slots
      before `k0` do not change (`MovedFrame`: nor do the first three bytes
      and the payload). */
  lemma {:induction false} MovedSlots(d: seq<byte>, n: nat, k0: nat, diff: int)
    requires k0 <= n && PayloadStart(n) <= |d|
    ensures ReadsOk(|d|, SlotPos(k0), PayloadStart(n), 4)
    ensures SlotsOf(MoveFrom(d, SlotPos(k0), PayloadStart(n), diff), n) == Shifted(SlotsOf(d, n), k0, diff)
    decreases n - k0
  {
    if k0 == n {
      MovedNoSlots(d, n, diff);
    } else {
      var d' := MoveOne(d, SlotPos(k0), diff);
      MovedSlotsStep(d, n, k0, diff);
      MovedSlots(d', n, k0 + 1, diff);
    }
  }

  /** Moving the slots from the payload offset on moves nothing. */
  lemma MovedNoSlots(d: seq<byte>, n: nat, diff: int)
    requires PayloadStart(n) <= |d|
    ensures ReadsOk(|d|, SlotPos(n), PayloadStart(n), 4)
    ensures SlotsOf(MoveFrom(d, SlotPos(n), PayloadStart(n), diff), n) == Shifted(SlotsOf(d, n), n, diff)
  {
    assert MoveFrom(d, SlotPos(n), PayloadStart(n), diff) == d;
    ShiftedPastEnd(SlotsOf(d, n), diff);
  }

  /** One step of `MovedSlots`: slot `k0` is moved, the rest is left to the
      next step. */
  lemma MovedSlotsStep(d: seq<byte>, n: nat, k0: nat, diff: int)
    requires k0 < n && PayloadStart(n) <= |d|
    ensures ReadsOk(|d|, SlotPos(k0), PayloadStart(n), 4)
    ensures |MoveOne(d, SlotPos(k0), diff)| == |d|
    ensures ReadsOk(|d|, SlotPos(k0 + 1), PayloadStart(n), 4)
    ensures MoveFrom(d, SlotPos(k0), PayloadStart(n), diff)
         == MoveFrom(MoveOne(d, SlotPos(k0), diff), SlotPos(k0 + 1), PayloadStart(n), diff)
    ensures Shifted(SlotsOf(MoveOne(d, SlotPos(k0), diff), n), k0 + 1, diff) == Shifted(SlotsOf(d, n), k0, diff)
  {
    var o := SlotsOf(d, n);
    MoveFromSlotStep(d, n, k0, diff);
    assert SlotsOf(MoveOne(d, SlotPos(k0), diff), n) == o[k0 := Moved(o[k0], diff)] by {
      SlotsOfAt(d, n, k0);
      MoveOneSlots(d, n, k0, diff);
    }
    ShiftedSet(o, k0, diff);
  }

  // ---------------------------------------------------------------------
  // Reading a field's bytes
  // ---------------------------------------------------------------------

  /** `get_value::<SIZE>`: the `size` bytes at the slot's offset, None for a
      null slot. */
  function GetValue(d: seq<byte>, offsetPos: nat, size: nat): (r: Option<seq<byte>>)
    requires offsetPos + 4 <= |d|
    requires GetOffset(d, offsetPos) != 0 ==> GetOffset(d, offsetPos) + size <= |d|
    ensures r.None? <==> GetOffset(d, offsetPos) == 0
    ensures r.Some? ==> |r.value| == size
  {
    var offset := GetOffset(d, offsetPos);
    if offset == 0 then None else Some(d[offset..offset + size])
  }

  /** In a well-formed document `get_value` reads the first `size` bytes of
      the field's region. */
  lemma GetValueOfRegion(d: seq<byte>, n: nat, k: nat, size: nat)
    requires WellFormed(d, n) && k < n
    requires Regions(d, n)[k].Some? ==> size <= |Regions(d, n)[k].value|
    ensures SlotPos(k) + 4 <= |d|
    ensures Slot(d, k) != 0 ==> Slot(d, k) + size <= |d|
    ensures GetValue(d, SlotPos(k), size)
         == if Regions(d, n)[k].None? then None else Some(Regions(d, n)[k].value[..size])
  {
    RegionAt(d, n, k);
    var s, e := Slot(d, k), EndFrom(SlotsOf(d, n), k + 1, |d|);
    var r := Regions(d, n)[k];
    if s == 0 {
      assert r == None;
    } else {
      assert r == Some(d[s..e]);
      GetValuePrefix(d, SlotPos(k), size, e);
    }
  }

  /** `get_value` of a slot whose offset starts a run ending at `e` reads
      the first `size` bytes of that run. */
  lemma GetValuePrefix(d: seq<byte>, pos: nat, size: nat, e: nat)
    requires pos + 4 <= |d| && GetOffset(d, pos) != 0 && GetOffset(d, pos) + size <= e <= |d|
    ensures GetValue(d, pos, size) == Some(d[GetOffset(d, pos)..e][..size])
  {
    SlicePrefix(d, GetOffset(d, pos), e, size);
  }

  /** `get_value_with_len`: the bytes from the slot's offset to `get_end`,
      None for a null slot. The source repeats `get_end`'s scan inline. */
  method GetValueWithLen(data: seq<byte>, offsetPos: nat, payloadOffset: nat) returns (r: Option<seq<byte>>)
    requires offsetPos + 4 <= |data|
    requires GetOffset(data, offsetPos) != 0 ==>
      ReadsOk(|data|, offsetPos + 4, payloadOffset, 4)
      && GetOffset(data, offsetPos) <= EndAt(data, offsetPos + 4, payloadOffset) <= |data|
    ensures r.None? <==> GetOffset(data, offsetPos) == 0
    ensures r.Some? ==> r.value == data[GetOffset(data, offsetPos)..EndAt(data, offsetPos + 4, payloadOffset)]
  {
    var offset := GetOffset(data, offsetPos);
    if offset == 0 {
      return None;
    }
    var offsetEnd := GetEnd(data, offsetPos, payloadOffset);
    return Some(data[offset..offsetEnd]);
  }

  /** In a well-formed document `get_value_with_len` may be called on every
      slot and returns that slot's region. */
  lemma GetValueWithLenOfRegion(d: seq<byte>, n: nat, k: nat)
    requires WellFormed(d, n) && k < n
    ensures SlotPos(k) + 4 <= |d|
    ensures GetOffset(d, SlotPos(k)) != 0 ==>
      ReadsOk(|d|, SlotPos(k) + 4, PayloadStart(n), 4)
      && GetOffset(d, SlotPos(k)) <= EndAt(d, SlotPos(k) + 4, PayloadStart(n)) <= |d|
    ensures Regions(d, n)[k].None? <==> GetOffset(d, SlotPos(k)) == 0
    ensures GetOffset(d, SlotPos(k)) != 0 ==>
      Regions(d, n)[k].value == d[GetOffset(d, SlotPos(k))..EndAt(d, SlotPos(k) + 4, PayloadStart(n))]
  {
    GetEndOfRegion(d, n, k);
    RegionAt(d, n, k);
  }

  // ---------------------------------------------------------------------
  // Arrays of fixed-size items
  // ---------------------------------------------------------------------

  /** `m` is a whole number of `size`-byte items. */
  predicate Whole(m: nat, size: nat)
    requires size > 0
    decreases m
  {
    m == 0 || (m >= size && Whole(m - size, size))
  }

  /** The `size`-byte items of `data[pos..end]`, in order. */
  function Items(data: seq<byte>, pos: nat, end: nat, size: nat): (r: seq<seq<byte>>)
    requires size > 0 && pos <= end <= |data| && Whole(end - pos, size)
    ensures forall i | 0 <= i < |r| :: |r[i]| == size
    decreases end - pos
  {
    if pos == end then [] else [data[pos..pos + size]] + Items(data, pos + size, end, size)
  }

  lemma {:induction false} MulLt(a: nat, b: nat, s: nat)
    requires a < b
    ensures a * s + s <= b * s
    decreases b - a
  {
    if a + 1 < b {
      MulLt(a, b - 1, s);
    }
    assert b * s == (b - 1) * s + s;
  }

  lemma DivUnique(m: nat, s: nat, q: nat, r: nat)
    requires 0 <= r < s && m == q * s + r
    ensures m / s == q
  {
    var q' := m / s;
    assert m == q' * s + m % s;
    if q' < q {
      MulLt(q', q, s);
    } else if q < q' {
      MulLt(q, q', s);
    }
  }

  lemma DivStep(m: nat, size: nat)
    requires 0 < size <= m
    ensures m / size == (m - size) / size + 1
  {
    var q := (m - size) / size;
    var r := (m - size) % size;
    assert (q + 1) * size == q * size + size;
    DivUnique(m, size, q + 1, r);
  }

  lemma {:induction false} ItemsCount(data: seq<byte>, pos: nat, end: nat, size: nat)
    requires size > 0 && pos <= end <= |data| && Whole(end - pos, size)
    ensures |Items(data, pos, end, size)| == (end - pos) / size
    decreases end - pos
  {
    if pos < end {
      ItemsCount(data, pos + size, end, size);
      DivStep(end - pos, size);
    }
  }

  lemma {:induction false} WholeTimes(count: nat, size: nat)
    requires size > 0
    ensures Whole(count * size, size)
  {
    if count > 0 {
      WholeTimes(count - 1, size);
      assert count * size - size == (count - 1) * size;
    }
  }

  /** `ManyIter<SIZE>`: walks the `SIZE`-byte items of `data[pos..end]`. */
  class ManyIter {
    const data: seq<byte>
    const end: nat
    const size: nat
    var pos: nat

    predicate Valid()
      reads this
    {
      0 < size && pos <= end <= |data| && Whole(end - pos, size)
    }

    /** The items still to come. */
    function Remaining(): seq<seq<byte>>
      reads this
      requires Valid()
    {
      Items(data, pos, end, size)
    }

    constructor (data: seq<byte>, pos: nat, end: nat, size: nat)
      ensures this.data == data && this.pos == pos && this.end == end && this.size == size
    {
      this.data := data;
      this.pos := pos;
      this.end := end;
      this.size := size;
    }

    /** `is_empty`. */
    function IsEmpty(): (r: bool)
      reads this
      requires Valid()
      ensures r <==> Remaining() == []
    {
      pos == end
    }

    /** `len`: the number of items still to come. */
    function Len(): (r: nat)
      reads this
      requires Valid()
      ensures r == |Remaining()|
    {
      ItemsCount(data, pos, end, size);
      (end - pos) / size
    }

    /** `next`: the next item, None once the items are used up. */
    method Next() returns (r: Option<seq<byte>>)
      requires Valid()
      modifies this
      ensures Valid()
      ensures old(Remaining()) == [] ==> r.None? && Remaining() == []
      ensures old(Remaining()) != [] ==> r == Some(old(Remaining())[0]) && Remaining() == old(Remaining())[1..]
    {
      if pos >= end {
        return None;
      }
      var item := data[pos..pos + size];
      pos := pos + size;
      return Some(item);
    }
  }

  /** `get_array::<SIZE>`: the items of a field stored as a u32 count followed
      by that many `SIZE`-byte items; None for a null slot. */
  method GetArray(data: seq<byte>, offsetPos: nat, size: nat) returns (r: Option<ManyIter>)
    requires offsetPos + 4 <= |data|
    requires GetOffset(data, offsetPos) != 0 ==> GetOffset(data, offsetPos) + 4 <= |data|
    ensures r.None? <==> GetOffset(data, offsetPos) == 0
    ensures r.Some? ==>
      (fresh(r.value) && r.value.data == data && r.value.size == size
       && r.value.pos == GetOffset(data, offsetPos) + 4
       && r.value.end == r.value.pos + GetOffset(data, GetOffset(data, offsetPos)) * size)
    ensures r.Some? && size > 0 && r.value.end <= |data| ==>
      r.value.Valid() && |r.value.Remaining()| == GetOffset(data, GetOffset(data, offsetPos))
  {
    var offset := GetOffset(data, offsetPos);
    if offset == 0 {
      return None;
    }
    var len := GetOffset(data, offset);
    var start := offset + 4;
    ItemBytesNat(len, size);
    var end := start + len * size;
    var it := new ManyIter(data, start, end, size);
    if size > 0 && end <= |data| {
      GetArrayItems(data, start, len, size);
    }
    return Some(it);
  }

  lemma ItemBytesNat(count: nat, size: nat)
    ensures count * size >= 0
  {
  }

  /** An iterator from `get_array` is valid when its items lie inside the
      buffer, and then it yields exactly the stored count of items. */
  lemma GetArrayItems(data: seq<byte>, start: nat, count: nat, size: nat)
    requires size > 0 && start + count * size <= |data|
    ensures Whole(count * size, size)
    ensures |Items(data, start, start + count * size, size)| == count
  {
    WholeTimes(count, size);
    ItemsCount(data, start, start + count * size, size);
    DivUnique(count * size, size, count, 0);
  }
}

=== FILE: open.dfy ===
/** Opening a database (`MarciDB::new`): every model's tree, the Direct
    index trees and the struct trees are created when missing, and every
    model and every struct list gets an id counter, started at
    `get_max_id` of its tree, whose slot is written into the schema. */
module Open {
  import opened Bytes
  import opened Schema
  import opened Store
  import opened Keys

  /** `get_or_create_tree`: the tree if it exists, otherwise a new empty
      one. */
  function Opened(ts: Trees, n: string): (r: Trees)
    ensures r.Keys == ts.Keys + {n}
    ensures forall m | m in ts :: r[m] == ts[m]
    ensures n !in ts ==> r[n] == []
  {
    if n in ts then ts else ts[n := []]
  }

  /** `r` is `ts` with some new, empty trees. */
  ghost predicate Grows(ts: Trees, r: Trees)
  {
    ts.Keys <= r.Keys && (forall m | m in ts :: r[m] == ts[m]) && (forall m | m in r && m !in ts :: r[m] == [])
  }

  lemma GrowsTransitive(a: Trees, b: Trees, c: Trees)
    requires Grows(a, b) && Grows(b, c)
    ensures Grows(a, c)
  {
  }

  /** `get_max_id` can read the tree `n` if it exists, and one more than
      its last id fits in a u64. */
  predicate Countable(ts: Trees, n: string)
  {
    n in ts ==> Sorted(ts[n]) && MaxIdReadable(ts[n]) && GetMaxId(ts[n]) < U64_LIMIT
  }

  /** The value a counter over the tree `n` starts at: `get_max_id` of the
      stored tree, or 1 when it does not exist yet. It is 1 when there is
      no stored id, and otherwise the least number above every stored id. */
  function StartId(ts: Trees, n: string): (r: nat)
    requires Countable(ts, n)
    ensures 1 <= r < U64_LIMIT
    ensures n !in ts || ts[n] == [] ==> r == 1
    ensures n in ts && ts[n] != [] ==> Get(ts[n], BE64(r - 1)).Some?
    ensures n in ts ==> forall id: nat | id < U64_LIMIT && Get(ts[n], BE64(id)).Some? :: id < r
  {
    if n in ts then GetMaxId(ts[n]) else 1
  }

  /** Once a tree is open, `get_max_id` of it is the start value computed
      from the stored trees. */
  lemma OpenedStart(ts0: Trees, ts: Trees, n: string)
    requires TreesOk(ts0) && Grows(ts0, ts) && Countable(ts0, n) && n in ts
    ensures Sorted(ts[n]) && MaxIdReadable(ts[n]) && GetMaxId(ts[n]) == StartId(ts0, n)
  {
  }

  /** The state of `new`'s loop: the trees and the counters. */
  datatype Boot = Boot(trees: Trees, counters: seq<nat>)

  /** The counters of `b` extend those of `a` with values below 2^64, and
      the trees grow. */
  ghost predicate Extends(ts0: Trees, a: Boot, b: Boot)
  {
    Grows(ts0, a.trees) && Grows(a.trees, b.trees) && Grows(ts0, b.trees)
    && |a.counters| <= |b.counters| && b.counters[..|a.counters|] == a.counters
    && forall i | |a.counters| <= i < |b.counters| :: b.counters[i] < U64_LIMIT
  }

  /** `new` does not panic: every tree a counter starts from can be read
      by `get_max_id`. */
  predicate FieldsOk(ts0: Trees, fields: seq<Field>)
  {
    forall f | f in fields && f.ty.StructList? :: Countable(ts0, f.ty.listStruct.name)
  }

  predicate OpenOk(ts0: Trees, models: seq<Model>)
  {
    TreesOk(ts0) && forall m | m in models :: Countable(ts0, m.name) && FieldsOk(ts0, m.fields)
  }

  /** The items of a struct list are stored under 16-byte keys (the
      parent's id, then the item's), so once such a tree holds an item
      `get_max_id` cannot read its last key and `new` panics: no schema
      with that struct list can be opened over those trees. */
  lemma StructListItemsBlockOpen(ts0: Trees, models: seq<Model>, m: nat, fi: nat)
    requires m < |models| && fi < |models[m].fields| && models[m].fields[fi].ty.StructList?
    requires var n := models[m].fields[fi].ty.listStruct.name;
      n in ts0 && ts0[n] != [] && forall k | 0 <= k < |ts0[n]| :: |ts0[n][k].key| == 16
    ensures !OpenOk(ts0, models)
  {
  }

  /** The Direct index trees of a field, created in order. */
  function OpenDirects(ts: Trees, ixs: seq<InsertedIndex>): (r: Trees)
    ensures Grows(ts, r)
    ensures forall ix | ix in ixs && ix.Direct? :: ix.treeName in r
    decreases |ixs|
  {
    if ixs == [] then ts
    else
      var r := OpenDirects(if ixs[0].Direct? then Opened(ts, ixs[0].treeName) else ts, ixs[1..]);
      assert forall ix | ix in ixs && ix != ixs[0] :: ix in ixs[1..];
      r
  }

  /** After `new`, a field differs from the schema's only in the counter
      slot of a struct list, which holds the start value of the list's
      tree; the trees it needs exist. */
  ghost predicate FieldStarted(ts0: Trees, f: Field, g: Field, cs: seq<nat>, trees: Trees)
  {
    (forall ix | ix in f.insertedIndexes && ix.Direct? :: ix.treeName in trees)
    && (f.ty.Struct? ==> g == f && f.ty.st.name in trees)
    && (f.ty.StructList? ==>
          g.ty.StructList? && g == f.(ty := StructList(f.ty.listStruct, g.ty.counterIdx))
          && f.ty.listStruct.name in trees
          && Countable(ts0, f.ty.listStruct.name)
          && g.ty.counterIdx < |cs| && cs[g.ty.counterIdx] == StartId(ts0, f.ty.listStruct.name))
    && (!f.ty.Struct? && !f.ty.StructList? ==> g == f)
  }

  ghost predicate FieldsStarted(ts0: Trees, fs: seq<Field>, gs: seq<Field>, cs: seq<nat>, trees: Trees)
  {
    |gs| == |fs| && forall j | 0 <= j < |fs| :: FieldStarted(ts0, fs[j], gs[j], cs, trees)
  }

  /** The fields loop over one field: the Direct trees, then a struct's
      tree, or a struct list's tree and its counter. */
  function OpenField(ts0: Trees, b: Boot, f: Field): (r: (Boot, Field))
    requires TreesOk(ts0) && Grows(ts0, b.trees) && (f.ty.StructList? ==> Countable(ts0, f.ty.listStruct.name))
    ensures Extends(ts0, b, r.0)
    ensures FieldStarted(ts0, f, r.1, r.0.counters, r.0.trees)
  {
    var ts1 := OpenDirects(b.trees, f.insertedIndexes);
    match f.ty
    case Struct(st) => (Boot(Opened(ts1, st.name), b.counters), f)
    case StructList(st, _) =>
      var ts2 := Opened(ts1, st.name);
      OpenedStart(ts0, ts2, st.name);
      (Boot(ts2, b.counters + [GetMaxId(ts2[st.name])]), f.(ty := StructList(st, |b.counters|)))
    case _ => (Boot(ts1, b.counters), f)
  }

  /** Later steps keep what earlier ones established. */
  lemma FieldStartedKept(ts0: Trees, f: Field, g: Field, a: Boot, b: Boot)
    requires Extends(ts0, a, b) && FieldStarted(ts0, f, g, a.counters, a.trees)
    ensures FieldStarted(ts0, f, g, b.counters, b.trees)
  {
    if f.ty.StructList? {
      assert b.counters[g.ty.counterIdx] == b.counters[..|a.counters|][g.ty.counterIdx];
    }
  }

  /** The loop over the fields of a model. */
  function OpenFields(ts0: Trees, b: Boot, fields: seq<Field>): (r: (Boot, seq<Field>))
    requires TreesOk(ts0) && Grows(ts0, b.trees) && FieldsOk(ts0, fields)
    ensures Extends(ts0, b, r.0)
    ensures FieldsStarted(ts0, fields, r.1, r.0.counters, r.0.trees)
    decreases |fields|
  {
    if fields == [] then (b, [])
    else
      assert fields[0] in fields && forall f | f in fields[1..] :: f in fields;
      var (b1, g) := OpenField(ts0, b, fields[0]);
      var (b2, gs) := OpenFields(ts0, b1, fields[1..]);
      FieldStartedKept(ts0, fields[0], g, b1, b2);
      ExtendsTransitive(ts0, b, b1, b2);
      FieldsStartedCons(ts0, fields, g, gs, b2.counters, b2.trees);
      (b2, [g] + gs)
  }

  /** After `new`, a model differs from the schema's only in its counter
      slot, which holds the start value of its tree, and in its fields'
      struct list slots. */
  ghost predicate ModelStarted(ts0: Trees, m: Model, n: Model, cs: seq<nat>, trees: Trees)
  {
    n == m.(counterIdx := n.counterIdx, fields := n.fields)
    && m.name in trees && Countable(ts0, m.name)
    && n.counterIdx < |cs| && cs[n.counterIdx] == StartId(ts0, m.name)
    && FieldsStarted(ts0, m.fields, n.fields, cs, trees)
  }

  /** The models loop over one model: its tree, its counter, then its
      fields. */
  function OpenModel(ts0: Trees, b: Boot, m: Model): (r: (Boot, Model))
    requires TreesOk(ts0) && Grows(ts0, b.trees) && Countable(ts0, m.name) && FieldsOk(ts0, m.fields)
    ensures Extends(ts0, b, r.0)
    ensures ModelStarted(ts0, m, r.1, r.0.counters, r.0.trees)
  {
    var ts1 := Opened(b.trees, m.name);
    OpenedStart(ts0, ts1, m.name);
    var b1 := Boot(ts1, b.counters + [GetMaxId(ts1[m.name])]);
    var (b2, gs) := OpenFields(ts0, b1, m.fields);
    ModelOpened(ts0, b, m, b1, b2, gs);
    (b2, m.(counterIdx := |b.counters|, fields := gs))
  }

  /** The counter pushed for the model stays at its slot while the fields
      loop extends the counters. */
  lemma ModelOpened(ts0: Trees, b: Boot, m: Model, b1: Boot, b2: Boot, gs: seq<Field>)
    requires TreesOk(ts0) && Grows(ts0, b.trees) && Countable(ts0, m.name)
    requires b1.trees == Opened(b.trees, m.name) && Sorted(b1.trees[m.name]) && MaxIdReadable(b1.trees[m.name])
    requires b1.counters == b.counters + [GetMaxId(b1.trees[m.name])] && GetMaxId(b1.trees[m.name]) == StartId(ts0, m.name)
    requires Extends(ts0, b1, b2) && FieldsStarted(ts0, m.fields, gs, b2.counters, b2.trees)
    ensures Extends(ts0, b, b2)
    ensures ModelStarted(ts0, m, m.(counterIdx := |b.counters|, fields := gs), b2.counters, b2.trees)
  {
    assert Extends(ts0, b, b1);
    ExtendsTransitive(ts0, b, b1, b2);
    assert b2.counters[|b.counters|] == b2.counters[..|b1.counters|][|b.counters|];
  }

  lemma ModelStartedKept(ts0: Trees, m: Model, n: Model, a: Boot, b: Boot)
    requires Extends(ts0, a, b) && ModelStarted(ts0, m, n, a.counters, a.trees)
    ensures ModelStarted(ts0, m, n, b.counters, b.trees)
  {
    assert b.counters[n.counterIdx] == b.counters[..|a.counters|][n.counterIdx];
    forall j | 0 <= j < |m.fields|
      ensures FieldStarted(ts0, m.fields[j], n.fields[j], b.counters, b.trees)
    {
      FieldStartedKept(ts0, m.fields[j], n.fields[j], a, b);
    }
  }

  ghost predicate ModelsStarted(ts0: Trees, ms: seq<Model>, ns: seq<Model>, cs: seq<nat>, trees: Trees)
  {
    |ns| == |ms| && forall k | 0 <= k < |ms| :: ModelStarted(ts0, ms[k], ns[k], cs, trees)
  }

  /** The loop over the models of `new`. */
  function OpenModels(ts0: Trees, b: Boot, models: seq<Model>): (r: (Boot, seq<Model>))
    requires OpenOk(ts0, models) && Grows(ts0, b.trees)
    ensures Extends(ts0, b, r.0)
    ensures ModelsStarted(ts0, models, r.1, r.0.counters, r.0.trees)
    decreases |models|
  {
    if models == [] then (b, [])
    else
      assert models[0] in models && forall m | m in models[1..] :: m in models;
      var (b1, n) := OpenModel(ts0, b, models[0]);
      var (b2, ns) := OpenModels(ts0, b1, models[1..]);
      ModelStartedKept(ts0, models[0], n, b1, b2);
      ExtendsTransitive(ts0, b, b1, b2);
      ModelsStartedCons(ts0, models, n, ns, b2.counters, b2.trees);
      (b2, [n] + ns)
  }

  lemma ExtendsTransitive(ts0: Trees, a: Boot, b: Boot, c: Boot)
    requires Extends(ts0, a, b) && Extends(ts0, b, c)
    ensures Extends(ts0, a, c)
  {
    assert c.counters[..|a.counters|] == c.counters[..|b.counters|][..|a.counters|];
    forall i | |a.counters| <= i < |c.counters| ensures c.counters[i] < U64_LIMIT {
      if i < |b.counters| {
        assert c.counters[i] == c.counters[..|b.counters|][i];
      }
    }
  }

  lemma FieldsStartedCons(ts0: Trees, fields: seq<Field>, g: Field, gs: seq<Field>, cs: seq<nat>, trees: Trees)
    requires fields != [] && FieldStarted(ts0, fields[0], g, cs, trees) && FieldsStarted(ts0, fields[1..], gs, cs, trees)
    ensures FieldsStarted(ts0, fields, [g] + gs, cs, trees)
  {
    forall j | 0 <= j < |fields| ensures FieldStarted(ts0, fields[j], ([g] + gs)[j], cs, trees) {
      if j > 0 {
        assert fields[j] == fields[1..][j - 1] && ([g] + gs)[j] == gs[j - 1];
      }
    }
  }

  lemma ModelsStartedCons(ts0: Trees, models: seq<Model>, n: Model, ns: seq<Model>, cs: seq<nat>, trees: Trees)
    requires models != [] && ModelStarted(ts0, models[0], n, cs, trees) && ModelsStarted(ts0, models[1..], ns, cs, trees)
    ensures ModelsStarted(ts0, models, [n] + ns, cs, trees)
  {
    forall k | 0 <= k < |models| ensures ModelStarted(ts0, models[k], ([n] + ns)[k], cs, trees) {
      if k > 0 {
        assert models[k] == models[1..][k - 1] && ([n] + ns)[k] == ns[k - 1];
      }
    }
  }

  /** What `new` leaves: the stored trees unchanged, every tree it created
      empty, every counter below 2^64, and the counter of every model above
      every id stored in its tree, so that a freshly drawn id names no
      stored record. */
  lemma OpenedFresh(ts0: Trees, models: seq<Model>, k: nat, id: nat)
    requires OpenOk(ts0, models) && k < |models| && id < U64_LIMIT
    ensures var (b, ns) := OpenModels(ts0, Boot(ts0, []), models);
      (forall m | m in ts0 :: b.trees[m] == ts0[m])
      && (forall m | m in b.trees && m !in ts0 :: b.trees[m] == [])
      && (forall i | 0 <= i < |b.counters| :: b.counters[i] < U64_LIMIT)
      && ns[k].counterIdx < |b.counters|
      && (Get(b.trees[models[k].name], BE64(id)).Some? ==> id < b.counters[ns[k].counterIdx])
  {
    var (b, ns) := OpenModels(ts0, Boot(ts0, []), models);
    assert ModelStarted(ts0, models[k], ns[k], b.counters, b.trees);
  }

  // ---------------------------------------------------------------------
  // The loops of new
  // ---------------------------------------------------------------------

  /** The loop over a field's indexes: `get_or_create_tree` for every
      Direct one. */
  method OpenDirectsLoop(ts: Trees, ixs: seq<InsertedIndex>) returns (r: Trees)
    ensures r == OpenDirects(ts, ixs)
  {
    r := ts;
    var i := 0;
    while i < |ixs|
      invariant i <= |ixs| && OpenDirects(r, ixs[i..]) == OpenDirects(ts, ixs)
    {
      assert ixs[i..][0] == ixs[i] && ixs[i..][1..] == ixs[i + 1..];
      match ixs[i] {
        case Direct(n) =>
          r := Opened(r, n);
        case Rev(_) =>
      }
      i := i + 1;
    }
  }

  /** One field of `new`. */
  method OpenFieldStep(ts0: Trees, b: Boot, f: Field) returns (r: Boot, g: Field)
    requires TreesOk(ts0) && Grows(ts0, b.trees) && (f.ty.StructList? ==> Countable(ts0, f.ty.listStruct.name))
    ensures (r, g) == OpenField(ts0, b, f)
  {
    var ts := OpenDirectsLoop(b.trees, f.insertedIndexes);
    match f.ty {
      case Struct(st) =>
        r, g := Boot(Opened(ts, st.name), b.counters), f;
      case StructList(st, _) =>
        ts := Opened(ts, st.name);
        OpenedStart(ts0, ts, st.name);
        var maxId := GetMaxId(ts[st.name]);
        r, g := Boot(ts, b.counters + [maxId]), f.(ty := StructList(st, |b.counters|));
      case _ =>
        r, g := Boot(ts, b.counters), f;
    }
  }

  /** The fields loop so far: `r` and `gs` are the state and the fields
      done after the first `i` fields, on the way to `final`. */
  ghost predicate FieldsLoop(ts0: Trees, fields: seq<Field>, i: nat, r: Boot, gs: seq<Field>, final: (Boot, seq<Field>))
  {
    i <= |fields| && TreesOk(ts0) && Grows(ts0, r.trees) && FieldsOk(ts0, fields[i..])
    && OpenFields(ts0, r, fields[i..]).0 == final.0
    && gs + OpenFields(ts0, r, fields[i..]).1 == final.1
  }

  /** One turn of the fields loop keeps `FieldsLoop`. */
  lemma FieldsLoopStep(ts0: Trees, fields: seq<Field>, i: nat, r: Boot, gs: seq<Field>, final: (Boot, seq<Field>))
    requires FieldsLoop(ts0, fields, i, r, gs, final) && i < |fields|
    ensures fields[i].ty.StructList? ==> Countable(ts0, fields[i].ty.listStruct.name)
    ensures var (r1, g) := OpenField(ts0, r, fields[i]); FieldsLoop(ts0, fields, i + 1, r1, gs + [g], final)
  {
    assert fields[i..][0] == fields[i] && fields[i..][1..] == fields[i + 1..];
    assert fields[i] in fields[i..] && forall f | f in fields[i + 1..] :: f in fields[i..];
    var (r1, g) := OpenField(ts0, r, fields[i]);
    Append3(gs, [g], OpenFields(ts0, r1, fields[i + 1..]).1);
  }

  /** The loop over the fields of a model. */
  method OpenFieldsLoop(ts0: Trees, b: Boot, fields: seq<Field>) returns (r: Boot, gs: seq<Field>)
    requires TreesOk(ts0) && Grows(ts0, b.trees) && FieldsOk(ts0, fields)
    ensures (r, gs) == OpenFields(ts0, b, fields)
  {
    ghost var final := OpenFields(ts0, b, fields);
    r, gs := b, [];
    var i := 0;
    assert fields[0..] == fields;
    while i < |fields|
      invariant FieldsLoop(ts0, fields, i, r, gs, final)
    {
      FieldsLoopStep(ts0, fields, i, r, gs, final);
      var g;
      r, g := OpenFieldStep(ts0, r, fields[i]);
      gs := gs + [g];
      i := i + 1;
    }
    assert fields[i..] == [] && gs + [] == gs;
  }

  /** The models loop of `new` so far: `b` and `ns` are the state and the
      models done after the first `i` models, on the way to `final`. */
  ghost predicate ModelsLoop(ts0: Trees, models: seq<Model>, i: nat, b: Boot, ns: seq<Model>, final: (Boot, seq<Model>))
  {
    i <= |models| && OpenOk(ts0, models[i..]) && Grows(ts0, b.trees)
    && OpenModels(ts0, b, models[i..]).0 == final.0
    && ns + OpenModels(ts0, b, models[i..]).1 == final.1
  }

  /** One turn of the models loop keeps `ModelsLoop`. */
  lemma ModelsLoopStep(ts0: Trees, models: seq<Model>, i: nat, b: Boot, ns: seq<Model>, final: (Boot, seq<Model>))
    requires ModelsLoop(ts0, models, i, b, ns, final) && i < |models|
    ensures TreesOk(ts0) && Countable(ts0, models[i].name) && FieldsOk(ts0, models[i].fields)
    ensures var (b1, n) := OpenModel(ts0, b, models[i]); ModelsLoop(ts0, models, i + 1, b1, ns + [n], final)
  {
    assert models[i..][0] == models[i] && models[i..][1..] == models[i + 1..];
    assert models[i] in models[i..] && forall m | m in models[i + 1..] :: m in models[i..];
    var (b1, n) := OpenModel(ts0, b, models[i]);
    Append3(ns, [n], OpenModels(ts0, b1, models[i + 1..]).1);
  }

  /** The body of the models loop of `new`: the model's tree, its counter
      started at `get_max_id`, then its fields. */
  method OpenModelStep(ts0: Trees, b: Boot, m: Model) returns (r: Boot, n: Model)
    requires TreesOk(ts0) && Grows(ts0, b.trees) && Countable(ts0, m.name) && FieldsOk(ts0, m.fields)
    ensures (r, n) == OpenModel(ts0, b, m)
  {
    var ts := Opened(b.trees, m.name);
    OpenedStart(ts0, ts, m.name);
    var maxId := GetMaxId(ts[m.name]);
    var gs;
    r, gs := OpenFieldsLoop(ts0, Boot(ts, b.counters + [maxId]), m.fields);
    n := m.(counterIdx := |b.counters|, fields := gs);
  }

  /** The trees after `new` keep their keys in order. */
  lemma GrowsOk(ts0: Trees, ts: Trees)
    requires TreesOk(ts0) && Grows(ts0, ts)
    ensures TreesOk(ts)
  {
  }
}

=== FILE: read.dfy ===
/** The read path (`process_data`, `get_all`): every record of a tree is
    handed, with its id, its bytes and the results of the selection's
    includes, to a caller-supplied function `f`. An include follows a
    reference slot (One), scans an index tree (Many), or reads the embedded
    struct stored under the record's id (OneStruct) or under its prefix
    (ManyStruct); each nested record is processed the same way, with the
    include's own selection.

    The source panics when a tree it opens is missing, when a referenced
    record is missing, when a slice is out of bounds and when a key does
    not have the length it converts to a u64. Here every such panic is the
    result `None`; `Some` is the value the source returns. */
module Read {
  import opened Wrappers
  import opened Bytes
  import opened Schema
  import opened Store
  import opened Keys
  import opened Layout
  import opened Offsets
  import Select

  /** `IncludeResult`: the source's `None`, `One` and `Many`, each with
      the include's field index. */
  datatype IncludeResult<U> =
    | NoResult(fieldIndex: nat)
    | OneResult(fieldIndex: nat, item: U)
    | ManyResults(fieldIndex: nat, items: seq<U>)

  /** `DecodeCtx`: what `f` is given for one record. */
  datatype DecodeCtx<U> = DecodeCtx(id: nat, data: seq<byte>, fields: seq<Field>, payloadOffset: nat,
                                    select: seq<bool>, includes: seq<IncludeResult<U>>)

  /** A `map(..).collect()` step: the first result before the rest, when
      neither panicked. */
  function Cons<T>(x: Option<T>, xs: Option<seq<T>>): (r: Option<seq<T>>)
    ensures r.Some? <==> x.Some? && xs.Some?
    ensures r.Some? ==> |r.value| == |xs.value| + 1 && r.value[0] == x.value && r.value[1..] == xs.value
  {
    if x.Some? && xs.Some? then Some([x.value] + xs.value) else None
  }

  /** The results collected so far ahead of the rest, when the rest
      did not panic. */
  function Prepend<T>(xs: seq<T>, o: Option<seq<T>>): (r: Option<seq<T>>)
    ensures r.Some? <==> o.Some?
    ensures r.Some? ==> |r.value| == |xs| + |o.value| && r.value[..|xs|] == xs && r.value[|xs|..] == o.value
  {
    if o.Some? then Some(xs + o.value) else None
  }

  /** One element moves from the pending list to the collected prefix. */
  lemma PrependCons<T>(xs: seq<T>, x: T, o: Option<seq<T>>)
    ensures Prepend(xs, Cons(Some(x), o)) == Prepend(xs + [x], o)
  {
    if o.Some? {
      assert xs + ([x] + o.value) == xs + [x] + o.value;
    }
  }

  /** `process_data`: the includes of `sel`, in order, then `f`. */
  function ProcessData<U>(ts: Trees, id: nat, data: seq<byte>, sel: Select.Selection, shape: Shape, f: DecodeCtx<U> -> U): Option<U>
    requires TreesOk(ts) && id < U64_LIMIT
    decreases sel, 3
  {
    match IncludesFrom(ts, id, data, sel, 0, f)
    case None => None
    case Some(incs) => Some(f(DecodeCtx(id, data, shape.fields, shape.payloadOffset, sel.mask, incs)))
  }

  /** The includes from the `j`-th on. */
  function IncludesFrom<U>(ts: Trees, id: nat, data: seq<byte>, sel: Select.Selection, j: nat, f: DecodeCtx<U> -> U)
    : Option<seq<IncludeResult<U>>>
    requires TreesOk(ts) && id < U64_LIMIT && j <= |sel.includes|
    decreases sel, 2, |sel.includes| - j
  {
    if j == |sel.includes| then Some([])
    else
      Cons(IncludeAt(ts, id, data, sel, j, f), IncludesFrom(ts, id, data, sel, j + 1, f))
  }

  /** The `j`-th include of `sel` for the record `id` with bytes `data`. */
  function IncludeAt<U>(ts: Trees, id: nat, data: seq<byte>, sel: Select.Selection, j: nat, f: DecodeCtx<U> -> U)
    : (r: Option<IncludeResult<U>>)
    requires TreesOk(ts) && id < U64_LIMIT && j < |sel.includes|
    ensures r.Some? ==> r.value.fieldIndex == sel.includes[j].fieldIndex
    ensures r.Some? && (sel.includes[j].binding.Many? || sel.includes[j].binding.ManyStruct?) ==> r.value.ManyResults?
    ensures r.Some? && (sel.includes[j].binding.One? || sel.includes[j].binding.OneStruct?) ==> !r.value.ManyResults?
    ensures (sel.includes[j].binding.One? && sel.includes[j].binding.offsetPos + 4 <= |data|
             && GetOffset(data, sel.includes[j].binding.offsetPos) == 0) ==> r == Some(NoResult(sel.includes[j].fieldIndex))
    decreases sel, 1
  {
    var inc := sel.includes[j];
    assert inc in sel.includes;
    var tn := inc.shape.treeName;
    match inc.binding
    case One(pos) =>
      if pos + 4 > |data| || (GetOffset(data, pos) != 0 && GetOffset(data, pos) + 8 > |data|) then None
      else (
        match GetValue(data, pos, 8)
        case None => Some(NoResult(inc.fieldIndex))
        case Some(key) =>
          if tn !in ts || Get(ts[tn], key).None? then None
          else
            match ProcessData(ts, U64Of(key), Get(ts[tn], key).value, inc.select, inc.shape, f)
            case None => None
            case Some(u) => Some(OneResult(inc.fieldIndex, u)))
    case Many(index) =>
      if index !in ts then None
      else
        var keys := FindByDirect(ts[index], id);
        if keys == [] then Some(ManyResults(inc.fieldIndex, []))
        else if tn !in ts then None
        else (
          match ManyFrom(ts, sel, j, ts[tn], keys, 0, f)
          case None => None
          case Some(us) => Some(ManyResults(inc.fieldIndex, us)))
    case OneStruct =>
      if tn !in ts then None
      else (
        match Get(ts[tn], BE64(id))
        case None => Some(NoResult(inc.fieldIndex))
        case Some(d) =>
          match ProcessData(ts, id, d, inc.select, inc.shape, f)
          case None => None
          case Some(u) => Some(OneResult(inc.fieldIndex, u)))
    case ManyStruct =>
      if tn !in ts then None
      else (
        match StructItems(ts, sel, j, Prefix(ts[tn], BE64(id)), 0, f)
        case None => None
        case Some(us) => Some(ManyResults(inc.fieldIndex, us)))
  }

  /** The records of a Many include, one per key of the index scan from
      the `i`-th on: the record under the key in the include's tree, whose
      id is the key read as a u64. */
  function ManyFrom<U>(ts: Trees, sel: Select.Selection, j: nat, t: Tree, keys: seq<seq<byte>>, i: nat, f: DecodeCtx<U> -> U)
    : (r: Option<seq<U>>)
    requires TreesOk(ts) && j < |sel.includes| && i <= |keys|
    ensures r.Some? ==> |r.value| == |keys| - i
    decreases sel, 0, |keys| - i
  {
    if i == |keys| then Some([])
    else Cons(KeyItem(ts, sel, j, t, keys[i], f), ManyFrom(ts, sel, j, t, keys, i + 1, f))
  }

  /** The items of a ManyStruct include from the `i`-th entry of the
      prefix scan on: each item's id is the second half of its key. */
  function StructItems<U>(ts: Trees, sel: Select.Selection, j: nat, entries: Tree, i: nat, f: DecodeCtx<U> -> U)
    : (r: Option<seq<U>>)
    requires TreesOk(ts) && j < |sel.includes| && i <= |entries|
    ensures r.Some? ==> |r.value| == |entries| - i
    decreases sel, 0, |entries| - i
  {
    if i == |entries| then Some([])
    else Cons(StructItem(ts, sel, j, entries[i], f), StructItems(ts, sel, j, entries, i + 1, f))
  }

  /** One item of a ManyStruct include: a sixteen-byte key `be(id) ++
      be(item)`, the item processed under the id in its second half. */
  function StructItem<U>(ts: Trees, sel: Select.Selection, j: nat, e: Entry, f: DecodeCtx<U> -> U): (r: Option<U>)
    requires TreesOk(ts) && j < |sel.includes|
    decreases sel, 0, 0
  {
    var inc := sel.includes[j];
    assert inc in sel.includes;
    if |e.key| != 16 then None else ProcessData(ts, U64Of(e.key[8..]), e.value, inc.select, inc.shape, f)
  }

  // ---------------------------------------------------------------------
  // What the includes are
  // ---------------------------------------------------------------------

  /** Every include from the `j`-th on returns. */
  ghost predicate IncludesDefined<U>(ts: Trees, id: nat, data: seq<byte>, sel: Select.Selection, j: nat, f: DecodeCtx<U> -> U)
    requires TreesOk(ts) && id < U64_LIMIT
  {
    forall k | j <= k < |sel.includes| :: IncludeAt(ts, id, data, sel, k, f).Some?
  }

  /** The includes from the `j`-th on are there exactly when each of them
      is. */
  lemma {:induction false} IncludesFromDefined<U>(ts: Trees, id: nat, data: seq<byte>, sel: Select.Selection, j: nat, f: DecodeCtx<U> -> U)
    requires TreesOk(ts) && id < U64_LIMIT && j <= |sel.includes|
    ensures IncludesFrom(ts, id, data, sel, j, f).Some? <==> IncludesDefined(ts, id, data, sel, j, f)
    decreases |sel.includes| - j
  {
    if j < |sel.includes| {
      IncludesFromDefined(ts, id, data, sel, j + 1, f);
      assert IncludesFrom(ts, id, data, sel, j, f) == Cons(IncludeAt(ts, id, data, sel, j, f), IncludesFrom(ts, id, data, sel, j + 1, f));
    }
  }

  /** When the includes from the `j`-th on are there, they are those, one
      per include, in order. */
  lemma IncludesFromItems<U>(ts: Trees, id: nat, data: seq<byte>, sel: Select.Selection, j: nat, f: DecodeCtx<U> -> U)
    requires TreesOk(ts) && id < U64_LIMIT && j <= |sel.includes|
    requires IncludesFrom(ts, id, data, sel, j, f).Some?
    ensures var incs := IncludesFrom(ts, id, data, sel, j, f).value;
      |incs| == |sel.includes| - j && forall k | 0 <= k < |incs| :: Some(incs[k]) == IncludeAt(ts, id, data, sel, j + k, f)
  {
    IncludesFromLength(ts, id, data, sel, j, f);
    var incs := IncludesFrom(ts, id, data, sel, j, f).value;
    forall k | 0 <= k < |incs| ensures Some(incs[k]) == IncludeAt(ts, id, data, sel, j + k, f) {
      IncludesFromAt(ts, id, data, sel, j, f, k);
    }
  }

  lemma {:induction false} IncludesFromLength<U>(ts: Trees, id: nat, data: seq<byte>, sel: Select.Selection, j: nat, f: DecodeCtx<U> -> U)
    requires TreesOk(ts) && id < U64_LIMIT && j <= |sel.includes|
    requires IncludesFrom(ts, id, data, sel, j, f).Some?
    ensures |IncludesFrom(ts, id, data, sel, j, f).value| == |sel.includes| - j
    decreases |sel.includes| - j
  {
    if j < |sel.includes| {
      IncludesFromLength(ts, id, data, sel, j + 1, f);
    }
  }

  lemma {:induction false} IncludesFromAt<U>(ts: Trees, id: nat, data: seq<byte>, sel: Select.Selection, j: nat, f: DecodeCtx<U> -> U, k: nat)
    requires TreesOk(ts) && id < U64_LIMIT && j + k < |sel.includes|
    requires IncludesFrom(ts, id, data, sel, j, f).Some?
    ensures k < |IncludesFrom(ts, id, data, sel, j, f).value|
    ensures Some(IncludesFrom(ts, id, data, sel, j, f).value[k]) == IncludeAt(ts, id, data, sel, j + k, f)
    decreases k
  {
    var rest := IncludesFrom(ts, id, data, sel, j + 1, f);
    assert IncludesFrom(ts, id, data, sel, j, f) == Cons(IncludeAt(ts, id, data, sel, j, f), rest);
    if k > 0 {
      IncludesFromAt(ts, id, data, sel, j + 1, f, k - 1);
      assert j + 1 + (k - 1) == j + k;
    }
  }

  /** `process_data` returns exactly when every include does, and then it
      is `f` of the record with one include result per include of the
      selection, in the selection's order and with its field index. */
  lemma ProcessDataIncludes<U>(ts: Trees, id: nat, data: seq<byte>, sel: Select.Selection, shape: Shape, f: DecodeCtx<U> -> U)
    requires TreesOk(ts) && id < U64_LIMIT
    ensures ProcessData(ts, id, data, sel, shape, f).Some? <==> IncludesDefined(ts, id, data, sel, 0, f)
    ensures ProcessData(ts, id, data, sel, shape, f).Some? ==>
      exists incs: seq<IncludeResult<U>> ::
        ProcessData(ts, id, data, sel, shape, f).value == f(DecodeCtx(id, data, shape.fields, shape.payloadOffset, sel.mask, incs))
        && |incs| == |sel.includes|
        && forall k | 0 <= k < |incs| ::
             Some(incs[k]) == IncludeAt(ts, id, data, sel, k, f) && incs[k].fieldIndex == sel.includes[k].fieldIndex
  {
    IncludesFromDefined(ts, id, data, sel, 0, f);
    if ProcessData(ts, id, data, sel, shape, f).Some? {
      IncludesFromItems(ts, id, data, sel, 0, f);
      var incs := IncludesFrom(ts, id, data, sel, 0, f).value;
      assert forall k | 0 <= k < |incs| :: Some(incs[k]) == IncludeAt(ts, id, data, sel, 0 + k, f);
    }
  }

  /** Every key from the `i`-th on gives a record. */
  ghost predicate KeysDefined<U>(ts: Trees, sel: Select.Selection, j: nat, t: Tree, keys: seq<seq<byte>>, i: nat, f: DecodeCtx<U> -> U)
    requires TreesOk(ts) && j < |sel.includes|
  {
    forall k | i <= k < |keys| :: KeyItem(ts, sel, j, t, keys[k], f).Some?
  }

  /** The records of a Many include from the `i`-th key on are there
      exactly when each key names a record with an 8-byte key that can be
      processed. */
  lemma {:induction false} ManyFromDefined<U>(ts: Trees, sel: Select.Selection, j: nat, t: Tree, keys: seq<seq<byte>>, i: nat, f: DecodeCtx<U> -> U)
    requires TreesOk(ts) && j < |sel.includes| && i <= |keys|
    ensures ManyFrom(ts, sel, j, t, keys, i, f).Some? <==> KeysDefined(ts, sel, j, t, keys, i, f)
    decreases |keys| - i
  {
    if i < |keys| {
      ManyFromDefined(ts, sel, j, t, keys, i + 1, f);
      assert ManyFrom(ts, sel, j, t, keys, i, f) == Cons(KeyItem(ts, sel, j, t, keys[i], f), ManyFrom(ts, sel, j, t, keys, i + 1, f));
    }
  }

  /** When the records of a Many include from the `i`-th key on are
      there, they are one per key, in scan order. */
  lemma ManyFromItems<U>(ts: Trees, sel: Select.Selection, j: nat, t: Tree, keys: seq<seq<byte>>, i: nat, f: DecodeCtx<U> -> U)
    requires TreesOk(ts) && j < |sel.includes| && i <= |keys|
    requires ManyFrom(ts, sel, j, t, keys, i, f).Some?
    ensures var us := ManyFrom(ts, sel, j, t, keys, i, f).value;
      forall k | 0 <= k < |us| :: Some(us[k]) == KeyItem(ts, sel, j, t, keys[i + k], f)
  {
    var us := ManyFrom(ts, sel, j, t, keys, i, f).value;
    forall k | 0 <= k < |us| ensures Some(us[k]) == KeyItem(ts, sel, j, t, keys[i + k], f) {
      ManyFromAt(ts, sel, j, t, keys, i, f, k);
    }
  }

  lemma {:induction false} ManyFromAt<U>(ts: Trees, sel: Select.Selection, j: nat, t: Tree, keys: seq<seq<byte>>, i: nat, f: DecodeCtx<U> -> U, k: nat)
    requires TreesOk(ts) && j < |sel.includes| && i <= |keys|
    requires ManyFrom(ts, sel, j, t, keys, i, f).Some?
    requires k < |ManyFrom(ts, sel, j, t, keys, i, f).value|
    ensures i + k < |keys|
    ensures Some(ManyFrom(ts, sel, j, t, keys, i, f).value[k]) == KeyItem(ts, sel, j, t, keys[i + k], f)
    decreases k
  {
    if i == |keys| {
      assert false;
    } else {
      var rest := ManyFrom(ts, sel, j, t, keys, i + 1, f);
      assert ManyFrom(ts, sel, j, t, keys, i, f) == Cons(KeyItem(ts, sel, j, t, keys[i], f), rest);
      if k > 0 {
        ManyFromAt(ts, sel, j, t, keys, i + 1, f, k - 1);
        assert i + 1 + (k - 1) == i + k;
      }
    }
  }

  /** One record of a Many include: the record under `key` in `t`, read
      with `key` as its id. */
  function KeyItem<U>(ts: Trees, sel: Select.Selection, j: nat, t: Tree, key: seq<byte>, f: DecodeCtx<U> -> U): (r: Option<U>)
    requires TreesOk(ts) && j < |sel.includes|
    decreases sel, 0, 0
  {
    var inc := sel.includes[j];
    assert inc in sel.includes;
    match Get(t, key)
    case None => None
    case Some(d) => if |key| != 8 then None else ProcessData(ts, U64Of(key), d, inc.select, inc.shape, f)
  }

  /** A Many include yields one nested result per key that
      `find_by_direct` returns for the record, in scan order. */
  lemma ManyPerKey<U>(ts: Trees, id: nat, data: seq<byte>, sel: Select.Selection, j: nat, f: DecodeCtx<U> -> U)
    requires TreesOk(ts) && id < U64_LIMIT && j < |sel.includes| && sel.includes[j].binding.Many?
    requires IncludeAt(ts, id, data, sel, j, f).Some?
    ensures var inc := sel.includes[j];
      inc.binding.treeName in ts
      && var keys := FindByDirect(ts[inc.binding.treeName], id);
      var us := IncludeAt(ts, id, data, sel, j, f).value.items;
      |us| == |keys|
      && (keys != [] ==>
            inc.shape.treeName in ts && forall k | 0 <= k < |us| :: Some(us[k]) == KeyItem(ts, sel, j, ts[inc.shape.treeName], keys[k], f))
  {
    var inc := sel.includes[j];
    var keys := FindByDirect(ts[inc.binding.treeName], id);
    if keys != [] {
      ManyFromItems(ts, sel, j, ts[inc.shape.treeName], keys, 0, f);
    }
  }

  /** Every entry of the prefix scan from the `i`-th on gives an item. */
  ghost predicate StructEntriesDefined<U>(ts: Trees, sel: Select.Selection, j: nat, entries: Tree, i: nat, f: DecodeCtx<U> -> U)
    requires TreesOk(ts) && j < |sel.includes|
  {
    forall k | i <= k < |entries| :: StructItem(ts, sel, j, entries[k], f).Some?
  }

  /** The items of a ManyStruct include from the `i`-th entry on are there
      exactly when every one of those entries has a sixteen-byte key and
      can be processed. */
  lemma {:induction false} StructItemsDefined<U>(ts: Trees, sel: Select.Selection, j: nat, entries: Tree, i: nat, f: DecodeCtx<U> -> U)
    requires TreesOk(ts) && j < |sel.includes| && i <= |entries|
    ensures StructItems(ts, sel, j, entries, i, f).Some? <==> StructEntriesDefined(ts, sel, j, entries, i, f)
    decreases |entries| - i
  {
    if i < |entries| {
      StructItemsDefined(ts, sel, j, entries, i + 1, f);
      assert StructItems(ts, sel, j, entries, i, f) == Cons(StructItem(ts, sel, j, entries[i], f), StructItems(ts, sel, j, entries, i + 1, f));
    }
  }

  /** The `k`-th item of a ManyStruct include from the `i`-th entry on is
      that of entry `i + k`. */
  lemma {:induction false} StructItemsAt<U>(ts: Trees, sel: Select.Selection, j: nat, entries: Tree, i: nat, f: DecodeCtx<U> -> U, k: nat)
    requires TreesOk(ts) && j < |sel.includes| && i <= |entries|
    requires StructItems(ts, sel, j, entries, i, f).Some?
    requires k < |StructItems(ts, sel, j, entries, i, f).value|
    ensures i + k < |entries|
    ensures Some(StructItems(ts, sel, j, entries, i, f).value[k]) == StructItem(ts, sel, j, entries[i + k], f)
    decreases k
  {
    if i == |entries| {
      assert false;
    } else {
      var rest := StructItems(ts, sel, j, entries, i + 1, f);
      assert StructItems(ts, sel, j, entries, i, f) == Cons(StructItem(ts, sel, j, entries[i], f), rest);
      if k > 0 {
        StructItemsAt(ts, sel, j, entries, i + 1, f, k - 1);
        assert i + 1 + (k - 1) == i + k;
      }
    }
  }

  /** When the items of a ManyStruct include are there, entry `k` of the
      prefix scan has a sixteen-byte key, and item `k - i` is that entry
      processed under the id read from the key's second half. */
  lemma StructItemsItems<U>(ts: Trees, sel: Select.Selection, j: nat, entries: Tree, i: nat, f: DecodeCtx<U> -> U)
    requires TreesOk(ts) && j < |sel.includes| && i <= |entries|
    requires StructItems(ts, sel, j, entries, i, f).Some?
    ensures var us := StructItems(ts, sel, j, entries, i, f).value;
      forall k | i <= k < |entries| ::
        |entries[k].key| == 16
        && Some(us[k - i]) == ProcessData(ts, U64Of(entries[k].key[8..]), entries[k].value, sel.includes[j].select, sel.includes[j].shape, f)
  {
    var us := StructItems(ts, sel, j, entries, i, f).value;
    forall k | i <= k < |entries|
      ensures |entries[k].key| == 16
        && Some(us[k - i]) == ProcessData(ts, U64Of(entries[k].key[8..]), entries[k].value, sel.includes[j].select, sel.includes[j].shape, f)
    {
      StructItemsAt(ts, sel, j, entries, i, f, k - i);
      assert i + (k - i) == k;
    }
  }

  /** A ManyStruct include yields one nested result per entry whose key
      starts with `be(id)`, in key order: the entry processed under the id
      in the second half of its sixteen-byte key. */
  lemma ManyStructPerItem<U>(ts: Trees, id: nat, data: seq<byte>, sel: Select.Selection, j: nat, f: DecodeCtx<U> -> U)
    requires TreesOk(ts) && id < U64_LIMIT && j < |sel.includes| && sel.includes[j].binding.ManyStruct?
    requires IncludeAt(ts, id, data, sel, j, f).Some?
    ensures var inc := sel.includes[j];
      inc.shape.treeName in ts
      && var es := Prefix(ts[inc.shape.treeName], BE64(id));
      var us := IncludeAt(ts, id, data, sel, j, f).value.items;
      |us| == |es|
      && forall k | 0 <= k < |es| ::
        |es[k].key| == 16
        && Some(us[k]) == ProcessData(ts, U64Of(es[k].key[8..]), es[k].value, inc.select, inc.shape, f)
  {
    var inc := sel.includes[j];
    var es := Prefix(ts[inc.shape.treeName], BE64(id));
    StructItemsItems(ts, sel, j, es, 0, f);
  }

  // ---------------------------------------------------------------------
  // get_all
  // ---------------------------------------------------------------------

  /** One record of `get_all`: the entry's key read as a u64 id, its value
      processed with the selection. */
  function EntryItem<U>(ts: Trees, sel: Select.Selection, shape: Shape, e: Entry, f: DecodeCtx<U> -> U): Option<U>
    requires TreesOk(ts)
  {
    if |e.key| != 8 then None else ProcessData(ts, U64Of(e.key), e.value, sel, shape, f)
  }

  /** The records of a tree from the `i`-th entry on, in iteration order. */
  function AllFrom<U>(ts: Trees, sel: Select.Selection, shape: Shape, t: Tree, i: nat, f: DecodeCtx<U> -> U)
    : (r: Option<seq<U>>)
    requires TreesOk(ts) && i <= |t|
    ensures r.Some? ==> |r.value| == |t| - i
    decreases |t| - i
  {
    if i == |t| then Some([])
    else Cons(EntryItem(ts, sel, shape, t[i], f), AllFrom(ts, sel, shape, t, i + 1, f))
  }

  /** `get_all`: every record of the shape's tree, processed with `sel`,
      in the tree's order; `None` when the tree is missing or a record
      panics. */
  function GetAll<U>(ts: Trees, shape: Shape, sel: Select.Selection, f: DecodeCtx<U> -> U): (r: Option<seq<U>>)
    requires TreesOk(ts)
    ensures r.Some? ==> shape.treeName in ts && |r.value| == |ts[shape.treeName]|
  {
    if shape.treeName !in ts then None else AllFrom(ts, sel, shape, ts[shape.treeName], 0, f)
  }

  /** Every entry from the `i`-th on gives a record. */
  ghost predicate EntriesDefined<U>(ts: Trees, sel: Select.Selection, shape: Shape, t: Tree, i: nat, f: DecodeCtx<U> -> U)
    requires TreesOk(ts)
  {
    forall k | i <= k < |t| :: EntryItem(ts, sel, shape, t[k], f).Some?
  }

  /** The records from the `i`-th entry on are there exactly when every
      one of those entries has an 8-byte key and can be processed. */
  lemma {:induction false} AllFromDefined<U>(ts: Trees, sel: Select.Selection, shape: Shape, t: Tree, i: nat, f: DecodeCtx<U> -> U)
    requires TreesOk(ts) && i <= |t|
    ensures AllFrom(ts, sel, shape, t, i, f).Some? <==> EntriesDefined(ts, sel, shape, t, i, f)
    decreases |t| - i
  {
    if i < |t| {
      AllFromDefined(ts, sel, shape, t, i + 1, f);
      assert AllFrom(ts, sel, shape, t, i, f) == Cons(EntryItem(ts, sel, shape, t[i], f), AllFrom(ts, sel, shape, t, i + 1, f));
    }
  }

  /** When the records from the `i`-th entry on are there, the `k`-th of
      them is the `(i + k)`-th entry, processed under its own id. */
  lemma AllFromItems<U>(ts: Trees, sel: Select.Selection, shape: Shape, t: Tree, i: nat, f: DecodeCtx<U> -> U)
    requires TreesOk(ts) && i <= |t|
    requires AllFrom(ts, sel, shape, t, i, f).Some?
    ensures var us := AllFrom(ts, sel, shape, t, i, f).value;
      forall k | 0 <= k < |us| :: Some(us[k]) == EntryItem(ts, sel, shape, t[i + k], f)
  {
    var us := AllFrom(ts, sel, shape, t, i, f).value;
    forall k | 0 <= k < |us| ensures Some(us[k]) == EntryItem(ts, sel, shape, t[i + k], f) {
      AllFromAt(ts, sel, shape, t, i, f, k);
    }
  }

  lemma {:induction false} AllFromAt<U>(ts: Trees, sel: Select.Selection, shape: Shape, t: Tree, i: nat, f: DecodeCtx<U> -> U, k: nat)
    requires TreesOk(ts) && i + k < |t|
    requires AllFrom(ts, sel, shape, t, i, f).Some?
    ensures k < |AllFrom(ts, sel, shape, t, i, f).value|
    ensures Some(AllFrom(ts, sel, shape, t, i, f).value[k]) == EntryItem(ts, sel, shape, t[i + k], f)
    decreases k
  {
    var rest := AllFrom(ts, sel, shape, t, i + 1, f);
    assert AllFrom(ts, sel, shape, t, i, f) == Cons(EntryItem(ts, sel, shape, t[i], f), rest);
    if k > 0 {
      AllFromAt(ts, sel, shape, t, i + 1, f, k - 1);
      assert i + 1 + (k - 1) == i + k;
    }
  }

  /** The `k`-th record of `get_all` is the `k`-th entry, processed under
      the id its eight-byte key encodes. */
  lemma GetAllRecordAt<U>(ts: Trees, shape: Shape, sel: Select.Selection, f: DecodeCtx<U> -> U, k: nat)
    requires TreesOk(ts) && GetAll(ts, shape, sel, f).Some? && k < |GetAll(ts, shape, sel, f).value|
    ensures shape.treeName in ts && k < |ts[shape.treeName]|
    ensures var t := ts[shape.treeName];
      |t[k].key| == 8 && Some(GetAll(ts, shape, sel, f).value[k]) == ProcessData(ts, U64Of(t[k].key), t[k].value, sel, shape, f)
  {
    AllFromAt(ts, sel, shape, ts[shape.treeName], 0, f, k);
  }

  /** `get_all` returns exactly when every record of the tree can be
      processed, and then it holds one result per record: the `k`-th is
      `process_data` of the `k`-th entry, under the id its key encodes,
      and those ids strictly ascend. */
  lemma GetAllRecords<U>(ts: Trees, shape: Shape, sel: Select.Selection, f: DecodeCtx<U> -> U)
    requires TreesOk(ts)
    ensures GetAll(ts, shape, sel, f).Some? <==>
      shape.treeName in ts && EntriesDefined(ts, sel, shape, ts[shape.treeName], 0, f)
    ensures GetAll(ts, shape, sel, f).Some? ==>
      var t, us := ts[shape.treeName], GetAll(ts, shape, sel, f).value;
      (forall k | 0 <= k < |us| ::
         |t[k].key| == 8 && Some(us[k]) == ProcessData(ts, U64Of(t[k].key), t[k].value, sel, shape, f))
      && forall k, l | 0 <= k < l < |us| :: U64Of(t[k].key) < U64Of(t[l].key)
  {
    if shape.treeName in ts {
      var t := ts[shape.treeName];
      AllFromDefined(ts, sel, shape, t, 0, f);
      if GetAll(ts, shape, sel, f).Some? {
        var us := GetAll(ts, shape, sel, f).value;
        forall k | 0 <= k < |us|
          ensures |t[k].key| == 8 && Some(us[k]) == ProcessData(ts, U64Of(t[k].key), t[k].value, sel, shape, f)
        {
          GetAllRecordAt(ts, shape, sel, f, k);
        }
        forall k, l | 0 <= k < l < |us| ensures U64Of(t[k].key) < U64Of(t[l].key) {
          GetAllRecordAt(ts, shape, sel, f, k);
          GetAllRecordAt(ts, shape, sel, f, l);
          BE64OfU64(t[k].key);
          BE64OfU64(t[l].key);
          BE64Order(U64Of(t[k].key), U64Of(t[l].key));
        }
      }
    }
  }
}

=== FILE: schema.dfy ===
/** The schema: models, their typed fields and the offset slots of the binary
    document format, and the parser of the schema file
    (`model Name { field Type? @attribute }` blocks).

    The field record is the union of the one in schema.rs and the members that
    marci_db.rs and marci_select.rs read from it (`inserted_indexes`,
    `select_index`, struct field types); the parser leaves those extra members
    empty. */
module Schema {
  import opened Wrappers
  import opened Text
  import opened Bytes

  datatype PrimitiveFieldType = String | Int64 | UInt64 | Bool | DateTime

  /** An embedded record stored in a tree of its own. */
  datatype Struct = Struct(name: string, fields: seq<Field>, payloadOffset: nat)

  datatype FieldType =
    | Primitive(prim: PrimitiveFieldType)
    | ModelRefUnresolved(refName: string)
    | ModelRef(refIndex: nat)
    | ModelRefListUnresolved(listName: string)
    | ModelRefList(listIndex: nat)
    | PrimitiveList(elem: PrimitiveFieldType)
    | Struct(st: Struct)
    | StructList(listStruct: Struct, counterIdx: nat)

  datatype Attribute = Index | DerivedUnresolved(modelName: string, fieldName: string)

  /** An index tree the field's value is written to: Direct keys are
      `be(id) ++ value`, Rev keys are `value ++ be(id)`. */
  datatype InsertedIndex = Direct(treeName: string) | Rev(treeName: string)

  datatype Field = Field(
    name: string,
    ty: FieldType,
    offsetIndex: nat,
    offsetPos: nat,
    isNullable: bool,
    attributes: seq<Attribute>,
    indexName: Option<string>,
    derivedFrom: Option<(nat, nat)>,
    insertedIndexes: seq<InsertedIndex>,
    selectIndex: Option<string>)

  datatype Model = Model(name: string, fields: seq<Field>, fieldsSize: nat, payloadOffset: nat, counterIdx: nat)

  datatype Schema = Schema(models: seq<Model>)

  /** What models and structs share (`WithFields`): a tree, fields and a payload offset. */
  datatype Shape = Shape(treeName: string, fields: seq<Field>, payloadOffset: nat)

  function ModelShape(m: Model): Shape
  {
    Shape(m.name, m.fields, m.payloadOffset)
  }

  function StructShape(s: Struct): Shape
  {
    Shape(s.name, s.fields, s.payloadOffset)
  }

  /** The places where the schema parser panics. */
  datatype SchemaPanic =
    | MissingFieldName(line: string)
    | MissingFieldType(line: string)
    | MissingDerivedField(attribute: string)
    | UnknownType(typeName: string)
    | UnknownDerivedModel(derivedModel: string)
    | UnknownDerivedField(derivedField: string)

  /** The types `parse_type` produces: primitives other than UInt64, lists
      of them, and model names still to be resolved. */
  predicate FromParser(ty: FieldType)
  {
    match ty
    case Primitive(p) => p != UInt64
    case PrimitiveList(p) => p != UInt64
    case ModelRefUnresolved(_) => true
    case ModelRefListUnresolved(_) => true
    case _ => false
  }

  /** A field as the first pass leaves it: nothing resolved, at most one
      attribute, no index trees attached. */
  predicate RawField(f: Field)
  {
    FromParser(f.ty) && f.indexName.None? && f.derivedFrom.None? && |f.attributes| <= 1
    && f.insertedIndexes == [] && f.selectIndex.None?
  }

  // ---------------------------------------------------------------------
  // Line-level parsing (pure)
  // ---------------------------------------------------------------------

  function GetPrimitiveType(s: string): (r: Option<PrimitiveFieldType>)
    ensures r.Some? <==> s in {"String", "Bool", "Int", "DateTime"}
    ensures r != Some(UInt64)
    ensures s == "Int" ==> r == Some(Int64)
  {
    if s == "String" then Some(String)
    else if s == "Bool" then Some(Bool)
    else if s == "Int" then Some(Int64)
    else if s == "DateTime" then Some(DateTime)
    else None
  }

  /** `T[]` is a list of primitives or of model references; anything else a
      primitive or a model reference, still unresolved. */
  function ParseType(s: string): (r: FieldType)
    ensures FromParser(r)
    ensures r.PrimitiveList? || r.ModelRefListUnresolved? <==> EndsWith(s, "[]")
    ensures r.ModelRefUnresolved? ==> r.refName == s
    ensures r.ModelRefListUnresolved? ==> r.listName + "[]" == s
  {
    match StripSuffix(s, "[]")
    case Some(inner) =>
      (match GetPrimitiveType(inner)
       case Some(p) => PrimitiveList(p)
       case None => ModelRefListUnresolved(inner))
    case None =>
      (match GetPrimitiveType(s)
       case Some(p) => Primitive(p)
       case None => ModelRefUnresolved(s))
  }

  /** `index…` is an index; `derived(M.f)` a derivation from field `f` of
      model `M`, and the panic when the text inside has no `.`; anything
      else no attribute. */
  function ParseAttribute(s: string): (r: Result<seq<Attribute>, SchemaPanic>)
    ensures r.Ok? ==> |r.value| <= 1
    ensures StartsWith(s, "index") ==> r == Ok([Index])
  {
    if StartsWith(s, "index") then Ok([Index])
    else match StripPrefix(s, "derived(")
      case None => Ok([])
      case Some(x) =>
        match StripSuffix(x, ")")
        case None => Ok([])
        case Some(inside) =>
          var parts := Split(inside, '.');
          if |parts| < 2 then Err(MissingDerivedField(inside))
          else Ok([DerivedUnresolved(parts[0], parts[1])])
  }

  /** One field line: name, type (a trailing `?` marks it nullable) and the
      attribute after the first `@`; no slot assigned yet. */
  function ParseFieldRaw(line: string): (r: Result<Field, SchemaPanic>)
    ensures r.Ok? ==> r.value.offsetIndex == 0 && r.value.offsetPos == 0 && RawField(r.value)
    ensures r.Ok? ==> var parts := SplitWhitespace(line);
      |parts| >= 2 && r.value.name == parts[0] && r.value.isNullable == EndsWith(parts[1], "?")
  {
    var parts := SplitWhitespace(line);
    if |parts| == 0 then Err(MissingFieldName(line))
    else if |parts| == 1 then Err(MissingFieldType(line))
    else
      var typeStr := parts[1];
      var isNullable := EndsWith(typeStr, "?");
      var ty := ParseType(if isNullable then typeStr[..|typeStr| - 1] else typeStr);
      var attributes :-
        match SplitOnce(line, '@')
        case None => Ok([])
        case Some(halves) => ParseAttribute(Trim(halves.1));
      Ok(Field(parts[0], ty, 0, 0, isNullable, attributes, None, None, [], None))
  }

  /** Text that is neither `index…` nor `derived(…)` has no attribute;
      `derived(…)` is split on `.` into the model and the field, and panics
      with fewer than two pieces. */
  lemma ParseAttributeCases(s: string)
    ensures !StartsWith(s, "index") && !(StartsWith(s, "derived(") && EndsWith(s, ")")) ==> ParseAttribute(s) == Ok([])
    ensures !StartsWith(s, "index") && StartsWith(s, "derived(") && EndsWith(s, ")") ==>
      |s| >= 9
      && var inside := s[8..|s| - 1];
         var parts := Split(inside, '.');
         (|parts| < 2 ==> ParseAttribute(s) == Err(MissingDerivedField(inside)))
         && (|parts| >= 2 ==> ParseAttribute(s) == Ok([DerivedUnresolved(parts[0], parts[1])]))
  {
    if !StartsWith(s, "index") {
      if StartsWith(s, "derived(") {
        var x := s[8..];
        assert StripPrefix(s, "derived(") == Some(x);
        if EndsWith(s, ")") {
          assert |s| >= 9 by {
            assert s[..8][7] == s[7] == '(';
            assert s[|s| - 1..][0] == s[|s| - 1] == ')';
          }
          assert x[|x| - 1..] == s[|s| - 1..];
          assert EndsWith(x, ")");
          assert x[..|x| - 1] == s[8..|s| - 1];
        } else if |x| >= 1 {
          assert x[|x| - 1..] == s[|s| - 1..];
        }
      }
    }
  }

  /** A derivation written out is read back. */
  lemma DerivedAttribute(m: string, f: string)
    requires '.' !in m && '.' !in f
    ensures ParseAttribute("derived(" + m + "." + f + ")") == Ok([DerivedUnresolved(m, f)])
  {
    var s := "derived(" + m + "." + f + ")";
    assert s[0] == 'd';
    assert StartsWith(s, "derived(") && EndsWith(s, ")");
    assert s[8..|s| - 1] == m + ['.'] + f;
    ParseAttributeCases(s);
    SplitTwo(m, f, '.');
  }

  /** A derivation without a `.` is the panic of `parts.next().unwrap()`. */
  lemma DerivedAttributeMissingField(m: string)
    requires '.' !in m
    ensures ParseAttribute("derived(" + m + ")") == Err(MissingDerivedField(m))
  {
    var s := "derived(" + m + ")";
    assert s[0] == 'd';
    assert StartsWith(s, "derived(") && EndsWith(s, ")");
    assert s[8..|s| - 1] == m;
    ParseAttributeCases(s);
    assert Find(m, '.').None?;
  }

  /** The field line `name type` with a `?` when nullable, and ` @attr`
      when there is an attribute. */
  function FieldLine(name: string, typeName: string, nullable: bool, attr: string): string
  {
    name + " " + TypeToken(typeName, nullable) + AttrTail(attr)
  }

  function TypeToken(typeName: string, nullable: bool): string
  {
    typeName + (if nullable then "?" else "")
  }

  function AttrTail(attr: string): string
  {
    if attr == [] then "" else " @" + attr
  }

  /** The first two words of a field line are the name and the type token. */
  lemma FieldLineWords(name: string, typeName: string, nullable: bool, attr: string)
    requires IsWord(name) && IsWord(typeName)
    ensures var parts := SplitWhitespace(FieldLine(name, typeName, nullable, attr));
      |parts| >= 2 && parts[0] == name && parts[1] == TypeToken(typeName, nullable)
  {
    var tok, tail := TypeToken(typeName, nullable), AttrTail(attr);
    assert FieldLine(name, typeName, nullable, attr) == name + (" " + (tok + tail));
    assert IsWord(tok) by {
      assert forall i | 0 <= i < |tok| :: (i < |typeName| && tok[i] == typeName[i]) || tok[i] == '?';
    }
    assert tail == [] || IsWhitespace(tail[0]);
    WordFirst(name, " " + (tok + tail));
    SpaceFirst(tok + tail);
    WordFirst(tok, tail);
  }

  /** The type token is the type name, with a `?` exactly when nullable. */
  lemma TypeTokenParts(typeName: string, nullable: bool)
    requires !EndsWith(typeName, "?")
    ensures var tok := TypeToken(typeName, nullable);
      EndsWith(tok, "?") == nullable && (if nullable then tok[..|tok| - 1] else tok) == typeName
  {
    var tok := TypeToken(typeName, nullable);
    if nullable {
      assert tok[..|tok| - 1] == typeName;
      assert tok[|tok| - 1..] == "?";
    } else {
      assert tok == typeName;
    }
  }

  /** A field line without an attribute has no `@`. */
  lemma FieldLineNoAt(name: string, typeName: string, nullable: bool)
    requires '@' !in name && '@' !in typeName
    ensures SplitOnce(FieldLine(name, typeName, nullable, []), '@').None?
  {
    var line := FieldLine(name, typeName, nullable, []);
    assert line == name + " " + TypeToken(typeName, nullable);
    assert '@' !in line;
  }

  /** The first `@` of a field line is the one before the attribute. */
  lemma FieldLineAt(name: string, typeName: string, nullable: bool, attr: string)
    requires '@' !in name && '@' !in typeName && attr != []
    ensures var at := SplitOnce(FieldLine(name, typeName, nullable, attr), '@');
      at.Some? && at.value.1 == attr
  {
    var pre := name + " " + TypeToken(typeName, nullable) + " ";
    assert '@' !in pre;
    assert FieldLine(name, typeName, nullable, attr) == pre + ['@'] + attr;
    SplitOnceAt(pre, attr, '@');
  }

  /** A field line written from its parts is parsed back into them: the
      name, the type with the `?` removed, the nullability and the
      attribute. */
  lemma FieldLineParses(name: string, typeName: string, nullable: bool, attr: string)
    requires IsWord(name) && IsWord(typeName) && !EndsWith(typeName, "?") && '@' !in name && '@' !in typeName
    requires attr == [] || (IsWord(attr) && '@' !in attr)
    ensures var r := ParseFieldRaw(FieldLine(name, typeName, nullable, attr));
      var a := if attr == [] then Ok([]) else ParseAttribute(attr);
      (r.Ok? <==> a.Ok?)
      && (r.Ok? ==>
            r.value.name == name && r.value.ty == ParseType(typeName) && r.value.isNullable == nullable
            && r.value.attributes == a.value)
  {
    ParseFieldRawCases(FieldLine(name, typeName, nullable, attr));
    FieldLineWords(name, typeName, nullable, attr);
    TypeTokenParts(typeName, nullable);
    if attr == [] {
      FieldLineNoAt(name, typeName, nullable);
    } else {
      FieldLineAt(name, typeName, nullable, attr);
      TrimWord(attr);
    }
  }

  /** A line of no words is the missing-name panic, one word the
      missing-type panic; otherwise the type is parsed from the second word
      without its `?`, and the attributes are those of the trimmed text
      after the first `@`, none without one, or the attribute parser's
      panic. */
  lemma ParseFieldRawCases(line: string)
    ensures var r := ParseFieldRaw(line);
      (SplitWhitespace(line) == [] ==> r == Err(MissingFieldName(line)))
      && (|SplitWhitespace(line)| == 1 ==> r == Err(MissingFieldType(line)))
    ensures var r := ParseFieldRaw(line);
      r.Ok? ==> var parts := SplitWhitespace(line);
        |parts| >= 2 && r.value.ty == ParseType(if EndsWith(parts[1], "?") then parts[1][..|parts[1]| - 1] else parts[1])
    ensures var r := ParseFieldRaw(line);
      |SplitWhitespace(line)| >= 2 && SplitOnce(line, '@').None? ==> r.Ok? && r.value.attributes == []
    ensures var r := ParseFieldRaw(line);
      |SplitWhitespace(line)| >= 2 && SplitOnce(line, '@').Some? ==>
        var a := ParseAttribute(Trim(SplitOnce(line, '@').value.1));
        (r.Ok? <==> a.Ok?) && (r.Ok? ==> r.value.attributes == a.value) && (r.Err? ==> r.error == a.error)
  {
    if |SplitWhitespace(line)| >= 2 {
      if SplitOnce(line, '@').None? {
        ParseFieldRawNoAt(line);
      } else {
        ParseFieldRawAt(line);
      }
    }
  }

  /** With two words and no `@`, the field has the parsed type and no
      attribute. */
  lemma ParseFieldRawNoAt(line: string)
    requires |SplitWhitespace(line)| >= 2 && SplitOnce(line, '@').None?
    ensures var r := ParseFieldRaw(line); var parts := SplitWhitespace(line);
      r.Ok? && r.value.attributes == []
      && r.value.ty == ParseType(if EndsWith(parts[1], "?") then parts[1][..|parts[1]| - 1] else parts[1])
  {
  }

  /** With two words and an `@`, the field stands or falls with the
      attribute parser, and has the parsed type. */
  lemma ParseFieldRawAt(line: string)
    requires |SplitWhitespace(line)| >= 2 && SplitOnce(line, '@').Some?
    ensures var r := ParseFieldRaw(line); var parts := SplitWhitespace(line);
      var a := ParseAttribute(Trim(SplitOnce(line, '@').value.1));
      (r.Ok? <==> a.Ok?) && (r.Ok? ==> r.value.attributes == a.value) && (r.Err? ==> r.error == a.error)
      && (r.Ok? ==> r.value.ty == ParseType(if EndsWith(parts[1], "?") then parts[1][..|parts[1]| - 1] else parts[1]))
  {
  }

  predicate IsVirtual(f: Field)
  {
    exists a | a in f.attributes :: a.DerivedUnresolved?
  }

  // ---------------------------------------------------------------------
  // First pass: model blocks and offset slots
  // ---------------------------------------------------------------------

  datatype FieldsBlock = FieldsBlock(fields: seq<Field>, count: nat, next: nat)

  /** The fields of a model block from line `j` on, when `count` slots have
      already been handed out; `next` is the line after the closing brace. */
  function FieldsFrom(lines: seq<string>, j: nat, count: nat): (r: Result<FieldsBlock, SchemaPanic>)
    requires j <= |lines|
    ensures r.Ok? ==> j <= r.value.next <= |lines|
    decreases |lines| - j
  {
    if j == |lines| then Ok(FieldsBlock([], count, j))
    else
      var line := Trim(lines[j]);
      if line == "}" then Ok(FieldsBlock([], count, j + 1))
      else if line == [] then FieldsFrom(lines, j + 1, count)
      else
        var raw :- ParseFieldRaw(line);
        var rest :- FieldsFrom(lines, j + 1, NextCount(raw, count));
        Ok(rest.(fields := [Placed(raw, count)] + rest.fields))
  }

  /** The models declared from line `i` on, before name resolution. */
  function ModelsFrom(lines: seq<string>, i: nat): Result<seq<Model>, SchemaPanic>
    requires i <= |lines|
    decreases |lines| - i
  {
    if i == |lines| then Ok([])
    else match StripPrefix(Trim(lines[i]), "model ")
      case None => ModelsFrom(lines, i + 1)
      case Some(rest) =>
        var block :- FieldsFrom(lines, i + 1, 0);
        var more :- ModelsFrom(lines, block.next);
        Ok([BlockModel(rest, block)] + more)
  }

  /** The model a `model <name> {` line and its field block declare; the
      slot count is stored as a `u16`. */
  function BlockModel(rest: string, block: FieldsBlock): Model
  {
    Model(Trim(TrimEndMatches(rest, '{')), block.fields, block.count % U16_LIMIT, 3 + 4 * block.count, 0)
  }

  function PrependFields(acc: seq<Field>, r: Result<FieldsBlock, SchemaPanic>): Result<FieldsBlock, SchemaPanic>
  {
    match r
    case Ok(b) => Ok(b.(fields := acc + b.fields))
    case Err(e) => Err(e)
  }

  function PrependModels(acc: seq<Model>, r: Result<seq<Model>, SchemaPanic>): Result<seq<Model>, SchemaPanic>
  {
    match r
    case Ok(ms) => Ok(acc + ms)
    case Err(e) => Err(e)
  }

  /** The slot-assigning step shared by `FieldsFrom` and `ParseFields`. */
  function Placed(raw: Field, count: nat): Field
  {
    if IsVirtual(raw) then raw else raw.(offsetIndex := count, offsetPos := 3 + 4 * count)
  }

  function NextCount(raw: Field, count: nat): nat
  {
    if IsVirtual(raw) then count else count + 1
  }

  lemma FieldLineStep(lines: seq<string>, j: nat, count: nat, acc: seq<Field>, raw: Field)
    requires j < |lines|
    requires Trim(lines[j]) != "}" && Trim(lines[j]) != []
    requires ParseFieldRaw(Trim(lines[j])) == Ok(raw)
    ensures PrependFields(acc, FieldsFrom(lines, j, count))
         == PrependFields(acc + [Placed(raw, count)], FieldsFrom(lines, j + 1, NextCount(raw, count)))
  {
    var rest := FieldsFrom(lines, j + 1, NextCount(raw, count));
    if rest.Ok? {
      assert acc + ([Placed(raw, count)] + rest.value.fields) == acc + [Placed(raw, count)] + rest.value.fields;
    }
  }

  /** The inner loop of `parse_schema`: the field lines of one model block,
      up to and including the closing brace. */
  method ParseFields(lines: seq<string>, start: nat) returns (r: Result<FieldsBlock, SchemaPanic>)
    requires start <= |lines|
    ensures r == FieldsFrom(lines, start, 0)
  {
    var i := start;
    var offsetIndex := 0;
    var fields: seq<Field> := [];
    if FieldsFrom(lines, start, 0).Ok? {
      assert [] + FieldsFrom(lines, start, 0).value.fields == FieldsFrom(lines, start, 0).value.fields;
    }
    while i < |lines|
      invariant start <= i <= |lines|
      invariant FieldsFrom(lines, start, 0) == PrependFields(fields, FieldsFrom(lines, i, offsetIndex))
      decreases |lines| - i
    {
      var line := Trim(lines[i]);
      if line == "}" {
        assert fields + [] == fields;
        return Ok(FieldsBlock(fields, offsetIndex, i + 1));
      }
      if line != [] {
        var raw := ParseFieldRaw(line);
        if raw.Err? {
          return Err(raw.error);
        }
        FieldLineStep(lines, i, offsetIndex, fields, raw.value);
        fields := fields + [Placed(raw.value, offsetIndex)];
        offsetIndex := NextCount(raw.value, offsetIndex);
      }
      i := i + 1;
    }
    assert fields + [] == fields;
    r := Ok(FieldsBlock(fields, offsetIndex, i));
  }

  lemma ModelLineStep(lines: seq<string>, i: nat, acc: seq<Model>, rest: string, b: FieldsBlock)
    requires i < |lines|
    requires StripPrefix(Trim(lines[i]), "model ") == Some(rest)
    requires FieldsFrom(lines, i + 1, 0) == Ok(b)
    ensures PrependModels(acc, ModelsFrom(lines, i))
         == PrependModels(acc + [BlockModel(rest, b)], ModelsFrom(lines, b.next))
  {
    assert ModelsFrom(lines, i) == PrependModels([BlockModel(rest, b)], ModelsFrom(lines, b.next));
    PrependModelsAppend(acc, BlockModel(rest, b), ModelsFrom(lines, b.next));
  }

  lemma PrependModelsAppend(acc: seq<Model>, m: Model, r: Result<seq<Model>, SchemaPanic>)
    ensures PrependModels(acc, PrependModels([m], r)) == PrependModels(acc + [m], r)
  {
    if r.Ok? {
      assert acc + ([m] + r.value) == acc + [m] + r.value;
    }
  }

  /** The outer loop of `parse_schema`: every `model` block, before resolution. */
  method ParseModels(lines: seq<string>) returns (r: Result<seq<Model>, SchemaPanic>)
    ensures r == ModelsFrom(lines, 0)
  {
    var models: seq<Model> := [];
    var i := 0;
    if ModelsFrom(lines, 0).Ok? {
      assert [] + ModelsFrom(lines, 0).value == ModelsFrom(lines, 0).value;
    }
    while i < |lines|
      invariant i <= |lines|
      invariant ModelsFrom(lines, 0) == PrependModels(models, ModelsFrom(lines, i))
      decreases |lines| - i
    {
      var line := Trim(lines[i]);
      match StripPrefix(line, "model ") {
        case None =>
          i := i + 1;
        case Some(rest) =>
          var block := ParseFields(lines, i + 1);
          if block.Err? {
            return Err(block.error);
          }
          var b := block.value;
          ModelLineStep(lines, i, models, rest, b);
          models := models + [BlockModel(rest, b)];
          i := b.next;
      }
    }
    assert models + [] == models;
    r := Ok(models);
  }

  // ---------------------------------------------------------------------
  // Second pass: name maps and resolution
  // ---------------------------------------------------------------------

  /** A map from each name to its position; collecting (name, position)
      pairs into a hash map keeps the last position of a repeated name. */
  function LastIndexOf(names: seq<string>): (r: map<string, nat>)
    ensures forall n :: n in r <==> n in names
    ensures forall n | n in r :: r[n] < |names| && names[r[n]] == n
    ensures forall n, k | n in r && r[n] < k < |names| :: names[k] != n
  {
    if names == [] then map[]
    else LastIndexOf(names[..|names| - 1])[names[|names| - 1] := |names| - 1]
  }

  function ModelNames(models: seq<Model>): (r: seq<string>)
    ensures |r| == |models| && forall i | 0 <= i < |models| :: r[i] == models[i].name
  {
    seq(|models|, i requires 0 <= i < |models| => models[i].name)
  }

  function FieldNames(fields: seq<Field>): (r: seq<string>)
    ensures |r| == |fields| && forall i | 0 <= i < |fields| :: r[i] == fields[i].name
  {
    seq(|fields|, i requires 0 <= i < |fields| => fields[i].name)
  }

  /** `build_model_map`: model name to (the last) model index. */
  function BuildModelMap(models: seq<Model>): (r: map<string, nat>)
    ensures forall n :: n in r <==> exists i | 0 <= i < |models| :: models[i].name == n
    ensures forall n | n in r :: r[n] < |models| && models[r[n]].name == n
  {
    var r := LastIndexOf(ModelNames(models));
    assert forall n :: n in ModelNames(models) <==> exists i | 0 <= i < |models| :: models[i].name == n by {
      forall n ensures n in ModelNames(models) ==> exists i | 0 <= i < |models| :: models[i].name == n {
        if n in ModelNames(models) {
          var i :| 0 <= i < |models| && ModelNames(models)[i] == n;
          assert models[i].name == n;
        }
      }
    }
    r
  }

  /** `build_field_map`: per model, field name to (the last) field index. */
  function BuildFieldMap(models: seq<Model>): (r: seq<map<string, nat>>)
    ensures |r| == |models|
    ensures forall m, n | 0 <= m < |models| && n in r[m] :: r[m][n] < |models[m].fields| && models[m].fields[r[m][n]].name == n
    ensures forall m, n | 0 <= m < |models| :: n in r[m] <==> n in FieldNames(models[m].fields)
  {
    seq(|models|, m requires 0 <= m < |models| => LastIndexOf(FieldNames(models[m].fields)))
  }

  predicate Unresolved(ty: FieldType)
  {
    ty.ModelRefUnresolved? || ty.ModelRefListUnresolved?
  }

  /** `resolve_field_type`: a model name becomes the index of that model. */
  function ResolveFieldType(ty: FieldType, modelMap: map<string, nat>): (r: Result<FieldType, SchemaPanic>)
    ensures r.Ok? ==> !Unresolved(r.value)
    ensures ty.ModelRefUnresolved? ==>
      r == (if ty.refName in modelMap then Ok(ModelRef(modelMap[ty.refName])) else Err(UnknownType(ty.refName)))
    ensures ty.ModelRefListUnresolved? ==>
      r == (if ty.listName in modelMap then Ok(ModelRefList(modelMap[ty.listName])) else Err(UnknownType(ty.listName)))
    ensures !Unresolved(ty) ==> r == Ok(ty)
  {
    match ty
    case ModelRefUnresolved(name) =>
      if name in modelMap then Ok(ModelRef(modelMap[name])) else Err(UnknownType(name))
    case ModelRefListUnresolved(name) =>
      if name in modelMap then Ok(ModelRefList(modelMap[name])) else Err(UnknownType(name))
    case _ => Ok(ty)
  }

  predicate MapsFit(modelMap: map<string, nat>, fieldMaps: seq<map<string, nat>>)
  {
    forall n | n in modelMap :: modelMap[n] < |fieldMaps|
  }

  /** The `derived(M.f)` attributes in order, each one overwriting
      `derived_from` with (index of M, index of f within M). */
  function ResolveDerived(attributes: seq<Attribute>, modelMap: map<string, nat>, fieldMaps: seq<map<string, nat>>,
                          current: Option<(nat, nat)>): (r: Result<Option<(nat, nat)>, SchemaPanic>)
    requires MapsFit(modelMap, fieldMaps)
    ensures r.Ok? && r.value.Some? && (current.None? || current.value.0 < |fieldMaps|) ==> r.value.value.0 < |fieldMaps|
    ensures r.Ok? && r.value.Some? && r.value != current ==>
      exists a | a in attributes && a.DerivedUnresolved? :: a.modelName in modelMap && r.value.value.0 == modelMap[a.modelName]
        && a.fieldName in fieldMaps[modelMap[a.modelName]] && r.value.value.1 == fieldMaps[modelMap[a.modelName]][a.fieldName]
    ensures (forall a | a in attributes :: !a.DerivedUnresolved?) ==> r == Ok(current)
    ensures current.Some? ==> r.Ok? ==> r.value.Some?
    ensures r.Ok? && (exists a | a in attributes :: a.DerivedUnresolved?) ==> r.value.Some?
    decreases |attributes|
  {
    if attributes == [] then Ok(current)
    else
      assert attributes[0] in attributes;
      match attributes[0]
      case Index => ResolveDerived(attributes[1..], modelMap, fieldMaps, current)
      case DerivedUnresolved(modelName, fieldName) =>
        if modelName !in modelMap then Err(UnknownDerivedModel(modelName))
        else
          var m := modelMap[modelName];
          if fieldName !in fieldMaps[m] then Err(UnknownDerivedField(fieldName))
          else ResolveDerived(attributes[1..], modelMap, fieldMaps, Some((m, fieldMaps[m][fieldName])))
  }

  /** The tree name of a field's index. */
  function IndexName(modelName: string, fieldName: string): string
  {
    modelName + "." + fieldName + ".idx"
  }

  /** One field of model `modelName` in the second pass: its type resolved,
      an index name when it carries `@index` or refers to a single model,
      and the position of the field it is derived from. */
  function ResolveField(f: Field, modelName: string, modelMap: map<string, nat>, fieldMaps: seq<map<string, nat>>): (r: Result<Field, SchemaPanic>)
    requires MapsFit(modelMap, fieldMaps)
    ensures r.Ok? ==> r.value == f.(ty := r.value.ty, indexName := r.value.indexName, derivedFrom := r.value.derivedFrom)
    ensures r.Ok? ==> ResolveFieldType(f.ty, modelMap) == Ok(r.value.ty)
    ensures r.Ok? ==>
      r.value.indexName == (if Index in f.attributes || r.value.ty.ModelRef? then Some(IndexName(modelName, f.name)) else f.indexName)
    ensures r.Ok? ==> ResolveDerived(f.attributes, modelMap, fieldMaps, f.derivedFrom) == Ok(r.value.derivedFrom)
    ensures ResolveFieldType(f.ty, modelMap).Err? ==> r == Err(ResolveFieldType(f.ty, modelMap).error)
  {
    var ty :- ResolveFieldType(f.ty, modelMap);
    var isIndex := Index in f.attributes;
    var isRef := ty.ModelRef?;
    var indexName := if isIndex || isRef then Some(IndexName(modelName, f.name)) else f.indexName;
    var derived :- ResolveDerived(f.attributes, modelMap, fieldMaps, f.derivedFrom);
    Ok(f.(ty := ty, indexName := indexName, derivedFrom := derived))
  }

  /** The fields of one model, in order; the first failing field decides. */
  function ResolveFields(fields: seq<Field>, modelName: string, modelMap: map<string, nat>, fieldMaps: seq<map<string, nat>>): (r: Result<seq<Field>, SchemaPanic>)
    requires MapsFit(modelMap, fieldMaps)
    ensures r.Ok? ==>
      |r.value| == |fields| &&
      forall k | 0 <= k < |fields| :: ResolveField(fields[k], modelName, modelMap, fieldMaps) == Ok(r.value[k])
    ensures r.Err? ==> exists k | 0 <= k < |fields| :: ResolveField(fields[k], modelName, modelMap, fieldMaps) == Err(r.error)
  {
    if fields == [] then Ok([])
    else
      var f :- ResolveField(fields[0], modelName, modelMap, fieldMaps);
      var rest :- ResolveFields(fields[1..], modelName, modelMap, fieldMaps);
      Ok([f] + rest)
  }

  function ResolveModelsWith(models: seq<Model>, modelMap: map<string, nat>, fieldMaps: seq<map<string, nat>>): (r: Result<seq<Model>, SchemaPanic>)
    requires MapsFit(modelMap, fieldMaps)
    ensures r.Ok? ==> |r.value| == |models| && forall i | 0 <= i < |models| ::
      ResolveFields(models[i].fields, models[i].name, modelMap, fieldMaps) == Ok(r.value[i].fields) &&
      r.value[i] == models[i].(fields := r.value[i].fields)
  {
    if models == [] then Ok([])
    else
      var fields :- ResolveFields(models[0].fields, models[0].name, modelMap, fieldMaps);
      var rest :- ResolveModelsWith(models[1..], modelMap, fieldMaps);
      Ok([models[0].(fields := fields)] + rest)
  }

  /** The second pass of `parse_schema` over the models of the first. */
  function ResolveModels(models: seq<Model>): Result<seq<Model>, SchemaPanic>
  {
    ResolveModelsWith(models, BuildModelMap(models), BuildFieldMap(models))
  }

  lemma {:induction false} ResolveFieldsAllOk(fields: seq<Field>, modelName: string, modelMap: map<string, nat>,
                                               fieldMaps: seq<map<string, nat>>, out: seq<Field>)
    requires MapsFit(modelMap, fieldMaps)
    requires |out| == |fields|
    requires forall k | 0 <= k < |fields| :: ResolveField(fields[k], modelName, modelMap, fieldMaps) == Ok(out[k])
    ensures ResolveFields(fields, modelName, modelMap, fieldMaps) == Ok(out)
    decreases |fields|
  {
    if fields != [] {
      ResolveFieldsAllOk(fields[1..], modelName, modelMap, fieldMaps, out[1..]);
      assert out == [out[0]] + out[1..];
    }
  }

  lemma {:induction false} ResolveFieldsFirstErr(fields: seq<Field>, modelName: string, modelMap: map<string, nat>,
                                                  fieldMaps: seq<map<string, nat>>, j: nat)
    requires MapsFit(modelMap, fieldMaps)
    requires j < |fields|
    requires forall k | 0 <= k < j :: ResolveField(fields[k], modelName, modelMap, fieldMaps).Ok?
    requires ResolveField(fields[j], modelName, modelMap, fieldMaps).Err?
    ensures ResolveFields(fields, modelName, modelMap, fieldMaps) == Err(ResolveField(fields[j], modelName, modelMap, fieldMaps).error)
    decreases j
  {
    if j > 0 {
      ResolveFieldsFirstErr(fields[1..], modelName, modelMap, fieldMaps, j - 1);
    }
  }

  lemma {:induction false} ResolveModelsAllOk(models: seq<Model>, modelMap: map<string, nat>,
                                               fieldMaps: seq<map<string, nat>>, out: seq<Model>)
    requires MapsFit(modelMap, fieldMaps)
    requires |out| == |models|
    requires forall i | 0 <= i < |models| ::
      ResolveFields(models[i].fields, models[i].name, modelMap, fieldMaps) == Ok(out[i].fields) &&
      out[i] == models[i].(fields := out[i].fields)
    ensures ResolveModelsWith(models, modelMap, fieldMaps) == Ok(out)
    decreases |models|
  {
    if models != [] {
      ResolveModelsAllOk(models[1..], modelMap, fieldMaps, out[1..]);
      assert out == [out[0]] + out[1..];
    }
  }

  lemma {:induction false} ResolveModelsFirstErr(models: seq<Model>, modelMap: map<string, nat>,
                                                  fieldMaps: seq<map<string, nat>>, j: nat)
    requires MapsFit(modelMap, fieldMaps)
    requires j < |models|
    requires forall i | 0 <= i < j :: ResolveFields(models[i].fields, models[i].name, modelMap, fieldMaps).Ok?
    requires ResolveFields(models[j].fields, models[j].name, modelMap, fieldMaps).Err?
    ensures ResolveModelsWith(models, modelMap, fieldMaps) == Err(ResolveFields(models[j].fields, models[j].name, modelMap, fieldMaps).error)
    decreases j
  {
    if j > 0 {
      assert models[1..][j - 1] == models[j];
      ResolveModelsFirstErr(models[1..], modelMap, fieldMaps, j - 1);
    }
  }

  /** The second pass as the source runs it: every field of every model is
      rewritten in place, and the first panic aborts the whole parse. */
  method ResolveSchema(models: seq<Model>) returns (r: Result<seq<Model>, SchemaPanic>)
    ensures r == ResolveModels(models)
  {
    var modelMap := BuildModelMap(models);
    var fieldMaps := BuildFieldMap(models);
    var ms := models;
    var i := 0;
    while i < |ms|
      invariant |ms| == |models| && i <= |ms|
      invariant forall k | 0 <= k < i ::
        ResolveFields(models[k].fields, models[k].name, modelMap, fieldMaps) == Ok(ms[k].fields) &&
        ms[k] == models[k].(fields := ms[k].fields)
      invariant ms[i..] == models[i..]
    {
      assert ms[i] == ms[i..][0];
      var fields := ms[i].fields;
      var j := 0;
      while j < |fields|
        invariant |fields| == |models[i].fields| && j <= |fields|
        invariant forall k | 0 <= k < j :: ResolveField(models[i].fields[k], models[i].name, modelMap, fieldMaps) == Ok(fields[k])
        invariant fields[j..] == models[i].fields[j..]
      {
        assert fields[j] == fields[j..][0];
        var resolved := ResolveField(fields[j], ms[i].name, modelMap, fieldMaps);
        if resolved.Err? {
          ResolveFieldsFirstErr(models[i].fields, models[i].name, modelMap, fieldMaps, j);
          ResolveModelsFirstErr(models, modelMap, fieldMaps, i);
          return Err(resolved.error);
        }
        fields := fields[j := resolved.value];
        j := j + 1;
      }
      ResolveFieldsAllOk(models[i].fields, models[i].name, modelMap, fieldMaps, fields);
      ms := ms[i := ms[i].(fields := fields)];
      i := i + 1;
    }
    ResolveModelsAllOk(models, modelMap, fieldMaps, ms);
    r := Ok(ms);
  }

  /** `parse_schema`: the models of the schema text, every name resolved. */
  function SchemaOf(input: string): Result<Schema, SchemaPanic>
  {
    var models :- ModelsFrom(Lines(input), 0);
    var resolved :- ResolveModels(models);
    Ok(Schema(resolved))
  }

  method ParseSchema(input: string) returns (r: Result<Schema, SchemaPanic>)
    ensures r == SchemaOf(input)
  {
    var models := ParseModels(Lines(input));
    if models.Err? {
      return Err(models.error);
    }
    var resolved := ResolveSchema(models.value);
    if resolved.Err? {
      return Err(resolved.error);
    }
    r := Ok(Schema(resolved.value));
  }

  // ---------------------------------------------------------------------
  // What the parser guarantees
  // ---------------------------------------------------------------------

  /** The number of fields that occupy an offset slot. */
  function NonVirtualCount(fields: seq<Field>): (r: nat)
    ensures r <= |fields|
  {
    if fields == [] then 0
    else (if IsVirtual(fields[0]) then 0 else 1) + NonVirtualCount(fields[1..])
  }

  /** Slots are handed out in declaration order from `count` on, skipping
      derived fields, which keep index and position 0. */
  predicate SlotsFrom(fields: seq<Field>, count: nat)
  {
    forall k | 0 <= k < |fields| ::
      if IsVirtual(fields[k]) then fields[k].offsetIndex == 0 && fields[k].offsetPos == 0
      else fields[k].offsetIndex == count + NonVirtualCount(fields[..k]) && fields[k].offsetPos == 3 + 4 * fields[k].offsetIndex
  }

  /** The header geometry of a model follows from its stored fields. */
  predicate ModelLayout(m: Model)
  {
    SlotsFrom(m.fields, 0)
    && m.fieldsSize == NonVirtualCount(m.fields) % U16_LIMIT
    && m.payloadOffset == 3 + 4 * NonVirtualCount(m.fields)
  }

  lemma {:induction false} SlotsFromCons(f: Field, fields: seq<Field>, count: nat)
    requires !IsVirtual(f) ==> f.offsetIndex == count && f.offsetPos == 3 + 4 * count
    requires IsVirtual(f) ==> f.offsetIndex == 0 && f.offsetPos == 0
    requires SlotsFrom(fields, NextCount(f, count))
    ensures SlotsFrom([f] + fields, count)
    ensures NonVirtualCount([f] + fields) == NonVirtualCount(fields) + (NextCount(f, count) - count)
  {
    var all := [f] + fields;
    assert all[1..] == fields;
    forall k | 0 < k < |all|
      ensures NonVirtualCount(all[..k]) == (NextCount(f, count) - count) + NonVirtualCount(fields[..k - 1])
    {
      assert all[..k][0] == f;
      assert all[..k][1..] == fields[..k - 1];
    }
    assert all[..0] == [];
  }

  lemma {:induction false} FieldsFromLayout(lines: seq<string>, j: nat, count: nat)
    requires j <= |lines|
    requires FieldsFrom(lines, j, count).Ok?
    ensures var b := FieldsFrom(lines, j, count).value;
      SlotsFrom(b.fields, count) && b.count == count + NonVirtualCount(b.fields)
      && forall k | 0 <= k < |b.fields| :: RawField(b.fields[k])
    decreases |lines| - j
  {
    if j < |lines| {
      var line := Trim(lines[j]);
      if line == [] {
        FieldsFromLayout(lines, j + 1, count);
      } else if line != "}" {
        var raw := ParseFieldRaw(line).value;
        FieldsFromLayout(lines, j + 1, NextCount(raw, count));
        var rest := FieldsFrom(lines, j + 1, NextCount(raw, count)).value;
        SlotsFromCons(Placed(raw, count), rest.fields, count);
        assert IsVirtual(Placed(raw, count)) == IsVirtual(raw);
        var all := [Placed(raw, count)] + rest.fields;
        assert forall k | 0 < k < |all| :: all[k] == rest.fields[k - 1];
      }
    }
  }

  lemma {:induction false} ModelsFromLayout(lines: seq<string>, i: nat)
    requires i <= |lines|
    requires ModelsFrom(lines, i).Ok?
    ensures forall m | m in ModelsFrom(lines, i).value ::
      ModelLayout(m) && m.counterIdx == 0 && forall k | 0 <= k < |m.fields| :: RawField(m.fields[k])
    decreases |lines| - i
  {
    if i < |lines| {
      match StripPrefix(Trim(lines[i]), "model ")
      case None =>
        ModelsFromLayout(lines, i + 1);
      case Some(rest) =>
        var b := FieldsFrom(lines, i + 1, 0).value;
        FieldsFromLayout(lines, i + 1, 0);
        BlockModelLayout(rest, b);
        ModelsFromLayout(lines, b.next);
        assert ModelsFrom(lines, i).value == [BlockModel(rest, b)] + ModelsFrom(lines, b.next).value;
    }
  }

  /** A block whose slots were handed out from 0 declares a laid-out model. */
  lemma BlockModelLayout(rest: string, b: FieldsBlock)
    requires SlotsFrom(b.fields, 0) && b.count == 0 + NonVirtualCount(b.fields)
    requires forall k | 0 <= k < |b.fields| :: RawField(b.fields[k])
    ensures var m := BlockModel(rest, b);
      ModelLayout(m) && m.counterIdx == 0 && forall k | 0 <= k < |m.fields| :: RawField(m.fields[k])
  {
  }

  /** Virtual fields are told apart by their attributes alone. */
  lemma {:induction false} NonVirtualCountSameAttributes(a: seq<Field>, b: seq<Field>)
    requires |a| == |b|
    requires forall k | 0 <= k < |a| :: a[k].attributes == b[k].attributes
    ensures NonVirtualCount(a) == NonVirtualCount(b)
    decreases |a|
  {
    if a != [] {
      assert IsVirtual(a[0]) == IsVirtual(b[0]);
      NonVirtualCountSameAttributes(a[1..], b[1..]);
    }
  }

  /** Resolution rewrites types, index names and derivations, and nothing
      that decides the layout. */
  lemma ResolvedLayout(m: Model, out: Model)
    requires ModelLayout(m)
    requires |out.fields| == |m.fields| && out == m.(fields := out.fields)
    requires forall k | 0 <= k < |m.fields| ::
      out.fields[k] == m.fields[k].(ty := out.fields[k].ty, indexName := out.fields[k].indexName, derivedFrom := out.fields[k].derivedFrom)
    ensures ModelLayout(out)
  {
    NonVirtualCountSameAttributes(m.fields, out.fields);
    forall k | 0 <= k < |m.fields|
      ensures NonVirtualCount(out.fields[..k]) == NonVirtualCount(m.fields[..k])
      ensures IsVirtual(out.fields[k]) == IsVirtual(m.fields[k])
    {
      NonVirtualCountSameAttributes(m.fields[..k], out.fields[..k]);
    }
  }

  /** A model name in a field type became the index of a model of that name. */
  predicate TypeResolved(raw: FieldType, ty: FieldType, out: seq<Model>)
  {
    !Unresolved(ty)
    && (raw.ModelRefUnresolved? ==> ty.ModelRef? && ty.refIndex < |out| && out[ty.refIndex].name == raw.refName)
    && (raw.ModelRefListUnresolved? ==> ty.ModelRefList? && ty.listIndex < |out| && out[ty.listIndex].name == raw.listName)
    && (!Unresolved(raw) ==> ty == raw)
  }

  /** Exactly the indexed fields and the single references have an index tree. */
  predicate IndexNamed(f: Field, modelName: string)
  {
    (f.indexName.Some? <==> Index in f.attributes || f.ty.ModelRef?)
    && (f.indexName.Some? ==> f.indexName.value == IndexName(modelName, f.name))
  }

  /** `derived(M.f)` points at field f of model M. */
  predicate DerivedResolved(f: Field, out: seq<Model>)
  {
    ((forall a | a in f.attributes :: !a.DerivedUnresolved?) ==> f.derivedFrom.None?)
    && (|f.attributes| == 1 && f.attributes[0].DerivedUnresolved? ==>
          f.derivedFrom.Some? && f.derivedFrom.value.0 < |out|
          && out[f.derivedFrom.value.0].name == f.attributes[0].modelName
          && f.derivedFrom.value.1 < |out[f.derivedFrom.value.0].fields|
          && out[f.derivedFrom.value.0].fields[f.derivedFrom.value.1].name == f.attributes[0].fieldName)
  }

  /** What the second pass guarantees for one resolved field of model `i`. */
  predicate ResolvedField(models: seq<Model>, out: seq<Model>, i: nat, k: nat)
    requires i < |models| && i < |out| && k < |models[i].fields| && k < |out[i].fields|
  {
    TypeResolved(models[i].fields[k].ty, out[i].fields[k].ty, out)
    && IndexNamed(out[i].fields[k], out[i].name)
    && DerivedResolved(out[i].fields[k], out)
  }

  /** Names of models and fields survive resolution. */
  predicate SameNames(models: seq<Model>, out: seq<Model>)
  {
    |out| == |models|
    && forall m | 0 <= m < |models| ::
         out[m].name == models[m].name && |out[m].fields| == |models[m].fields|
         && forall x | 0 <= x < |models[m].fields| :: out[m].fields[x].name == models[m].fields[x].name
  }

  lemma ResolveModelsNames(models: seq<Model>)
    requires ResolveModels(models).Ok?
    ensures SameNames(models, ResolveModels(models).value)
  {
    var out := ResolveModels(models).value;
    var modelMap := BuildModelMap(models);
    var fieldMaps := BuildFieldMap(models);
    forall m, x | 0 <= m < |models| && 0 <= x < |models[m].fields|
      ensures out[m].fields[x].name == models[m].fields[x].name
    {
      assert ResolveFields(models[m].fields, models[m].name, modelMap, fieldMaps) == Ok(out[m].fields);
      assert ResolveField(models[m].fields[x], models[m].name, modelMap, fieldMaps) == Ok(out[m].fields[x]);
    }
  }

  lemma DerivedResolvedOf(models: seq<Model>, out: seq<Model>, f: Field)
    requires SameNames(models, out)
    requires ResolveDerived(f.attributes, BuildModelMap(models), BuildFieldMap(models), None) == Ok(f.derivedFrom)
    ensures DerivedResolved(f, out)
  {
    var modelMap := BuildModelMap(models);
    var fieldMaps := BuildFieldMap(models);
    if |f.attributes| == 1 && f.attributes[0].DerivedUnresolved? {
      var a := f.attributes[0];
      assert a.modelName in modelMap && a.fieldName in fieldMaps[modelMap[a.modelName]] by {
        assert f.attributes[1..] == [];
      }
      var m := modelMap[a.modelName];
      var x := fieldMaps[m][a.fieldName];
      assert f.derivedFrom == Some((m, x)) by {
        assert f.attributes[1..] == [];
      }
      assert models[m].name == a.modelName && models[m].fields[x].name == a.fieldName;
    }
  }

  lemma ResolvedFieldOf(models: seq<Model>, out: seq<Model>, i: nat, k: nat)
    requires SameNames(models, out)
    requires i < |models| && k < |models[i].fields|
    requires RawField(models[i].fields[k])
    requires ResolveField(models[i].fields[k], models[i].name, BuildModelMap(models), BuildFieldMap(models)) == Ok(out[i].fields[k])
    ensures ResolvedField(models, out, i, k)
  {
    var raw := models[i].fields[k];
    var f := out[i].fields[k];
    DerivedResolvedOf(models, out, f);
  }

  lemma ResolvedFieldAt(models: seq<Model>, i: nat, k: nat)
    requires ResolveModels(models).Ok?
    requires i < |models| && k < |models[i].fields|
    requires RawField(models[i].fields[k])
    ensures |ResolveModels(models).value| == |models| && k < |ResolveModels(models).value[i].fields|
    ensures ResolvedField(models, ResolveModels(models).value, i, k)
  {
    var out := ResolveModels(models).value;
    var modelMap := BuildModelMap(models);
    var fieldMaps := BuildFieldMap(models);
    ResolveModelsNames(models);
    assert ResolveFields(models[i].fields, models[i].name, modelMap, fieldMaps) == Ok(out[i].fields);
    ResolvedFieldOf(models, out, i, k);
  }

  lemma ResolveModelsFacts(models: seq<Model>)
    requires ResolveModels(models).Ok?
    requires forall i, k | 0 <= i < |models| && 0 <= k < |models[i].fields| :: RawField(models[i].fields[k])
    ensures var out := ResolveModels(models).value;
      |out| == |models|
      && (forall i | 0 <= i < |models| ::
            out[i].name == models[i].name && out[i].counterIdx == models[i].counterIdx && |out[i].fields| == |models[i].fields|)
      && (forall i | 0 <= i < |models| :: ModelLayout(models[i]) ==> ModelLayout(out[i]))
      && forall i, k | 0 <= i < |models| && 0 <= k < |models[i].fields| :: ResolvedField(models, out, i, k)
  {
    var out := ResolveModels(models).value;
    forall i | 0 <= i < |models|
      ensures out[i].name == models[i].name && out[i].counterIdx == models[i].counterIdx && |out[i].fields| == |models[i].fields|
      ensures ModelLayout(models[i]) ==> ModelLayout(out[i])
    {
      if ModelLayout(models[i]) {
        ResolvedLayout(models[i], out[i]);
      }
    }
    forall i, k | 0 <= i < |models| && 0 <= k < |models[i].fields|
      ensures ResolvedField(models, out, i, k)
    {
      ResolvedFieldAt(models, i, k);
    }
  }

  /** Everything the parser guarantees about a schema it returns. */
  lemma ParsedSchema(input: string)
    requires SchemaOf(input).Ok?
    ensures ModelsFrom(Lines(input), 0).Ok?
    ensures var raw := ModelsFrom(Lines(input), 0).value;
      var s := SchemaOf(input).value;
      |s.models| == |raw|
      && (forall i | 0 <= i < |raw| :: ModelLayout(s.models[i]) && s.models[i].counterIdx == 0 && |s.models[i].fields| == |raw[i].fields|)
      && forall i, k | 0 <= i < |raw| && 0 <= k < |raw[i].fields| :: ResolvedField(raw, s.models, i, k)
  {
    var raw := ModelsFrom(Lines(input), 0).value;
    ModelsFromLayout(Lines(input), 0);
    assert forall i | 0 <= i < |raw| :: raw[i] in raw;
    ResolveModelsFacts(raw);
  }
}

=== FILE: select.dfy ===
/** The projection parser: a JSON projection such as
    `{"id": true, "name": true, "author": {"name": true}}` becomes a selection
    mask (bit 0 is the id, bit `i + 1` is field `i`) and the list of nested
    includes for relation and struct fields. */
module Select {
  import opened Wrappers
  import opened Json
  import opened Schema

  /** How an include finds its records: through the id in a document slot,
      through an index tree, or as an embedded struct (one or many). */
  datatype Binding = One(offsetPos: nat) | Many(treeName: string) | OneStruct | ManyStruct

  datatype Include = Include(fieldIndex: nat, shape: Shape, select: Selection, binding: Binding)

  datatype Selection = Selection(mask: seq<bool>, includes: seq<Include>)

  /** `MarciSelect::all`: every bit set, no includes. */
  function All(fields: seq<Field>): (r: Selection)
    ensures |r.mask| == |fields| + 1 && r.includes == []
  {
    Selection(seq(|fields| + 1, _ => true), [])
  }

  /** The projection asks for the id: `"id": true`. */
  predicate IdRequested(json: Json)
  {
    Get(json, "id") == Some(JBool(true))
  }

  /** The projection names the field with anything but `false`. */
  predicate Requested(f: Field, json: Json)
  {
    Get(json, f.name).Some? && Get(json, f.name).value != JBool(false)
  }

  /** Field types that produce an include rather than a mask bit. */
  predicate Nested(ty: FieldType)
  {
    ty.ModelRef? || ty.ModelRefList? || ty.Struct? || ty.StructList?
  }

  /** The fields of the record a nested field leads to. */
  function TargetFields(f: Field, schema: Schema): seq<Field>
    requires Nested(f.ty)
  {
    match f.ty
    case ModelRef(k) => if k < |schema.models| then schema.models[k].fields else []
    case ModelRefList(k) => if k < |schema.models| then schema.models[k].fields else []
    case Struct(st) => st.fields
    case StructList(st, _) => st.fields
  }

  /** `parse_select` does not panic: every requested relation names an
      existing model, every requested list relation has a select index, and
      the same holds for the nested projections. */
  predicate SelectSafe(fields: seq<Field>, json: Json, schema: Schema)
    decreases json, 0
  {
    json.JBool? ||
    forall i | 0 <= i < |fields| && Requested(fields[i], json) ::
      FieldSelectSafe(fields[i], Get(json, fields[i].name).value, schema)
  }

  predicate FieldSelectSafe(f: Field, v: Json, schema: Schema)
    decreases v, 1
  {
    match f.ty
    case ModelRef(k) => k < |schema.models| && SelectSafe(schema.models[k].fields, v, schema)
    case ModelRefList(k) => k < |schema.models| && f.selectIndex.Some? && SelectSafe(schema.models[k].fields, v, schema)
    case Struct(st) => SelectSafe(st.fields, v, schema)
    case StructList(st, _) => SelectSafe(st.fields, v, schema)
    case _ => true
  }

  /** The bits `parse_select` sets for a projection that is not a boolean. */
  function MaskOf(fields: seq<Field>, json: Json): seq<bool>
  {
    seq(|fields| + 1, i requires 0 <= i <= |fields| =>
      if i == 0 then IdRequested(json) else Requested(fields[i - 1], json) && !Nested(fields[i - 1].ty))
  }

  /** `parse_select`. */
  function ParseSelectSpec(fields: seq<Field>, json: Json, schema: Schema): (r: Selection)
    requires SelectSafe(fields, json, schema)
    ensures |r.mask| == |fields| + 1
    ensures json.JBool? ==> (forall i | 0 <= i < |r.mask| :: r.mask[i]) && r.includes == []
    ensures !json.JBool? ==>
      (r.mask[0] <==> IdRequested(json))
      && (forall i | 0 <= i < |fields| :: r.mask[i + 1] <==> Requested(fields[i], json) && !Nested(fields[i].ty))
    decreases json, 3
  {
    if json.JBool? then All(fields)
    else Selection(MaskOf(fields, json), IncludesUpTo(fields, json, schema, |fields|))
  }

  /** The include for requested nested field `i` with projection `v`: the
      nested projection parsed against the target's fields, bound by slot,
      by index tree or as a struct. A struct projected with `true` leaves
      out the struct's own id. */
  function IncludeOf(i: nat, f: Field, v: Json, schema: Schema): (r: Include)
    requires Nested(f.ty) && FieldSelectSafe(f, v, schema)
    ensures r.fieldIndex == i
    decreases v, 4
  {
    match f.ty
    case ModelRef(k) =>
      Include(i, ModelShape(schema.models[k]), ParseSelectSpec(schema.models[k].fields, v, schema), One(f.offsetPos))
    case ModelRefList(k) =>
      Include(i, ModelShape(schema.models[k]), ParseSelectSpec(schema.models[k].fields, v, schema), Many(f.selectIndex.value))
    case Struct(st) =>
      var s := ParseSelectSpec(st.fields, v, schema);
      Include(i, StructShape(st), if v == JBool(true) then s.(mask := s.mask[0 := false]) else s, OneStruct)
    case StructList(st, _) =>
      Include(i, StructShape(st), ParseSelectSpec(st.fields, v, schema), ManyStruct)
  }

  /** A nested include selects against the target's fields; a struct
      projected with `true` selects every field of the struct but not its
      id, anything else selects what the nested projection says. */
  lemma IncludeSelect(i: nat, f: Field, v: Json, schema: Schema)
    requires Nested(f.ty) && FieldSelectSafe(f, v, schema)
    ensures var r := IncludeOf(i, f, v, schema);
      |r.select.mask| == |TargetFields(f, schema)| + 1
      && (f.ty.Struct? && v == JBool(true) ==>
           !r.select.mask[0] && (forall j | 1 <= j < |r.select.mask| :: r.select.mask[j]) && r.select.includes == [])
      && (!f.ty.Struct? || v != JBool(true) ==> r.select == ParseSelectSpec(TargetFields(f, schema), v, schema))
  {
  }

  /** The includes `parse_select` has pushed after its first `i` fields. */
  function IncludesUpTo(fields: seq<Field>, json: Json, schema: Schema, i: nat): seq<Include>
    requires i <= |fields| && !json.JBool? && SelectSafe(fields, json, schema)
    decreases json, 2, i
  {
    if i == 0 then []
    else
      var done := IncludesUpTo(fields, json, schema, i - 1);
      if Requested(fields[i - 1], json) && Nested(fields[i - 1].ty) then
        done + [IncludeOf(i - 1, fields[i - 1], Get(json, fields[i - 1].name).value, schema)]
      else
        done
  }

  /** The include for field `j`, as `parse_select` builds it. */
  function IncludeAt(fields: seq<Field>, json: Json, schema: Schema, j: nat): Include
    requires j < |fields| && !json.JBool? && SelectSafe(fields, json, schema)
    requires Requested(fields[j], json) && Nested(fields[j].ty)
  {
    IncludeOf(j, fields[j], Get(json, fields[j].name).value, schema)
  }

  /** Each include in `r` belongs to a requested relation or struct field
      before field `i`, and is that field's include. */
  predicate FromRequested(fields: seq<Field>, json: Json, schema: Schema, i: nat, r: seq<Include>)
    requires !json.JBool? && SelectSafe(fields, json, schema)
  {
    forall k | 0 <= k < |r| ::
      r[k].fieldIndex < i && r[k].fieldIndex < |fields|
      && Requested(fields[r[k].fieldIndex], json) && Nested(fields[r[k].fieldIndex].ty)
      && r[k] == IncludeAt(fields, json, schema, r[k].fieldIndex)
  }

  /** The includes in `r` are in strictly increasing field order. */
  predicate InFieldOrder(r: seq<Include>)
  {
    forall k, l | 0 <= k < l < |r| :: r[k].fieldIndex < r[l].fieldIndex
  }

  /** Every requested relation or struct field before field `i` has an
      include in `r`. */
  predicate Covers(fields: seq<Field>, json: Json, i: nat, r: seq<Include>)
  {
    forall j | 0 <= j < i && j < |fields| && Requested(fields[j], json) && Nested(fields[j].ty) ::
      exists k | 0 <= k < |r| :: r[k].fieldIndex == j
  }

  /** Each include of the first `i` fields belongs to a requested relation
      or struct field among them, and is that field's include. */
  lemma {:induction false} IncludesRequested(fields: seq<Field>, json: Json, schema: Schema, i: nat)
    requires i <= |fields| && !json.JBool? && SelectSafe(fields, json, schema)
    ensures FromRequested(fields, json, schema, i, IncludesUpTo(fields, json, schema, i))
    decreases i
  {
    if i > 0 {
      IncludesRequested(fields, json, schema, i - 1);
      var done := IncludesUpTo(fields, json, schema, i - 1);
      var r := IncludesUpTo(fields, json, schema, i);
      if Requested(fields[i - 1], json) && Nested(fields[i - 1].ty) {
        var inc := IncludeAt(fields, json, schema, i - 1);
        assert r == done + [inc];
        assert inc.fieldIndex == i - 1;
        forall k | 0 <= k < |r|
          ensures r[k].fieldIndex < i && r[k].fieldIndex < |fields|
          ensures Requested(fields[r[k].fieldIndex], json) && Nested(fields[r[k].fieldIndex].ty)
          ensures r[k] == IncludeAt(fields, json, schema, r[k].fieldIndex)
        {
          if k < |done| {
            assert r[k] == done[k];
          } else {
            assert r[k] == inc;
          }
        }
      } else {
        assert r == done;
      }
    }
  }

  /** The includes come in declaration order. */
  lemma {:induction false} IncludesSorted(fields: seq<Field>, json: Json, schema: Schema, i: nat)
    requires i <= |fields| && !json.JBool? && SelectSafe(fields, json, schema)
    ensures InFieldOrder(IncludesUpTo(fields, json, schema, i))
    decreases i
  {
    if i > 0 {
      IncludesSorted(fields, json, schema, i - 1);
      IncludesRequested(fields, json, schema, i - 1);
      var done := IncludesUpTo(fields, json, schema, i - 1);
      var r := IncludesUpTo(fields, json, schema, i);
      if Requested(fields[i - 1], json) && Nested(fields[i - 1].ty) {
        var inc := IncludeAt(fields, json, schema, i - 1);
        assert r == done + [inc];
        assert inc.fieldIndex == i - 1;
        forall k, l | 0 <= k < l < |r|
          ensures r[k].fieldIndex < r[l].fieldIndex
        {
          assert r[k] == done[k];
          if l < |done| {
            assert r[l] == done[l];
          }
        }
      } else {
        assert r == done;
      }
    }
  }

  /** Every requested relation or struct field among the first `i` fields
      has an include. */
  lemma {:induction false} IncludesComplete(fields: seq<Field>, json: Json, schema: Schema, i: nat)
    requires i <= |fields| && !json.JBool? && SelectSafe(fields, json, schema)
    ensures Covers(fields, json, i, IncludesUpTo(fields, json, schema, i))
    decreases i
  {
    if i > 0 {
      IncludesComplete(fields, json, schema, i - 1);
      var done := IncludesUpTo(fields, json, schema, i - 1);
      var r := IncludesUpTo(fields, json, schema, i);
      if Requested(fields[i - 1], json) && Nested(fields[i - 1].ty) {
        var inc := IncludeAt(fields, json, schema, i - 1);
        assert r == done + [inc];
        forall j | 0 <= j < i && j < |fields| && Requested(fields[j], json) && Nested(fields[j].ty)
          ensures exists k | 0 <= k < |r| :: r[k].fieldIndex == j
        {
          if j < i - 1 {
            var k :| 0 <= k < |done| && done[k].fieldIndex == j;
            assert r[k] == done[k];
          } else {
            assert r[|done|] == inc;
          }
        }
      } else {
        assert r == done;
      }
    }
  }

  /** The includes of a non-boolean projection: one per requested relation
      or struct field, in declaration order, each that field's include. */
  lemma SelectIncludes(fields: seq<Field>, json: Json, schema: Schema)
    requires !json.JBool? && SelectSafe(fields, json, schema)
    ensures var r := ParseSelectSpec(fields, json, schema).includes;
      FromRequested(fields, json, schema, |fields|, r) && InFieldOrder(r) && Covers(fields, json, |fields|, r)
  {
    IncludesRequested(fields, json, schema, |fields|);
    IncludesSorted(fields, json, schema, |fields|);
    IncludesComplete(fields, json, schema, |fields|);
  }

  /** The arms of `parse_select`'s match that push an include: the nested
      projection is parsed against the target's fields by a recursive call. */
  method FieldInclude(i: nat, field: Field, v: Json, schema: Schema) returns (inc: Include)
    requires Nested(field.ty) && FieldSelectSafe(field, v, schema)
    ensures inc == IncludeOf(i, field, v, schema)
    decreases v, 2
  {
    match field.ty
    case ModelRef(k) =>
      var select := ParseSelect(schema.models[k].fields, v, schema);
      inc := Include(i, ModelShape(schema.models[k]), select, One(field.offsetPos));
    case ModelRefList(k) =>
      var select := ParseSelect(schema.models[k].fields, v, schema);
      inc := Include(i, ModelShape(schema.models[k]), select, Many(field.selectIndex.value));
    case Struct(st) =>
      var select := ParseSelect(st.fields, v, schema);
      if v == JBool(true) {
        select := select.(mask := select.mask[0 := false]);
      }
      inc := Include(i, StructShape(st), select, OneStruct);
    case StructList(st, _) =>
      var select := ParseSelect(st.fields, v, schema);
      inc := Include(i, StructShape(st), select, ManyStruct);
  }

  /** One turn of `parse_select`'s field loop: a requested relation or
      struct field yields its include, a requested scalar field its bit. */
  method ParseField(fields: seq<Field>, json: Json, schema: Schema, i: nat) returns (inc: Option<Include>, bit: bool)
    requires i < |fields| && !json.JBool? && SelectSafe(fields, json, schema)
    ensures bit <==> Requested(fields[i], json) && !Nested(fields[i].ty)
    ensures inc.Some? <==> Requested(fields[i], json) && Nested(fields[i].ty)
    ensures inc.Some? ==> inc.value == IncludeAt(fields, json, schema, i)
    decreases json, 0
  {
    var field := fields[i];
    var val := Get(json, field.name);
    inc, bit := None, false;
    if val.Some? && val.value != JBool(false) {
      if Nested(field.ty) {
        var x := FieldInclude(i, field, val.value, schema);
        inc := Some(x);
      } else {
        bit := true;
      }
    }
  }

  /** `parse_select`: the field loop sets the bit of each requested scalar
      field and pushes the include of each requested relation or struct
      field. */
  method ParseSelect(fields: seq<Field>, json: Json, schema: Schema) returns (r: Selection)
    requires SelectSafe(fields, json, schema)
    ensures r == ParseSelectSpec(fields, json, schema)
    decreases json, 1
  {
    if json.JBool? {
      return All(fields);
    }
    var mask := seq(|fields| + 1, _ => false);
    var includes := [];
    var id := Get(json, "id");
    if id.Some? && AsBool(id.value) == Some(true) {
      mask := mask[0 := true];
    }
    var i := 0;
    while i < |fields|
      invariant i <= |fields| && |mask| == |fields| + 1
      invariant mask[0] == IdRequested(json)
      invariant forall j | 1 <= j <= i :: mask[j] == (Requested(fields[j - 1], json) && !Nested(fields[j - 1].ty))
      invariant forall j | i < j <= |fields| :: !mask[j]
      invariant includes == IncludesUpTo(fields, json, schema, i)
    {
      var inc, bit := ParseField(fields, json, schema, i);
      assert IncludesUpTo(fields, json, schema, i + 1) == if inc.Some? then includes + [inc.value] else includes;
      if inc.Some? {
        includes := includes + [inc.value];
      } else if bit {
        mask := mask[i + 1 := true];
      }
      i := i + 1;
    }
    assert mask == MaskOf(fields, json);
    return Selection(mask, includes);
  }
}

=== FILE: store.dfy ===
/** The ordered key-value store underneath the database: named trees, each
    holding byte-string keys in byte-lexicographic order. A tree is kept as
    its entries in ascending key order, so that scans and iteration come out
    in the store's order; `Get` sees the same tree as a finite map. */
module Store {
  import opened Wrappers
  import opened Bytes

  datatype Entry = Entry(key: seq<byte>, value: seq<byte>)

  type Tree = seq<Entry>

  /** The trees of a database, by name. */
  type Trees = map<string, Tree>

  /** Keys strictly ascending: the order the store iterates in. */
  predicate Sorted(t: Tree)
  {
    forall i, j | 0 <= i < j < |t| :: LexLt(t[i].key, t[j].key)
  }

  /** `Tree::get`: the value stored under `k`, if any. Seen through `Get`,
      a tree is a finite map from keys to values. */
  function Get(t: Tree, k: seq<byte>): (r: Option<seq<byte>>)
    ensures r.Some? <==> exists i | 0 <= i < |t| :: t[i].key == k
    decreases |t|
  {
    if t == [] then None
    else if t[0].key == k then Some(t[0].value)
    else
      var r := Get(t[1..], k);
      assert (exists i | 0 <= i < |t[1..]| :: t[1..][i].key == k) <==> (exists i | 0 <= i < |t| :: t[i].key == k) by {
        if i :| 0 <= i < |t| && t[i].key == k {
          assert t[1..][i - 1].key == k;
        }
      }
      r
  }

  /** Every key after the first sorts after it. */
  lemma FirstIsLeast(t: Tree)
    requires Sorted(t) && t != []
    ensures Sorted(t[1..])
    ensures forall k | Get(t[1..], k).Some? :: LexLt(t[0].key, k)
  {
    forall k | Get(t[1..], k).Some?
      ensures LexLt(t[0].key, k)
    {
      var i :| 0 <= i < |t[1..]| && t[1..][i].key == k;
      assert t[i + 1].key == k;
    }
  }

  /** Each entry is what `Get` finds under its key. */
  lemma {:induction false} EntryFound(t: Tree, i: nat)
    requires Sorted(t) && i < |t|
    ensures Get(t, t[i].key) == Some(t[i].value)
    decreases i
  {
    if i > 0 {
      FirstIsLeast(t);
      EntryFound(t[1..], i - 1);
      assert t[1..][i - 1] == t[i];
      LexIrreflexive(t[0].key);
    }
  }

  /** A sorted tree extended at the front by a key below all of its keys. */
  lemma ConsSorted(e: Entry, t: Tree)
    requires Sorted(t) && forall k | Get(t, k).Some? :: LexLt(e.key, k)
    ensures Sorted([e] + t)
  {
    var r := [e] + t;
    forall i, j | 0 <= i < j < |r|
      ensures LexLt(r[i].key, r[j].key)
    {
      if i == 0 {
        assert r[j] == t[j - 1];
        assert Get(t, t[j - 1].key).Some?;
      } else {
        assert r[i] == t[i - 1] && r[j] == t[j - 1];
      }
    }
  }

  /** `Tree::insert`: sets the value of `k` and leaves every other key
      alone, keeping the order. */
  function Insert(t: Tree, k: seq<byte>, v: seq<byte>): (r: Tree)
    requires Sorted(t)
    ensures Sorted(r) && Get(r, k) == Some(v)
    ensures forall x | x != k :: Get(r, x) == Get(t, x)
  {
    if t == [] then [Entry(k, v)]
    else if t[0].key == k then
      FirstIsLeast(t);
      ConsSorted(Entry(k, v), t[1..]);
      [Entry(k, v)] + t[1..]
    else if LexLt(k, t[0].key) then
      FirstIsLeast(t);
      forall x | Get(t, x).Some? ensures LexLt(k, x) {
        if x != t[0].key {
          LexTransitive(k, t[0].key, x);
        }
      }
      ConsSorted(Entry(k, v), t);
      [Entry(k, v)] + t
    else
      FirstIsLeast(t);
      var rest := Insert(t[1..], k, v);
      LexTotal(k, t[0].key);
      forall x | Get(rest, x).Some? ensures LexLt(t[0].key, x) {
        if x != k {
          assert Get(t[1..], x).Some?;
        }
      }
      ConsSorted(t[0], rest);
      [t[0]] + rest
  }

  /** The entries whose keys satisfy `keep`, in order. */
  function Keep(t: Tree, keep: seq<byte> -> bool): (r: Tree)
    requires Sorted(t)
    ensures Sorted(r) && |r| <= |t|
    ensures forall x :: Get(r, x) == if keep(x) then Get(t, x) else None
  {
    if t == [] then []
    else
      FirstIsLeast(t);
      var rest := Keep(t[1..], keep);
      if keep(t[0].key) then
        ConsSorted(t[0], rest);
        [t[0]] + rest
      else
        assert Get(t[1..], t[0].key).None? by {
          LexIrreflexive(t[0].key);
        }
        rest
  }

  /** `Tree::delete`: removes `k`; the flag says whether it was there. */
  function Delete(t: Tree, k: seq<byte>): (r: (Tree, bool))
    requires Sorted(t)
    ensures Sorted(r.0) && Get(r.0, k).None?
    ensures forall x | x != k :: Get(r.0, x) == Get(t, x)
    ensures r.1 <==> Get(t, k).Some?
  {
    (Keep(t, x => x != k), Get(t, k).Some?)
  }

  /** `Tree::delete_range(lo..hi)`: removes the keys in `[lo, hi)`. */
  function DeleteRange(t: Tree, lo: seq<byte>, hi: seq<byte>): (r: Tree)
    requires Sorted(t)
    ensures Sorted(r)
    ensures forall x :: Get(r, x) == if LexLe(lo, x) && LexLt(x, hi) then None else Get(t, x)
  {
    Keep(t, x => !(LexLe(lo, x) && LexLt(x, hi)))
  }

  /** `Tree::prefix`: the entries whose keys start with `p`, in order. */
  function Prefix(t: Tree, p: seq<byte>): (r: Tree)
    requires Sorted(t)
    ensures Sorted(r)
    ensures forall x :: Get(r, x) == if IsPrefix(p, x) then Get(t, x) else None
  {
    Keep(t, x => IsPrefix(p, x))
  }

  /** `Tree::last`: the entry with the greatest key. */
  function Last(t: Tree): (r: Option<Entry>)
    requires Sorted(t)
    ensures r.None? <==> t == []
    ensures r.Some? ==> Get(t, r.value.key) == Some(r.value.value)
    ensures r.Some? ==> forall k | Get(t, k).Some? :: LexLe(k, r.value.key)
  {
    if t == [] then None
    else
      EntryFound(t, |t| - 1);
      forall k | Get(t, k).Some? ensures LexLe(k, t[|t| - 1].key) {
        var i :| 0 <= i < |t| && t[i].key == k;
      }
      Some(t[|t| - 1])
  }

  // ---------------------------------------------------------------------
  // The trees of a database
  // ---------------------------------------------------------------------

  /** Every tree of the database keeps its keys in order. */
  predicate TreesOk(ts: Trees)
  {
    forall n | n in ts :: Sorted(ts[n])
  }

  /** `tree.insert(k, v)` on the tree named `n`: only that key of that tree
      changes. */
  function Put(ts: Trees, n: string, k: seq<byte>, v: seq<byte>): (r: Trees)
    requires TreesOk(ts) && n in ts
    ensures TreesOk(r) && r.Keys == ts.Keys
    ensures forall m, x {:trigger Get(r[m], x)} | m in ts :: Get(r[m], x) == if m == n && x == k then Some(v) else Get(ts[m], x)
  {
    ts[n := Insert(ts[n], k, v)]
  }

  /** `tree.delete(k)` on the tree named `n`, ignoring the flag. */
  function Del(ts: Trees, n: string, k: seq<byte>): (r: Trees)
    requires TreesOk(ts) && n in ts
    ensures TreesOk(r) && r.Keys == ts.Keys
    ensures forall m, x {:trigger Get(r[m], x)} | m in ts :: Get(r[m], x) == if m == n && x == k then None else Get(ts[m], x)
  {
    ts[n := Delete(ts[n], k).0]
  }

  /** `tree.delete_range(lo..hi)` on the tree named `n`. */
  function DelRange(ts: Trees, n: string, lo: seq<byte>, hi: seq<byte>): (r: Trees)
    requires TreesOk(ts) && n in ts
    ensures TreesOk(r) && r.Keys == ts.Keys
    ensures forall m, x {:trigger Get(r[m], x)} | m in ts ::
      Get(r[m], x) == if m == n && LexLe(lo, x) && LexLt(x, hi) then None else Get(ts[m], x)
  {
    ts[n := DeleteRange(ts[n], lo, hi)]
  }
}

=== FILE: text.dfy ===
/** The few `str` operations the schema parser relies on, on `string`
    (a sequence of Unicode scalar values, as a Rust `&str` is). */
module Text {
  import opened Wrappers

  /** `char::is_whitespace`: the Unicode White_Space property. */
  predicate IsWhitespace(c: char)
  {
    ('\t' <= c <= '\r') || c == ' ' || c == '\U{0085}' || c == '\U{00A0}' || c == '\U{1680}'
    || ('\U{2000}' <= c <= '\U{200A}') || c == '\U{2028}' || c == '\U{2029}'
    || c == '\U{202F}' || c == '\U{205F}' || c == '\U{3000}'
  }

  function TrimStart(s: string): (r: string)
    ensures |r| <= |s|
  {
    if s != [] && IsWhitespace(s[0]) then TrimStart(s[1..]) else s
  }

  function TrimEnd(s: string): (r: string)
    ensures |r| <= |s|
  {
    if s != [] && IsWhitespace(s[|s| - 1]) then TrimEnd(s[..|s| - 1]) else s
  }

  /** `str::trim`. */
  function Trim(s: string): string
  {
    TrimEnd(TrimStart(s))
  }

  predicate StartsWith(s: string, p: string)
  {
    |p| <= |s| && s[..|p|] == p
  }

  predicate EndsWith(s: string, p: string)
  {
    |p| <= |s| && s[|s| - |p|..] == p
  }

  /** `str::strip_prefix`. */
  function StripPrefix(s: string, p: string): Option<string>
  {
    if StartsWith(s, p) then Some(s[|p|..]) else None
  }

  /** `str::strip_suffix`. */
  function StripSuffix(s: string, p: string): Option<string>
  {
    if EndsWith(s, p) then Some(s[..|s| - |p|]) else None
  }

  /** `str::trim_end_matches` with a single character. */
  function TrimEndMatches(s: string, c: char): string
  {
    if s != [] && s[|s| - 1] == c then TrimEndMatches(s[..|s| - 1], c) else s
  }

  /** Index of the first occurrence of `c`, if any. */
  function Find(s: string, c: char): (r: Option<nat>)
    ensures r.Some? ==> r.value < |s| && s[r.value] == c && c !in s[..r.value]
    ensures r.None? ==> c !in s
  {
    if s == [] then None
    else if s[0] == c then Some(0)
    else match Find(s[1..], c)
      case None => None
      case Some(i) => Some(i + 1)
  }

  /** `str::split_once` with a single character. */
  function SplitOnce(s: string, c: char): Option<(string, string)>
  {
    match Find(s, c)
    case None => None
    case Some(i) => Some((s[..i], s[i + 1..]))
  }

  /** `str::split` with a single character: every piece, empty ones included. */
  function Split(s: string, c: char): (r: seq<string>)
    ensures |r| >= 1
    decreases |s|
  {
    match Find(s, c)
    case None => [s]
    case Some(i) => [s[..i]] + Split(s[i + 1..], c)
  }

  /** Length of the leading run of non-whitespace characters. */
  function WordLength(s: string): (n: nat)
    ensures n <= |s|
  {
    if s == [] || IsWhitespace(s[0]) then 0 else 1 + WordLength(s[1..])
  }

  /** `str::split_whitespace`: the maximal runs of non-whitespace characters. */
  function SplitWhitespace(s: string): seq<string>
    decreases |s|
  {
    var t := TrimStart(s);
    if t == [] then []
    else
      var n := WordLength(t);
      [t[..n]] + SplitWhitespace(t[n..])
  }

  /** `str::lines`: pieces ended by "\n" or "\r\n"; a final line ending is optional. */
  function Lines(s: string): seq<string>
    decreases |s|
  {
    if s == [] then []
    else match Find(s, '\n')
      case None => [s]
      case Some(i) =>
        var line := s[..i];
        [if line != [] && line[|line| - 1] == '\r' then line[..|line| - 1] else line] + Lines(s[i + 1..])
  }

  // ---------------------------------------------------------------------
  // Facts about splitting
  // ---------------------------------------------------------------------

  /** A text without whitespace: one word for `split_whitespace`. */
  predicate IsWord(w: string)
  {
    w != [] && forall i | 0 <= i < |w| :: !IsWhitespace(w[i])
  }

  /** `c` is found in `a + b` where it is found in `b`, shifted by `|a|`,
      when `a` does not contain it. */
  lemma {:induction false} FindAfter(a: string, b: string, c: char)
    requires c !in a
    ensures Find(a + b, c) == if Find(b, c).None? then None else Some(|a| + Find(b, c).value)
    decreases |a|
  {
    if a != [] {
      assert (a + b)[0] == a[0] && (a + b)[1..] == a[1..] + b;
      FindAfter(a[1..], b, c);
    } else {
      assert a + b == b;
    }
  }

  /** The first `c` of `pre c post` is the one after `pre`. */
  lemma FindFirst(pre: string, post: string, c: char)
    requires c !in pre
    ensures Find(pre + [c] + post, c) == Some(|pre|)
  {
    assert pre + [c] + post == pre + ([c] + post);
    FindAfter(pre, [c] + post, c);
    assert Find([c] + post, c) == Some(0);
  }

  /** Splitting `m c f` on `c` gives `m` and `f` when neither holds `c`. */
  lemma SplitTwo(m: string, f: string, c: char)
    requires c !in m && c !in f
    ensures Split(m + [c] + f, c) == [m, f]
  {
    var s := m + [c] + f;
    FindFirst(m, f, c);
    assert s[..|m|] == m && s[|m| + 1..] == f;
    assert Split(f, c) == [f] by {
      assert Find(f, c).None?;
    }
  }

  /** `split_once` cuts at the first `c`. */
  lemma SplitOnceAt(pre: string, post: string, c: char)
    requires c !in pre
    ensures SplitOnce(pre + [c] + post, c) == Some((pre, post))
  {
    var s := pre + [c] + post;
    FindFirst(pre, post, c);
    assert s[..|pre|] == pre && s[|pre| + 1..] == post;
  }

  /** A word followed by whitespace, or by nothing, is the first piece of
      `split_whitespace`. */
  lemma {:induction false} WordFirst(w: string, rest: string)
    requires IsWord(w) && (rest == [] || IsWhitespace(rest[0]))
    ensures SplitWhitespace(w + rest) == [w] + SplitWhitespace(rest)
  {
    var t := w + rest;
    assert TrimStart(t) == t by {
      assert t[0] == w[0];
    }
    WordLengthOf(w, rest);
    assert t[..|w|] == w && t[|w|..] == rest;
  }

  lemma {:induction false} WordLengthOf(w: string, rest: string)
    requires (forall i | 0 <= i < |w| :: !IsWhitespace(w[i])) && (rest == [] || IsWhitespace(rest[0]))
    ensures WordLength(w + rest) == |w|
    decreases |w|
  {
    if w != [] {
      assert (w + rest)[0] == w[0] && (w + rest)[1..] == w[1..] + rest;
      WordLengthOf(w[1..], rest);
    } else {
      assert w + rest == rest;
    }
  }

  /** Leading whitespace does not change `split_whitespace`. */
  lemma SpaceFirst(s: string)
    ensures SplitWhitespace(" " + s) == SplitWhitespace(s)
  {
    assert (" " + s)[1..] == s;
    assert TrimStart(" " + s) == TrimStart(s);
  }

  /** `trim` leaves a word alone. */
  lemma TrimWord(w: string)
    requires IsWord(w)
    ensures Trim(w) == w
  {
    assert TrimStart(w) == w;
  }
}

=== FILE: update.dfy ===
/** `update_data.rs`: splicing the changed fields of a freshly encoded
    document into a stored one, in place. The buffer is a `Vec<u8>` that can
    grow, shrink and be reallocated, modelled as an array that an operation
    may replace by a fresh one. */
module Update {
  import opened Bytes
  import opened Wrappers
  import opened Layout
  import opened Offsets
  import opened Schema

  // ---------------------------------------------------------------------
  // The Vec operations that `shift_and_resize` uses
  // ---------------------------------------------------------------------

  /** `Vec::resize(m, 0)`: cut to `m` bytes or pad with zeros. */
  function Resized(d: seq<byte>, m: nat): (r: seq<byte>)
    ensures |r| == m
  {
    if m <= |d| then d[..m] else d + Zeros(m - |d|)
  }

  /** `Vec::truncate(m)`: cut to `m` bytes; a longer `m` does nothing. */
  function Truncated(d: seq<byte>, m: nat): (r: seq<byte>)
    ensures |r| == if m < |d| then m else |d|
  {
    if m < |d| then d[..m] else d
  }

  /** `copy_within(from..end, to)`: the bytes `from .. end` copied to `to`,
      read before any is written. */
  function Copied(d: seq<byte>, from: nat, end: nat, to: nat): (r: seq<byte>)
    requires from <= end <= |d| && to + (end - from) <= |d|
    ensures |r| == |d|
  {
    d[..to] + d[from..end] + d[to + (end - from)..]
  }

  method Resize(a: array<byte>, m: nat) returns (r: array<byte>)
    ensures fresh(r) && r[..] == Resized(a[..], m)
  {
    r := new byte[m];
    forall i | 0 <= i < m {
      r[i] := if i < a.Length then a[i] else 0;
    }
    assert r[..] == Resized(a[..], m);
  }

  method Truncate(a: array<byte>, m: nat) returns (r: array<byte>)
    ensures fresh(r) && r[..] == Truncated(a[..], m)
  {
    var len := if m < a.Length then m else a.Length;
    r := new byte[len];
    forall i | 0 <= i < len {
      r[i] := a[i];
    }
  }

  method CopyWithin(a: array<byte>, from: nat, end: nat, to: nat)
    requires from <= end <= a.Length && to + (end - from) <= a.Length
    modifies a
    ensures a[..] == Copied(old(a[..]), from, end, to)
  {
    forall i | to <= i < to + (end - from) {
      a[i] := a[from + (i - to)];
    }
    assert a[..] == Copied(old(a[..]), from, end, to);
  }

  /** `copy_from_slice` into `a[start .. start + |src|]`. */
  method CopyFromSlice(a: array<byte>, start: nat, src: seq<byte>)
    requires start + |src| <= a.Length
    modifies a
    ensures a[..] == old(a[..])[..start] + src + old(a[..])[start + |src|..]
  {
    forall i | start <= i < start + |src| {
      a[i] := src[i - start];
    }
    assert a[..] == old(a[..])[..start] + src + old(a[..])[start + |src|..];
  }

  // ---------------------------------------------------------------------
  // shift_and_resize
  // ---------------------------------------------------------------------

  /** What `shift_and_resize` needs not to panic: a non-negative new length
      and a `copy_within` that stays inside the buffer. */
  predicate ShiftOk(len: nat, from: nat, to: nat, diff: int)
  {
    len + diff >= 0 && from <= len
    && (from == len || to + (len - from) <= if diff > 0 then len + diff else len)
  }

  /** The buffer after `shift_and_resize(from, to, diff)`. */
  function AfterShift(d: seq<byte>, from: nat, to: nat, diff: int): (r: seq<byte>)
    requires ShiftOk(|d|, from, to, diff)
    ensures |r| == |d| + diff
  {
    var newLen := |d| + diff;
    if from == |d| then Resized(d, newLen)
    else if diff > 0 then Copied(Resized(d, newLen), from, |d|, to)
    else Truncated(Copied(d, from, |d|, to), newLen)
  }

  /** `shift_and_resize`. */
  method ShiftAndResize(data: array<byte>, from: nat, to: nat, diff: int) returns (r: array<byte>)
    requires ShiftOk(data.Length, from, to, diff)
    modifies data
    ensures fresh(r) && r[..] == AfterShift(old(data[..]), from, to, diff)
  {
    var len := data.Length;
    var newLen := len + diff;
    if from == len {
      r := Resize(data, newLen);
      return;
    }
    if diff > 0 {
      r := Resize(data, newLen);
      CopyWithin(r, from, len, to);
    } else {
      CopyWithin(data, from, len, to);
      r := Truncate(data, newLen);
    }
  }

  /** When `to` is `from + diff`, the bytes from `from` on move to `to` and
      the buffer gets `diff` bytes longer: what comes before `to` is the old
      buffer, zero-padded if it was shorter. */
  lemma ShiftIsSplice(d: seq<byte>, from: nat, to: nat, diff: int)
    requires from <= |d| && to == from + diff
    ensures ShiftOk(|d|, from, to, diff)
    ensures AfterShift(d, from, to, diff) == Resized(d, to) + d[from..]
  {
    var newLen := |d| + diff;
    if from == |d| {
      assert d[from..] == [];
    } else if diff > 0 {
      var big := Resized(d, newLen);
      assert big[..to] == Resized(d, to);
      assert big[from..|d|] == d[from..];
    } else {
      assert Copied(d, from, |d|, to)[..newLen] == d[..to] + d[from..];
    }
  }

  // ---------------------------------------------------------------------
  // One field of update_data
  // ---------------------------------------------------------------------

  /** What one step computes before touching the buffer: the slot values
      in the old and the new document, where their values end, and where
      the new value goes. */
  datatype Plan = Plan(offset: nat, end: nat, updateOffset: nat, updateEnd: nat,
                       diff: int, newOffset: nat, newEnd: nat)

  /** The two slot reads, the two `get_end` scans and the two `usize`
      subtractions do not panic. */
  predicate ScanOk(d: seq<byte>, nd: seq<byte>, pos: nat, payloadOffset: nat)
  {
    pos + 4 <= |d| && pos + 4 <= |nd|
    && ReadsOk(|d|, pos + 4, payloadOffset, 4)
    && (GetOffset(nd, pos) != 0 ==>
          ReadsOk(|nd|, pos + 4, payloadOffset, 4) && GetOffset(nd, pos) <= EndAt(nd, pos + 4, payloadOffset))
    && (GetOffset(d, pos) != 0 ==> GetOffset(d, pos) <= EndAt(d, pos + 4, payloadOffset))
  }

  function PlanOf(d: seq<byte>, nd: seq<byte>, pos: nat, payloadOffset: nat): (s: Plan)
    requires ScanOk(d, nd, pos, payloadOffset)
    ensures s.newEnd == s.newOffset + (s.updateEnd - s.updateOffset)
    ensures s.newEnd == s.end + s.diff
  {
    var offset := GetOffset(d, pos);
    var updateOffset := GetOffset(nd, pos);
    var end := EndAt(d, pos + 4, payloadOffset);
    var updateEnd := if updateOffset == 0 then 0 else EndAt(nd, pos + 4, payloadOffset);
    var updateLen := if updateOffset == 0 then 0 else updateEnd - updateOffset;
    var len := if offset == 0 then 0 else end - offset;
    var newOffset := if offset == 0 then end else offset;
    Plan(offset, end, updateOffset, updateEnd, updateLen - len, newOffset, newOffset + updateLen)
  }

  /** Neither the shift, nor `move_offsets`, nor the copy, nor the final
      slot write runs past the buffer. */
  predicate SpliceOk(d: seq<byte>, nd: seq<byte>, pos: nat, payloadOffset: nat)
  {
    ScanOk(d, nd, pos, payloadOffset)
    && var s := PlanOf(d, nd, pos, payloadOffset);
       (s.diff != 0 ==> ShiftOk(|d|, s.end, s.newEnd, s.diff) && ReadsOk(|d| + s.diff, pos + 4, payloadOffset, 4))
       && pos + 4 <= |d| + s.diff
       && (s.updateOffset != 0 ==> s.updateEnd <= |nd| && s.newEnd <= |d| + s.diff)
  }

  /** The buffer after the shift that gives the new value of the slot at
      `pos` its room, and after the later slots were moved with it. */
  function Resettled(d: seq<byte>, pos: nat, payloadOffset: nat, s: Plan): (r: seq<byte>)
    requires s.diff != 0 ==> ShiftOk(|d|, s.end, s.newEnd, s.diff) && ReadsOk(|d| + s.diff, pos + 4, payloadOffset, 4)
    ensures |r| == |d| + s.diff
  {
    if s.diff != 0 then MoveFrom(AfterShift(d, s.end, s.newEnd, s.diff), pos + 4, payloadOffset, s.diff) else d
  }

  /** The buffer after the new value was copied into its room and the slot
      at `pos` was pointed at it (or nulled). */
  function Placed(d1: seq<byte>, nd: seq<byte>, pos: nat, s: Plan): seq<byte>
    requires pos + 4 <= |d1|
    requires s.updateOffset != 0 ==>
      s.updateOffset <= s.updateEnd <= |nd| && s.newOffset <= s.newEnd <= |d1|
      && s.newEnd - s.newOffset == s.updateEnd - s.updateOffset
  {
    if s.updateOffset == 0 then WithOffset(d1, pos, 0)
    else
      var d2 := d1[..s.newOffset] + nd[s.updateOffset..s.updateEnd] + d1[s.newEnd..];
      if s.newOffset != s.offset then WithOffset(d2, pos, s.newOffset) else d2
  }

  /** The buffer after the value of the slot at `pos` in `nd` replaced the
      one in `d`. */
  function Spliced(d: seq<byte>, nd: seq<byte>, pos: nat, payloadOffset: nat): seq<byte>
    requires SpliceOk(d, nd, pos, payloadOffset)
  {
    var s := PlanOf(d, nd, pos, payloadOffset);
    Placed(Resettled(d, pos, payloadOffset, s), nd, pos, s)
  }

  /** One iteration of the loop of `update_data` does not panic. The mask is
      indexed before anything else is looked at, so a field beyond it panics
      even when its slot is null in both documents. */
  predicate StepOk(d: seq<byte>, f: Field, payloadOffset: nat, nd: seq<byte>, mask: seq<bool>)
  {
    f.offsetPos == 0
    || (f.offsetPos + 4 <= |nd| && f.offsetIndex < |mask|
        && (mask[f.offsetIndex] ==>
              f.offsetPos + 4 <= |d|
              && (GetOffset(d, f.offsetPos) != 0 || GetOffset(nd, f.offsetPos) != 0 ==>
                    SpliceOk(d, nd, f.offsetPos, payloadOffset))))
  }

  /** The buffer after one iteration of the loop of `update_data`: virtual
      fields, unchanged fields and fields null on both sides are skipped. */
  function Step(d: seq<byte>, f: Field, payloadOffset: nat, nd: seq<byte>, mask: seq<bool>): seq<byte>
    requires StepOk(d, f, payloadOffset, nd, mask)
  {
    if f.offsetPos == 0 || !mask[f.offsetIndex] then d
    else if GetOffset(d, f.offsetPos) == 0 && GetOffset(nd, f.offsetPos) == 0 then d
    else Spliced(d, nd, f.offsetPos, payloadOffset)
  }

  /** Every iteration of `update_data` over `fields` does not panic. */
  predicate UpdateOk(fields: seq<Field>, payloadOffset: nat, d: seq<byte>, nd: seq<byte>, mask: seq<bool>)
    decreases |fields|
  {
    fields == []
    || (StepOk(d, fields[0], payloadOffset, nd, mask)
        && UpdateOk(fields[1..], payloadOffset, Step(d, fields[0], payloadOffset, nd, mask), nd, mask))
  }

  /** The buffer `update_data` returns. */
  function UpdateSpec(fields: seq<Field>, payloadOffset: nat, d: seq<byte>, nd: seq<byte>, mask: seq<bool>): seq<byte>
    requires UpdateOk(fields, payloadOffset, d, nd, mask)
    decreases |fields|
  {
    if fields == [] then d
    else UpdateSpec(fields[1..], payloadOffset, Step(d, fields[0], payloadOffset, nd, mask), nd, mask)
  }

  /** The shift and `move_offsets` of one step. */
  method MakeRoom(data: array<byte>, pos: nat, payloadOffset: nat, ghost s: Plan, end: nat, newEnd: nat, diff: int)
    returns (r: array<byte>)
    requires end == s.end && newEnd == s.newEnd && diff == s.diff
    requires s.diff != 0 ==> ShiftOk(data.Length, s.end, s.newEnd, s.diff) && ReadsOk(data.Length + s.diff, pos + 4, payloadOffset, 4)
    modifies data
    ensures r == data || fresh(r)
    ensures r[..] == Resettled(old(data[..]), pos, payloadOffset, s)
  {
    r := data;
    if diff != 0 {
      r := ShiftAndResize(r, end, newEnd, diff);
      MoveOffsets(r, pos + 4, payloadOffset, diff);
    }
  }

  /** The copy of the new value and the slot write of one step. */
  method PlaceValue(data: array<byte>, newData: seq<byte>, pos: nat, ghost s: Plan,
                    offset: nat, updateOffset: nat, updateEnd: nat, newOffset: nat, newEnd: nat)
    requires offset == s.offset && updateOffset == s.updateOffset && updateEnd == s.updateEnd
    requires newOffset == s.newOffset && newEnd == s.newEnd
    requires pos + 4 <= data.Length
    requires s.updateOffset != 0 ==>
      s.updateOffset <= s.updateEnd <= |newData| && s.newOffset <= s.newEnd <= data.Length
      && s.newEnd - s.newOffset == s.updateEnd - s.updateOffset
    modifies data
    ensures data[..] == Placed(old(data[..]), newData, pos, s)
  {
    if updateOffset == 0 {
      SetOffsetNull(data, pos);
    } else {
      CopyFromSlice(data, newOffset, newData[updateOffset..updateEnd]);
      if newOffset != offset {
        SetOffset(data, pos, newOffset);
      }
    }
  }

  /** One step on a slot that is not null in both documents. */
  method SpliceField(data: array<byte>, pos: nat, payloadOffset: nat, newData: seq<byte>)
    returns (r: array<byte>)
    requires SpliceOk(data[..], newData, pos, payloadOffset)
    modifies data
    ensures r == data || fresh(r)
    ensures r[..] == Spliced(old(data[..]), newData, pos, payloadOffset)
  {
    ghost var s := PlanOf(data[..], newData, pos, payloadOffset);
    var updateOffset := GetOffset(newData, pos);
    var offset := GetOffset(data[..], pos);
    var end := GetEnd(data[..], pos, payloadOffset);
    var updateEnd := 0;
    if updateOffset != 0 {
      updateEnd := GetEnd(newData, pos, payloadOffset);
    }
    var updateLen := if updateOffset == 0 then 0 else updateEnd - updateOffset;
    var len := if offset == 0 then 0 else end - offset;
    var diff := updateLen as int - len as int;
    var newOffset := if offset == 0 then end else offset;
    var newEnd := newOffset + updateLen;
    assert s == Plan(offset, end, updateOffset, updateEnd, diff, newOffset, newEnd);
    r := MakeRoom(data, pos, payloadOffset, s, end, newEnd, diff);
    PlaceValue(r, newData, pos, s, offset, updateOffset, updateEnd, newOffset, newEnd);
  }

  /** The body of the loop of `update_data`, for one field; the buffer may
      be replaced by a fresh one when it grows or shrinks. */
  method UpdateField(data: array<byte>, field: Field, payloadOffset: nat, newData: seq<byte>, changedMask: seq<bool>)
    returns (r: array<byte>)
    requires StepOk(data[..], field, payloadOffset, newData, changedMask)
    modifies data
    ensures r == data || fresh(r)
    ensures r[..] == Step(old(data[..]), field, payloadOffset, newData, changedMask)
  {
    r := data;
    if field.offsetPos == 0 {
      return;
    }
    var updateOffset := GetOffset(newData, field.offsetPos);
    if !changedMask[field.offsetIndex] {
      return;
    }
    var offset := GetOffset(data[..], field.offsetPos);
    if offset == 0 && updateOffset == 0 {
      return;
    }
    r := SpliceField(data, field.offsetPos, payloadOffset, newData);
  }

  /** `update_data`: copy the stored document, then splice in every changed
      field, in the order of `fields`. */
  method UpdateData(fields: seq<Field>, payloadOffset: nat, data: seq<byte>, newData: seq<byte>, changedMask: seq<bool>)
    returns (r: seq<byte>)
    requires UpdateOk(fields, payloadOffset, data, newData, changedMask)
    ensures r == UpdateSpec(fields, payloadOffset, data, newData, changedMask)
  {
    var buf := new byte[|data|];
    forall i | 0 <= i < |data| {
      buf[i] := data[i];
    }
    assert buf[..] == data;
    var i := 0;
    while i < |fields|
      invariant i <= |fields|
      invariant fresh(buf)
      invariant UpdateOk(fields[i..], payloadOffset, buf[..], newData, changedMask)
      invariant UpdateSpec(fields[i..], payloadOffset, buf[..], newData, changedMask)
             == UpdateSpec(fields, payloadOffset, data, newData, changedMask)
    {
      assert fields[i..][1..] == fields[i + 1..];
      buf := UpdateField(buf, fields[i], payloadOffset, newData, changedMask);
      i := i + 1;
    }
    return buf[..];
  }
}

=== FILE: update_proofs.dfy ===
/** What `update_data` does to a well-formed document: every changed field
    takes the value the new document gives it, every other field keeps its
    value, and the result is again well-formed with the same header. */
module UpdateProofs {
  import opened Bytes
  import opened Wrappers
  import opened Layout
  import opened Offsets
  import opened Update

  // ---------------------------------------------------------------------
  // Replacing one region
  // ---------------------------------------------------------------------

  /** The slots are read from the header bytes only. */
  lemma SlotsOfPrefix(a: seq<byte>, b: seq<byte>, n: nat)
    requires PayloadStart(n) <= |a| && PayloadStart(n) <= |b|
    requires a[..PayloadStart(n)] == b[..PayloadStart(n)]
    ensures SlotsOf(a, n) == SlotsOf(b, n)
  {
    var p := PayloadStart(n);
    forall k | 0 <= k < n
      ensures SlotsOf(a, n)[k] == SlotsOf(b, n)[k]
    {
      assert a[SlotPos(k)..SlotPos(k) + 4] == a[..p][SlotPos(k)..SlotPos(k) + 4];
      assert b[SlotPos(k)..SlotPos(k) + 4] == b[..p][SlotPos(k)..SlotPos(k) + 4];
    }
  }

  /** The payload with region `k` replaced by `x`. */
  lemma {:induction false} ConcatUpdate(rs: seq<Option<seq<byte>>>, k: nat, x: Option<seq<byte>>)
    requires k < |rs|
    ensures Concat(rs[k := x]) == Concat(rs[..k]) + Flat(x) + Concat(rs[k + 1..])
    ensures |Concat(rs[k := x])| + |Flat(rs[k])| == |Concat(rs)| + |Flat(x)|
  {
    var rs' := rs[k := x];
    ConcatSplit(rs', k);
    ConcatSplit(rs, k);
    assert rs'[..k] == rs[..k];
    assert rs'[k + 1..] == rs[k + 1..];
  }

  /** Regions before `k` do not move; those after it move by the change in
      length of region `k`. */
  lemma {:induction false} StartUpdate(rs: seq<Option<seq<byte>>>, k: nat, x: Option<seq<byte>>, p: nat, j: nat)
    requires k < |rs| && j <= |rs|
    ensures Start(rs[k := x], p, j)
         == if j <= k then Start(rs, p, j) else Start(rs, p, j) + |Flat(x)| - |Flat(rs[k])|
  {
    var rs' := rs[k := x];
    if j <= k {
      assert rs'[..j] == rs[..j];
    } else {
      assert rs'[..j] == rs[..j][k := x];
      ConcatUpdate(rs[..j], k, x);
    }
  }

  /** With every slot below 2^32, moving by zero changes nothing. */
  lemma {:induction false} ShiftedNone(o: seq<nat>, k0: nat)
    requires forall j | 0 <= j < |o| :: o[j] < U32_LIMIT
    ensures Shifted(o, k0, 0) == o
  {
    forall j | 0 <= j < |o|
      ensures Shifted(o, k0, 0)[j] == o[j]
    {
      ShiftedAt(o, k0, 0, j);
    }
  }

  lemma {:induction false} MovedSmall(v: nat, diff: int, v': nat)
    requires v != 0 && v' == v + diff && v' < U32_LIMIT
    ensures Moved(v, diff) == v'
  {
  }

  /** One slot of the document with region `k` replaced. */
  lemma {:induction false} OffUpdateAt(rs: seq<Option<seq<byte>>>, k: nat, x: Option<seq<byte>>, j: nat)
    requires k < |rs| && j < |rs| && j != k && Fits(rs[k := x])
    ensures var p := PayloadStart(|rs|);
      Offs(rs[k := x], p)[j]
      == if j < k then Offs(rs, p)[j] else Moved(Offs(rs, p)[j], |Flat(x)| - |Flat(rs[k])|)
  {
    var p := PayloadStart(|rs|);
    var rs' := rs[k := x];
    var diff := |Flat(x)| - |Flat(rs[k])|;
    assert Offs(rs, p)[j] == OffAt(rs, p, j) by { OffsAt(rs, p, j); }
    assert Offs(rs', p)[j] == OffAt(rs', p, j) by { OffsAt(rs', p, j); }
    if j < k {
      assert Start(rs', p, j) == Start(rs, p, j) by { StartUpdate(rs, k, x, p, j); }
    } else if rs[j].Some? {
      var v := Start(rs, p, j);
      var v' := Start(rs', p, j);
      assert v' == v + diff by { StartUpdate(rs, k, x, p, j); }
      assert v' < U32_LIMIT by { ConcatPrefixLe(rs', j); }
      MovedSmall(v, diff, v');
    }
  }

  /** The slots of the document with region `k` replaced: those after `k`
      are the old ones moved by the change in length, the one at `k` points
      at the new region. */
  lemma {:induction false} OffsUpdate(rs: seq<Option<seq<byte>>>, k: nat, x: Option<seq<byte>>, diff: int)
    requires k < |rs| && Fits(rs[k := x]) && diff == |Flat(x)| - |Flat(rs[k])|
    ensures Shifted(Offs(rs, PayloadStart(|rs|)), k + 1, diff)[k := OffAt(rs[k := x], PayloadStart(|rs|), k)]
         == Offs(rs[k := x], PayloadStart(|rs|))
  {
    var p := PayloadStart(|rs|);
    var rs' := rs[k := x];
    var o, o' := Offs(rs, p), Offs(rs', p);
    forall j | 0 <= j < |o| && j != k
      ensures o'[j] == if j < k then o[j] else Moved(o[j], diff)
    {
      OffUpdateAt(rs, k, x, j);
    }
    OffsAt(rs', p, k);
    ShiftedUpdate(o, o', k, diff, OffAt(rs', p, k));
  }

  /** A slot sequence that agrees with `o` before `k`, with `o` moved by
      `diff` after `k`, and holds `v` at `k`. */
  lemma {:induction false} ShiftedUpdate(o: seq<nat>, o': seq<nat>, k: nat, diff: int, v: nat)
    requires k < |o| == |o'| && o'[k] == v
    requires forall j | 0 <= j < |o| && j != k :: o'[j] == if j < k then o[j] else Moved(o[j], diff)
    ensures Shifted(o, k + 1, diff)[k := v] == o'
  {
    forall j | 0 <= j < |o|
      ensures Shifted(o, k + 1, diff)[k := v][j] == o'[j]
    {
      if j != k {
        ShiftedAt(o, k + 1, diff, j);
      }
    }
  }

  lemma {:induction false} Cut3(d: seq<byte>, p: nat, a: seq<byte>, f: seq<byte>, b: seq<byte>)
    requires p <= |d| && d[p..] == a + f + b
    ensures d[p..p + |a|] == a && d[p + |a| + |f|..] == b
  {
    assert d[p..p + |a|] == d[p..][..|a|];
    assert d[p + |a| + |f|..] == d[p..][|a| + |f|..];
  }

  /** Cutting the payload of a document around region `k`. */
  lemma {:induction false} PayloadParts(d: seq<byte>, rs: seq<Option<seq<byte>>>, p: nat, k: nat)
    requires k < |rs| && |d| == p + |Concat(rs)| && d[p..] == Concat(rs)
    ensures Start(rs, p, k) <= Start(rs, p, k + 1) <= |d|
    ensures d[p..Start(rs, p, k)] == Concat(rs[..k])
    ensures d[Start(rs, p, k + 1)..] == Concat(rs[k + 1..])
  {
    var a, f, c := Concat(rs[..k]), Flat(rs[k]), Concat(rs[k + 1..]);
    ConcatSplit(rs, k);
    ConcatStep(rs, k);
    Cut3(d, p, a, f, c);
  }

  /** Equal from `p` on means equal on every slice from `p` on. */
  lemma {:induction false} SuffixSlice(u: seq<byte>, v: seq<byte>, p: nat, i: nat, j: nat)
    requires p <= i <= j <= |u| && p <= |v| && u[p..] == v[p..]
    ensures |u| == |v| && u[i..j] == v[i..j] && u[i..] == v[i..]
  {
    assert |u| - p == |v| - p;
    forall t | i <= t < |u|
      ensures u[t] == v[t]
    {
      assert u[t] == u[p..][t - p];
      assert v[t] == v[p..][t - p];
    }
  }

  /** The buffer after a resize to `m` followed by `t`, read below `m`. */
  lemma {:induction false} ResizedParts(d: seq<byte>, m: nat, t: seq<byte>, i: nat, j: nat)
    requires i <= j <= m && j <= |d|
    ensures (Resized(d, m) + t)[..i] == d[..i]
    ensures (Resized(d, m) + t)[i..j] == d[i..j]
    ensures (Resized(d, m) + t)[m..] == t
  {
  }

  lemma {:induction false} SliceOfThree(a: seq<byte>, b: seq<byte>, c: seq<byte>, p: nat)
    requires p <= |a|
    ensures (a + b + c)[p..] == a[p..] + b + c
    ensures (a + b + c)[..p] == a[..p]
  {
  }

  /** `d` has header bytes `h`, the slots that point at the regions `rs`
      laid out one after the other, and those regions as payload. */
  predicate Built(d: seq<byte>, h: seq<byte>, rs: seq<Option<seq<byte>>>)
  {
    var p := PayloadStart(|rs|);
    |h| == 3 && p <= |d| && |d| == p + |Concat(rs)| && d[..3] == h && d[p..] == Concat(rs)
    && SlotsOf(d, |rs|) == Offs(rs, p)
  }

  /** A buffer whose first three bytes, slots and payload are those of
      `Build(h, rs)` is `Build(h, rs)`. */
  lemma {:induction false} BuildByParts(e: seq<byte>, h: seq<byte>, rs: seq<Option<seq<byte>>>)
    requires Built(e, h, rs)
    ensures e == Build(h, rs)
  {
    HeaderOfSlots(e, |rs|);
    ThreeParts(e, PayloadStart(|rs|));
  }

  lemma {:induction false} BuildParts(h: seq<byte>, rs: seq<Option<seq<byte>>>)
    requires |h| == 3 && Fits(rs)
    ensures Built(Build(h, rs), h, rs) && WellFormed(Build(h, rs), |rs|)
  {
    BuildRegions(h, rs);
    BuildSlots(h, rs);
    var p := PayloadStart(|rs|);
    assert Build(h, rs)[p..] == Concat(rs) by {
      assert |h + Header(Offs(rs, p))| == p;
    }
  }

  /** Slot `k` of a built document points at region `k`, or is 0 for a
      null region. */
  lemma {:induction false} DocOffset(d: seq<byte>, h: seq<byte>, rs: seq<Option<seq<byte>>>, k: nat)
    requires Built(d, h, rs) && k < |rs|
    ensures SlotPos(k) + 4 <= |d|
    ensures GetOffset(d, SlotPos(k)) == OffAt(rs, PayloadStart(|rs|), k)
    ensures GetOffset(d, SlotPos(k)) == 0 <==> rs[k].None?
  {
    SlotsOfAt(d, |rs|, k);
    OffsAt(rs, PayloadStart(|rs|), k);
  }

  /** The `get_end` scan after slot `k` of a built document stops where
      region `k` ends. */
  lemma {:induction false} DocEnd(d: seq<byte>, h: seq<byte>, rs: seq<Option<seq<byte>>>, k: nat)
    requires Built(d, h, rs) && WellFormed(d, |rs|) && k < |rs|
    ensures ReadsOk(|d|, SlotPos(k) + 4, PayloadStart(|rs|), 4)
    ensures EndAt(d, SlotPos(k) + 4, PayloadStart(|rs|)) == Start(rs, PayloadStart(|rs|), k + 1)
  {
    var p := PayloadStart(|rs|);
    GetEndOfRegion(d, |rs|, k);
    EndFromOffs(rs, p, k + 1);
  }

  lemma {:induction false} StartStep(rs: seq<Option<seq<byte>>>, p: nat, k: nat)
    requires k < |rs|
    ensures Start(rs, p, k) + |Flat(rs[k])| == Start(rs, p, k + 1)
  {
    ConcatStep(rs, k);
  }

  /** The plan of one step on slot `k` of a built document, in terms of
      its regions and the new value `x`. */
  lemma {:induction false} PlanOfBuild(d: seq<byte>, h: seq<byte>, rs: seq<Option<seq<byte>>>, nd: seq<byte>, k: nat)
    requires Built(d, h, rs) && WellFormed(d, |rs|) && k < |rs| && WellFormed(nd, |rs|)
    ensures var p := PayloadStart(|rs|); var pos := SlotPos(k);
      var x := Regions(nd, |rs|)[k];
      ScanOk(d, nd, pos, p)
      && var s := PlanOf(d, nd, pos, p);
         s.offset == OffAt(rs, p, k) && s.end == Start(rs, p, k + 1) && s.newOffset == Start(rs, p, k)
         && (s.offset == 0 <==> rs[k].None?)
         && (s.updateOffset == 0 <==> x.None?)
         && (s.updateOffset != 0 ==> s.updateOffset <= s.updateEnd <= |nd| && nd[s.updateOffset..s.updateEnd] == x.value)
         && s.newEnd == Start(rs, p, k) + |Flat(x)|
         && s.diff == |Flat(x)| - |Flat(rs[k])|
  {
    DocOffset(d, h, rs, k);
    DocEnd(d, h, rs, k);
    StartStep(rs, PayloadStart(|rs|), k);
    GetValueWithLenOfRegion(nd, |rs|, k);
  }

  /** The shift and `move_offsets` of a step on a built document: the
      header bytes stay, the slots after `k` move by the change in length,
      the regions before and after `k` keep their bytes. */
  lemma {:induction false} ResettleOfBuild(d: seq<byte>, h: seq<byte>, rs: seq<Option<seq<byte>>>, k: nat, x: Option<seq<byte>>, s: Plan)
    returns (d1: seq<byte>)
    requires Built(d, h, rs) && Fits(rs) && k < |rs| && Fits(rs[k := x])
    requires var p := PayloadStart(|rs|);
      s.end == Start(rs, p, k + 1) && s.newOffset == Start(rs, p, k)
      && s.newEnd == Start(rs, p, k) + |Flat(x)| && s.diff == |Flat(x)| - |Flat(rs[k])|
    ensures s.diff != 0 ==> ShiftOk(|d|, s.end, s.newEnd, s.diff) && ReadsOk(|d| + s.diff, SlotPos(k) + 4, PayloadStart(|rs|), 4)
    ensures d1 == Resettled(d, SlotPos(k), PayloadStart(|rs|), s)
    ensures var p := PayloadStart(|rs|);
      |d1| == p + |Concat(rs[k := x])| && d1[..3] == h && p <= s.newOffset <= s.newEnd <= |d1|
      && SlotsOf(d1, |rs|) == Shifted(Offs(rs, p), k + 1, s.diff)
      && d1[p..s.newOffset] == Concat(rs[..k]) && d1[s.newEnd..] == Concat(rs[k + 1..])
  {
    if s.diff == 0 {
      ResettleSame(d, h, rs, k, x, s);
      d1 := d;
    } else {
      d1 := ResettleMoved(d, h, rs, k, x, s);
    }
  }

  lemma {:induction false} ResettleSame(d: seq<byte>, h: seq<byte>, rs: seq<Option<seq<byte>>>, k: nat, x: Option<seq<byte>>, s: Plan)
    requires Built(d, h, rs) && Fits(rs) && k < |rs| && Fits(rs[k := x]) && s.diff == 0
    requires var p := PayloadStart(|rs|);
      s.end == Start(rs, p, k + 1) && s.newOffset == Start(rs, p, k)
      && s.newEnd == Start(rs, p, k) + |Flat(x)| && s.diff == |Flat(x)| - |Flat(rs[k])|
    ensures var p := PayloadStart(|rs|);
      |d| == p + |Concat(rs[k := x])| && d[..3] == h && p <= s.newOffset <= s.newEnd <= |d|
      && SlotsOf(d, |rs|) == Shifted(Offs(rs, p), k + 1, s.diff)
      && d[p..s.newOffset] == Concat(rs[..k]) && d[s.newEnd..] == Concat(rs[k + 1..])
  {
    var p := PayloadStart(|rs|);
    assert s.newEnd == s.end by { StartStep(rs, p, k); }
    assert d[p..s.newOffset] == Concat(rs[..k]) && d[s.end..] == Concat(rs[k + 1..]) by {
      PayloadParts(d, rs, p, k);
    }
    assert |d| == p + |Concat(rs[k := x])| by { ConcatUpdate(rs, k, x); }
    assert p <= s.newOffset by { ConcatPrefixLe(rs, k); }
    assert SlotsOf(d, |rs|) == Shifted(Offs(rs, p), k + 1, 0) by {
      FitsOffs(rs);
      ShiftedNone(Offs(rs, p), k + 1);
    }
  }

  /** Shift and `move_offsets` on any buffer with `n` slots whose bytes
      `pre` come before region `k` and `suf` after it. */
  lemma {:induction false} ResettleBytes(d: seq<byte>, n: nat, k: nat, pre: seq<byte>, suf: seq<byte>, s: Plan)
    returns (d1: seq<byte>)
    requires k < n && s.diff != 0
    requires PayloadStart(n) <= s.newOffset <= s.end <= |d| && s.newEnd == s.end + s.diff && s.newOffset <= s.newEnd
    requires d[PayloadStart(n)..s.newOffset] == pre && d[s.end..] == suf
    ensures ShiftOk(|d|, s.end, s.newEnd, s.diff) && ReadsOk(|d| + s.diff, SlotPos(k) + 4, PayloadStart(n), 4)
    ensures d1 == Resettled(d, SlotPos(k), PayloadStart(n), s)
    ensures var p := PayloadStart(n);
      |d1| == |d| + s.diff && d1[..3] == d[..3] && s.newEnd <= |d1|
      && d1[p..s.newOffset] == pre && d1[s.newEnd..] == suf
  {
    var p := PayloadStart(n);
    var a := ShiftBytes(d, p, pre, suf, s);
    d1 := MoveAfter(a, n, k, s.diff);
    assert d1[..3] == d[..3] by {
      assert a[..3] == a[..p][..3];
      assert d[..3] == d[..p][..3];
    }
    assert d1[p..s.newOffset] == pre by { SuffixSlice(d1, a, p, p, s.newOffset); }
    assert d1[s.newEnd..] == suf by { SuffixSlice(d1, a, p, s.newEnd, |d1|); }
  }

  /** The slots after the shift and `move_offsets`: those after `k` moved. */
  lemma {:induction false} ResettleSlots(d: seq<byte>, n: nat, k: nat, s: Plan)
    requires k < n && s.diff != 0
    requires PayloadStart(n) <= s.newOffset <= s.end <= |d| && s.newEnd == s.end + s.diff && s.newOffset <= s.newEnd
    requires ShiftOk(|d|, s.end, s.newEnd, s.diff) && ReadsOk(|d| + s.diff, SlotPos(k) + 4, PayloadStart(n), 4)
    ensures SlotsOf(Resettled(d, SlotPos(k), PayloadStart(n), s), n) == Shifted(SlotsOf(d, n), k + 1, s.diff)
  {
    var p := PayloadStart(n);
    var a := AfterShift(d, s.end, s.newEnd, s.diff);
    var d1 := ResettledIs(d, p, k, s, a);
    assert a[..p] == d[..p] by {
      var a' := ShiftBytes(d, p, d[p..s.newOffset], d[s.end..], s);
    }
    MovedSlotsFrom(a, d, n, k + 1, SlotPos(k) + 4, s.diff);
  }

  /** `Resettled` is `move_offsets` after the shift. */
  lemma {:induction false} ResettledIs(d: seq<byte>, p: nat, k: nat, s: Plan, a: seq<byte>) returns (d1: seq<byte>)
    requires s.diff != 0 && ShiftOk(|d|, s.end, s.newEnd, s.diff) && ReadsOk(|d| + s.diff, SlotPos(k) + 4, p, 4)
    requires a == AfterShift(d, s.end, s.newEnd, s.diff)
    ensures ReadsOk(|a|, SlotPos(k) + 4, p, 4)
    ensures d1 == MoveFrom(a, SlotPos(k) + 4, p, s.diff) && d1 == Resettled(d, SlotPos(k), p, s)
  {
    d1 := MoveFrom(a, SlotPos(k) + 4, p, s.diff);
  }

  /** `shift_and_resize` keeps the header bytes and the bytes before the
      changed region, and moves the bytes after it to `newEnd`. */
  lemma {:induction false} ShiftBytes(d: seq<byte>, p: nat, pre: seq<byte>, suf: seq<byte>, s: Plan) returns (a: seq<byte>)
    requires p <= s.newOffset <= s.end <= |d| && s.newEnd == s.end + s.diff && s.newOffset <= s.newEnd
    requires d[p..s.newOffset] == pre && d[s.end..] == suf
    ensures ShiftOk(|d|, s.end, s.newEnd, s.diff)
    ensures a == AfterShift(d, s.end, s.newEnd, s.diff)
    ensures |a| == |d| + s.diff && s.newEnd <= |a| && a[..p] == d[..p] && a[p..s.newOffset] == pre && a[s.newEnd..] == suf
  {
    ShiftIsSplice(d, s.end, s.newEnd, s.diff);
    a := AfterShift(d, s.end, s.newEnd, s.diff);
    ResizedParts(d, s.newEnd, d[s.end..], p, s.newOffset);
  }

  /** `move_offsets` after slot `k` keeps the version, the field count and
      the payload. */
  lemma {:induction false} MoveAfter(a: seq<byte>, n: nat, k: nat, diff: int) returns (d1: seq<byte>)
    requires k < n && PayloadStart(n) <= |a|
    ensures ReadsOk(|a|, SlotPos(k) + 4, PayloadStart(n), 4)
    ensures d1 == MoveFrom(a, SlotPos(k) + 4, PayloadStart(n), diff)
    ensures d1[..3] == a[..3] && d1[PayloadStart(n)..] == a[PayloadStart(n)..]
  {
    MovedFrameFrom(a, n, k + 1, SlotPos(k) + 4, diff);
    d1 := MoveFrom(a, SlotPos(k) + 4, PayloadStart(n), diff);
  }

  /** `MovedFrame` with the start of the run named `j`. */
  lemma {:induction false} MovedFrameFrom(d: seq<byte>, n: nat, k0: nat, j: nat, diff: int)
    requires k0 <= n && PayloadStart(n) <= |d| && j == SlotPos(k0)
    ensures ReadsOk(|d|, j, PayloadStart(n), 4)
    ensures var r := MoveFrom(d, j, PayloadStart(n), diff);
      r[..3] == d[..3] && r[PayloadStart(n)..] == d[PayloadStart(n)..]
  {
    MovedFrame(d, n, k0, diff);
  }

  /** `MovedSlots` with the start of the run named `j`, on a buffer whose
      header is that of `b`. */
  lemma {:induction false} MovedSlotsFrom(a: seq<byte>, b: seq<byte>, n: nat, k0: nat, j: nat, diff: int)
    requires k0 <= n && PayloadStart(n) <= |a| && PayloadStart(n) <= |b| && j == SlotPos(k0)
    requires a[..PayloadStart(n)] == b[..PayloadStart(n)]
    ensures ReadsOk(|a|, j, PayloadStart(n), 4)
    ensures SlotsOf(MoveFrom(a, j, PayloadStart(n), diff), n) == Shifted(SlotsOf(b, n), k0, diff)
  {
    MovedSlots(a, n, k0, diff);
    SlotsOfPrefix(a, b, n);
  }

  lemma {:induction false} ResettleMoved(d: seq<byte>, h: seq<byte>, rs: seq<Option<seq<byte>>>, k: nat, x: Option<seq<byte>>, s: Plan)
    returns (d1: seq<byte>)
    requires Built(d, h, rs) && k < |rs| && Fits(rs[k := x]) && s.diff != 0
    requires var p := PayloadStart(|rs|);
      s.end == Start(rs, p, k + 1) && s.newOffset == Start(rs, p, k)
      && s.newEnd == Start(rs, p, k) + |Flat(x)| && s.diff == |Flat(x)| - |Flat(rs[k])|
    ensures ShiftOk(|d|, s.end, s.newEnd, s.diff) && ReadsOk(|d| + s.diff, SlotPos(k) + 4, PayloadStart(|rs|), 4)
    ensures d1 == Resettled(d, SlotPos(k), PayloadStart(|rs|), s)
    ensures var p := PayloadStart(|rs|);
      |d1| == p + |Concat(rs[k := x])| && d1[..3] == h && p <= s.newOffset <= s.newEnd <= |d1|
      && SlotsOf(d1, |rs|) == Shifted(Offs(rs, p), k + 1, s.diff)
      && d1[p..s.newOffset] == Concat(rs[..k]) && d1[s.newEnd..] == Concat(rs[k + 1..])
  {
    var p := PayloadStart(|rs|);
    PayloadParts(d, rs, p, k);
    ConcatUpdate(rs, k, x);
    d1 := ResettleBytes(d, |rs|, k, Concat(rs[..k]), Concat(rs[k + 1..]), s);
    ResettleSlots(d, |rs|, k, s);
  }

  /** The state after the shift and `move_offsets` of a step on slot `k`
      of a document built from `rs`, about to receive the new value `x`. */
  predicate Resettled_(d1: seq<byte>, h: seq<byte>, rs: seq<Option<seq<byte>>>, k: nat, x: Option<seq<byte>>, s: Plan)
    requires k < |rs|
  {
    var p := PayloadStart(|rs|);
    |h| == 3 && |d1| == p + |Concat(rs[k := x])| && d1[..3] == h && p <= s.newOffset <= s.newEnd <= |d1|
    && SlotsOf(d1, |rs|) == Shifted(Offs(rs, p), k + 1, s.diff)
    && d1[p..s.newOffset] == Concat(rs[..k]) && d1[s.newEnd..] == Concat(rs[k + 1..])
    && s.offset == OffAt(rs, p, k) && s.newOffset == Start(rs, p, k)
    && s.newEnd == s.newOffset + |Flat(x)| && s.diff == |Flat(x)| - |Flat(rs[k])|
  }

  /** Facts about the document with region `k` replaced by `x`, whose
      length differs from the old region's by `diff`. */
  lemma {:induction false} Replaced(rs: seq<Option<seq<byte>>>, k: nat, x: Option<seq<byte>>, diff: int)
    requires k < |rs| && Fits(rs[k := x]) && diff == |Flat(x)| - |Flat(rs[k])|
    ensures Shifted(Offs(rs, PayloadStart(|rs|)), k + 1, diff)[k := OffAt(rs[k := x], PayloadStart(|rs|), k)]
         == Offs(rs[k := x], PayloadStart(|rs|))
    ensures Concat(rs[k := x]) == Concat(rs[..k]) + Flat(x) + Concat(rs[k + 1..])
    ensures OffAt(rs[k := x], PayloadStart(|rs|), k) == (if x.None? then 0 else Start(rs, PayloadStart(|rs|), k))
    ensures OffAt(rs[k := x], PayloadStart(|rs|), k) < U32_LIMIT
  {
    var p := PayloadStart(|rs|);
    var rs' := rs[k := x];
    OffsUpdate(rs, k, x, diff);
    ConcatUpdate(rs, k, x);
    assert OffAt(rs', p, k) == (if x.None? then 0 else Start(rs, p, k)) by {
      StartUpdate(rs, k, x, p, k);
    }
    assert OffAt(rs', p, k) < U32_LIMIT by {
      OffsBound(rs', p, k);
      OffsAt(rs', p, k);
    }
  }

  lemma {:induction false} AppendEmpty(a: seq<byte>, b: seq<byte>)
    ensures a + [] + b == a + b
  {
  }

  /** Writing slot `k` of a buffer with `n` slots `sl`. */
  lemma {:induction false} PointBytes(d: seq<byte>, n: nat, k: nat, sl: seq<nat>, v: nat) returns (e: seq<byte>)
    requires k < n && PayloadStart(n) <= |d| && SlotsOf(d, n) == sl && v < U32_LIMIT
    ensures e == WithOffset(d, SlotPos(k), v)
    ensures |e| == |d| && SlotsOf(e, n) == sl[k := v] && e[..3] == d[..3] && e[PayloadStart(n)..] == d[PayloadStart(n)..]
  {
    e := WithOffset(d, SlotPos(k), v);
    WithOffsetSlots(d, n, k, v);
    WithOffsetFrame(d, n, k, v);
  }

  /** Copying `v` into `newOffset .. newEnd` of a buffer with `n` slots
      `sl`, whose payload is `a` before `newOffset` and `b` from `newEnd`. */
  lemma {:induction false} CopyBytes(d: seq<byte>, n: nat, sl: seq<nat>, v: seq<byte>, newOffset: nat, newEnd: nat,
                                     a: seq<byte>, b: seq<byte>) returns (e: seq<byte>)
    requires PayloadStart(n) <= newOffset <= newEnd <= |d| && newEnd - newOffset == |v| && SlotsOf(d, n) == sl
    requires d[PayloadStart(n)..newOffset] == a && d[newEnd..] == b
    ensures e == d[..newOffset] + v + d[newEnd..]
    ensures |e| == |d| && SlotsOf(e, n) == sl && e[..3] == d[..3] && e[PayloadStart(n)..] == a + v + b
  {
    var p := PayloadStart(n);
    e := d[..newOffset] + v + d[newEnd..];
    SliceOfThree(d[..newOffset], v, d[newEnd..], p);
    SlotsOfPrefix(e, d, n);
    assert e[..3] == e[..p][..3];
    assert d[..3] == d[..p][..3];
  }

  /** Nulling slot `k` when the new value is null. */
  lemma {:induction false} PlacedNone(d1: seq<byte>, nd: seq<byte>, h: seq<byte>, rs: seq<Option<seq<byte>>>, k: nat, s: Plan)
    requires k < |rs| && Fits(rs[k := None]) && Resettled_(d1, h, rs, k, None, s) && s.updateOffset == 0
    ensures SlotPos(k) + 4 <= |d1|
    ensures Placed(d1, nd, SlotPos(k), s) == Build(h, rs[k := None])
  {
    var n := |rs|;
    var p := PayloadStart(n);
    var rs' := rs[k := None];
    var sl := Shifted(Offs(rs, p), k + 1, s.diff);
    var e := NullBytes(d1, n, k, sl, Concat(rs[..k]), Concat(rs[k + 1..]), s.newOffset);
    RegionNull(rs, k, s.diff);
    BuildByParts(e, h, rs');
  }

  /** Nulling slot `k` of a buffer whose payload is `a` up to `i` and `b`
      from there. */
  lemma {:induction false} NullBytes(d: seq<byte>, n: nat, k: nat, sl: seq<nat>, a: seq<byte>, b: seq<byte>, i: nat)
    returns (e: seq<byte>)
    requires k < n && PayloadStart(n) <= i <= |d| && SlotsOf(d, n) == sl
    requires d[PayloadStart(n)..i] == a && d[i..] == b
    ensures e == WithOffset(d, SlotPos(k), 0)
    ensures |e| == |d| && SlotsOf(e, n) == sl[k := 0] && e[..3] == d[..3] && e[PayloadStart(n)..] == a + b
  {
    e := PointBytes(d, n, k, sl, 0);
    SliceSplit(d, PayloadStart(n), i);
  }

  /** Region `k` replaced by null. */
  lemma {:induction false} RegionNull(rs: seq<Option<seq<byte>>>, k: nat, diff: int)
    requires k < |rs| && Fits(rs[k := None]) && diff == - |Flat(rs[k])|
    ensures var p := PayloadStart(|rs|);
      Shifted(Offs(rs, p), k + 1, diff)[k := 0] == Offs(rs[k := None], p)
      && Concat(rs[k := None]) == Concat(rs[..k]) + Concat(rs[k + 1..])
  {
    Replaced(rs, k, None, diff);
    AppendEmpty(Concat(rs[..k]), Concat(rs[k + 1..]));
  }

  /** Region `k` replaced by the value `x`. */
  lemma {:induction false} RegionSome(rs: seq<Option<seq<byte>>>, k: nat, x: Option<seq<byte>>, diff: int)
    requires k < |rs| && x.Some? && Fits(rs[k := x]) && diff == |Flat(x)| - |Flat(rs[k])|
    ensures var p := PayloadStart(|rs|); var sl := Shifted(Offs(rs, p), k + 1, diff);
      sl[k := Start(rs, p, k)] == Offs(rs[k := x], p)
      && Concat(rs[k := x]) == Concat(rs[..k]) + x.value + Concat(rs[k + 1..])
      && Start(rs, p, k) < U32_LIMIT
      && (OffAt(rs, p, k) == Start(rs, p, k) ==> sl == Offs(rs[k := x], p))
  {
    var p := PayloadStart(|rs|);
    Replaced(rs, k, x, diff);
    OffsAt(rs, p, k);
    ShiftedAt(Offs(rs, p), k + 1, diff, k);
  }

  /** Copying the new value into its room and pointing slot `k` at it. */
  lemma {:induction false} PlacedSome(d1: seq<byte>, nd: seq<byte>, h: seq<byte>, rs: seq<Option<seq<byte>>>, k: nat, x: Option<seq<byte>>, s: Plan)
    requires k < |rs| && x.Some? && Fits(rs[k := x]) && Resettled_(d1, h, rs, k, x, s)
    requires s.updateOffset != 0 && s.updateOffset <= s.updateEnd <= |nd| && nd[s.updateOffset..s.updateEnd] == x.value
    ensures SlotPos(k) + 4 <= |d1|
    ensures Placed(d1, nd, SlotPos(k), s) == Build(h, rs[k := x])
  {
    var n := |rs|;
    var p := PayloadStart(n);
    var rs' := rs[k := x];
    var sl := Shifted(Offs(rs, p), k + 1, s.diff);
    var d2 := CopyBytes(d1, n, sl, x.value, s.newOffset, s.newEnd, Concat(rs[..k]), Concat(rs[k + 1..]));
    RegionSome(rs, k, x, s.diff);
    if s.newOffset != s.offset {
      var e := PointBytes(d2, n, k, sl, s.newOffset);
      BuildByParts(e, h, rs');
    } else {
      BuildByParts(d2, h, rs');
    }
  }

  // ---------------------------------------------------------------------
  // One step on a built document
  // ---------------------------------------------------------------------

  /** A step on slot `k` of a built document does not panic. */
  lemma {:induction false} SpliceOkOfBuild(d: seq<byte>, h: seq<byte>, rs: seq<Option<seq<byte>>>, nd: seq<byte>, k: nat)
    requires Built(d, h, rs) && WellFormed(d, |rs|) && Fits(rs) && k < |rs| && WellFormed(nd, |rs|)
    requires Fits(rs[k := Regions(nd, |rs|)[k]])
    ensures SpliceOk(d, nd, SlotPos(k), PayloadStart(|rs|))
  {
    PlanBounds(d, h, rs, nd, k);
    SpliceOkOfPlan(d, nd, |rs|, k, PlanOf(d, nd, SlotPos(k), PayloadStart(|rs|)));
  }

  /** The plan of a step on slot `k` of a built document stays inside both buffers. */
  lemma PlanBounds(d: seq<byte>, h: seq<byte>, rs: seq<Option<seq<byte>>>, nd: seq<byte>, k: nat)
    requires Built(d, h, rs) && WellFormed(d, |rs|) && k < |rs| && WellFormed(nd, |rs|)
    ensures ScanOk(d, nd, SlotPos(k), PayloadStart(|rs|))
    ensures var s := PlanOf(d, nd, SlotPos(k), PayloadStart(|rs|));
      PayloadStart(|rs|) <= s.newOffset && s.end <= |d| && (s.updateOffset != 0 ==> s.updateEnd <= |nd|)
  {
    PlanOfBuild(d, h, rs, nd, k);
    ConcatPrefixLe(rs, k + 1);
  }

  /** A step whose old value ends inside the buffer, and whose new value
      starts after the slots, does not panic. */
  lemma {:induction false} SpliceOkOfPlan(d: seq<byte>, nd: seq<byte>, n: nat, k: nat, s: Plan)
    requires k < n && ScanOk(d, nd, SlotPos(k), PayloadStart(n)) && s == PlanOf(d, nd, SlotPos(k), PayloadStart(n))
    requires PayloadStart(n) <= s.newOffset && s.end <= |d|
    requires s.updateOffset != 0 ==> s.updateEnd <= |nd|
    ensures SpliceOk(d, nd, SlotPos(k), PayloadStart(n))
  {
    var p := PayloadStart(n);
    var pos := SlotPos(k);
    var len := |d| + s.diff;
    assert p <= len;
    assert ReadsOk(len, pos + 4, p, 4) by {
      ReadsOkSlots(len, k + 1, n);
      assert SlotPos(k + 1) == pos + 4;
    }
    SpliceOkIntro(d, nd, pos, p, s);
  }

  lemma {:induction false} SpliceOkIntro(d: seq<byte>, nd: seq<byte>, pos: nat, p: nat, s: Plan)
    requires ScanOk(d, nd, pos, p) && s == PlanOf(d, nd, pos, p)
    requires s.diff != 0 ==> ShiftOk(|d|, s.end, s.newEnd, s.diff) && ReadsOk(|d| + s.diff, pos + 4, p, 4)
    requires pos + 4 <= |d| + s.diff
    requires s.updateOffset != 0 ==> s.updateEnd <= |nd| && s.newEnd <= |d| + s.diff
    ensures SpliceOk(d, nd, pos, p)
  {
  }

  /** The buffer after the shift of a splice that does not panic. */
  function ResettledBy(d: seq<byte>, nd: seq<byte>, pos: nat, payloadOffset: nat): seq<byte>
    requires SpliceOk(d, nd, pos, payloadOffset)
  {
    Resettled(d, pos, payloadOffset, PlanOf(d, nd, pos, payloadOffset))
  }

  /** The plan and the buffer after the shift of a step on slot `k` of a
      built document. */
  lemma {:induction false} ResettleStep(d: seq<byte>, h: seq<byte>, rs: seq<Option<seq<byte>>>, nd: seq<byte>, k: nat)
    returns (s: Plan, d1: seq<byte>)
    requires Built(d, h, rs) && WellFormed(d, |rs|) && Fits(rs) && k < |rs| && WellFormed(nd, |rs|)
    requires Fits(rs[k := Regions(nd, |rs|)[k]])
    requires SpliceOk(d, nd, SlotPos(k), PayloadStart(|rs|))
    ensures s == PlanOf(d, nd, SlotPos(k), PayloadStart(|rs|))
    ensures d1 == ResettledBy(d, nd, SlotPos(k), PayloadStart(|rs|))
    ensures Resettled_(d1, h, rs, k, Regions(nd, |rs|)[k], s)
    ensures var x := Regions(nd, |rs|)[k];
      (s.updateOffset == 0 <==> x.None?)
      && (s.updateOffset != 0 ==> s.updateOffset <= s.updateEnd <= |nd| && nd[s.updateOffset..s.updateEnd] == x.value)
  {
    var n := |rs|;
    var p := PayloadStart(n);
    var pos := SlotPos(k);
    var x := Regions(nd, n)[k];
    PlanOfBuild(d, h, rs, nd, k);
    s := PlanOf(d, nd, pos, p);
    d1 := ResettleOfBuild(d, h, rs, k, x, s);
  }

  /** Splicing the value of slot `k` of a well-formed `nd` into a document
      built from `rs` does not panic, and gives the document built from `rs`
      with region `k` replaced by the one of `nd`. */
  lemma {:induction false} SplicedIsBuild(d: seq<byte>, h: seq<byte>, rs: seq<Option<seq<byte>>>, nd: seq<byte>, k: nat)
    requires Built(d, h, rs) && WellFormed(d, |rs|) && Fits(rs) && k < |rs| && WellFormed(nd, |rs|)
    requires Fits(rs[k := Regions(nd, |rs|)[k]])
    ensures SpliceOk(d, nd, SlotPos(k), PayloadStart(|rs|))
    ensures Spliced(d, nd, SlotPos(k), PayloadStart(|rs|)) == Build(h, rs[k := Regions(nd, |rs|)[k]])
  {
    var x := Regions(nd, |rs|)[k];
    SpliceOkOfBuild(d, h, rs, nd, k);
    var s, d1 := ResettleStep(d, h, rs, nd, k);
    if x.None? {
      PlacedNone(d1, nd, h, rs, k, s);
    } else {
      PlacedSome(d1, nd, h, rs, k, x, s);
    }
  }
}

=== FILE: update_theorem.dfy ===
/** What `update_data` computes, stated on regions: splicing the changed
    fields of a freshly encoded document `nd` into a stored well-formed
    document replaces exactly the regions of those fields by the ones of
    `nd`, keeps every other region and the header bytes, and gives a
    well-formed document again. */
module UpdateTheorem {
  import opened Bytes
  import opened Wrappers
  import opened Layout
  import opened Offsets
  import opened Schema
  import opened Update
  import opened UpdateProofs

  // ---------------------------------------------------------------------
  // The regions after the loop
  // ---------------------------------------------------------------------

  /** The loop of `update_data` splices field `f`: it has a slot and the
      mask marks the slot changed. */
  predicate Changes(f: Field, mask: seq<bool>)
  {
    f.offsetPos != 0 && f.offsetIndex < |mask| && mask[f.offsetIndex]
  }

  /** A field the loop can be run on for documents with `n` slots: derived
      fields have no slot, every other field reads slot `offsetIndex`, at
      `offsetPos`, and the mask has an entry for it. */
  predicate FieldOk(f: Field, n: nat, mask: seq<bool>)
  {
    f.offsetPos == 0 || (f.offsetPos == SlotPos(f.offsetIndex) && f.offsetIndex < n && f.offsetIndex < |mask|)
  }

  predicate FieldsOk(fields: seq<Field>, n: nat, mask: seq<bool>)
  {
    forall i | 0 <= i < |fields| :: FieldOk(fields[i], n, mask)
  }

  /** The regions after the loop body ran on `f`. */
  function StepRegions(rs: seq<Option<seq<byte>>>, r2: seq<Option<seq<byte>>>, f: Field, mask: seq<bool>)
    : (r: seq<Option<seq<byte>>>)
    requires |r2| == |rs|
    ensures |r| == |rs|
    ensures forall k | 0 <= k < |rs| :: r[k] == if Changes(f, mask) && k == f.offsetIndex then r2[k] else rs[k]
  {
    if Changes(f, mask) && f.offsetIndex < |rs| then rs[f.offsetIndex := r2[f.offsetIndex]] else rs
  }

  /** The regions after the loop ran over `fields`. */
  function Merged(rs: seq<Option<seq<byte>>>, r2: seq<Option<seq<byte>>>, fields: seq<Field>, mask: seq<bool>)
    : (r: seq<Option<seq<byte>>>)
    requires |r2| == |rs|
    ensures |r| == |rs|
    decreases |fields|
  {
    if fields == [] then rs else Merged(StepRegions(rs, r2, fields[0], mask), r2, fields[1..], mask)
  }

  /** The slots some field of `fields` changes. */
  function ChangedSlots(fields: seq<Field>, mask: seq<bool>): (r: set<nat>)
    ensures forall k :: k in r <==> exists i | 0 <= i < |fields| :: Changes(fields[i], mask) && fields[i].offsetIndex == k
    decreases |fields|
  {
    if fields == [] then {}
    else
      var rest := ChangedSlots(fields[1..], mask);
      assert forall i | 1 <= i < |fields| :: fields[i] == fields[1..][i - 1];
      (if Changes(fields[0], mask) then {fields[0].offsetIndex} else {}) + rest
  }

  /** Region `k` after the loop is the one of the new document when some
      field changes slot `k`, and the old one otherwise; the order of the
      fields does not matter. */
  lemma {:induction false} MergedAt(rs: seq<Option<seq<byte>>>, r2: seq<Option<seq<byte>>>, fields: seq<Field>, mask: seq<bool>, k: nat)
    requires |r2| == |rs| && k < |rs|
    ensures Merged(rs, r2, fields, mask)[k] == if k in ChangedSlots(fields, mask) then r2[k] else rs[k]
    decreases |fields|
  {
    if fields != [] {
      var rs' := StepRegions(rs, r2, fields[0], mask);
      MergedAt(rs', r2, fields[1..], mask, k);
    }
  }

  // ---------------------------------------------------------------------
  // Sizes: every intermediate document fits
  // ---------------------------------------------------------------------

  /** Each region of `rs` is the old region or the new one. */
  predicate Mix(rs: seq<Option<seq<byte>>>, r1: seq<Option<seq<byte>>>, r2: seq<Option<seq<byte>>>)
  {
    |rs| == |r1| == |r2| && forall k | 0 <= k < |rs| :: rs[k] == r1[k] || rs[k] == r2[k]
  }

  function Max(a: nat, b: nat): nat
  {
    if a < b then b else a
  }

  /** The largest payload a mix of `r1` and `r2` can have. */
  function MaxPayload(r1: seq<Option<seq<byte>>>, r2: seq<Option<seq<byte>>>): nat
    requires |r1| == |r2|
  {
    if r1 == [] then 0
    else
      var n := |r1| - 1;
      MaxPayload(r1[..n], r2[..n]) + Max(|Flat(r1[n])|, |Flat(r2[n])|)
  }

  lemma {:induction false} MixPayload(rs: seq<Option<seq<byte>>>, r1: seq<Option<seq<byte>>>, r2: seq<Option<seq<byte>>>)
    requires Mix(rs, r1, r2)
    ensures |Concat(rs)| <= MaxPayload(r1, r2)
    decreases |rs|
  {
    if rs != [] {
      var n := |rs| - 1;
      assert Mix(rs[..n], r1[..n], r2[..n]) by {
        forall k | 0 <= k < n ensures rs[..n][k] == r1[..n][k] || rs[..n][k] == r2[..n][k] {
          assert rs[k] == r1[k] || rs[k] == r2[k];
        }
      }
      MixPayload(rs[..n], r1[..n], r2[..n]);
    }
  }

  /** A mix of two documents' regions whose largest mix fits fits too. */
  lemma {:induction false} MixFits(rs: seq<Option<seq<byte>>>, r1: seq<Option<seq<byte>>>, r2: seq<Option<seq<byte>>>)
    requires Mix(rs, r1, r2) && PayloadStart(|r1|) + MaxPayload(r1, r2) < U32_LIMIT
    ensures Fits(rs)
  {
    MixPayload(rs, r1, r2);
  }

  lemma {:induction false} StepMix(rs: seq<Option<seq<byte>>>, r1: seq<Option<seq<byte>>>, r2: seq<Option<seq<byte>>>, f: Field, mask: seq<bool>)
    requires Mix(rs, r1, r2)
    ensures Mix(StepRegions(rs, r2, f, mask), r1, r2)
  {
  }

  // ---------------------------------------------------------------------
  // One step, then the whole loop
  // ---------------------------------------------------------------------

  /** One run of the loop body on a document built from `rs` does not
      panic and gives the document built from the regions after the step. */
  lemma {:induction false} StepOfBuild(h: seq<byte>, rs: seq<Option<seq<byte>>>, nd: seq<byte>, f: Field, mask: seq<bool>)
    requires |h| == 3 && Fits(rs) && WellFormed(nd, |rs|) && FieldOk(f, |rs|, mask)
    requires Fits(StepRegions(rs, Regions(nd, |rs|), f, mask))
    ensures StepOk(Build(h, rs), f, PayloadStart(|rs|), nd, mask)
    ensures Step(Build(h, rs), f, PayloadStart(|rs|), nd, mask) == Build(h, StepRegions(rs, Regions(nd, |rs|), f, mask))
  {
    var d := Build(h, rs);
    var n := |rs|;
    var p := PayloadStart(n);
    var r2 := Regions(nd, n);
    if f.offsetPos != 0 {
      var k := f.offsetIndex;
      assert f.offsetPos + 4 <= p;
      if mask[k] {
        assert Built(d, h, rs) && WellFormed(d, n) by { BuildParts(h, rs); }
        if GetOffset(d, f.offsetPos) == 0 && GetOffset(nd, f.offsetPos) == 0 {
          assert rs[k].None? by { DocOffset(d, h, rs, k); }
          assert r2[k].None? by { RegionAt(nd, n, k); }
          assert rs[k := r2[k]] == rs;
        } else {
          SplicedIsBuild(d, h, rs, nd, k);
        }
      }
    }
  }

  /** The loop of `update_data` over `fields` on a document built from a
      mix `rs` of the old regions `r1` and the new regions does not panic
      and gives the document built from the merged regions. */
  lemma {:induction false} UpdateOfBuild(fields: seq<Field>, h: seq<byte>, rs: seq<Option<seq<byte>>>, r1: seq<Option<seq<byte>>>,
                                         nd: seq<byte>, mask: seq<bool>)
    requires |h| == 3 && WellFormed(nd, |rs|) && FieldsOk(fields, |rs|, mask)
    requires Mix(rs, r1, Regions(nd, |rs|)) && PayloadStart(|rs|) + MaxPayload(r1, Regions(nd, |rs|)) < U32_LIMIT
    ensures UpdateOk(fields, PayloadStart(|rs|), Build(h, rs), nd, mask)
    ensures UpdateSpec(fields, PayloadStart(|rs|), Build(h, rs), nd, mask) == Build(h, Merged(rs, Regions(nd, |rs|), fields, mask))
    decreases |fields|
  {
    if fields != [] {
      var r2 := Regions(nd, |rs|);
      var rs' := StepRegions(rs, r2, fields[0], mask);
      assert FieldOk(fields[0], |rs|, mask);
      assert FieldsOk(fields[1..], |rs|, mask) by {
        forall i | 0 <= i < |fields| - 1 ensures FieldOk(fields[1..][i], |rs|, mask) {
          assert fields[1..][i] == fields[i + 1];
        }
      }
      assert Mix(rs', r1, r2) by { StepMix(rs, r1, r2, fields[0], mask); }
      assert Fits(rs) by { MixFits(rs, r1, r2); }
      assert Fits(rs') by { MixFits(rs', r1, r2); }
      StepOfBuild(h, rs, nd, fields[0], mask);
      UpdateOfBuild(fields[1..], h, rs', r1, nd, mask);
    }
  }

  /** `update_data` on a well-formed document whose slots and payload fit
      u32 offsets, whatever mix of old and new regions it passes through:
      it does not panic, keeps the header bytes, gives a well-formed
      document, and its region `k` is the new document's when a field
      changes slot `k`, else the old one. */
  lemma {:induction false} UpdateDataRegions(fields: seq<Field>, d: seq<byte>, nd: seq<byte>, mask: seq<bool>, n: nat)
    requires WellFormed(d, n) && WellFormed(nd, n) && FieldsOk(fields, n, mask)
    requires PayloadStart(n) + MaxPayload(Regions(d, n), Regions(nd, n)) < U32_LIMIT
    ensures UpdateOk(fields, PayloadStart(n), d, nd, mask)
    ensures var r := UpdateSpec(fields, PayloadStart(n), d, nd, mask);
      WellFormed(r, n) && r[..3] == d[..3]
      && forall k | 0 <= k < n ::
           Regions(r, n)[k] == if k in ChangedSlots(fields, mask) then Regions(nd, n)[k] else Regions(d, n)[k]
  {
    var r1 := Regions(d, n);
    var r2 := Regions(nd, n);
    var h := d[..3];
    assert d == Build(h, r1) by { WellFormedIsBuild(d, n); }
    UpdateOfBuild(fields, h, r1, r1, nd, mask);
    var m := Merged(r1, r2, fields, mask);
    assert Mix(m, r1, r2) by {
      forall k | 0 <= k < n ensures m[k] == r1[k] || m[k] == r2[k] {
        MergedAt(r1, r2, fields, mask, k);
      }
    }
    MixFits(m, r1, r2);
    BuildRegions(h, m);
    forall k | 0 <= k < n
      ensures Regions(Build(h, m), n)[k] == if k in ChangedSlots(fields, mask) then r2[k] else r1[k]
    {
      MergedAt(r1, r2, fields, mask, k);
    }
  }

  // ---------------------------------------------------------------------
  // The fields of a parsed model
  // ---------------------------------------------------------------------

  lemma {:induction false} NonVirtualCountBefore(fields: seq<Field>, i: nat)
    requires i < |fields|
    ensures NonVirtualCount(fields[..i]) + (if IsVirtual(fields[i]) then 0 else 1) <= NonVirtualCount(fields)
    decreases i
  {
    if i > 0 {
      var rest := fields[1..];
      NonVirtualCountBefore(rest, i - 1);
      assert fields[..i][0] == fields[0] && fields[..i][1..] == rest[..i - 1];
      assert rest[i - 1] == fields[i];
    }
  }

  /** The fields of a model laid out by the schema parser can be run
      through `update_data` with the model's payload offset, for documents
      with one slot per stored field and a mask with an entry per slot. */
  lemma {:induction false} ModelFieldsOk(m: Model, mask: seq<bool>)
    requires ModelLayout(m) && NonVirtualCount(m.fields) <= |mask|
    ensures FieldsOk(m.fields, NonVirtualCount(m.fields), mask)
    ensures m.payloadOffset == PayloadStart(NonVirtualCount(m.fields))
  {
    var n := NonVirtualCount(m.fields);
    forall i | 0 <= i < |m.fields| ensures FieldOk(m.fields[i], n, mask) {
      NonVirtualCountBefore(m.fields, i);
    }
  }

  // ---------------------------------------------------------------------
  // The unit test of `update_data`
  // ---------------------------------------------------------------------

  /** After `update_data` the slot values are the starts of the regions
      that `UpdateDataRegions` gives. */
  lemma UpdateDataSlots(fields: seq<Field>, d: seq<byte>, nd: seq<byte>, mask: seq<bool>, n: nat, rs: seq<Option<seq<byte>>>)
    requires WellFormed(d, n) && WellFormed(nd, n) && FieldsOk(fields, n, mask)
    requires PayloadStart(n) + MaxPayload(Regions(d, n), Regions(nd, n)) < U32_LIMIT
    requires |rs| == n
    requires forall k | 0 <= k < n :: rs[k] == if k in ChangedSlots(fields, mask) then Regions(nd, n)[k] else Regions(d, n)[k]
    ensures UpdateOk(fields, PayloadStart(n), d, nd, mask)
    ensures var r := UpdateSpec(fields, PayloadStart(n), d, nd, mask);
      WellFormed(r, n) && r[..3] == d[..3] && Regions(r, n) == rs && SlotsOf(r, n) == Offs(rs, PayloadStart(n))
  {
    UpdateDataRegions(fields, d, nd, mask, n);
    var r := UpdateSpec(fields, PayloadStart(n), d, nd, mask);
    assert Regions(r, n) == rs;
    MixFits(rs, Regions(d, n), Regions(nd, n));
    WellFormedIsBuild(r, n);
    BuildSlots(r[..3], rs);
  }

  /** The slot values of three regions one after the other. */
  lemma Offs3(a: Option<seq<byte>>, b: Option<seq<byte>>, c: Option<seq<byte>>, p: nat)
    ensures Offs([a, b, c], p)
      == [if a.None? then 0 else p, if b.None? then 0 else p + |Flat(a)|, if c.None? then 0 else p + |Flat(a)| + |Flat(b)|]
  {
    var r1, r2, r3 := [a], [a, b], [a, b, c];
    assert r3[..2] == r2 && r2[..1] == r1 && r1[..0] == [];
    assert Concat(r1) == Flat(a);
    assert Concat(r2) == Flat(a) + Flat(b);
    assert Offs(r1, p) == [OffAt(r1, p, 0)];
    assert Offs(r2, p) == Offs(r1, p) + [OffAt(r2, p, 1)];
    assert Offs(r3, p) == Offs(r2, p) + [OffAt(r3, p, 2)];
  }

  lemma MaxPayload3(a: Option<seq<byte>>, b: Option<seq<byte>>, c: Option<seq<byte>>,
                    x: Option<seq<byte>>, y: Option<seq<byte>>, z: Option<seq<byte>>)
    ensures MaxPayload([a, b, c], [x, y, z]) == Max(|Flat(a)|, |Flat(x)|) + Max(|Flat(b)|, |Flat(y)|) + Max(|Flat(c)|, |Flat(z)|)
  {
    var a1, a2, a3 := [a], [a, b], [a, b, c];
    var x1, x2, x3 := [x], [x, y], [x, y, z];
    assert a3[..2] == a2 && a2[..1] == a1 && a1[..0] == [];
    assert x3[..2] == x2 && x2[..1] == x1 && x1[..0] == [];
    assert MaxPayload(a1, x1) == Max(|Flat(a)|, |Flat(x)|);
    assert MaxPayload(a2, x2) == MaxPayload(a1, x1) + Max(|Flat(b)|, |Flat(y)|);
  }

  /** The fields of a model laid out like the one of the unit test of
      `update_data` (`name`, `surname`, `age`): three stored fields, in
      slots 0, 1 and 2. */
  predicate ThreeSlots(fields: seq<Field>)
  {
    |fields| == 3 && forall i | 0 <= i < 3 :: fields[i].offsetIndex == i && fields[i].offsetPos == SlotPos(i)
  }

  /** The offsets the first update of the unit test expects: a document
      holding a three-byte `name` region gets an eight-byte `age` region,
      which goes after the name. The region lengths are those the test's
      expected offsets imply, not what the encoder writes for its values. */
  lemma UpdateTestAddAge(fields: seq<Field>, d0: seq<byte>, nd: seq<byte>, name: seq<byte>, age: seq<byte>)
    requires ThreeSlots(fields)
    requires WellFormed(d0, 3) && Regions(d0, 3) == [Some(name), None, None] && |name| == 3
    requires WellFormed(nd, 3) && Regions(nd, 3) == [None, None, Some(age)] && |age| == 8
    ensures UpdateOk(fields, 15, d0, nd, [false, false, true])
    ensures var d1 := UpdateSpec(fields, 15, d0, nd, [false, false, true]);
      WellFormed(d1, 3) && d1[..3] == d0[..3] && Regions(d1, 3) == [Some(name), None, Some(age)]
      && SlotsOf(d1, 3) == [15, 0, 18]
  {
    var mask, rs := [false, false, true], [Some(name), None, Some(age)];
    assert forall k | 0 <= k < 3 :: rs[k] == if k in ChangedSlots(fields, mask) then Regions(nd, 3)[k] else Regions(d0, 3)[k] by {
      assert Changes(fields[2], mask);
    }
    assert 15 + MaxPayload(Regions(d0, 3), Regions(nd, 3)) < U32_LIMIT by {
      MaxPayload3(Some(name), None, None, None, None, Some(age));
    }
    assert Offs(rs, 15) == [15, 0, 18] by { Offs3(Some(name), None, Some(age), 15); }
    UpdateDataSlots(fields, d0, nd, mask, 3, rs);
  }

  /** The offsets the second update expects: `name` and `surname` become
      regions of six bytes each, and `age` moves behind them. */
  lemma UpdateTestRename(fields: seq<Field>, d1: seq<byte>, nd: seq<byte>, name: seq<byte>, age: seq<byte>, name2: seq<byte>, surname2: seq<byte>)
    requires ThreeSlots(fields)
    requires WellFormed(d1, 3) && Regions(d1, 3) == [Some(name), None, Some(age)] && |name| == 3 && |age| == 8
    requires WellFormed(nd, 3) && Regions(nd, 3) == [Some(name2), Some(surname2), None] && |name2| == 6 && |surname2| == 6
    ensures UpdateOk(fields, 15, d1, nd, [true, true, false])
    ensures var d2 := UpdateSpec(fields, 15, d1, nd, [true, true, false]);
      WellFormed(d2, 3) && d2[..3] == d1[..3] && Regions(d2, 3) == [Some(name2), Some(surname2), Some(age)]
      && SlotsOf(d2, 3) == [15, 21, 27]
  {
    var mask, rs := [true, true, false], [Some(name2), Some(surname2), Some(age)];
    assert forall k | 0 <= k < 3 :: rs[k] == if k in ChangedSlots(fields, mask) then Regions(nd, 3)[k] else Regions(d1, 3)[k] by {
      assert Changes(fields[0], mask) && Changes(fields[1], mask);
    }
    assert 15 + MaxPayload(Regions(d1, 3), Regions(nd, 3)) < U32_LIMIT by {
      MaxPayload3(Some(name), None, Some(age), Some(name2), Some(surname2), None);
    }
    assert Offs(rs, 15) == [15, 21, 27] by { Offs3(Some(name2), Some(surname2), Some(age), 15); }
    UpdateDataSlots(fields, d1, nd, mask, 3, rs);
  }

  /** The offsets the third update expects: `name` becomes null, `surname`
      an empty region and `age` a new value; the empty surname and the age
      then start at the same offset. */
  lemma UpdateTestClear(fields: seq<Field>, d2: seq<byte>, nd: seq<byte>, name2: seq<byte>, surname2: seq<byte>, age: seq<byte>, age2: seq<byte>)
    requires ThreeSlots(fields)
    requires WellFormed(d2, 3) && Regions(d2, 3) == [Some(name2), Some(surname2), Some(age)]
    requires |name2| == 6 && |surname2| == 6 && |age| == 8
    requires WellFormed(nd, 3) && Regions(nd, 3) == [None, Some([]), Some(age2)] && |age2| == 8
    ensures UpdateOk(fields, 15, d2, nd, [true, true, true])
    ensures var d3 := UpdateSpec(fields, 15, d2, nd, [true, true, true]);
      WellFormed(d3, 3) && d3[..3] == d2[..3] && Regions(d3, 3) == [None, Some([]), Some(age2)]
      && SlotsOf(d3, 3) == [0, 15, 15]
  {
    var mask, rs := [true, true, true], [None, Some([]), Some(age2)];
    assert forall k | 0 <= k < 3 :: rs[k] == if k in ChangedSlots(fields, mask) then Regions(nd, 3)[k] else Regions(d2, 3)[k] by {
      assert Changes(fields[0], mask) && Changes(fields[1], mask) && Changes(fields[2], mask);
    }
    assert 15 + MaxPayload(Regions(d2, 3), Regions(nd, 3)) < U32_LIMIT by {
      MaxPayload3(Some(name2), Some(surname2), Some(age), None, Some([]), Some(age2));
    }
    assert Offs(rs, 15) == [0, 15, 15] by { Offs3(None, Some([]), Some(age2), 15); }
    UpdateDataSlots(fields, d2, nd, mask, 3, rs);
  }
}

=== FILE: wrappers.dfy ===
/** Failure-compatible result types shared by every module of the model. */
module Wrappers {

  datatype Option<+T> = None | Some(value: T) {
    predicate IsFailure() { None? }

    function PropagateFailure<U>(): Option<U>
      requires None?
    {
      None
    }

    function Extract(): T
      requires Some?
    {
      value
    }
  }

  datatype Result<+T, +E> = Ok(value: T) | Err(error: E) {
    predicate IsFailure() { Err? }

    function PropagateFailure<U>(): Result<U, E>
      requires Err?
    {
      Err(error)
    }

    function Extract(): T
      requires Ok?
    {
      value
    }
  }
}

=== FILE: writes.dfy ===
/** The write transactions of `insert_data` and `update`, as functions from
    the state before to the state after. A transaction works on the trees,
    the id counters (a `Many` without ids draws from its struct's counter)
    and the index entries collected to be written or deleted at the end. The
    methods below are the source's loops; each is proved to compute its
    function. */
module Writes {
  import opened Wrappers
  import opened Bytes
  import opened Schema
  import opened Store
  import opened Keys
  import opened Indexes
  import opened ForeignKeys
  import UD = Update

  /** `fetch_add(1)` on an `AtomicU64`: the counter wraps around. */
  function Bump(c: nat): (r: nat)
    ensures r < U64_LIMIT
    ensures c + 1 < U64_LIMIT ==> r == c + 1
    ensures c + 1 == U64_LIMIT ==> r == 0
  {
    (c + 1) % U64_LIMIT
  }

  predicate CountersOk(cs: seq<nat>)
  {
    forall k | 0 <= k < |cs| :: cs[k] < U64_LIMIT
  }

  /** Every index entry names an existing tree. */
  predicate EntriesIn(xs: seq<IndexData>, ts: Trees)
  {
    forall x | x in xs :: x.treeName in ts
  }

  /** The state of a write transaction: the trees, the counters, the index
      entries to write and the index entries to delete. */
  datatype Tx = Tx(trees: Trees, counters: seq<nat>, indexes: seq<IndexData>, removed: seq<IndexData>)

  predicate TxOk(tx: Tx)
  {
    TreesOk(tx.trees) && CountersOk(tx.counters) && EntriesIn(tx.indexes, tx.trees) && EntriesIn(tx.removed, tx.trees)
  }

  /** The index trees of the fields exist. */
  predicate ShapeTrees(fields: seq<Field>, names: set<string>)
  {
    forall f, ix | f in fields && ix in f.insertedIndexes :: ix.treeName in names
  }

  /** The entries `get_indexes` collects go to the fields' index trees. */
  lemma IndexesIn(fields: seq<Field>, d: seq<byte>, id: nat, payloadOffset: nat, mask: Option<seq<bool>>, ts: Trees)
    requires id < U64_LIMIT && AllIndexable(fields, d, payloadOffset, mask) && ShapeTrees(fields, ts.Keys)
    ensures EntriesIn(IndexesOf(fields, d, id, payloadOffset, mask), ts)
  {
    forall x | x in IndexesOf(fields, d, id, payloadOffset, mask) ensures x.treeName in ts {
      IndexesOfMember(fields, d, id, payloadOffset, mask, x);
      var f :| f in fields && Emits(f, d, id, payloadOffset, mask, x);
      var ix :| ix in f.insertedIndexes && x == IndexKey(ix, StoredValue(d, f.offsetPos, payloadOffset).value, id);
    }
  }

  // ---------------------------------------------------------------------
  // The final loops over the collected index entries
  // ---------------------------------------------------------------------

  /** `index_tree.insert(&index.key, &[1])` for every entry: afterwards
      exactly the entries' keys changed, and each holds `[1]`. */
  function PutIndexes(ts: Trees, xs: seq<IndexData>): (r: Trees)
    requires TreesOk(ts) && EntriesIn(xs, ts)
    ensures TreesOk(r) && r.Keys == ts.Keys
    ensures forall m, k {:trigger Get(r[m], k)} | m in ts ::
      Get(r[m], k) == if IndexData(m, k) in xs then Some([1]) else Get(ts[m], k)
    decreases |xs|
  {
    if xs == [] then ts
    else
      var init, last := xs[..|xs| - 1], xs[|xs| - 1];
      assert forall x :: x in xs <==> x in init || x == last by {
        assert xs == init + [last];
      }
      Put(PutIndexes(ts, init), last.treeName, last.key, [1])
  }

  /** `index_tree.delete(&index.key)` for every entry: afterwards exactly
      the entries' keys are gone. */
  function DelIndexes(ts: Trees, xs: seq<IndexData>): (r: Trees)
    requires TreesOk(ts) && EntriesIn(xs, ts)
    ensures TreesOk(r) && r.Keys == ts.Keys
    ensures forall m, k {:trigger Get(r[m], k)} | m in ts ::
      Get(r[m], k) == if IndexData(m, k) in xs then None else Get(ts[m], k)
    decreases |xs|
  {
    if xs == [] then ts
    else
      var init, last := xs[..|xs| - 1], xs[|xs| - 1];
      assert forall x :: x in xs <==> x in init || x == last by {
        assert xs == init + [last];
      }
      Del(DelIndexes(ts, init), last.treeName, last.key)
  }

  method PutIndexesLoop(ts: Trees, indexes: seq<IndexData>) returns (r: Trees)
    requires TreesOk(ts) && EntriesIn(indexes, ts)
    ensures r == PutIndexes(ts, indexes)
  {
    r := ts;
    var i := 0;
    while i < |indexes|
      invariant i <= |indexes|
      invariant EntriesIn(indexes[..i], ts) && r == PutIndexes(ts, indexes[..i])
    {
      assert indexes[..i + 1][..i] == indexes[..i];
      assert indexes[i] in indexes;
      assert forall x | x in indexes[..i + 1] :: x in indexes;
      var index := indexes[i];
      r := Put(r, index.treeName, index.key, [1]);
      i := i + 1;
    }
    assert indexes[..i] == indexes;
  }

  method DelIndexesLoop(ts: Trees, indexes: seq<IndexData>) returns (r: Trees)
    requires TreesOk(ts) && EntriesIn(indexes, ts)
    ensures r == DelIndexes(ts, indexes)
  {
    r := ts;
    var i := 0;
    while i < |indexes|
      invariant i <= |indexes|
      invariant EntriesIn(indexes[..i], ts) && r == DelIndexes(ts, indexes[..i])
    {
      assert indexes[..i + 1][..i] == indexes[..i];
      assert indexes[i] in indexes;
      assert forall x | x in indexes[..i + 1] :: x in indexes;
      var index := indexes[i];
      r := Del(r, index.treeName, index.key);
      i := i + 1;
    }
    assert indexes[..i] == indexes;
  }

  // ---------------------------------------------------------------------
  // The elements of a Many
  // ---------------------------------------------------------------------

  /** One element of a `Many` does not panic: the struct's tree and index
      trees exist, the counter exists when the element has no id, its id
      fits in a u64, and `get_indexes` can read it. */
  predicate ItemOk(st: Struct, ci: nat, it: Item, names: set<string>, counters: nat)
  {
    st.name in names && ShapeTrees(st.fields, names)
    && (it.id.None? ==> ci < counters)
    && (it.id.Some? ==> it.id.value < U64_LIMIT)
    && AllIndexable(st.fields, it.data, st.payloadOffset, None)
  }

  predicate ItemsOk(st: Struct, ci: nat, items: seq<Item>, names: set<string>, counters: nat)
  {
    forall it | it in items :: ItemOk(st, ci, it, names, counters)
  }

  /** The ids the elements get: their own, or successive values of the
      counter starting at `c`. */
  function ItemIds(items: seq<Item>, c: nat): (r: seq<nat>)
    ensures |r| == |items|
    decreases |items|
  {
    if items == [] then []
    else if items[0].id.Some? then [items[0].id.value] + ItemIds(items[1..], c)
    else [c] + ItemIds(items[1..], Bump(c))
  }

  /** The number of elements without an id. */
  function Unnamed(items: seq<Item>): nat
    decreases |items|
  {
    if items == [] then 0 else (if items[0].id.None? then 1 else 0) + Unnamed(items[1..])
  }

  /** The counter after `k` calls of `next_idc`. */
  function BumpN(c: nat, k: nat): nat
    decreases k
  {
    if k == 0 then c else BumpN(Bump(c), k - 1)
  }

  /** The id one element gets: its own, or the counter's value. */
  function ItemId(tx: Tx, ci: nat, it: Item): nat
    requires it.id.None? ==> ci < |tx.counters|
  {
    if it.id.Some? then it.id.value else tx.counters[ci]
  }

  /** One element: the counter advances if the element has no id, the
      element is stored under `make_key(id, item_id)`, and its index entries
      are collected. */
  function ItemStep(tx: Tx, st: Struct, ci: nat, id: nat, it: Item): (r: Tx)
    requires TxOk(tx) && id < U64_LIMIT && ItemOk(st, ci, it, tx.trees.Keys, |tx.counters|)
    ensures TxOk(r) && r.trees.Keys == tx.trees.Keys && |r.counters| == |tx.counters| && r.removed == tx.removed
    ensures forall m | m in tx.trees && m != st.name :: r.trees[m] == tx.trees[m]
    ensures forall k | 0 <= k < |tx.counters| && k != ci :: r.counters[k] == tx.counters[k]
  {
    var itemId := ItemId(tx, ci, it);
    var counters := if it.id.Some? then tx.counters else tx.counters[ci := Bump(tx.counters[ci])];
    var ts := Put(tx.trees, st.name, MakeKey(id, itemId), it.data);
    assert EntriesIn(tx.indexes + IndexesOf(st.fields, it.data, itemId, st.payloadOffset, None), ts) by {
      IndexesIn(st.fields, it.data, itemId, st.payloadOffset, None, ts);
    }
    Tx(ts, counters, tx.indexes + IndexesOf(st.fields, it.data, itemId, st.payloadOffset, None), tx.removed)
  }

  /** The loop over the elements. */
  function WriteItems(tx: Tx, st: Struct, ci: nat, id: nat, items: seq<Item>): (r: Tx)
    requires TxOk(tx) && id < U64_LIMIT && ItemsOk(st, ci, items, tx.trees.Keys, |tx.counters|)
    ensures TxOk(r) && r.trees.Keys == tx.trees.Keys && |r.counters| == |tx.counters| && r.removed == tx.removed
    ensures forall m | m in tx.trees && m != st.name :: r.trees[m] == tx.trees[m]
    ensures forall k | 0 <= k < |tx.counters| && k != ci :: r.counters[k] == tx.counters[k]
    decreases |items|
  {
    if items == [] then tx
    else
      assert items[0] in items;
      assert forall x | x in items[1..] :: x in items;
      WriteItems(ItemStep(tx, st, ci, id, items[0]), st, ci, id, items[1..])
  }

  /** The elements of a `Many` draw consecutive values of their struct's
      counter: an element keeps its own id, the others get the counter's
      values in turn, every id fits in a u64, and the counter ends advanced
      once per element without an id. */
  lemma WriteItemsIds(tx: Tx, st: Struct, ci: nat, id: nat, items: seq<Item>)
    requires TxOk(tx) && id < U64_LIMIT && ItemsOk(st, ci, items, tx.trees.Keys, |tx.counters|)
    requires ci < |tx.counters|
    ensures WriteItems(tx, st, ci, id, items).counters[ci] == BumpN(tx.counters[ci], Unnamed(items))
    ensures forall k | 0 <= k < |items| ::
      ItemIds(items, tx.counters[ci])[k] < U64_LIMIT
      && (items[k].id.Some? ==> ItemIds(items, tx.counters[ci])[k] == items[k].id.value)
  {
    WriteItemsCounter(tx, st, ci, id, items);
    assert forall it | it in items :: it.id.Some? ==> it.id.value < U64_LIMIT;
    ItemIdsFit(items, tx.counters[ci]);
  }

  /** The counter of the struct ends advanced once per element without an id. */
  lemma {:induction false} WriteItemsCounter(tx: Tx, st: Struct, ci: nat, id: nat, items: seq<Item>)
    requires TxOk(tx) && id < U64_LIMIT && ItemsOk(st, ci, items, tx.trees.Keys, |tx.counters|)
    requires ci < |tx.counters|
    ensures WriteItems(tx, st, ci, id, items).counters[ci] == BumpN(tx.counters[ci], Unnamed(items))
    decreases |items|
  {
    if items != [] {
      var it := items[0];
      assert it in items;
      assert forall x | x in items[1..] :: x in items;
      var c := tx.counters[ci];
      var tx1 := ItemStep(tx, st, ci, id, it);
      WriteItemsCounter(tx1, st, ci, id, items[1..]);
      var c1 := if it.id.Some? then c else Bump(c);
      assert tx1.counters[ci] == c1;
      assert BumpN(c, Unnamed(items)) == BumpN(c1, Unnamed(items[1..]));
    }
  }

  /** Every id drawn from a counter below 2^64, or carried by an element
      whose id fits, fits in a u64; an element with an id keeps it. */
  lemma {:induction false} ItemIdsFit(items: seq<Item>, c: nat)
    requires c < U64_LIMIT
    requires forall it | it in items :: it.id.Some? ==> it.id.value < U64_LIMIT
    ensures forall k | 0 <= k < |items| ::
      ItemIds(items, c)[k] < U64_LIMIT && (items[k].id.Some? ==> ItemIds(items, c)[k] == items[k].id.value)
    decreases |items|
  {
    if items != [] {
      var it := items[0];
      assert it in items;
      var c1 := if it.id.Some? then c else Bump(c);
      assert forall x | x in items[1..] :: x in items;
      ItemIdsFit(items[1..], c1);
      assert ItemIds(items, c) == [if it.id.Some? then it.id.value else c] + ItemIds(items[1..], c1);
      forall k | 0 <= k < |items|
        ensures ItemIds(items, c)[k] < U64_LIMIT
        ensures items[k].id.Some? ==> ItemIds(items, c)[k] == items[k].id.value
      {
        if k > 0 {
          assert items[k] == items[1..][k - 1];
        }
      }
    }
  }

  /** The loop over the elements of a `Many`. */
  method WriteItemsLoop(tx: Tx, st: Struct, ci: nat, id: nat, items: seq<Item>) returns (r: Tx)
    requires TxOk(tx) && id < U64_LIMIT && ItemsOk(st, ci, items, tx.trees.Keys, |tx.counters|)
    ensures r == WriteItems(tx, st, ci, id, items)
  {
    r := tx;
    var i := 0;
    while i < |items|
      invariant i <= |items| && TxOk(r) && r.trees.Keys == tx.trees.Keys && |r.counters| == |tx.counters|
      invariant ItemsOk(st, ci, items[i..], r.trees.Keys, |r.counters|)
      invariant WriteItems(r, st, ci, id, items[i..]) == WriteItems(tx, st, ci, id, items)
    {
      ghost var before := r;
      assert items[i] in items[i..];
      ghost var step := ItemStep(r, st, ci, id, items[i]);
      assert WriteItems(before, st, ci, id, items[i..]) == WriteItems(step, st, ci, id, items[i + 1..])
          && ItemsOk(st, ci, items[i + 1..], step.trees.Keys, |step.counters|) by {
        assert items[i..][1..] == items[i + 1..];
        assert forall x | x in items[i + 1..] :: x in items[i..];
      }
      var item := items[i];
      var itemId: nat;
      if item.id.Some? {
        itemId := item.id.value;
      } else {
        itemId := r.counters[ci];
        r := r.(counters := r.counters[ci := Bump(r.counters[ci])]);
      }
      var ts := Put(r.trees, st.name, MakeKey(id, itemId), item.data);
      var more := GetIndexes(item.data, itemId, StructShape(st), None);
      r := r.(trees := ts, indexes := r.indexes + more);
      assert r == step;
      i := i + 1;
    }
  }

  // ---------------------------------------------------------------------
  // The related records
  // ---------------------------------------------------------------------

  /** The trees the write of a related record may change. */
  predicate Touches(s: InsertStruct, m: string)
  {
    match s
    case Connect(field, _, _) => IndexTree(field.insertedIndexes, m)
    case Update(_, _, _, _, _) => false
    case Push(_, _, _, _) => false
    case _ => s.st.name == m
  }

  /** Outside the trees the related records touch, every key reads the
      same. */
  ghost predicate Untouched(ts: Trees, r: Trees, structs: seq<InsertStruct>)
  {
    forall m, k {:trigger Get(r[m], k)} | m in ts && m in r && (forall s | s in structs :: !Touches(s, m)) ::
      Get(r[m], k) == Get(ts[m], k)
  }

  /** `insert_data`'s write of one related record does not panic. */
  predicate InsertStructOk(s: InsertStruct, names: set<string>, counters: nat)
  {
    match s
    case Many(st, ci, items) => ItemsOk(st, ci, items, names, counters)
    case One(st, _, _) => st.name in names
    case Connect(field, _, ids) => (forall ix | ix in field.insertedIndexes :: ix.treeName in names) && IdsOk(ids)
    case _ => true
  }

  /** `insert_data`'s write of one related record: the elements of a
      `Many`, the document of a `One` under `be(id)`, the relation index
      keys of a `Connect`; the other variants write nothing. */
  function InsertStep(tx: Tx, id: nat, s: InsertStruct): (r: Tx)
    requires TxOk(tx) && id < U64_LIMIT && InsertStructOk(s, tx.trees.Keys, |tx.counters|)
    ensures TxOk(r) && r.trees.Keys == tx.trees.Keys && |r.counters| == |tx.counters| && r.removed == tx.removed
    ensures Untouched(tx.trees, r.trees, [s])
  {
    match s
    case Many(st, ci, items) => WriteItems(tx, st, ci, id, items)
    case One(st, _, data) =>
      assert s in [s] && Touches(s, st.name);
      tx.(trees := Put(tx.trees, st.name, BE64(id), data))
    case Connect(field, _, ids) => tx.(trees := InsertIndexes(tx.trees, field, id, ids))
    case _ => tx
  }

  predicate InsertStructsOk(structs: seq<InsertStruct>, names: set<string>, counters: nat)
  {
    forall s | s in structs :: InsertStructOk(s, names, counters)
  }

  /** The loop over the related records of `insert_data`. */
  function InsertStructs(tx: Tx, id: nat, structs: seq<InsertStruct>): (r: Tx)
    requires TxOk(tx) && id < U64_LIMIT && InsertStructsOk(structs, tx.trees.Keys, |tx.counters|)
    ensures TxOk(r) && r.trees.Keys == tx.trees.Keys && |r.counters| == |tx.counters| && r.removed == tx.removed
    ensures Untouched(tx.trees, r.trees, structs)
    decreases |structs|
  {
    if structs == [] then tx
    else
      assert structs[0] in structs;
      assert forall x | x in structs[1..] :: x in structs;
      var tx1 := InsertStep(tx, id, structs[0]);
      var r := InsertStructs(tx1, id, structs[1..]);
      assert Untouched(tx.trees, r.trees, structs) by {
        forall m, k | m in tx.trees && m in r.trees && (forall s | s in structs :: !Touches(s, m))
          ensures Get(r.trees[m], k) == Get(tx.trees[m], k)
        {
          assert !Touches(structs[0], m);
          assert forall s | s in structs[1..] :: !Touches(s, m);
          assert Get(r.trees[m], k) == Get(tx1.trees[m], k);
        }
      }
      r
  }

  /** The entries `get_indexes` collects from the document of every `One`,
      in order. */
  predicate OnesIndexable(structs: seq<InsertStruct>)
  {
    forall s | s in structs && s.One? :: AllIndexable(s.st.fields, s.data, s.st.payloadOffset, None)
  }

  function OneIndexes(structs: seq<InsertStruct>, id: nat): (r: seq<IndexData>)
    requires id < U64_LIMIT && OnesIndexable(structs)
    decreases |structs|
  {
    if structs == [] then []
    else
      var init, last := structs[..|structs| - 1], structs[|structs| - 1];
      assert last in structs && forall x | x in init :: x in structs;
      OneIndexes(init, id) + (if last.One? then IndexesOf(last.st.fields, last.data, id, last.st.payloadOffset, None) else [])
  }

  /** The index trees of every `One` exist. */
  predicate OnesShaped(structs: seq<InsertStruct>, names: set<string>)
  {
    forall s | s in structs && s.One? :: ShapeTrees(s.st.fields, names)
  }

  lemma {:induction false} OneIndexesIn(structs: seq<InsertStruct>, id: nat, ts: Trees)
    requires id < U64_LIMIT && OnesIndexable(structs) && OnesShaped(structs, ts.Keys)
    ensures EntriesIn(OneIndexes(structs, id), ts)
    decreases |structs|
  {
    if structs != [] {
      var init, last := structs[..|structs| - 1], structs[|structs| - 1];
      assert last in structs && forall x | x in init :: x in structs;
      OneIndexesIn(init, id, ts);
      if last.One? {
        IndexesIn(last.st.fields, last.data, id, last.st.payloadOffset, None, ts);
      }
    }
  }

  /** One more related record extends the collected entries by its own. */
  lemma OneIndexesSnoc(structs: seq<InsertStruct>, i: nat, id: nat)
    requires id < U64_LIMIT && OnesIndexable(structs) && i < |structs|
    ensures OnesIndexable(structs[..i]) && OnesIndexable(structs[..i + 1])
    ensures structs[i].One? ==> AllIndexable(structs[i].st.fields, structs[i].data, structs[i].st.payloadOffset, None)
    ensures OneIndexes(structs[..i + 1], id) == OneIndexes(structs[..i], id)
      + (if structs[i].One? then IndexesOf(structs[i].st.fields, structs[i].data, id, structs[i].st.payloadOffset, None) else [])
  {
    assert structs[i] in structs;
    assert forall x | x in structs[..i + 1] :: x in structs;
    assert structs[..i + 1][..i] == structs[..i];
  }

  /** The loop of `insert_data` and `update` that adds the entries of every
      `One` to those of the document. */
  method CollectOneIndexes(indexes: seq<IndexData>, structs: seq<InsertStruct>, id: nat) returns (r: seq<IndexData>)
    requires id < U64_LIMIT && OnesIndexable(structs)
    ensures r == indexes + OneIndexes(structs, id)
  {
    r := indexes;
    var i := 0;
    assert structs[..0] == [];
    while i < |structs|
      invariant i <= |structs|
      invariant r == indexes + OneIndexes(structs[..i], id)
    {
      OneIndexesSnoc(structs, i, id);
      ghost var done := OneIndexes(structs[..i], id);
      match structs[i] {
        case One(st, _, data) =>
          var more := GetIndexes(data, id, StructShape(st), None);
          r := r + more;
          Append3(indexes, done, more);
        case _ =>
      }
      i := i + 1;
    }
    assert structs[..i] == structs;
  }

  // ---------------------------------------------------------------------
  // insert_data
  // ---------------------------------------------------------------------

  /** `insert_data` does not panic once its id is drawn: the trees it
      writes exist, and `get_indexes` can read every document. */
  predicate InsertOk(ts: Trees, counters: seq<nat>, model: Model, data: seq<byte>, structs: seq<InsertStruct>)
  {
    TreesOk(ts) && CountersOk(counters) && model.name in ts
    && AllIndexable(model.fields, data, model.payloadOffset, None) && ShapeTrees(model.fields, ts.Keys)
    && OnesIndexable(structs) && OnesShaped(structs, ts.Keys)
    && InsertStructsOk(structs, ts.Keys, |counters|)
  }

  /** The index entries `insert_data` and `update` collect before the
      transaction: the document's, then those of every `One`. */
  function NewIndexes(model: Model, data: seq<byte>, id: nat, structs: seq<InsertStruct>): seq<IndexData>
    requires id < U64_LIMIT && AllIndexable(model.fields, data, model.payloadOffset, None) && OnesIndexable(structs)
  {
    IndexesOf(model.fields, data, id, model.payloadOffset, None) + OneIndexes(structs, id)
  }

  lemma NewIndexesIn(ts: Trees, model: Model, data: seq<byte>, id: nat, structs: seq<InsertStruct>)
    requires id < U64_LIMIT && AllIndexable(model.fields, data, model.payloadOffset, None) && OnesIndexable(structs)
    requires ShapeTrees(model.fields, ts.Keys) && OnesShaped(structs, ts.Keys)
    ensures EntriesIn(NewIndexes(model, data, id, structs), ts)
  {
    IndexesIn(model.fields, data, id, model.payloadOffset, None, ts);
    OneIndexesIn(structs, id, ts);
  }

  /** The transaction of `insert_data` after the foreign-key check: the
      document under `be(id)` in the model's tree, the related records,
      then `[1]` under every index entry collected. */
  function InsertTx(ts: Trees, counters: seq<nat>, model: Model, data: seq<byte>, id: nat, structs: seq<InsertStruct>): (r: Tx)
    requires InsertOk(ts, counters, model, data, structs) && id < U64_LIMIT
    ensures TxOk(r) && r.trees.Keys == ts.Keys && |r.counters| == |counters|
  {
    var ts1 := Put(ts, model.name, BE64(id), data);
    NewIndexesIn(ts1, model, data, id, structs);
    var tx1 := Tx(ts1, counters, NewIndexes(model, data, id, structs), []);
    var tx2 := InsertStructs(tx1, id, structs);
    tx2.(trees := PutIndexes(tx2.trees, tx2.indexes))
  }

  /** The transaction of `insert_data` before the index entries are
      written. */
  function InsertBody(ts: Trees, counters: seq<nat>, model: Model, data: seq<byte>, id: nat, structs: seq<InsertStruct>): (r: Tx)
    requires InsertOk(ts, counters, model, data, structs) && id < U64_LIMIT
    ensures TxOk(r) && r.trees.Keys == ts.Keys && r.removed == []
    ensures Untouched(Put(ts, model.name, BE64(id), data), r.trees, structs)
    ensures InsertTx(ts, counters, model, data, id, structs) == r.(trees := PutIndexes(r.trees, r.indexes))
  {
    var ts1 := Put(ts, model.name, BE64(id), data);
    NewIndexesIn(ts1, model, data, id, structs);
    InsertStructs(Tx(ts1, counters, NewIndexes(model, data, id, structs), []), id, structs)
  }

  /** Every index entry `insert_data` collected holds `[1]`. */
  lemma InsertTxIndexes(ts: Trees, counters: seq<nat>, model: Model, data: seq<byte>, id: nat, structs: seq<InsertStruct>)
    requires InsertOk(ts, counters, model, data, structs) && id < U64_LIMIT
    ensures var r := InsertTx(ts, counters, model, data, id, structs);
      forall x | x in r.indexes :: Get(r.trees[x.treeName], x.key) == Some([1])
  {
    var tx := InsertBody(ts, counters, model, data, id, structs);
    assert PutIndexes(tx.trees, tx.indexes) == PutIndexes(DelIndexes(tx.trees, tx.removed), tx.indexes);
    FinishWrites(tx);
  }

  /** The document is what `insert_data` leaves under `be(id)`, unless a
      related record or an index entry writes to the same tree and key. */
  lemma InsertTxRecord(ts: Trees, counters: seq<nat>, model: Model, data: seq<byte>, id: nat, structs: seq<InsertStruct>)
    requires InsertOk(ts, counters, model, data, structs) && id < U64_LIMIT
    requires forall s | s in structs :: !Touches(s, model.name)
    requires IndexData(model.name, BE64(id)) !in InsertTx(ts, counters, model, data, id, structs).indexes
    ensures Get(InsertTx(ts, counters, model, data, id, structs).trees[model.name], BE64(id)) == Some(data)
  {
    var tx := InsertBody(ts, counters, model, data, id, structs);
    assert PutIndexes(tx.trees, tx.indexes) == PutIndexes(DelIndexes(tx.trees, tx.removed), tx.indexes);
    FinishWrites(tx);
  }

  /** A tree that is neither the model's, nor touched by a related record,
      nor named by an index entry, keeps every key through `insert_data`. */
  lemma InsertTxFrame(ts: Trees, counters: seq<nat>, model: Model, data: seq<byte>, id: nat, structs: seq<InsertStruct>, m: string, k: seq<byte>)
    requires InsertOk(ts, counters, model, data, structs) && id < U64_LIMIT
    requires m in ts && m != model.name && forall s | s in structs :: !Touches(s, m)
    requires forall x | x in InsertTx(ts, counters, model, data, id, structs).indexes :: x.treeName != m
    ensures Get(InsertTx(ts, counters, model, data, id, structs).trees[m], k) == Get(ts[m], k)
  {
    var tx := InsertBody(ts, counters, model, data, id, structs);
    assert PutIndexes(tx.trees, tx.indexes) == PutIndexes(DelIndexes(tx.trees, tx.removed), tx.indexes);
    FinishWrites(tx);
    assert IndexData(m, k) !in tx.indexes;
  }

  /** One related record of `insert_data`, as the loop body does it. */
  method WriteStruct(tx: Tx, id: nat, s: InsertStruct) returns (r: Tx)
    requires TxOk(tx) && id < U64_LIMIT && InsertStructOk(s, tx.trees.Keys, |tx.counters|)
    ensures r == InsertStep(tx, id, s)
  {
    match s {
      case Many(st, ci, items) =>
        r := WriteItemsLoop(tx, st, ci, id, items);
      case One(st, _, data) =>
        r := tx.(trees := Put(tx.trees, st.name, BE64(id), data));
      case Connect(field, _, ids) =>
        var ts := InsertIndexesLoop(tx.trees, field, id, ids);
        r := tx.(trees := ts);
      case _ =>
        r := tx;
    }
  }

  /** The loop over the related records of `insert_data`. */
  method InsertStructsLoop(tx: Tx, id: nat, structs: seq<InsertStruct>) returns (r: Tx)
    requires TxOk(tx) && id < U64_LIMIT && InsertStructsOk(structs, tx.trees.Keys, |tx.counters|)
    ensures r == InsertStructs(tx, id, structs)
  {
    r := tx;
    var i := 0;
    while i < |structs|
      invariant i <= |structs| && TxOk(r) && r.trees.Keys == tx.trees.Keys && |r.counters| == |tx.counters|
      invariant InsertStructs(r, id, structs[i..]) == InsertStructs(tx, id, structs)
    {
      ghost var before := r;
      assert structs[i] in structs;
      ghost var step := InsertStep(r, id, structs[i]);
      assert InsertStructs(before, id, structs[i..]) == InsertStructs(step, id, structs[i + 1..]) by {
        assert structs[i..][1..] == structs[i + 1..];
      }
      r := WriteStruct(r, id, structs[i]);
      i := i + 1;
    }
  }

  // ---------------------------------------------------------------------
  // update
  // ---------------------------------------------------------------------

  /** `update`'s write of one related record does not panic: its tree
      exists, `id + 1` fits for an `Empty`, a stored document of a `One`
      can be patched and indexed, and `remove_indexes` can run for a
      `Connect`. */
  predicate UpdateStepOk(tx: Tx, id: nat, s: InsertStruct)
    requires id < U64_LIMIT
  {
    match s
    case Empty(st) => st.name in tx.trees && id + 1 < U64_LIMIT
    case Many(st, ci, items) => ItemsOk(st, ci, items, tx.trees.Keys, |tx.counters|)
    case One(st, mask, nd) =>
      st.name in tx.trees && ShapeTrees(st.fields, tx.trees.Keys)
      && (Get(tx.trees[st.name], BE64(id)).Some? ==>
            var d := Get(tx.trees[st.name], BE64(id)).value;
            UD.UpdateOk(st.fields, st.payloadOffset, d, nd, mask) && AllIndexable(st.fields, d, st.payloadOffset, Some(mask)))
    case Connect(field, _, ids) => RemoveOk(tx.trees, field, id) && IdsOk(ids)
    case Null(st) => st.name in tx.trees
    case _ => true
  }

  /** `update`'s write of one related record: an `Empty` clears every
      element under `be(id)`; a `Many` writes its elements; a `One` patches
      the stored document with `update_data` and marks its changed fields'
      index entries for deletion, or stores the new document when there is
      none; a `Connect` runs `remove_indexes` as written, then
      `insert_indexes`; a `None` deletes the document. */
  function UpdateStep(tx: Tx, id: nat, s: InsertStruct): (r: Tx)
    requires TxOk(tx) && id < U64_LIMIT && UpdateStepOk(tx, id, s)
    ensures TxOk(r) && r.trees.Keys == tx.trees.Keys && |r.counters| == |tx.counters|
    ensures Untouched(tx.trees, r.trees, [s])
  {
    assert s in [s];
    match s
    case Empty(st) =>
      assert Touches(s, st.name);
      tx.(trees := DelRange(tx.trees, st.name, BE64(id), BE64(id + 1)))
    case Many(st, ci, items) => WriteItems(tx, st, ci, id, items)
    case One(st, mask, nd) =>
      assert Touches(s, st.name);
      var stored := Get(tx.trees[st.name], BE64(id));
      if stored.Some? then
        var ts := Put(tx.trees, st.name, BE64(id), UD.UpdateSpec(st.fields, st.payloadOffset, stored.value, nd, mask));
        var gone := IndexesOf(st.fields, stored.value, id, st.payloadOffset, Some(mask));
        assert EntriesIn(tx.removed + gone, ts) by {
          IndexesIn(st.fields, stored.value, id, st.payloadOffset, Some(mask), ts);
        }
        tx.(trees := ts, removed := tx.removed + gone)
      else
        tx.(trees := Put(tx.trees, st.name, BE64(id), nd))
    case Connect(field, _, ids) =>
      tx.(trees := InsertIndexes(RemoveIndexes(tx.trees, field, id), field, id, ids))
    case Null(st) =>
      assert Touches(s, st.name);
      tx.(trees := Del(tx.trees, st.name, BE64(id)))
    case _ => tx
  }

  /** `update`'s loop over the related records does not panic: each step
      can run on the state the earlier ones leave. */
  predicate UpdateStructsOk(tx: Tx, id: nat, structs: seq<InsertStruct>)
    requires TxOk(tx) && id < U64_LIMIT
    decreases |structs|
  {
    structs == []
    || (UpdateStepOk(tx, id, structs[0]) && UpdateStructsOk(UpdateStep(tx, id, structs[0]), id, structs[1..]))
  }

  /** The loop over the related records of `update`. */
  function UpdateStructs(tx: Tx, id: nat, structs: seq<InsertStruct>): (r: Tx)
    requires TxOk(tx) && id < U64_LIMIT && UpdateStructsOk(tx, id, structs)
    ensures TxOk(r) && r.trees.Keys == tx.trees.Keys && |r.counters| == |tx.counters|
    ensures Untouched(tx.trees, r.trees, structs)
    decreases |structs|
  {
    if structs == [] then tx
    else
      var tx1 := UpdateStep(tx, id, structs[0]);
      var r := UpdateStructs(tx1, id, structs[1..]);
      assert Untouched(tx.trees, r.trees, structs) by {
        forall m, k | m in tx.trees && m in r.trees && (forall s | s in structs :: !Touches(s, m))
          ensures Get(r.trees[m], k) == Get(tx.trees[m], k)
        {
          assert structs[0] in structs && !Touches(structs[0], m);
          assert forall s | s in structs[1..] :: !Touches(s, m) by {
            assert forall s | s in structs[1..] :: s in structs;
          }
          assert Get(r.trees[m], k) == Get(tx1.trees[m], k);
        }
      }
      r
  }

  /** One related record of `update`, as the loop body does it. */
  method UpdateStruct(tx: Tx, id: nat, s: InsertStruct) returns (r: Tx)
    requires TxOk(tx) && id < U64_LIMIT && UpdateStepOk(tx, id, s)
    ensures r == UpdateStep(tx, id, s)
  {
    match s {
      case Empty(st) =>
        r := tx.(trees := DelRange(tx.trees, st.name, BE64(id), BE64(id + 1)));
      case Many(st, ci, items) =>
        r := WriteItemsLoop(tx, st, ci, id, items);
      case One(st, mask, nd) =>
        var stored := Get(tx.trees[st.name], BE64(id));
        if stored.Some? {
          var updated := UD.UpdateData(st.fields, st.payloadOffset, stored.value, nd, mask);
          var gone := GetIndexes(stored.value, id, StructShape(st), Some(mask));
          r := tx.(trees := Put(tx.trees, st.name, BE64(id), updated), removed := tx.removed + gone);
        } else {
          r := tx.(trees := Put(tx.trees, st.name, BE64(id), nd));
        }
      case Connect(field, _, ids) =>
        var ts1 := RemoveIndexesLoop(tx.trees, field, id);
        var ts := InsertIndexesLoop(ts1, field, id, ids);
        r := tx.(trees := ts);
      case Null(st) =>
        r := tx.(trees := Del(tx.trees, st.name, BE64(id)));
      case _ =>
        r := tx;
    }
  }

  /** The loop over the related records of `update`. */
  method UpdateStructsLoop(tx: Tx, id: nat, structs: seq<InsertStruct>) returns (r: Tx)
    requires TxOk(tx) && id < U64_LIMIT && UpdateStructsOk(tx, id, structs)
    ensures r == UpdateStructs(tx, id, structs)
  {
    r := tx;
    var i := 0;
    while i < |structs|
      invariant i <= |structs| && TxOk(r) && UpdateStructsOk(r, id, structs[i..])
      invariant UpdateStructs(r, id, structs[i..]) == UpdateStructs(tx, id, structs)
    {
      ghost var before := r;
      ghost var step := UpdateStep(r, id, structs[i]);
      assert UpdateStructs(before, id, structs[i..]) == UpdateStructs(step, id, structs[i + 1..])
          && UpdateStructsOk(step, id, structs[i + 1..]) by {
        assert structs[i..][1..] == structs[i + 1..];
      }
      r := UpdateStruct(r, id, structs[i]);
      i := i + 1;
    }
  }

  /** `update` gets past its own document without panicking: the trees it
      writes exist, the new document and every `One` can be indexed, and
      the stored document, if any, can be patched and indexed under the
      mask. */
  predicate UpdateHeadOk(ts: Trees, counters: seq<nat>, model: Model, id: nat, nd: seq<byte>, mask: seq<bool>, structs: seq<InsertStruct>)
  {
    TreesOk(ts) && CountersOk(counters) && model.name in ts && id < U64_LIMIT
    && AllIndexable(model.fields, nd, model.payloadOffset, None) && ShapeTrees(model.fields, ts.Keys)
    && OnesIndexable(structs) && OnesShaped(structs, ts.Keys)
    && (Get(ts[model.name], BE64(id)).Some? ==>
          var d := Get(ts[model.name], BE64(id)).value;
          UD.UpdateOk(model.fields, model.payloadOffset, d, nd, mask) && AllIndexable(model.fields, d, model.payloadOffset, Some(mask)))
  }

  /** The transaction once `update` has patched the stored document `d`:
      the patched document under `be(id)`, the entries of the new document
      and of every `One` to be written, and the entries of `d`'s changed
      fields to be deleted. */
  function UpdateRecord(ts: Trees, counters: seq<nat>, model: Model, id: nat, nd: seq<byte>, mask: seq<bool>, structs: seq<InsertStruct>): (r: Tx)
    requires UpdateHeadOk(ts, counters, model, id, nd, mask, structs) && Get(ts[model.name], BE64(id)).Some?
    ensures TxOk(r) && r.trees.Keys == ts.Keys && |r.counters| == |counters|
  {
    var d := Get(ts[model.name], BE64(id)).value;
    var ts1 := Put(ts, model.name, BE64(id), UD.UpdateSpec(model.fields, model.payloadOffset, d, nd, mask));
    NewIndexesIn(ts1, model, nd, id, structs);
    IndexesIn(model.fields, d, id, model.payloadOffset, Some(mask), ts1);
    Tx(ts1, counters, NewIndexes(model, nd, id, structs), IndexesOf(model.fields, d, id, model.payloadOffset, Some(mask)))
  }

  /** `update` does not panic once the foreign keys are checked. */
  predicate UpdateTxOk(ts: Trees, counters: seq<nat>, model: Model, id: nat, nd: seq<byte>, mask: seq<bool>, structs: seq<InsertStruct>)
  {
    UpdateHeadOk(ts, counters, model, id, nd, mask, structs)
    && (Get(ts[model.name], BE64(id)).Some? ==> UpdateStructsOk(UpdateRecord(ts, counters, model, id, nd, mask, structs), id, structs))
  }

  /** The transaction of `update` when the document exists: the patched
      document, the related records, then the marked entries deleted and
      the collected entries set to `[1]`. */
  function UpdateTx(ts: Trees, counters: seq<nat>, model: Model, id: nat, nd: seq<byte>, mask: seq<bool>, structs: seq<InsertStruct>): (r: Tx)
    requires UpdateTxOk(ts, counters, model, id, nd, mask, structs) && Get(ts[model.name], BE64(id)).Some?
    ensures TxOk(r) && r.trees.Keys == ts.Keys && |r.counters| == |counters|
  {
    var tx := UpdateStructs(UpdateRecord(ts, counters, model, id, nd, mask, structs), id, structs);
    var ts1 := DelIndexes(tx.trees, tx.removed);
    tx.(trees := PutIndexes(ts1, tx.indexes))
  }

  /** What `update` leaves in the index trees: every collected entry
      holds `[1]`, and every entry marked for deletion and not collected
      again is gone. */
  lemma UpdateTxIndexes(ts: Trees, counters: seq<nat>, model: Model, id: nat, nd: seq<byte>, mask: seq<bool>, structs: seq<InsertStruct>)
    requires UpdateTxOk(ts, counters, model, id, nd, mask, structs) && Get(ts[model.name], BE64(id)).Some?
    ensures var r := UpdateTx(ts, counters, model, id, nd, mask, structs);
      forall x | x in r.indexes :: Get(r.trees[x.treeName], x.key) == Some([1])
    ensures var r := UpdateTx(ts, counters, model, id, nd, mask, structs);
      forall x | x in r.removed && x !in r.indexes :: Get(r.trees[x.treeName], x.key) == None
  {
    FinishWrites(UpdateStructs(UpdateRecord(ts, counters, model, id, nd, mask, structs), id, structs));
  }

  /** The patched document is what `update` leaves under `be(id)`, unless
      a related record or an index entry writes to the same tree and key. */
  lemma UpdateTxRecord(ts: Trees, counters: seq<nat>, model: Model, id: nat, nd: seq<byte>, mask: seq<bool>, structs: seq<InsertStruct>)
    requires UpdateTxOk(ts, counters, model, id, nd, mask, structs) && Get(ts[model.name], BE64(id)).Some?
    requires forall s | s in structs :: !Touches(s, model.name)
    requires var r := UpdateTx(ts, counters, model, id, nd, mask, structs);
      IndexData(model.name, BE64(id)) !in r.indexes && IndexData(model.name, BE64(id)) !in r.removed
    ensures var r := UpdateTx(ts, counters, model, id, nd, mask, structs);
      var d := Get(ts[model.name], BE64(id)).value;
      Get(r.trees[model.name], BE64(id)) == Some(UD.UpdateSpec(model.fields, model.payloadOffset, d, nd, mask))
  {
    var tx1 := UpdateRecord(ts, counters, model, id, nd, mask, structs);
    var tx := UpdateStructs(tx1, id, structs);
    FinishWrites(tx);
    assert Get(tx.trees[model.name], BE64(id)) == Get(tx1.trees[model.name], BE64(id));
  }

  /** A tree that is neither the model's, nor touched by a related record,
      nor named by an index entry, keeps every key through `update`. */
  lemma UpdateTxFrame(ts: Trees, counters: seq<nat>, model: Model, id: nat, nd: seq<byte>, mask: seq<bool>, structs: seq<InsertStruct>, m: string, k: seq<byte>)
    requires UpdateTxOk(ts, counters, model, id, nd, mask, structs) && Get(ts[model.name], BE64(id)).Some?
    requires m in ts && m != model.name && forall s | s in structs :: !Touches(s, m)
    requires var r := UpdateTx(ts, counters, model, id, nd, mask, structs);
      forall x | x in r.indexes + r.removed :: x.treeName != m
    ensures Get(UpdateTx(ts, counters, model, id, nd, mask, structs).trees[m], k) == Get(ts[m], k)
  {
    var tx1 := UpdateRecord(ts, counters, model, id, nd, mask, structs);
    var tx := UpdateStructs(tx1, id, structs);
    FinishWrites(tx);
    assert IndexData(m, k) !in tx.indexes + tx.removed;
    assert Get(tx.trees[m], k) == Get(tx1.trees[m], k);
  }

  /** The last two loops of `update` (and the last of `insert_data`, with
      nothing marked): the collected entries hold `[1]`, the marked ones
      not collected again are gone, and every other key keeps its value. */
  lemma FinishWrites(tx: Tx)
    requires TxOk(tx)
    ensures var r := PutIndexes(DelIndexes(tx.trees, tx.removed), tx.indexes);
      (forall x | x in tx.indexes :: Get(r[x.treeName], x.key) == Some([1]))
      && (forall x | x in tx.removed && x !in tx.indexes :: Get(r[x.treeName], x.key) == None)
      && (forall m, k | m in tx.trees && IndexData(m, k) !in tx.indexes && IndexData(m, k) !in tx.removed ::
            Get(r[m], k) == Get(tx.trees[m], k))
  {
    var ts1 := DelIndexes(tx.trees, tx.removed);
    var r := PutIndexes(ts1, tx.indexes);
    forall x | x in tx.indexes ensures Get(r[x.treeName], x.key) == Some([1]) {
      assert IndexData(x.treeName, x.key) == x;
    }
    forall x | x in tx.removed && x !in tx.indexes ensures Get(r[x.treeName], x.key) == None {
      assert IndexData(x.treeName, x.key) == x;
    }
  }
}
